=== FILE: README.md ===
# cfp-manager rule sets, modelled in Dafny

cfp-manager is a conference management application: organisers run a call for
papers, review sessions, plan rooms and days, and publish the programme. It
consists of an Angular front end and Firebase functions over a Firestore
document store. Most of it is form and storage glue. This project models the
deterministic rule sets inside it, on immutable data and an abstract document
store, and proves what those rules promise.

- **Conference duplication** (`Duplicate`, `DuplicateDays`, `Calendar`,
  `Chunking`):
  - payload validation, including the planning-needs-rooms rule and the error
    order;
  - the name+edition conflict rule;
  - day generation and calendar arithmetic on day numbers;
  - date-prefix shifting of activity timestamps;
  - activity cloning in batches of 225;
  - `sanitizeUndefined`;
  - the config lookup order and copy;
  - the single-conference setting switch;
  - the whole handler as a sequence of batch commits on the store.
- **Conference teardown** (`Teardown`, `DocStore`):
  - person-candidate selection;
  - chunked deletes of 450 and 225;
  - the hall-config id union;
  - the cascade order, with the conference document deleted last;
  - the report counts.
- **Daily dashboard sweep** (`DailySweep`): the processed, skipped and failed
  counters. The recompute call and the "starts in future" test are parameters.
- **Voxxrin descriptor normaliser** (`Voxxrin`): the string and record
  cleaners, `compactObject`, the `map*` filters, day mapping and sponsor
  grouping.
- **Session workflow** (`SessionStatus`, `SessionEdit`, `SessionList`):
  - the status transition table;
  - the severity and translation key of a status;
  - override tracking and the save normalisation;
  - list filtering and sorting.
- **Front-end helpers:**
  - the Excel export's pure helpers (`ExcelExport`);
  - the room-to-room slot copy (`CopyRoom`);
  - Conference-Hall mapping normalisation, change guards and the save merge
    (`ConferenceHall`);
  - person search text, merge and cursor pagination (`PersonSearch`);
  - dashboard columns (`Dashboard`);
  - configuration tabs (`ConferenceTabs`);
  - the platform-config policy and its admin page (`PlatformConfig`,
    `PlatformConfigPage`);
  - the home page cards (`Home`);
  - organizer e-mail list edits (`OrganizerEmails`).

## How JavaScript values are modelled

- The shared modules model JavaScript values: `Base`, `Text`, `Json`,
  `Lists` and `Sorting`.
- A document or request body is a `Json.Value`: `undefined`, `null`,
  booleans, numbers, strings, arrays, and objects as ordered member lists.
- Numbers are `Finite(int)`, `NaN` or the two infinities.
- `Truthy`, `String(x ?? '')`, property reads (of own members only; see
  "Left out"), object literals with spreads,
  and `trim`/`toLowerCase`/`toUpperCase` are written out. `trim` strips
  JavaScript's full set of white-space characters; the case mappings cover
  ASCII letters only (see "Left out").
- The store is a map from collection to an ordered listing of `(id, document)`
  pairs. A batch is a list of set and delete writes, and a commit applies them
  in order.
- Generated ids, clocks, the authorisation outcome and `Date.parse` are
  parameters.

## Model

| member | source | states |
|---|---|---|
| Duplicate.ParsePayload | functions/src/http/duplicate-conference.ts:269-297 | A blank trimmed name, an edition whose `Number(...)` is not finite, or a blank trimmed start date is rejected with 400, checked in that order. An accepted payload carries the trimmed name and date and the finite edition. The five switches are the truthiness of the body fields. |
| Duplicate.ParsedPayloadIsTrimmed | functions/src/http/duplicate-conference.ts:271-284 | An accepted name and start date are non-blank and already trimmed. |
| Duplicate.NameEditionCheck | functions/src/http/duplicate-conference.ts:534-564 | A conflict (409) arises exactly when a stored conference under the trimmed name has an edition that is numerically equal. A blank name or a non-finite edition skips the check. |
| Duplicate.EditionStoredAsText | functions/src/http/duplicate-conference.ts:550 | Editions compare as numbers, so a stored text "2024" clashes with the edition 2024. |
| Duplicate.NewConferenceFields | functions/src/http/duplicate-conference.ts:136-146 | The new conference document gets: the new id; the timestamp; the trimmed name and the edition; rooms and tracks only when asked for (else empty); the generated days. When sponsors are asked for, sponsoring is the source's own value (a missing one stays absent); otherwise it is absent. |
| Duplicate.NewConferenceKeepsSource | functions/src/http/duplicate-conference.ts:136-149 | Every other property of the source conference is carried over, with `undefined` removed. |
| Duplicate.OverrideGet | functions/src/http/duplicate-conference.ts:136-149 | A property the literal overrides once reads back as the sanitized override. |
| Duplicate.SpreadGet | functions/src/http/duplicate-conference.ts:136-149 | A property the literal does not override keeps the spread object's sanitized value. |
| Duplicate.LoadConfig | functions/src/http/duplicate-conference.ts:656-677 | A document whose `conferenceId` field matches is preferred. Otherwise the document whose id is the conference id is used, if it exists. Otherwise nothing is found. |
| Duplicate.LoadConfigFirst | functions/src/http/duplicate-conference.ts:661-668 | Of several field matches, the first in listing order is taken. |
| Duplicate.CopyConfig | functions/src/http/duplicate-conference.ts:574-647 | A found config is written under the target conference's id, with `id` and `conferenceId` naming the target. A missing config writes nothing. |
| Duplicate.CopyConfigFields | functions/src/http/duplicate-conference.ts:593-599 | The copy names the target conference and keeps every other setting of the source config. |
| Duplicate.SwitchSingleConference | functions/src/http/duplicate-conference.ts:687-730 | The platform config is rewritten exactly when it exists, its policy flag is truthy and its trimmed single-conference id is the source conference. Otherwise nothing is written. |
| Duplicate.SwitchPointsToCopy | functions/src/http/duplicate-conference.ts:716-724 | After a switch the single-conference setting holds the copy, and the policy flag and the other settings are kept. |
| Duplicate.ActivityOfGet | functions/src/http/duplicate-conference.ts:189-192 | An activity read from the store shows the document's own properties. Its `id` is the stored data's own `id` when there is one, since the spread comes last, and the document id otherwise. |
| Duplicate.CloneFields | functions/src/http/duplicate-conference.ts:443-458 | A clone has the generated id and the target conference. Its start and end are shifted by the day offset, and on every finite offset they are exactly what the program's own shift writes. It keeps `slotId` only when the planning structure is copied. |
| Duplicate.CloneKeepsSource | functions/src/http/duplicate-conference.ts:448-458 | Every other property of the source activity is carried over. |
| Duplicate.CloneWrites | functions/src/http/duplicate-conference.ts:443-459 | The `i`-th activity is cloned under the `i`-th generated id into the activity collection. |
| Duplicate.CreateActivitiesInBatches | functions/src/http/duplicate-conference.ts:430-470 | There is one clone per source activity, committed in consecutive batches of at most 225 writes. The reported count is the number of source activities. |
| Duplicate.ClonesBelongToTarget | functions/src/http/duplicate-conference.ts:448-454 | Every activity write creates an activity of the target conference. |
| Duplicate.Validate | functions/src/http/duplicate-conference.ts:79-134 | The first failing check decides the error, in this order: authorisation, payload (400), name+edition conflict (409), planning without rooms (400), date normalisation (400), day generation (400). |
| Duplicate.ConflictIsRejected | functions/src/http/duplicate-conference.ts:81 | A stored conference with the same name and a numerically equal edition stops the copy with 409 before any write. |
| Duplicate.PlanningWithoutRoomsIsRejected | functions/src/http/duplicate-conference.ts:98-105 | Asking for the planning structure without the rooms is refused with 400, before anything is written. |
| Duplicate.DuplicateConference | functions/src/http/duplicate-conference.ts:69-238 | Once the checks pass, the writes are committed in this order: the conference document, the hall and Voxxrin config copies, the single-conference switch, the activity batches. The report gives the new id and the number of activities created. |
| Duplicate.HallStageReadsOriginal | functions/src/http/duplicate-conference.ts:158 | The hall-config copy reads the store as the request found it. |
| Duplicate.ConfigStagesSpareActivities | functions/src/http/duplicate-conference.ts:158-160 | The config stages leave the activity listing alone. |
| Duplicate.CopyStageReadsOriginal | functions/src/http/duplicate-conference.ts:163-198 | The activity stage clones the source conference's activities as the request found them. |
| Duplicate.ReportCountsActivities | functions/src/http/duplicate-conference.ts:162-198 | When activities are asked for, the report counts exactly the source conference's activities. |
| Duplicate.ConfigStagesWriteConfigs | functions/src/http/duplicate-conference.ts:592-599 | Each config stage writes only to its own collection. |
| Duplicate.CopyStageWritesActivities | functions/src/http/duplicate-conference.ts:443-458 | The activity stage writes only activities. |
| Duplicate.ConferenceCreated | functions/src/http/duplicate-conference.ts:148-149 | Once every batch is committed, the new conference document is in place as first written: no later stage overwrites it. |
| DuplicateDays.NormalizeDate | functions/src/http/duplicate-conference.ts:306-318 | A trimmed text containing no date pattern is rejected with 400. Otherwise the result is its first ten characters. |
| DuplicateDays.NormalizeDateOfDate | functions/src/http/duplicate-conference.ts:306-318 | A date text normalizes to itself, however it is padded with white space. |
| DuplicateDays.NormalizeDateOfTimestamp | functions/src/http/duplicate-conference.ts:306-318 | A full timestamp keeps only its date part. |
| DuplicateDays.NormalizeDateUnanchored | functions/src/http/duplicate-conference.ts:309-317 | The pattern is not anchored: text before a date is accepted, and the kept prefix then cuts the date short. |
| DuplicateDays.DayOrderIsTotal | functions/src/http/duplicate-conference.ts:346-350 | Without `NaN` day indexes, the day comparator is a total preorder, so the sort is well defined. |
| DuplicateDays.SortedDaysOrdered | functions/src/http/duplicate-conference.ts:346-350 | The templates are in `dayIndex` order whenever every index is a number. |
| DuplicateDays.TimeOr | functions/src/http/duplicate-conference.ts:357-358 | The time is the day's own value, else the first day's, else the default. |
| DuplicateDays.BuildDays | functions/src/http/duplicate-conference.ts:327-371 | A day count of zero gives no days, and an unreadable start date is rejected. Otherwise there is one day per source day. Day `i` has index `i` and the id of the `i`-th sorted template (or `d<i+1>`). Slots and disabled rooms are copied only with the planning structure. |
| DuplicateDays.BuildDaysDates | functions/src/http/duplicate-conference.ts:353-363 | Generated day `i` lies exactly `i` calendar days after the start date. |
| DuplicateDays.BuildDaysStartsOnStartDate | functions/src/http/duplicate-conference.ts:356-363 | The first generated day carries the requested start date itself. |
| DuplicateDays.BuildDaysWithoutPlanning | functions/src/http/duplicate-conference.ts:366-367 | Without the planning structure, no slot and no disabled room is copied. |
| DuplicateDays.DiffDaysText | functions/src/http/duplicate-conference.ts:416-420 | The result is the number of whole days from source to target, or `NaN` when either text is not a date. |
| DuplicateDays.DiffDaysOfDates | functions/src/http/duplicate-conference.ts:416-420 | On real dates, the text difference is the calendar difference of their day numbers. |
| DuplicateDays.DiffDaysAntisymmetric | functions/src/http/duplicate-conference.ts:416-420 | Swapping the two dates negates the difference. |
| DuplicateDays.ConferenceStartDate | functions/src/http/duplicate-conference.ts:402-408 | The result is the least well-shaped day date in text order, or nothing when no day has one. |
| DuplicateDays.StartDateIsEarliest | functions/src/http/duplicate-conference.ts:402-408 | The start date comes first in text order, and for real dates therefore first in time. |
| DuplicateDays.DayOffset | functions/src/http/duplicate-conference.ts:175-178 | The offset is 0 without a source start date, and otherwise the day difference from it to the requested start. |
| DuplicateDays.ShiftLocalDateTimeAsWritten | functions/src/http/duplicate-conference.ts:480-500 | The timestamp changes only if it is non-empty, the offset is non-zero, it has the `YYYY-MM-DDT...` shape and its date is readable. |
| DuplicateDays.ShiftLocalDateTime | functions/src/http/duplicate-conference.ts:480-500 | Same as above, and in addition the offset must be finite. A non-finite offset leaves the text untouched. On every finite offset the result equals the program's shift. |
| DuplicateDays.ShiftMovesDate | functions/src/http/duplicate-conference.ts:486-499 | A shifted timestamp is again a timestamp, `k` days later, with the `T...` rest copied verbatim. |
| DuplicateDays.ShiftRoundTrip | functions/src/http/duplicate-conference.ts:480-500 | Moving a real date forward and then back by the same offset restores the timestamp. |
| DuplicateDays.ShiftWithNaNOffset | functions/src/http/duplicate-conference.ts:480-500 | As written, a `NaN` offset turns a date into `NaN-NaN-NaN`. The corrected shift keeps it. |
| Duplicate.HandlerOffsetIsFinite | functions/src/http/duplicate-conference.ts:402-420 | After validation, the day offset handed to the activity copy is finite exactly when the source has no days or its earliest day reads as a date. So the program and the model part ways only on a well-shaped but impossible earliest day. |
| DuplicateDays.OffsetFromImpossibleDay | functions/src/http/duplicate-conference.ts:402-420 | A well-shaped source day that is not a date (`2024-13-01`) makes the offset `NaN`. |
| Calendar.DayNumberRoundTrip | functions/src/http/duplicate-conference.ts:379-383 | Day numbers name dates one-to-one: converting a valid date to its number and back is the identity. |
| Calendar.DayNumberInjective | functions/src/http/duplicate-conference.ts:379-383 | Two valid dates with the same day number are the same date, so a day number names one calendar day. |
| Calendar.AddDays | functions/src/http/duplicate-conference.ts:379-383 | The result is a valid date exactly `k` days after the given one, before it when `k` is negative. |
| Calendar.DiffThenAdd | functions/src/http/duplicate-conference.ts:379-383 | Adding the day difference of two dates to the earlier one lands on the later one. |
| Calendar.AddZeroDays | functions/src/http/duplicate-conference.ts:379-383 | Adding zero days changes nothing. |
| Calendar.ParseLocalDate | functions/src/http/duplicate-conference.ts:341-344 | A `YYYY-MM-DD` text with month 1..12 and day 1..31 reads as a day number, and a day past the end of its month rolls over. Anything else is rejected. |
| Calendar.ParseLocalDateOfValid | functions/src/http/duplicate-conference.ts:341-344 | On real calendar dates, the lenient reading and the strict one agree. |
| Calendar.FormatDayNumberRoundTrip | functions/src/http/duplicate-conference.ts:390-395 | A day of a four-digit year survives being written out and read back. |
| Calendar.FormatThenParse | functions/src/http/duplicate-conference.ts:390-395 | Rendering a date of a four-digit year and reading it back gives the date. |
| Calendar.DateTextOrder | functions/src/http/duplicate-conference.ts:402-408 | On `YYYY-MM-DD` texts, text order (the default `sort()`) is date order. |
| Calendar.DayNumberMonotone | functions/src/http/duplicate-conference.ts:416-420 | Later dates have larger day numbers. |
| Calendar.FormatOfDateText | functions/src/http/duplicate-conference.ts:390-395 | A real date of a four-digit year is written back exactly as it was read. |
| Chunking.Chunks | functions/src/http/duplicate-conference.ts:439-440 | The slices concatenate back to the input. Each has the chunk size except a shorter last one. There are ceil(n / size) of them. |
| Json.SanitizeUndefined | functions/src/http/duplicate-conference.ts:507-525 | Only `undefined` maps to `undefined`. Arrays and objects lose their `undefined` elements and members, recursively. |
| Json.SanitizeLookup | functions/src/http/duplicate-conference.ts:518-522 | Each member of the sanitized object is the sanitized member of the original. |
| Json.SanitizeDefinedIsIdentity | functions/src/http/duplicate-conference.ts:507-525 | Values that hold no `undefined` pass through unchanged. |
| Json.SanitizeIdempotent | functions/src/http/duplicate-conference.ts:507-525 | Sanitizing twice is sanitizing once. |
| Json.JsonForm | frontend/src/app/pages/session/session-import/conferencehall-config/conferencehall-config.component.ts:136 | The value `JSON.stringify` writes out: `undefined` only for `undefined`, arrays stay arrays of the same length with `undefined` items as `null`, objects stay objects without their `undefined` members, strings are kept. |
| Json.JsonFormOfStringRecords | frontend/src/app/pages/session/session-import/conferencehall-config/conferencehall-config.component.ts:136 | An array of records of strings serialises as itself. |
| Teardown.DeleteByDocIds | functions/src/http/delete-conference.ts:190-203 | There are ceil(n / 450) batches of at most 450 deletes, which together delete every id once, in order. |
| Teardown.DeleteByQuery | functions/src/http/delete-conference.ts:178-188 | Every document of the collection that the query matches is deleted, and the count is their number (0 for none). |
| Teardown.DeleteWritesEffect | functions/src/http/delete-conference.ts:195-202 | Deleting a list of ids keeps exactly the documents whose ids are not in the list. |
| Teardown.DeleteByQueryEffect | functions/src/http/delete-conference.ts:178-188 | Afterwards no document of the collection satisfies the query, and nothing else changed. |
| Teardown.NonEmptySingleton | functions/src/http/delete-conference.ts:158-164 | The non-empty trimmed entries are exactly `[x]` iff `x` is the one non-empty entry. |
| Teardown.CandidateRule | functions/src/http/delete-conference.ts:151-172 | A person is a candidate iff it has no account, exactly one submitted id trims to the conference id, and every other entry trims to nothing. |
| Teardown.CandidatesMembers | functions/src/http/delete-conference.ts:144-176 | A candidate is exactly the id and trimmed e-mail of a listed person that the candidate rule keeps; nothing else is selected. |
| Teardown.PersonWrites | functions/src/http/delete-conference.ts:212-217 | A candidate deletes its person document, plus the e-mail index under the trimmed lower-cased address when that key is non-empty. |
| Teardown.PersonBatches | functions/src/http/delete-conference.ts:205-221 | Candidates go in chunks of 225, one batch per chunk, so no batch exceeds 450 deletes. |
| Teardown.ChunkBatchesCover | functions/src/http/delete-conference.ts:209-219 | Every candidate of a chunk has its deletes in that chunk's batch. |
| Teardown.HallConfigIds | functions/src/http/delete-conference.ts:127-142 | The ids are the query matches, then the document whose id is the conference id if it exists, each once. |
| Teardown.HallIdsCount | functions/src/http/delete-conference.ts:127-142 | The number of hall-config ids is the size of the union of the matches and the direct document. |
| Teardown.RunStepsMembers | functions/src/http/delete-conference.ts:51-74 | After all query stages, a stage's collection keeps exactly the documents its query did not return. |
| Teardown.RunStepsNoMatch | functions/src/http/delete-conference.ts:51-74 | After all query stages, no document of a stage's collection matches its query. |
| Teardown.DependentSteps | functions/src/http/delete-conference.ts:51-74 | The six query stages, in order: sessions by `conference.conferenceId`, then speakers, participations, activities, allocations and secrets by `conferenceId`. |
| Teardown.DeleteConference | functions/src/http/delete-conference.ts:40-97 | For an authorised request, the batches run in this order: the six query stages, the hall configs, the candidate persons, the conference document. The report gives each count, `conferenceDeleted: 1` and the time. |
| Teardown.TeardownRemovesConference | functions/src/http/delete-conference.ts:78 | The conference document, and only it, is removed from the conferences. |
| Teardown.TeardownKeepsUnrelated | functions/src/http/delete-conference.ts:40-97 | Collections the teardown never touches keep their documents. |
| Teardown.TeardownRemovesSessions | functions/src/http/delete-conference.ts:51-54 | After the teardown, no session of the conference remains. |
| Teardown.TeardownRemovesByConferenceId | functions/src/http/delete-conference.ts:55-74 | After the teardown, nothing of the conference remains among speakers, participations, activities, allocations or secrets. |
| Teardown.TeardownRemovesHallConfigs | functions/src/http/delete-conference.ts:127-142 | After the teardown, no hall config names the conference, either by field or by id. |
| Teardown.TeardownRemovesCandidates | functions/src/http/delete-conference.ts:144-176 | Every candidate person is gone after the teardown, and so is its e-mail index when it has a key. |
| Teardown.PersonBatchesOnly | functions/src/http/delete-conference.ts:205-221 | The person stage deletes only candidates' person documents and their e-mail index keys. |
| Teardown.TeardownSparesOthers | functions/src/http/delete-conference.ts:152-176 | A person id that no candidate carries, and an e-mail index key that no candidate's e-mail gives, read the same before and after the teardown. |
| Teardown.TeardownKeepsNonCandidate | functions/src/http/delete-conference.ts:152-166 | With unique person ids, a person the candidate rule does not select is still there after the teardown, unchanged. This covers a person with an account and one who submitted to another conference too. |
| Teardown.RootDeletedLast | functions/src/http/delete-conference.ts:51-78 | The last batch deletes the conference document alone. Every earlier batch only deletes, and never in the conference collection. |
| Teardown.TeardownReportCounts | functions/src/http/delete-conference.ts:79-90 | The session, speaker and participation counts are the numbers of matches in the store before the teardown. |
| Teardown.TeardownReportMoreCounts | functions/src/http/delete-conference.ts:79-90 | The activity, allocation and secret counts are the numbers of matches in the store before the teardown. |
| Teardown.TeardownReportSets | functions/src/http/delete-conference.ts:79-90 | `personsDeleted` is the number of candidates. `conferenceHallConfigsDeleted` is the size of the set of hall-config ids. |
| DailySweep.Sweep | functions/src/scheduler/recompute-conference-dashboard-daily.ts:13-58 | processed + skipped + failed is the number of conferences. A conference is skipped exactly when it does not start in the future. processed counts the recompute calls that succeed, and failed the rest. Every call carries the daily trigger. |
| DailySweep.RecomputedIffFuture | functions/src/scheduler/recompute-conference-dashboard-daily.ts:26-40 | A conference is recomputed iff it is listed and starts in the future. |
| Voxxrin.CleanString | functions/src/http/generate-voxxrin-event-descriptor.ts:586-589 | The result is the trimmed text, or `undefined` when that is empty. |
| Voxxrin.CleanStringOfClean | functions/src/http/generate-voxxrin-event-descriptor.ts:586-589 | Cleaning is a projection: cleaning twice is cleaning once. |
| Voxxrin.NormalizeHexColor | functions/src/http/generate-voxxrin-event-descriptor.ts:572-584 | An optional `#` followed by exactly six hex digits gives `#` and the upper-cased digits. Anything else gives `undefined`. |
| Voxxrin.NormalizeHexColorIdempotent | functions/src/http/generate-voxxrin-event-descriptor.ts:572-584 | A canonical colour normalises to itself. |
| Voxxrin.HashIsOptional | functions/src/http/generate-voxxrin-event-descriptor.ts:578 | With or without the `#`, the same digits give the same colour. |
| Voxxrin.ToIsoDurationMinutes | functions/src/http/generate-voxxrin-event-descriptor.ts:552-558 | A missing or non-positive duration gives `undefined`, and a positive one gives `PT<n>M`. |
| Voxxrin.NormalizeStringArray | functions/src/http/generate-voxxrin-event-descriptor.ts:560-570 | A non-array, or an array with no surviving entry, gives `undefined`. Otherwise the result is the cleaned non-blank entries, in order. |
| Voxxrin.NormalizeStringArrayMember | functions/src/http/generate-voxxrin-event-descriptor.ts:560-570 | A string survives iff some entry cleans to it. |
| Voxxrin.CleanAllOfClean | functions/src/http/generate-voxxrin-event-descriptor.ts:560-570 | Normalising an already normalised list changes nothing. |
| Voxxrin.CompactObject | functions/src/http/generate-voxxrin-event-descriptor.ts:607-629 | `null`, `undefined`, blank strings, empty arrays and empty objects are dropped, and an object left with nothing gives `undefined`. |
| Voxxrin.CompactLookup | functions/src/http/generate-voxxrin-event-descriptor.ts:607-629 | Reading a compacted object gives a kept value unchanged, and a dropped one reads as `undefined`. |
| Voxxrin.CompactObjectIdempotent | functions/src/http/generate-voxxrin-event-descriptor.ts:607-629 | Compacting an already compacted object changes nothing. |
| Voxxrin.MapEntriesMember | functions/src/http/generate-voxxrin-event-descriptor.ts:479-550 | What a `map*` helper returns holds exactly the entries its converter accepts. |
| Voxxrin.MapRooms | functions/src/http/generate-voxxrin-event-descriptor.ts:479-497 | Rooms without a clean id or name are dropped, and the name becomes the title. `undefined` when none is left. |
| Voxxrin.TrackOf | functions/src/http/generate-voxxrin-event-descriptor.ts:505-519 | A track keeps a colour only in canonical form. |
| Voxxrin.MapTracks | functions/src/http/generate-voxxrin-event-descriptor.ts:499-523 | Tracks need a clean id and name, and carry a canonical colour when one is given. `undefined` when none is left. |
| Voxxrin.MapTalkFormats | functions/src/http/generate-voxxrin-event-descriptor.ts:525-550 | Formats need a clean id and name, and carry a duration only when it is positive. `undefined` when none is left. |
| Voxxrin.MapSupportedTalkLanguages | functions/src/http/generate-voxxrin-event-descriptor.ts:457-477 | Each non-blank language becomes its lower case as id and its upper case as label. |
| Voxxrin.ConferenceTitle | functions/src/http/generate-voxxrin-event-descriptor.ts:152-156 | The cleaned name and the trimmed edition, joined by one space only when both are present. |
| Voxxrin.IsoDatePrefixRoundTrip | functions/src/http/generate-voxxrin-event-descriptor.ts:229 | A day of a four-digit year comes out as a `YYYY-MM-DD` text that reads back to the same day. |
| Voxxrin.ToLocalDate | functions/src/http/generate-voxxrin-event-descriptor.ts:214-230 | A cleaned `YYYY-MM-DD` text is kept as it is. Any other text goes through the date parser and becomes the UTC day it denotes, or `undefined` when it is rejected. |
| Voxxrin.WeekdayCycle | functions/src/http/generate-voxxrin-event-descriptor.ts:209-212 | Weekday names repeat every seven days, and each day's successor has the next name. |
| Voxxrin.DayIdFromDate | functions/src/http/generate-voxxrin-event-descriptor.ts:209-212 | A day is named by the lower-cased weekday of its date at UTC midnight, or `invalid date`. |
| Voxxrin.DayIdOfParsed | functions/src/http/generate-voxxrin-event-descriptor.ts:195-201 | A day written out by `toLocalDate` gets the weekday of the parsed date. |
| Voxxrin.MapDays | functions/src/http/generate-voxxrin-event-descriptor.ts:188-207 | Days with a readable date are kept, named after their weekday, and sorted by local date. A non-array gives no days. |
| Voxxrin.MapDaysMember | functions/src/http/generate-voxxrin-event-descriptor.ts:193-205 | A day survives iff some entry's date can be read into it. |
| Voxxrin.SpanBoundsDays | functions/src/http/generate-voxxrin-event-descriptor.ts:105-107 | Every mapped day lies between the descriptor's start and end. |
| Voxxrin.PickLocalizedText | functions/src/http/generate-voxxrin-event-descriptor.ts:158-186 | A non-object gives `undefined`. For an object or array, the result is the language scan's text when that scan finds one, and otherwise the member scan's; it is `undefined` iff no member value cleans, and any result is some member's cleaned value. |
| Voxxrin.ByLanguagePriority | functions/src/http/generate-voxxrin-event-descriptor.ts:167-176 | The language scan finds nothing iff no listed language gives a text. Otherwise it gives the text of the first language that does, where a language's text is its lower-case entry if that cleans and else its upper-case one, so the upper-case entry wins over every later language. |
| Voxxrin.FirstCleanValueIsFirst | functions/src/http/generate-voxxrin-event-descriptor.ts:178-183 | The member scan's result is the cleaned value of the first member, in key order, whose value cleans; every earlier member's value is blank. |
| Voxxrin.LookupFindsMember | functions/src/http/generate-voxxrin-event-descriptor.ts:167-183 | What a lookup finds is the value of some member, or `undefined`. |
| Voxxrin.SponsorEntryOf | functions/src/http/generate-voxxrin-event-descriptor.ts:279-288 | A sponsor with none of name, logo and website is skipped. The type name defaults to `Sponsors`. |
| Voxxrin.AddToGroupsLookup | functions/src/http/generate-voxxrin-event-descriptor.ts:290-293 | Adding appends the sponsorship to its own type's group and leaves the other groups alone. |
| Voxxrin.GroupedTypes | functions/src/http/generate-voxxrin-event-descriptor.ts:276-294 | Groups appear in the order their type is first seen. |
| Voxxrin.GroupedMembers | functions/src/http/generate-voxxrin-event-descriptor.ts:276-294 | Each group holds exactly the sponsorships of its type, in input order. |
| Voxxrin.MapSponsors | functions/src/http/generate-voxxrin-event-descriptor.ts:270-301 | Sponsors are grouped by type name, the groups in first-seen order and each in input order. `undefined` when nothing is left. |
| SessionStatus.ParseName | frontend/src/app/pages/session/session-edit/session-edit.ts:40-61 | Every status reads back from its stored spelling, so the ten spellings are distinct. |
| SessionStatus.FinalIffNoTransition | frontend/src/app/pages/session/session-edit/session-edit.ts:40-61 | Exactly REJECTED, SPEAKER_CONFIRMED, DECLINED_BY_SPEAKER and CANCELLED have no outgoing action. |
| SessionStatus.NoTransitionToDraftOrScheduled | frontend/src/app/pages/session/session-edit/session-edit.ts:40-61 | No action leads to DRAFT or to SCHEDULED. |
| SessionStatus.TransitionsMove | frontend/src/app/pages/session/session-edit/session-edit.ts:40-61 | No action keeps a session in its status. |
| SessionStatus.AvailableTransitions | frontend/src/app/pages/session/session-edit/session-edit.ts:128-134 | There is nothing to offer without a selected status. A known status offers its row of the table, and any other text offers nothing. |
| SessionStatus.ApplyTransition | frontend/src/app/pages/session/session-edit/session-edit.ts:250-257 | The selection becomes the action's target iff the (target, key) pair is offered, and is unchanged otherwise. |
| SessionStatus.ApplyFollowsTable | frontend/src/app/pages/session/session-edit/session-edit.ts:250-257 | A selection only ever moves along the table. |
| SessionStatus.FinalStatusIsStable | frontend/src/app/pages/session/session-edit/session-edit.ts:250-257 | From a final status, nothing the editor offers changes the selection. |
| SessionStatus.StatusSeverity | frontend/src/app/model/session-status.utils.ts:11-30 | PROGRAMMED, SPEAKER_CONFIRMED and SCHEDULED are success. SUBMITTED and ACCEPTED are info. WAITLISTED and DRAFT are warn. DECLINED_BY_SPEAKER, REJECTED and CANCELLED are danger. Anything else is secondary. |
| SessionStatus.SeverityClasses | frontend/src/app/model/session-status.utils.ts:11-30 | Each status has the colour of its class: confirmed work green, pending review blue, undecided amber, dropped red. |
| SessionStatus.TranslationKey | frontend/src/app/model/session-status.utils.ts:32-38 | A blank status gives `SESSION.STATUS.UNKNOWN`. Otherwise the key is the prefix followed by the trimmed, upper-cased status. |
| SessionStatus.TranslationKeyIgnoresCaseAndSpace | frontend/src/app/model/session-status.utils.ts:33-37 | The key does not depend on letter case or surrounding white space. |
| SessionStatus.TranslationKeyOfStatus | frontend/src/app/model/session-status.utils.ts:32-38 | A known status gets the key named after its stored spelling. |
| SessionEdit.SavedFields | frontend/src/app/pages/session/session-edit/session-edit.ts:187-195 | The title is trimmed (empty when missing). The abstract and first speaker default to empty. A second or third speaker is dropped exactly when it is empty. |
| SessionEdit.SavedFieldsIdempotent | frontend/src/app/pages/session/session-edit/session-edit.ts:187-195 | Saving what was saved changes nothing. |
| SessionEdit.AliasesDisjoint | frontend/src/app/pages/session/session-edit/session-edit.ts:329-336 | The name of one tracked field is never an alias of another. |
| SessionEdit.ComputeOverriddenFields | frontend/src/app/pages/session/session-edit/session-edit.ts:327-351 | The result is the existing overrides followed by at most one entry per tracked field, in the order title, abstract, speakerId1..3. |
| SessionEdit.OverridesExtendExisting | frontend/src/app/pages/session/session-edit/session-edit.ts:327-328 | The existing overrides stay unchanged as a prefix, and at most five entries are added. |
| SessionEdit.OverrideAddedIff | frontend/src/app/pages/session/session-edit/session-edit.ts:334-348 | A field gets a new entry, holding its old value, iff its value changed and it had no override under any of its aliases. |
| SessionEdit.NewOverrideOfTracked | frontend/src/app/pages/session/session-edit/session-edit.ts:338-342 | An entry named after a field can only come from that field. |
| SessionEdit.UnchangedRecordsNothing | frontend/src/app/pages/session/session-edit/session-edit.ts:338-350 | Editing nothing records nothing. |
| SessionList.Filtered | frontend/src/app/pages/session/session-list/session-list.ts:129-163 | A session is kept iff it passes each active filter: a selected status, a selected type, a selected track, and every search word occurring in its lower-cased search text. |
| SessionList.FilteredCount | frontend/src/app/pages/session/session-list/session-list.ts:139-163 | A session that passes every filter keeps all its copies, and one that fails any filter keeps none. |
| SessionList.FilteredSortedSessions | frontend/src/app/pages/session/session-list/session-list.ts:129-182 | The result holds exactly the sessions that pass every filter, each as many times as in the input. It is a reordering of the four filter stages' output, sorted by the chosen order. |
| SessionList.OrderIsTotal | frontend/src/app/pages/session/session-list/session-list.ts:165-179 | Both sort orders (by title, and by status then newest submission) are total preorders. |
| SessionList.EmptyFilterKeepsAll | frontend/src/app/pages/session/session-list/session-list.ts:139-163 | With no filter active, every session is shown. |
| SessionList.ListStatusSeverityAsWritten | frontend/src/app/pages/session/session-list/session-list.ts:198-214 | The list's colour as written: ACCEPTED, VALIDATED and CONFIRMED are success; SUBMITTED, PLANIFIED and BACKUP are info; REJECTED and CANCELLED are danger; anything else is secondary. |
| SessionList.ListSeverityMissesWorkflowStatuses | frontend/src/app/pages/session/session-list/session-list.ts:198-214 | As written, a PROGRAMMED session shows grey and an ACCEPTED one green, which disagrees with the shared classification. |
| SessionList.ListSeverityAgreesOutsideDispute | frontend/src/app/pages/session/session-list/session-list.ts:198-214 | The corrected colour, taken from the shared classification, differs from the colour as written exactly on ACCEPTED, the four older spellings (VALIDATED, CONFIRMED, PLANIFIED, BACKUP) and the six workflow spellings the list does not test. No status, unknown texts, SUBMITTED, REJECTED and CANCELLED keep their colour. |
| SessionList.ListSeverityCoversWorkflow | frontend/src/app/model/session-status.utils.ts:11-30 | Every workflow status gets the colour of its class, the same as on the session's own page. |
| ExcelExport.SanitizeSheetName | frontend/src/app/services/conference-excel-export.service.ts:624-626 | The characters `\ / * ? : [ ]` become `_`, apostrophes are removed, and the result is trimmed. |
| ExcelExport.SheetStem | frontend/src/app/services/conference-excel-export.service.ts:624-628 | The sanitized name, or `sheet` when nothing is left, is cut to 31 characters. |
| ExcelExport.CandidateInjective | frontend/src/app/services/conference-excel-export.service.ts:629-634 | Distinct retry indexes give distinct candidate names. |
| ExcelExport.AllTriedCount | frontend/src/app/services/conference-excel-export.service.ts:629-634 | The retry loop ends: when every candidate from `_2` up to `_(n-1)` is in use, at least n - 2 names are in use, because distinct indexes give distinct names. |
| ExcelExport.CandidateLength | frontend/src/app/services/conference-excel-export.service.ts:629-634 | A candidate stays within 31 characters while its index has at most 29 digits. |
| ExcelExport.NextSheetName | frontend/src/app/services/conference-excel-export.service.ts:623-638 | The name is the stem when the stem is free. Otherwise it is `stem_k` for the smallest k ≥ 2 that is free, with the stem cut so that the name fits 31 characters: every `stem_j` with 2 ≤ j < k is already in use. The name was not in use before the call and is recorded as used after it. While fewer than 10^29 names are in use, it has at most 31 characters. |
| ExcelExport.FreeCandidate | frontend/src/app/services/conference-excel-export.service.ts:629-635 | The retry loop returns the stem when it is free, otherwise the first free candidate from index 2 on, every earlier candidate being in use; the index found is at most the number of used names plus 2. |
| ExcelExport.AttributeColumnKey | frontend/src/app/services/conference-excel-export.service.ts:619-621 | The key is `attr_` followed by the lower-cased name, with every run of characters outside `[a-z0-9]` made one `_` in place. Equivalently: mark each such character `_`, then squeeze repeated `_`. No `_` follows another. |
| ExcelExport.CollapseRunsIsSqueezedMark | frontend/src/app/services/conference-excel-export.service.ts:620 | Replacing each maximal run of separators with `_` gives the same text as replacing each separator with `_` and squeezing the repeats. |
| ExcelExport.CollapseRunsIdempotent | frontend/src/app/services/conference-excel-export.service.ts:620 | Collapsing an already collapsed key changes nothing. |
| ExcelExport.CollapseRunsKeepsKeyChars | frontend/src/app/services/conference-excel-export.service.ts:620 | Collapsing keeps every letter and digit, in order. |
| ExcelExport.SessionSpeakerIds | frontend/src/app/services/conference-excel-export.service.ts:554-558 | There are at most three ids, each non-blank and trimmed. |
| ExcelExport.SessionSpeakerIdsInOrder | frontend/src/app/services/conference-excel-export.service.ts:554-558 | The ids are the first speaker's trimmed id, then the second's, then the third's, each left out when blank. |
| ExcelExport.SessionSpeakerIdsMember | frontend/src/app/services/conference-excel-export.service.ts:554-558 | An id is listed iff one of the three speaker fields trims to it. |
| ExcelExport.PersonDisplay | frontend/src/app/services/conference-excel-export.service.ts:560-569 | An unknown person shows the fallback id. With an e-mail it shows `name <email>`, or the bare e-mail when there is no name. Otherwise it shows the name, or the fallback when the name is blank. |
| ExcelExport.LocalizableText | frontend/src/app/services/conference-excel-export.service.ts:571-585 | Both texts appear as `FR: x \| EN: y` when both are set, and the one that is set otherwise. Failing both, the result is the trimmed text of the first entry, in member order, whose text is not blank, and it is empty only when every entry is blank. |
| ExcelExport.AllocationKeyRoundTrip | frontend/src/app/services/conference-excel-export.service.ts:611-613 | Splitting an allocation key on `\|` gives back the three trimmed ids, when none holds a `\|`. |
| ExcelExport.DaySlotKeyRoundTrip | frontend/src/app/services/conference-excel-export.service.ts:615-617 | Splitting a day-slot key on `\|` gives back the two trimmed ids, when neither holds a `\|`. |
| CopyRoom.CopyOf | frontend/src/app/pages/conference/conference-config/conference-planning-structure-config/copy-roorm-to-room/copy-roorm-to-room.ts:47-52 | A copy has a fresh id, the target room and no overflow rooms. Everything else is the source slot's. |
| CopyRoom.CopiedSlots | frontend/src/app/pages/conference/conference-config/conference-planning-structure-config/copy-roorm-to-room/copy-roorm-to-room.ts:42-46 | The selected slots are exactly those of the source room that do not already overflow into the target, kept in their order and with their multiplicity. |
| CopyRoom.OnCopy | frontend/src/app/pages/conference/conference-config/conference-planning-structure-config/copy-roorm-to-room/copy-roorm-to-room.ts:36-56 | Nothing is emitted unless both rooms are chosen and of the same kind. Otherwise the result is no longer than the input, and the `k`-th copy takes the `k`-th fresh id and the target room. |
| CopyRoom.OnCopyCopiesSelected | frontend/src/app/pages/conference/conference-config/conference-planning-structure-config/copy-roorm-to-room/copy-roorm-to-room.ts:42-55 | The copies are those of the selected slots, in their original order, and every selected slot is copied. |
| CopyRoom.NoCopyOfOverflowingSlot | frontend/src/app/pages/conference/conference-config/conference-planning-structure-config/copy-roorm-to-room/copy-roorm-to-room.ts:42-46 | A slot of another room, or one already overflowing into the target, is never copied. |
| ConferenceHall.NormalizeMapping | frontend/src/app/pages/session/session-import/conferencehall-config/conferencehall-config.component.ts:80-103 | A missing or non-object mapping gives nothing. Otherwise entries with a non-blank trimmed id are kept, trimmed, and later entries overwrite earlier ones; both the array and the object form are read. |
| ConferenceHall.NormalizeLookup | frontend/src/app/pages/session/session-import/conferencehall-config/conferencehall-config.component.ts:85-102 | Under each id, the cleaned mapping holds the format of the last entry for that id, and nothing else. |
| ConferenceHall.SanitizeMapping | frontend/src/app/pages/session/session-import/conferencehall-config/conferencehall-config.component.ts:105-114 | The result is the cleaned entries whose format is not empty, in order. |
| ConferenceHall.SanitizeLookup | frontend/src/app/pages/session/session-import/conferencehall-config/conferencehall-config.component.ts:105-114 | Sanitizing drops exactly the empty formats. |
| ConferenceHall.ToSessionTypeMappings | frontend/src/app/pages/session/session-import/conferencehall-config/conferencehall-config.component.ts:116-122 | There is one stored entry per sanitized entry: the `i`-th carries the `i`-th entry's session type id and format. Every format is non-empty, and the ids are distinct. |
| ConferenceHall.ConfigSaveIfChanged | frontend/src/app/pages/session/session-import/conferencehall-config/conferencehall-config.component.ts:124-152 | There is no save for a conference without an id, nor when a persisted config is present, has the trimmed name and serialises its mappings (or `[]` when they are missing) to the same JSON as the form's. Otherwise the trimmed name and the mappings are saved. |
| ConferenceHall.MappingsAreStringRecords | frontend/src/app/pages/session/session-import/conferencehall-config/conferencehall-config.component.ts:136 | Serialising the form's mappings changes nothing: they are records of strings. |
| ConferenceHall.ReorderedJsonDiffers | frontend/src/app/pages/session/session-import/conferencehall-config/conferencehall-config.component.ts:136 | Two non-empty mapping lists with the same fields in the other key order serialise differently. |
| ConferenceHall.ReorderedMappingsAreSaved | frontend/src/app/pages/session/session-import/conferencehall-config/conferencehall-config.component.ts:133-145 | A persisted config whose mappings hold the same pairs with the keys in the other order still triggers a save. |
| ConferenceHall.SavedConfigIsStable | frontend/src/app/pages/session/session-import/conferencehall-config/conferencehall-config.component.ts:124-152 | Once the document a save returns, holding the trimmed name and the mappings as sent, is the persisted config, the same form values cause no further save. |
| ConferenceHall.TokenSaveIfChanged | frontend/src/app/pages/session/session-import/conferencehall-config/conferencehall-config.component.ts:173-189 | The token is saved iff it differs from the saved one and the conference has an id. |
| ConferenceHall.FindByConferenceId | frontend/src/app/services/conference-hall-config.service.ts:13-30 | When no stored settings name the conference, the result is nothing. Otherwise it is the first match's fields, with `id` set to its document id. |
| ConferenceHall.SaveByConferenceId | frontend/src/app/services/conference-hall-config.service.ts:32-61 | The conference, name and mappings always come from the save. The last communication is replaced only by a given text; otherwise it is kept, or set to `''` when it was unset or falsy. |
| ConferenceHall.SaveKeepsOtherFields | frontend/src/app/services/conference-hall-config.service.ts:42-58 | Every other field of the existing settings is kept as it was. |
| PersonSearch.ComputePersonSearchField | functions/src/http/person-search.ts:6-13 | The result is the lower-cased texts of the truthy last name, first name, e-mail and company, in that order, joined by single spaces. A person with none gives `""`. |
| PersonSearch.SearchFieldSplitsIntoParts | functions/src/http/person-search.ts:7-12 | When no part holds a space, the search text splits back into its parts. |
| PersonSearch.SearchFieldIsLowerCase | functions/src/http/person-search.ts:8-11 | The search text is entirely lower case. |
| PersonSearch.DedupCoversIds | frontend/src/app/services/person.service.ts:79-86 | Every id of the query results appears in the merge. |
| PersonSearch.DedupKeepsFirst | frontend/src/app/services/person.service.ts:79-86 | Each id is kept once, and the first document with that id wins. |
| PersonSearch.LeadingDigits | frontend/src/app/services/person.service.ts:90-91 | `parseInt` reads leading white space, an optional sign, then the longest run of digits. |
| PersonSearch.ParseIntOfNat | frontend/src/app/services/person.service.ts:90-91 | A rendered timestamp reads back as itself. |
| PersonSearch.NonNumericIsZero | frontend/src/app/services/person.service.ts:90-91 | Text that does not start with a number sorts as 0. |
| PersonSearch.StartIndex | frontend/src/app/services/person.service.ts:96-100 | A page starts just after the first item whose `lastUpdated` is the cursor. Without a cursor, or when none matches, it starts at the front. |
| PersonSearch.PageOf | frontend/src/app/services/person.service.ts:101-105 | A page holds at most `pageSize` consecutive items from the start index. The next cursor is present iff the page is full (and non-empty), and it is the last item's `lastUpdated`. |
| PersonSearch.PageComesFromResults | frontend/src/app/services/person.service.ts:79-105 | Every listed person came from one of the three queries, no id is listed twice, and the page is newest first. |
| PersonSearch.NextPageFollows | frontend/src/app/services/person.service.ts:96-104 | When no two results share a `lastUpdated`, following the cursor of a full page gives the next slice of the same ordering. |
| Dashboard.DashboardCount | frontend/src/app/pages/conference/conference-manage/conference-manage-dashboard/conference-manage-dashboard.ts:101-108 | The count is 0 without a dashboard or when the stored value is not a number, and the stored number otherwise. |
| Dashboard.CollectedIds | frontend/src/app/pages/conference/conference-manage/conference-manage-dashboard/conference-manage-dashboard.ts:110-119 | The collected ids hold no repeats. |
| Dashboard.CollectedIdsMember | frontend/src/app/pages/conference/conference-manage/conference-manage-dashboard/conference-manage-dashboard.ts:110-119 | The collected ids are exactly the union of the keys of the submitted, confirmed and allocated buckets. |
| Dashboard.OwnColumnsFacts | frontend/src/app/pages/conference/conference-manage/conference-manage-dashboard/conference-manage-dashboard.ts:39-45 | Every configured column has a non-blank trimmed id and a non-empty label (the name, else the id). Every configured type with a non-blank id has its column. |
| Dashboard.ExtraColumns | frontend/src/app/pages/conference/conference-manage/conference-manage-dashboard/conference-manage-dashboard.ts:47-54 | The extra columns are exactly the ids that are neither configured nor the unknown id, each labelled by itself and listed once. |
| Dashboard.ColumnLayout | frontend/src/app/pages/conference/conference-manage/conference-manage-dashboard/conference-manage-dashboard.ts:36-62 | The configured columns come first and unchanged. After them come only ids some bucket holds, each once and none configured. The unknown-type column is last iff a bucket holds the unknown id. |
| Dashboard.EveryCollectedIdHasColumn | frontend/src/app/pages/conference/conference-manage/conference-manage-dashboard/conference-manage-dashboard.ts:36-62 | Every id that a bucket holds gets a column. |
| Dashboard.CountedTypeHasColumn | frontend/src/app/pages/conference/conference-manage/conference-manage-dashboard/conference-manage-dashboard.ts:101-119 | Any session type with a non-zero count has a column to show it in. |
| ConferenceTabs.ClampTabIndexAsWritten | frontend/src/app/pages/conference/conference-config/conference-config.component.ts:202-204 | Every number except NaN lands in 0..4, and NaN comes back unchanged. |
| ConferenceTabs.ClampLeavesNaN | frontend/src/app/pages/conference/conference-config/conference-config.component.ts:202-204 | A NaN index escapes the range of tabs. |
| ConferenceTabs.ClampTabIndex | frontend/src/app/pages/conference/conference-config/conference-config.component.ts:202-204 | The result is always a tab index in 0..4. It agrees with the written clamp on every number except NaN, which gives the first tab. |
| ConferenceTabs.ToTabKey | frontend/src/app/pages/conference/conference-config/conference-config.component.ts:198-200 | The result is the key of the clamped tab. |
| ConferenceTabs.ParseTabQueryParam | frontend/src/app/pages/conference/conference-config/conference-config.component.ts:184-196 | A missing or empty parameter selects the first tab, and an integer selects the nearest tab. Other text is looked up lower-cased among the keys, and an unknown key selects the first tab. |
| ConferenceTabs.EventNumber | frontend/src/app/pages/conference/conference-config/conference-config.component.ts:171-182 | The number an event carries is the event itself when it is a number, else its `index`, else its `value`, and none otherwise. |
| ConferenceTabs.ExtractTabIndexAsWritten | frontend/src/app/pages/conference/conference-config/conference-config.component.ts:171-182 | The program's reading: the carried number through the written clamp, 0 when none is carried. The result is NaN exactly when the event carries NaN, and a tab index otherwise. |
| ConferenceTabs.ExtractTabIndex | frontend/src/app/pages/conference/conference-config/conference-config.component.ts:171-182 | The intended reading: the same choice of number through the corrected clamp, so always a tab index. It equals the program's reading on every event that does not carry NaN, and is 0 on one that does. |
| ConferenceTabs.TabKeysDistinct | frontend/src/app/pages/conference/conference-config/conference-config.component.ts:53 | No two tabs share a key. |
| ConferenceTabs.TabKeyRoundTrip | frontend/src/app/pages/conference/conference-config/conference-config.component.ts:184-204 | Reading back the key written for an index selects the clamped index. |
| ConferenceTabs.IntegerTextSelectsNearestTab | frontend/src/app/pages/conference/conference-config/conference-config.component.ts:189-192 | The text of an integer selects the nearest tab. |
| ConferenceTabs.TabChangeReloadAsWritten | frontend/src/app/pages/conference/conference-config/conference-config.component.ts:160-204 | As written, reading back the key written after a tab change selects the tab the page shows whenever that tab is a number. A NaN tab is written as the first key and reloads as tab 0. |
| ConferenceTabs.NaNTabIsNotRestored | frontend/src/app/pages/conference/conference-config/conference-config.component.ts:160-204 | An event whose `value` is NaN makes the page's tab NaN, while its URL reloads as tab 0. |
| ConferenceTabs.TabChangeSurvivesReload | frontend/src/app/pages/conference/conference-config/conference-config.component.ts:160-204 | With the corrected clamp, reading back the key written into the URL after any tab change selects the same tab. |
| PlatformConfig.KeptSingleId | frontend/src/app/services/platform-config.service.ts:41-50 | The id kept is the trimmed input when the flag is on, and `''` otherwise. |
| PlatformConfig.SavedConfigFields | frontend/src/app/services/platform-config.service.ts:41-51 | The saved document holds the flag as given, and the id only when the flag is on. The other fields are the defaults. |
| PlatformConfig.LoadedConfigFields | frontend/src/app/services/platform-config.service.ts:26-39 | A missing document gives the defaults. A stored one shows its own fields over the defaults, with the id forced to the document id. |
| PlatformConfig.SingleConferenceMode | frontend/src/app/services/platform-config.service.ts:13-20 | The mode is on iff a document is present, its flag is truthy and its single-conference id is non-blank. A non-text id is reported as an error. |
| PlatformConfig.SavedFieldReloads | frontend/src/app/services/platform-config.service.ts:26-51 | A field that the save writes reads back unchanged. |
| PlatformConfig.SaveThenLoad | frontend/src/app/services/platform-config.service.ts:13-51 | After saving and reading back, the platform is in single-conference mode iff the flag was saved on with a non-blank id. |
| PlatformConfigPage.CanSave | frontend/src/app/pages/admin/platform-config/platform-config.component.ts:47-55 | The fresh predicate: saving is never allowed while a save is running. With the restriction on, it needs a non-blank id; with it off, it is always allowed. |
| PlatformConfigPage.ReadCanSave | frontend/src/app/pages/admin/platform-config/platform-config.component.ts:47-55 | A reading returns the kept value if there is one, and otherwise the fresh predicate, which it keeps. |
| PlatformConfigPage.EditForm | frontend/src/app/pages/admin/platform-config/platform-config.component.ts:45-109 | A write to a form field changes the form and nothing else, so the kept value stays. |
| PlatformConfigPage.SetSaving | frontend/src/app/pages/admin/platform-config/platform-config.component.ts:82-103 | Setting `isSaving` to a new value clears the kept value; setting the same value keeps it. |
| PlatformConfigPage.ReadInSync | frontend/src/app/pages/admin/platform-config/platform-config.component.ts:47-103 | While the kept value agrees with the form, readings give the fresh predicate, and readings and `isSaving` changes keep that agreement. |
| PlatformConfigPage.EditInSync | frontend/src/app/pages/admin/platform-config/platform-config.component.ts:45-109 | A form edit keeps the kept value in agreement exactly when nothing is kept or the kept value is still the fresh predicate for the new form. |
| PlatformConfigPage.StaleCanSaveAllowsBlankId | frontend/src/app/pages/admin/platform-config/platform-config.component.ts:45-55 | A `true` kept for an id `abc` survives clearing the id, so the page allows a save that reads back as no single-conference mode with the restriction on. |
| PlatformConfigPage.StaleCanSaveBlocksSwitchOff | frontend/src/app/pages/admin/platform-config/platform-config.component.ts:45-109 | A `false` kept for a blank id survives switching the restriction off, so the page refuses a save the fresh predicate allows. |
| PlatformConfigPage.SaveRequestId | frontend/src/app/pages/admin/platform-config/platform-config.component.ts:86-88 | The id sent is the trimmed id with the restriction on, and `''` otherwise. |
| PlatformConfigPage.OnRestrictionChange | frontend/src/app/pages/admin/platform-config/platform-config.component.ts:105-109 | Switching the restriction off clears the id, and switching it on keeps the id. |
| PlatformConfigPage.PageSaveIsServiceSave | frontend/src/app/pages/admin/platform-config/platform-config.component.ts:82-103 | The page's save writes the same document as the service alone would. |
| PlatformConfigPage.AllowedSaveYieldsFormMode | frontend/src/app/pages/admin/platform-config/platform-config.component.ts:47-103 | For a form satisfying the fresh predicate, the save reads back as single-conference mode iff the restriction is on. |
| PlatformConfigPage.SwitchOffThenSave | frontend/src/app/pages/admin/platform-config/platform-config.component.ts:82-109 | After switching the restriction off, the form satisfies the fresh predicate, and its save leaves single-conference mode. |
| PlatformConfigPage.ConferenceLabel | frontend/src/app/pages/admin/platform-config/platform-config.component.ts:120-127 | The label is `name edition` when both are present (trimmed), else the name, else the edition, else the id. |
| PlatformConfigPage.LabelOfNamedConference | frontend/src/app/pages/admin/platform-config/platform-config.component.ts:120-127 | A conference with a name or edition gets a non-empty trimmed label that starts with the name and ends with the edition. |
| Home.PresentDates | frontend/src/app/pages/home/home.component.ts:34-36 | The dates kept are exactly the non-empty day dates. |
| Home.ConferenceDateRange | frontend/src/app/pages/home/home.component.ts:33-44 | Both ends are absent exactly when no day is dated; otherwise both ends are dates of the conference. |
| Home.DateRangeBounds | frontend/src/app/pages/home/home.component.ts:33-44 | With no dated day, both ends are absent. Otherwise both ends are dates of the conference, with the start the earliest and the end the latest. |
| Home.CfpDateRange | frontend/src/app/pages/home/home.component.ts:46-60 | The result is the trimmed bounds of the call for papers. There is no result when a bound is blank or the date parser rejects one. |
| Home.CfpBoundsAreTrimmed | frontend/src/app/pages/home/home.component.ts:46-60 | A window the card shows has two non-blank trimmed bounds. |
| Home.OpenConferenceRoute | frontend/src/app/pages/home/home.component.ts:62-67 | The management pages open iff the user's e-mail is non-empty and listed among the organizers, and the public page otherwise. |
| Home.OrganizerEditsDecideRoute | frontend/src/app/pages/home/home.component.ts:62-67 | Once an address is added as organizer, its user opens the management pages. Once it is removed, its user opens the public page. |
| OrganizerEmails.AddOrganizerEmail | frontend/src/app/pages/conference/conference-config/conference-general-config/conference-general-config.component.ts:82-87 | An empty address, or one already listed, leaves the list as it was. A new address is appended at the end. |
| OrganizerEmails.AddFacts | frontend/src/app/pages/conference/conference-config/conference-general-config/conference-general-config.component.ts:82-87 | Adding keeps the earlier addresses in place, lists a non-empty address, and adds nothing else. |
| OrganizerEmails.AddIdempotent | frontend/src/app/pages/conference/conference-config/conference-general-config/conference-general-config.component.ts:82-87 | Adding the same address twice is the same as adding it once. |
| OrganizerEmails.AddKeepsDistinct | frontend/src/app/pages/conference/conference-config/conference-general-config/conference-general-config.component.ts:82-87 | Adding never creates a duplicate. |
| OrganizerEmails.RemoveFacts | frontend/src/app/pages/conference/conference-config/conference-general-config/conference-general-config.component.ts:89-94 | Removing drops every copy of the address, and keeps every other address in order. |
| OrganizerEmails.RemoveUndoesAdd | frontend/src/app/pages/conference/conference-config/conference-general-config/conference-general-config.component.ts:82-94 | Removing an address that was just added restores the list it was added to. |

## Left out

- Firestore and HTTP plumbing is not modelled:
  - request handlers, CORS, logging, the HTTP error envelope and the 500 path;
  - authorisation. `conference-http-common` is not part of this model, and the authorisation outcome is a parameter.
- Query results are listings in store order. Firestore's index ordering, `limit` and the 500-document caps of the person search are not modelled.
- Concurrency between requests and partial failures of a commit are not modelled. This code defines no behaviour for them.
- Generated document ids, `Date.now()` timestamps and `toISOString()` report times are parameters.
- JavaScript `Date`:
  - Dates are integer day numbers on the proleptic Gregorian calendar.
  - `new Date('YYYY-MM-DDT00:00:00')` is read leniently, with a day up to 31 rolling over. Other engine leniencies are not modelled.
  - Time zones and daylight saving are not modelled. `diffDays` is the exact day difference, not a rounded millisecond quotient.
  - `formatDate` does not pad the year, so round trips are proved for four-digit years only.
- `Date.parse`, in `cfpDateRange` and in the Voxxrin `toLocalDate`, is a parameter.
- Text.TextLe: `localeCompare` and the default `sort()` are modelled as the order of Unicode scalar values, character by character. The default `sort()` compares UTF-16 code units; the model agrees with it on texts without characters above U+FFFF. The locale collation of `localeCompare` (case and accent rules) is not modelled. For date texts, the order is proved to be date order.
- Strings are sequences of Unicode scalar values, not UTF-16 code units. `length` and `slice` therefore count a character above U+FFFF once, where JavaScript counts two.
- `toLowerCase`/`toUpperCase` are modelled for ASCII letters only.
- Number handling is partial:
  - Numbers are integers, `NaN` or infinities. Fractional numbers, exponent and hexadecimal spellings in `Number(...)` are not modelled, nor is `Math.round` of a fractional duration.
  - `Object.keys` lists members in insertion order. The engine's rule that puts integer-like keys first is not modelled.
- `Array.prototype.sort` is modelled as a stable insertion sort under the given comparator.
- ConferenceHall.ConfigSaveIfChanged: the `JSON.stringify` text comparison is modelled as equality of the serialised value (Json.JsonForm), which keeps member order, so mappings stored with the keys in the other order differ as they do in the program. The order in which the store returns the keys of a read document is not modelled: the persisted config is a parameter.
- PlatformConfigPage.CanSave: is the fresh predicate. The page's `computed` keeps its value until `isSaving` changes (PlatformConfigPage.ReadCanSave), so the button can show a stale value after a form edit; this is recorded under Findings. When the template reads `canSave()`, and so when a value is kept, is not part of this model.
- Json.Get: a property read sees the object's own members only. JavaScript's `o[k]` also finds members inherited from `Object.prototype` (`constructor`, `toString`, `hasOwnProperty`, ...), and a write `o['__proto__'] = v` on a plain object creates no own member. Neither is modelled. Three places read or write keys taken from data, and they differ from the model for such a key:
  - `values[lang]` in `pickLocalizedText`, for a language code `constructor`;
  - `SESSION_STATUS_TRANSITIONS[current] ?? []` in the session editor, for a status `constructor`, where the program gets a function and the model gets `[]`;
  - `normalized[sessionTypeId] = ...` in the Conference-Hall mapping, for a session type id `__proto__`, where the program's entry vanishes from `Object.entries` and the model keeps it.
- Voxxrin: only the normalisers and mappers are modelled. Left out are:
  - `buildEventDescriptor` as a whole (apart from the start and end of the mapped days);
  - `mapSocialMedias`, `mapFloorPlans`, `mapFeatures`, `mapFormattings`, `mapTheming`, `mapHeadingSrcSet`, `mapImportedFonts`, `mapLabelChoices` and `toOptionalBoolean`, which are more of the same cleaning over configuration fields;
  - `loadVoxxrinConfig` and the handler.
- Voxxrin.WeekdayName: `toLocaleDateString` is modelled as the English weekday of a day number, counted from 0000-01-01, a Saturday.
- Session editor: the speaker search and labels, `populateForm`, and the session type, track, level and status fields of the saved conference block are not modelled. They are copied form values.
- Session list: the speaker-name and option lists are left out. `Date.parse` of the submission dates is a parameter.
- Excel export: the workbook construction, styling, `fileSafe`, `buildFileName`, `stringifyValue` and `compareText` are not modelled.
- ExcelExport.NextSheetName: the bound of 31 characters is proved only while fewer than 10^29 names are in use. A longer index could not fit a 31-character name, and the source does not guard against that case either.
- ExcelExport.NextSheetName: the 31-character cut counts Unicode scalar values. JavaScript's `slice(0, 31)` counts UTF-16 code units, so a name with characters above U+FFFF is cut shorter by the program, and can end in half a surrogate pair.
- CloneFields: with a `NaN` offset the model keeps the start and end, where the program writes `NaN-NaN-NaN` dates. This offset arises only when the earliest source day is well-shaped but impossible (Duplicate.HandlerOffsetIsFinite, DuplicateDays.OffsetFromImpossibleDay). On every finite offset the clone equals the program's.
- CloneWrites: inherits the CloneFields difference on a `NaN` offset. Otherwise the written clones are the program's.
- CreateActivitiesInBatches: inherits the CloneFields difference on a `NaN` offset. The count and the batching are unaffected.
- DuplicateConference: inherits the CloneFields difference when the earliest source day is impossible. The other writes and the report are unaffected.
- Conference-Hall page: `buildSessionTypeFormatMappingGroup` and the form wiring are not modelled.
- Person search: the blank-search branch of `pagedSearch` (lines 47-67) is left out. It is a direct Firestore query with no client-side logic.
- Platform config: `buildDefaultPlatformConfig` and `PLATFORM_CONFIG_DOC_ID` are parameters, because `platform-config.model.ts` is not part of this model. The `toSignal` initial value is left out.
- Dashboard: `refreshConferenceDashboard` and the loading effects are left out. The label of the unknown-type column comes from the translation service and is a parameter.
- The dashboard recomputation (`conference-dashboard.ts`) is not part of this model. The sweep takes `isConferenceStartInFuture` and the success of each recompute as parameters.

## Findings

| source | as written | input that shows it | evidently intended | confidence | as-written member | corrected member |
|---|---|---|---|---|---|---|
| functions/src/http/duplicate-conference.ts:480-500 | `shiftLocalDateTime` only skips a zero offset, so a `NaN` offset reaches `setDate(NaN)` and the date renders as `NaN-NaN-NaN`. `diffDays` yields `NaN` when the earliest source day is well-shaped but impossible. | A source day dated `2024-13-01` and an activity starting `2024-05-02T09:30`: the clone starts `NaN-NaN-NaNT09:30` | An offset that cannot be computed leaves the timestamp unchanged, like an unreadable date does | medium, not executed | DuplicateDays.ShiftWithNaNOffset | DuplicateDays.ShiftLocalDateTime |
| frontend/src/app/pages/session/session-list/session-list.ts:198-214 | `computeStatusSeverity` tests the spellings of an older status set (VALIDATED, CONFIRMED, PLANIFIED, BACKUP). | A PROGRAMMED session shows as a grey unknown tag, and an ACCEPTED one as confirmed green | The list uses the shared classification of `session-status.utils.ts`, as the session page does | high, not executed | SessionList.ListSeverityMissesWorkflowStatuses | SessionList.ListSeverityCoversWorkflow |
| frontend/src/app/pages/conference/conference-config/conference-config.component.ts:202-204 | `Math.max(0, Math.min(index, 4))` returns `NaN` for a `NaN` index, so the clamp is not always a tab index. | A tab-change event whose `value` is `NaN`: the page's tab becomes `NaN` and the URL reloads as tab 0 | A `NaN` index selects the first tab, as the key lookup's fallback does, so every tab change survives a reload | low, not executed | ConferenceTabs.NaNTabIsNotRestored | ConferenceTabs.TabChangeSurvivesReload |
| frontend/src/app/pages/admin/platform-config/platform-config.component.ts:45-55 | `canSave` is a `computed`, but the restriction flag and the id it reads are plain properties, so it only recomputes when `isSaving` changes. | Read `canSave()` with the restriction on and id `abc` (true), then clear the id: the button stays enabled, and the save stores a blank id that reads back as no single-conference mode | The button follows the form: `canSave` is the fresh predicate on the current flag and id | medium, not executed | PlatformConfigPage.StaleCanSaveAllowsBlankId | PlatformConfigPage.AllowedSaveYieldsFormMode |

=== FILE: src/base.dfy ===
/** Small shared wrappers: an optional value, and an HTTP-style error. */
module Base {

  /** A value that may be absent (JavaScript `undefined`/`null`). */
  datatype Option<+T> = None | Some(value: T) {
    /** The value, or `default` when absent (JavaScript `??`). */
    function GetOr(default: T): T {
      match this
      case Some(v) => v
      case None => default
    }

    /** Keeps the first present value (JavaScript `a ?? b` on two optional values). */
    function OrElse(other: Option<T>): Option<T> {
      if Some? then this else other
    }
  }

  /** Outcome of an operation that either succeeds with a value or fails with an error. */
  datatype Result<+T, +E> = Ok(value: T) | Err(error: E)

  /** An error carried back to an HTTP caller: a status code and a short message. */
  datatype HttpError = HttpError(status: int, message: string)

  /**
   * A JavaScript number. Finite values are integers in this model (the
   * fields it reads hold editions, indexes, minutes and counters).
   */
  datatype Num = Finite(v: int) | NaN | Infinity | NegInfinity {
    predicate IsFinite() { Finite? }

    /** JavaScript `===` on numbers: NaN equals nothing, not even itself. */
    predicate StrictEquals(other: Num) {
      !NaN? && this == other
    }
  }
}

=== FILE: src/calendar.dfy ===
/**
 * Calendar dates as whole day numbers (proleptic Gregorian calendar,
 * day 0 = 0000-01-01). Replaces JavaScript `Date` arithmetic on local
 * midnights: `setDate(getDate() + k)` is "add k to the day number", and
 * the rounded millisecond difference of two midnights is the difference
 * of their day numbers.
 */
module Calendar {
  import opened Base
  import opened Text

  datatype Date = Date(year: int, month: int, day: int)

  predicate IsLeap(y: int) {
    y % 4 == 0 && (y % 100 != 0 || y % 400 == 0)
  }

  function DaysInYear(y: int): int {
    if IsLeap(y) then 366 else 365
  }

  function DaysInMonth(y: int, m: int): int
    requires 1 <= m <= 12
  {
    if m == 2 then (if IsLeap(y) then 29 else 28)
    else if m == 4 || m == 6 || m == 9 || m == 11 then 30
    else 31
  }

  /** A real calendar date: month 1..12 and day within the month. */
  predicate Valid(d: Date) {
    1 <= d.month <= 12 && 1 <= d.day <= DaysInMonth(d.year, d.month)
  }

  /** Number of days from 0000-01-01 to the first day of year `y`. */
  function DaysBeforeYear(y: int): int
    decreases if y >= 0 then y else -y
  {
    if y == 0 then 0
    else if y > 0 then DaysBeforeYear(y - 1) + DaysInYear(y - 1)
    else DaysBeforeYear(y + 1) - DaysInYear(y)
  }

  lemma DaysBeforeYearStep(y: int)
    ensures DaysBeforeYear(y + 1) == DaysBeforeYear(y) + DaysInYear(y)
  {
  }

  /** Years start strictly later as the year number grows. */
  lemma {:induction false} DaysBeforeYearMonotone(a: int, b: int)
    requires a < b
    ensures DaysBeforeYear(a + 1) <= DaysBeforeYear(b)
    decreases b - a
  {
    if a + 1 < b {
      DaysBeforeYearMonotone(a, b - 1);
      DaysBeforeYearStep(b - 1);
    }
  }

  /** Number of days in year `y` before the first day of month `m` (13 = end of year). */
  function DaysBeforeMonth(y: int, m: int): (r: int)
    requires 1 <= m <= 13
    ensures 0 <= r
  {
    if m == 1 then 0 else DaysBeforeMonth(y, m - 1) + DaysInMonth(y, m - 1)
  }

  lemma DaysBeforeMonthEndOfYear(y: int)
    ensures DaysBeforeMonth(y, 13) == DaysInYear(y)
  {
    var feb := DaysInMonth(y, 2);
    assert DaysBeforeMonth(y, 2) == 31;
    assert DaysBeforeMonth(y, 3) == 31 + feb;
    assert DaysBeforeMonth(y, 4) == 62 + feb;
    assert DaysBeforeMonth(y, 5) == 92 + feb;
    assert DaysBeforeMonth(y, 6) == 123 + feb;
    assert DaysBeforeMonth(y, 7) == 153 + feb;
    assert DaysBeforeMonth(y, 8) == 184 + feb;
    assert DaysBeforeMonth(y, 9) == 215 + feb;
    assert DaysBeforeMonth(y, 10) == 245 + feb;
    assert DaysBeforeMonth(y, 11) == 276 + feb;
    assert DaysBeforeMonth(y, 12) == 306 + feb;
  }

  lemma {:induction false} DaysBeforeMonthMonotone(y: int, a: int, b: int)
    requires 1 <= a < b <= 13
    ensures DaysBeforeMonth(y, a + 1) <= DaysBeforeMonth(y, b)
    decreases b - a
  {
    if a + 1 < b {
      DaysBeforeMonthMonotone(y, a, b - 1);
    }
  }

  /** Day number of a valid date. */
  function ToDayNumber(d: Date): int
    requires Valid(d)
  {
    DaysBeforeYear(d.year) + DaysBeforeMonth(d.year, d.month) + d.day - 1
  }

  /** The year containing day `n`, searching upwards from year `y`. */
  function YearUp(n: int, y: int): (r: int)
    requires DaysBeforeYear(y) <= n
    ensures DaysBeforeYear(r) <= n < DaysBeforeYear(r + 1)
    decreases n - DaysBeforeYear(y)
  {
    DaysBeforeYearStep(y);
    if n < DaysBeforeYear(y + 1) then y else YearUp(n, y + 1)
  }

  /** The year containing day `n`, searching downwards from year `y`. */
  function YearDown(n: int, y: int): (r: int)
    requires n < DaysBeforeYear(y + 1)
    ensures DaysBeforeYear(r) <= n < DaysBeforeYear(r + 1)
    decreases DaysBeforeYear(y) - n
  {
    DaysBeforeYearStep(y - 1);
    if DaysBeforeYear(y) <= n then y else YearDown(n, y - 1)
  }

  function YearOf(n: int): (r: int)
    ensures DaysBeforeYear(r) <= n < DaysBeforeYear(r + 1)
  {
    DaysBeforeYearStep(0);
    if n >= 0 then YearUp(n, 0) else YearDown(n, 0)
  }

  /** The month of year `y` containing day `r` of that year, searching from month `m`. */
  function MonthOf(y: int, r: int, m: int): (k: int)
    requires 1 <= m <= 12 && DaysBeforeMonth(y, m) <= r < DaysInYear(y)
    ensures m <= k <= 12 && DaysBeforeMonth(y, k) <= r < DaysBeforeMonth(y, k + 1)
    decreases 12 - m
  {
    DaysBeforeMonthEndOfYear(y);
    if r < DaysBeforeMonth(y, m + 1) then m else MonthOf(y, r, m + 1)
  }

  /** The date of day number `n`. */
  function FromDayNumber(n: int): (d: Date)
    ensures Valid(d) && ToDayNumber(d) == n
  {
    var y := YearOf(n);
    DaysBeforeYearStep(y);
    var r := n - DaysBeforeYear(y);
    var m := MonthOf(y, r, 1);
    Date(y, m, r - DaysBeforeMonth(y, m) + 1)
  }

  /** A valid date's day number lies within the span of its year. */
  lemma DayNumberInYear(d: Date)
    requires Valid(d)
    ensures DaysBeforeYear(d.year) <= ToDayNumber(d) < DaysBeforeYear(d.year + 1)
  {
    assert DaysBeforeMonth(d.year, d.month + 1) == DaysBeforeMonth(d.year, d.month) + DaysInMonth(d.year, d.month);
    DaysBeforeMonthMonotone(d.year, d.month, 13);
    DaysBeforeMonthEndOfYear(d.year);
    DaysBeforeYearStep(d.year);
  }

  /** Two valid dates with the same day number lie in the same year. */
  lemma SameDayNumberSameYear(d: Date, e: Date)
    requires Valid(d) && Valid(e) && ToDayNumber(d) == ToDayNumber(e)
    ensures d.year == e.year
  {
    DayNumberInYear(d);
    DayNumberInYear(e);
    if e.year < d.year {
      DaysBeforeYearMonotone(e.year, d.year);
      assert false;
    } else if e.year > d.year {
      DaysBeforeYearMonotone(d.year, e.year);
      assert false;
    }
  }

  /** Day numbers name dates one-to-one: valid dates with the same day number are the same date. */
  lemma DayNumberInjective(d: Date, e: Date)
    requires Valid(d) && Valid(e) && ToDayNumber(d) == ToDayNumber(e)
    ensures d == e
  {
    SameDayNumberSameYear(d, e);
    assert DaysBeforeMonth(d.year, d.month + 1) == DaysBeforeMonth(d.year, d.month) + DaysInMonth(d.year, d.month);
    assert DaysBeforeMonth(e.year, e.month + 1) == DaysBeforeMonth(e.year, e.month) + DaysInMonth(e.year, e.month);
    // within the year, the month is the unique one whose span contains the offset
    if e.month < d.month {
      DaysBeforeMonthMonotone(d.year, e.month, d.month);
      assert false;
    } else if e.month > d.month {
      DaysBeforeMonthMonotone(d.year, d.month, e.month);
      assert false;
    }
  }

  /** Converting a valid date to its day number and back is the identity. */
  lemma DayNumberRoundTrip(d: Date)
    requires Valid(d)
    ensures FromDayNumber(ToDayNumber(d)) == d
  {
    DayNumberInjective(FromDayNumber(ToDayNumber(d)), d);
  }

  /** `addDays`: the date `k` days after `d` (before, when `k` is negative). */
  function AddDays(d: Date, k: int): (r: Date)
    requires Valid(d)
    ensures Valid(r) && ToDayNumber(r) == ToDayNumber(d) + k
  {
    FromDayNumber(ToDayNumber(d) + k)
  }

  /** `diffDays`: whole days from `source` to `target`. */
  function DiffDays(target: Date, source: Date): int
    requires Valid(target) && Valid(source)
  {
    ToDayNumber(target) - ToDayNumber(source)
  }

  /** Adding the difference of two dates to the earlier one lands on the later one. */
  lemma DiffThenAdd(target: Date, source: Date)
    requires Valid(target) && Valid(source)
    ensures AddDays(source, DiffDays(target, source)) == target
  {
    DayNumberRoundTrip(target);
  }

  /** Adding zero days changes nothing. */
  lemma AddZeroDays(d: Date)
    requires Valid(d)
    ensures AddDays(d, 0) == d
  {
    DayNumberRoundTrip(d);
  }

  /** `formatDate`: year unpadded (`getFullYear()`), month and day padded to two digits. */
  function FormatDate(d: Date): string
    requires Valid(d)
  {
    IntToString(d.year) + "-" + Pad2(d.month) + "-" + Pad2(d.day)
  }

  /** The text matches `^\d{4}-\d{2}-\d{2}$`. */
  predicate IsDateShape(s: string) {
    |s| == 10 && AllDigits(s[..4]) && s[4] == '-' && AllDigits(s[5..7]) && s[7] == '-' && AllDigits(s[8..10])
  }

  /** The numbers written in a `YYYY-MM-DD` text. */
  function DateFields(s: string): (d: Date)
    requires IsDateShape(s)
    ensures 0 <= d.year <= 9999 && 0 <= d.month <= 99 && 0 <= d.day <= 99
  {
    FourDigitsBound(s[..4]);
    DigitsValueBound(s[5..7]);
    DigitsValueBound(s[8..10]);
    assert Pow10(2) == 100;
    Date(DigitsValue(s[..4]), DigitsValue(s[5..7]), DigitsValue(s[8..10]))
  }

  /** Reads a `YYYY-MM-DD` text as a calendar date; `None` for other shapes and for impossible dates. */
  function ParseIsoDate(s: string): (r: Option<Date>)
    ensures r.Some? <==> IsDateShape(s) && Valid(DateFields(s))
    ensures r.Some? ==> r.value == DateFields(s)
  {
    if IsDateShape(s) && Valid(DateFields(s)) then Some(DateFields(s)) else None
  }

  /**
   * `new Date(text + 'T00:00:00')` on a `YYYY-MM-DD` text, as a day number: the
   * month must be 1..12 and the day 1..31, and a day past the end of its month
   * rolls over into the next month (V8's reading of the ISO form).
   */
  function ParseLocalDate(s: string): (r: Option<int>)
    ensures r.Some? <==> IsDateShape(s) && 1 <= DateFields(s).month <= 12 && 1 <= DateFields(s).day <= 31
  {
    if !IsDateShape(s) then None
    else
      var f := DateFields(s);
      if 1 <= f.month <= 12 && 1 <= f.day <= 31 then Some(ToDayNumber(Date(f.year, f.month, 1)) + f.day - 1)
      else None
  }

  /** On real calendar dates the engine's reading and the strict one agree. */
  lemma ParseLocalDateOfValid(s: string)
    requires ParseIsoDate(s).Some?
    ensures ParseLocalDate(s) == Some(ToDayNumber(ParseIsoDate(s).value))
  {
  }

  /** A day of a four-digit year survives being written out and read back. */
  lemma FormatDayNumberRoundTrip(n: int)
    requires 1000 <= FromDayNumber(n).year <= 9999
    ensures IsDateShape(FormatDate(FromDayNumber(n))) && ParseLocalDate(FormatDate(FromDayNumber(n))) == Some(n)
  {
    FormatThenParse(FromDayNumber(n));
    ParseLocalDateOfValid(FormatDate(FromDayNumber(n)));
  }

  lemma FourDigitsBound(s: string)
    requires |s| == 4 && AllDigits(s)
    ensures DigitsValue(s) <= 9999
  {
    DigitsValueBound(s);
    assert Pow10(4) == 10000;
  }

  /** Rendering then reading back a date of a four-digit year gives the date. */
  lemma FormatThenParse(d: Date)
    requires Valid(d) && 1000 <= d.year <= 9999
    ensures IsDateShape(FormatDate(d)) && ParseIsoDate(FormatDate(d)) == Some(d)
  {
    var ys := NatToString(d.year);
    FourDigitYear(d.year);
    var s := FormatDate(d);
    assert s[..4] == ys;
    assert s[5..7] == Pad2(d.month);
    assert s[8..10] == Pad2(d.day);
  }

  lemma FourDigitYear(y: int)
    requires 1000 <= y <= 9999
    ensures |NatToString(y)| == 4 && DigitsValue(NatToString(y)) == y
  {
    assert Pow10(4) == 10000;
    NatToStringLength(y, 4);
    NatToStringRoundTrip(y);
    DigitsValueBound(NatToString(y));
    assert Pow10(3) == 1000;
  }

  /** `d` is not after `e`: years, then months, then days. */
  predicate DateLe(d: Date, e: Date) {
    d.year < e.year || (d.year == e.year && (d.month < e.month || (d.month == e.month && d.day <= e.day)))
  }

  /** The pieces of a `YYYY-MM-DD` text. */
  lemma DateShapeParts(s: string)
    requires IsDateShape(s)
    ensures s == s[..4] + (['-'] + (s[5..7] + (['-'] + s[8..10])))
  {
  }

  /** On `YYYY-MM-DD` texts, text order (what the default `sort()` uses) is date order. */
  lemma DateTextOrder(a: string, b: string)
    requires IsDateShape(a) && IsDateShape(b)
    ensures TextLe(a, b) <==> DateLe(DateFields(a), DateFields(b))
  {
    DateShapeParts(a);
    DateShapeParts(b);
    var ra := ['-'] + (a[5..7] + (['-'] + a[8..10]));
    var rb := ['-'] + (b[5..7] + (['-'] + b[8..10]));
    TextLeConcat(a[..4], ra, b[..4], rb);
    TextLeConcat(['-'], a[5..7] + (['-'] + a[8..10]), ['-'], b[5..7] + (['-'] + b[8..10]));
    TextLeConcat(a[5..7], ['-'] + a[8..10], b[5..7], ['-'] + b[8..10]);
    TextLeConcat(['-'], a[8..10], ['-'], b[8..10]);
    DigitsTextOrder(a[..4], b[..4]);
    DigitsTextOrder(a[5..7], b[5..7]);
    DigitsTextOrder(a[8..10], b[8..10]);
    if DigitsValue(a[..4]) == DigitsValue(b[..4]) {
      DigitsValueInjective(a[..4], b[..4]);
    }
    if DigitsValue(a[5..7]) == DigitsValue(b[5..7]) {
      DigitsValueInjective(a[5..7], b[5..7]);
    }
  }

  /** Later dates have larger day numbers. */
  lemma DayNumberMonotone(d: Date, e: Date)
    requires Valid(d) && Valid(e) && DateLe(d, e)
    ensures ToDayNumber(d) <= ToDayNumber(e)
  {
    if d.year < e.year {
      assert DaysBeforeMonth(d.year, d.month + 1) == DaysBeforeMonth(d.year, d.month) + DaysInMonth(d.year, d.month);
      if d.month < 12 {
        DaysBeforeMonthMonotone(d.year, d.month, 13);
      }
      DaysBeforeMonthEndOfYear(d.year);
      DaysBeforeYearStep(d.year);
      DaysBeforeYearMonotone(d.year, e.year);
    } else if d.month < e.month {
      assert DaysBeforeMonth(d.year, d.month + 1) == DaysBeforeMonth(d.year, d.month) + DaysInMonth(d.year, d.month);
      DaysBeforeMonthMonotone(d.year, d.month, e.month);
    }
  }

  /** A real date of a four-digit year is written back exactly as it was read. */
  lemma FormatOfDateText(s: string)
    requires IsDateShape(s) && Valid(DateFields(s)) && 1000 <= DateFields(s).year
    ensures FormatDate(DateFields(s)) == s
  {
    var d := DateFields(s);
    FourDigitYear(d.year);
    DigitsValueInjective(NatToString(d.year), s[..4]);
    DigitsValueInjective(Pad2(d.month), s[5..7]);
    DigitsValueInjective(Pad2(d.day), s[8..10]);
    DateShapeParts(s);
  }
}

=== FILE: src/chunking.dfy ===
/**
 * Splitting a list into consecutive slices, as the `for (i = 0; i < n; i += size)
 * slice(i, i + size)` loops that feed Firestore batches do.
 */
module Chunking {

  /** The batch size limit the Cloud Functions keep under Firestore's 500 writes. */
  const BatchSafeLimit: nat := 450

  /** The lists one after the other (`flat()`, or the results of several queries merged). */
  function Concat<T>(xss: seq<seq<T>>): seq<T> {
    if xss == [] then [] else xss[0] + Concat(xss[1..])
  }

  /**
   * `xs` cut into slices of `size`, the last one possibly shorter: the slices
   * concatenate back to `xs` and there are ceil(|xs| / size) of them.
   */
  function Chunks<T>(xs: seq<T>, size: nat): (r: seq<seq<T>>)
    requires size > 0
    ensures Concat(r) == xs
    ensures |xs| <= |r| * size < |xs| + size
    ensures forall k :: 0 <= k < |r| ==> 0 < |r[k]| <= size
    ensures forall k :: 0 <= k < |r| - 1 ==> |r[k]| == size
    decreases |xs|
  {
    if xs == [] then []
    else if |xs| <= size then [xs]
    else
      var rest := Chunks(xs[size..], size);
      assert xs == xs[..size] + xs[size..];
      assert ([xs[..size]] + rest)[1..] == rest;
      assert (|rest| + 1) * size == |rest| * size + size;
      [xs[..size]] + rest
  }

  /** An element of a concatenation lies in one of the pieces. */
  lemma {:induction false} InConcat<T>(xss: seq<seq<T>>, x: T)
    requires x in Concat(xss)
    ensures exists k :: 0 <= k < |xss| && x in xss[k]
  {
    if x !in xss[0] {
      InConcat(xss[1..], x);
      var k :| 0 <= k < |xss[1..]| && x in xss[1..][k];
      assert x in xss[k + 1];
    }
  }

  /** Each piece lies inside the concatenation. */
  lemma {:induction false} ConcatHasPieces<T>(xss: seq<seq<T>>, k: nat, x: T)
    requires k < |xss| && x in xss[k]
    ensures x in Concat(xss)
  {
    if k > 0 {
      ConcatHasPieces(xss[1..], k - 1, x);
    }
  }
}

=== FILE: src/conference_hall.dfy ===
/**
 * The Conference Hall import settings of a conference: the mapping from the
 * conference's session types to Conference Hall formats as the settings form
 * cleans it, the guards that skip a save when nothing changed, and how the
 * stored settings document is found and merged on save.
 */
module ConferenceHall {
  import opened Base
  import opened Text
  import opened Json
  import opened Lists
  import opened DocStore

  /** One entry of a mapping before cleaning: a session type id and a format, as text. */
  datatype RawPair = RawPair(id: string, format: string)

  /** The stored form of one mapping entry. */
  datatype SessionTypeMapping = SessionTypeMapping(sessionTypeId: string, conferenceHallFormat: string)

  /** The entries of a raw mapping: `{sessionTypeId, conferenceHallFormat}` items of an array, or the members of an object. */
  function PairsOf(raw: Value): seq<RawPair> {
    match raw
    case Arr(items) =>
      seq(|items|, i requires 0 <= i < |items| =>
        RawPair(TextOr(Get(items[i], "sessionTypeId")), TextOr(Get(items[i], "conferenceHallFormat"))))
    case Obj(ms) => seq(|ms|, i requires 0 <= i < |ms| => RawPair(ms[i].key, TextOr(ms[i].value)))
    case _ => []
  }

  /** A record of texts: distinct keys, each holding a text. */
  predicate IsTextRecord(ms: seq<Member>) {
    UniqueKeys(ms) && forall i :: 0 <= i < |ms| ==> ms[i].value.Str?
  }

  /** Writes the entries one after the other: a blank id is skipped, a repeated id overwrites the earlier format. */
  function NormalizePairs(ps: seq<RawPair>): (r: seq<Member>)
    ensures IsCleanRecord(r)
  {
    if ps == [] then []
    else
      var acc := NormalizePairs(ps[..|ps| - 1]);
      var p := ps[|ps| - 1];
      NormalizeStep(acc, p);
      if Trim(p.id) == [] then acc else Put(acc, Trim(p.id), Str(Trim(p.format)))
  }

  /** A well-formed cleaned record stays well-formed when the next entry is written. */
  predicate IsCleanRecord(ms: seq<Member>) {
    IsTextRecord(ms) && forall i :: 0 <= i < |ms| ==> ms[i].key != [] && IsTrimmed(ms[i].key) && IsTrimmed(ms[i].value.s)
  }

  lemma NormalizeStep(acc: seq<Member>, p: RawPair)
    requires IsCleanRecord(acc)
    ensures Trim(p.id) != [] ==> IsCleanRecord(Put(acc, Trim(p.id), Str(Trim(p.format))))
  {
    if Trim(p.id) != [] {
      TrimIsTrimmed(p.id);
      TrimIsTrimmed(p.format);
      PutKeepsClean(acc, Trim(p.id), Trim(p.format));
    }
  }

  lemma PutKeepsClean(acc: seq<Member>, key: string, format: string)
    requires IsCleanRecord(acc)
    requires key != [] && IsTrimmed(key) && IsTrimmed(format)
    ensures IsCleanRecord(Put(acc, key, Str(format)))
  {
    var r := Put(acc, key, Str(format));
    PutKeepsKeysUnique(acc, key, Str(format));
    forall i | 0 <= i < |r| ensures r[i].value.Str? && r[i].key != [] && IsTrimmed(r[i].key) && IsTrimmed(r[i].value.s) {
      PutMember(acc, key, Str(format), r[i]);
    }
  }

  /**
   * `normalizeSessionTypeFormatMapping`: nothing for a missing or
   * non-object mapping; otherwise the entries with a non-blank trimmed id,
   * trimmed, later entries overwriting earlier ones.
   */
  function NormalizeMapping(raw: Value): (r: seq<Member>)
    ensures IsTextRecord(r)
    ensures !(raw.Arr? || raw.Obj?) ==> r == []
  {
    if !Truthy(raw) || !(raw.Arr? || raw.Obj?) then [] else NormalizePairs(PairsOf(raw))
  }

  /** Reference reading: the trimmed format of the last entry whose trimmed id is `key`. */
  function LastFormat(ps: seq<RawPair>, key: string): Option<string> {
    if ps == [] then None
    else if key != [] && Trim(ps[|ps| - 1].id) == key then Some(Trim(ps[|ps| - 1].format))
    else LastFormat(ps[..|ps| - 1], key)
  }

  /** The cleaned mapping holds, under each id, the format of the last entry for that id, and nothing else. */
  lemma {:induction false} NormalizeLookup(ps: seq<RawPair>, key: string)
    ensures Lookup(NormalizePairs(ps), key) == match LastFormat(ps, key) case None => Undefined case Some(f) => Str(f)
  {
    if ps != [] {
      NormalizeLookup(ps[..|ps| - 1], key);
    } else {
      LookupMissing([], key);
    }
  }

  predicate HasFormat(m: Member) {
    m.value != Str("")
  }

  /** `sanitizeSessionTypeFormatMapping`: the cleaned entries whose format is not empty, in order. */
  function SanitizeMapping(raw: Value): (r: seq<Member>)
    ensures IsTextRecord(r)
    ensures forall i :: 0 <= i < |r| ==> r[i].value.s != []
  {
    var normalized := NormalizeMapping(raw);
    WhereKeepsTextRecord(normalized, HasFormat);
    Where(normalized, HasFormat)
  }

  lemma {:induction false} WhereKeepsTextRecord(ms: seq<Member>, p: Member -> bool)
    requires IsTextRecord(ms)
    ensures IsTextRecord(Where(ms, p))
  {
    if ms != [] {
      WhereKeepsTextRecord(ms[1..], p);
      var rest := Where(ms[1..], p);
      assert forall j :: 0 <= j < |rest| ==> rest[j] in ms[1..];
      assert forall j :: 0 <= j < |rest| ==> rest[j].key != ms[0].key;
      assert Where(ms, p) == (if p(ms[0]) then [ms[0]] else []) + rest;
    }
  }

  /** The sanitised mapping holds a format exactly when the cleaned one holds a non-empty format. */
  lemma {:induction false} SanitizeLookupStep(ms: seq<Member>, key: string)
    requires IsTextRecord(ms)
    ensures Lookup(Where(ms, HasFormat), key) == if Lookup(ms, key) == Str("") then Undefined else Lookup(ms, key)
  {
    if ms == [] {
    } else {
      SanitizeLookupStep(ms[1..], key);
      var rest := Where(ms[1..], HasFormat);
      if HasFormat(ms[0]) {
        assert Where(ms, HasFormat) == [ms[0]] + rest;
        assert ([ms[0]] + rest)[1..] == rest;
      } else {
        assert Where(ms, HasFormat) == rest;
        if ms[0].key == key {
          assert key !in Keys(ms[1..]);
          LookupMissing(ms[1..], key);
        }
      }
    }
  }

  /** Sanitising drops exactly the empty formats. */
  lemma SanitizeLookup(raw: Value, key: string)
    ensures Lookup(SanitizeMapping(raw), key) ==
      if Lookup(NormalizeMapping(raw), key) == Str("") then Undefined else Lookup(NormalizeMapping(raw), key)
  {
    SanitizeLookupStep(NormalizeMapping(raw), key);
  }

  /** `toSessionTypeMappings`: one stored entry per sanitised entry, in order; the `i`-th from the `i`-th. */
  function ToSessionTypeMappings(raw: Value): (r: seq<SessionTypeMapping>)
    ensures |r| == |SanitizeMapping(raw)|
    ensures forall i :: 0 <= i < |r| ==>
      r[i].sessionTypeId == SanitizeMapping(raw)[i].key && Str(r[i].conferenceHallFormat) == SanitizeMapping(raw)[i].value
    ensures forall i :: 0 <= i < |r| ==> r[i].conferenceHallFormat != []
    ensures forall i, j :: 0 <= i < j < |r| ==> r[i].sessionTypeId != r[j].sessionTypeId
    ensures forall i :: 0 <= i < |r| ==> Lookup(SanitizeMapping(raw), r[i].sessionTypeId) == Str(r[i].conferenceHallFormat)
  {
    var ms := SanitizeMapping(raw);
    forall i | 0 <= i < |ms| ensures Lookup(ms, ms[i].key) == ms[i].value {
      LookupUnique(ms, i);
    }
    seq(|ms|, i requires 0 <= i < |ms| => SessionTypeMapping(ms[i].key, ms[i].value.s))
  }

  lemma {:induction false} LookupUnique(ms: seq<Member>, i: nat)
    requires UniqueKeys(ms) && i < |ms|
    ensures Lookup(ms, ms[i].key) == ms[i].value
  {
    if i > 0 {
      LookupUnique(ms[1..], i - 1);
    }
  }

  /** A settings save: the conference, the trimmed name and the mappings. */
  datatype ConfigSave = ConfigSave(conferenceId: string, conferenceName: string, sessionTypeMappings: seq<SessionTypeMapping>)

  /**
   * The check that the settings are unchanged: the saved name is the trimmed
   * name, and `JSON.stringify` gives the same text for the saved mappings
   * (`[]` when absent) as for the cleaned ones. The text comparison sees
   * member order and extra members, so only mappings stored exactly as the
   * form writes them match.
   */
  predicate SameAsPersisted(persisted: Value, name: string, mappings: seq<SessionTypeMapping>) {
    Get(persisted, "conferenceName") == Str(name)
    && JsonForm(Coalesce(Get(persisted, "sessionTypeMappings"), Arr([]))) == JsonForm(MappingsValue(mappings))
  }

  /**
   * `saveConferenceHallConfigIfChanged`: no save for a conference without an
   * id, nor when the saved settings (the stored document, or the one the last
   * save returned) match the trimmed name and the cleaned mappings; otherwise
   * a save of both.
   */
  function ConfigSaveIfChanged(conferenceId: string, values: Value, persisted: Option<Value>): (r: Option<ConfigSave>)
    ensures r.None? <==>
              (conferenceId == [] ||
               (persisted.Some? && Truthy(persisted.value)
                && SameAsPersisted(persisted.value, Trim(TextOr(Get(values, "conferenceHallName"))),
                                   ToSessionTypeMappings(Get(values, "sessionTypeFormatMapping")))))
    ensures r.Some? ==> r.value.conferenceId == conferenceId && IsTrimmed(r.value.conferenceName)
    ensures r.Some? ==> forall i :: 0 <= i < |r.value.sessionTypeMappings| ==> r.value.sessionTypeMappings[i].conferenceHallFormat != []
  {
    var name := Trim(TextOr(Get(values, "conferenceHallName")));
    var mappings := ToSessionTypeMappings(Get(values, "sessionTypeFormatMapping"));
    TrimIsTrimmed(TextOr(Get(values, "conferenceHallName")));
    var same := persisted.Some? && Truthy(persisted.value) && SameAsPersisted(persisted.value, name, mappings);
    if conferenceId == [] || same then None
    else Some(ConfigSave(conferenceId, name, mappings))
  }

  /** The mappings the form writes are records of strings, so their JSON form is themselves. */
  lemma MappingsAreStringRecords(ms: seq<SessionTypeMapping>)
    ensures JsonForm(MappingsValue(ms)) == MappingsValue(ms)
  {
    var items := MappingsValue(ms).items;
    forall i | 0 <= i < |items|
      ensures StringRecord(items[i])
    {
      assert items[i] == MappingValue(ms[i]);
    }
    JsonFormOfStringRecords(items);
  }

  /**
   * Saving the settings the form reads back makes the next check a no-op:
   * after the save, the saved document holds the name and the mappings as
   * the form wrote them.
   */
  lemma SavedConfigIsStable(conferenceId: string, values: Value, saved: Value)
    requires ConfigSaveIfChanged(conferenceId, values, None).Some?
    requires saved.Obj?
    requires var s := ConfigSaveIfChanged(conferenceId, values, None).value;
      Get(saved, "conferenceName") == Str(s.conferenceName) && Get(saved, "sessionTypeMappings") == MappingsValue(s.sessionTypeMappings)
    ensures ConfigSaveIfChanged(conferenceId, values, Some(saved)).None?
  {
    var s := ConfigSaveIfChanged(conferenceId, values, None).value;
    assert s.conferenceName == Trim(TextOr(Get(values, "conferenceHallName")));
    assert s.sessionTypeMappings == ToSessionTypeMappings(Get(values, "sessionTypeFormatMapping"));
    assert SameAsPersisted(saved, s.conferenceName, s.sessionTypeMappings);
  }

  /** The mappings stored with their members in the other order, as `{conferenceHallFormat, sessionTypeId}`. */
  function ReorderedMappingsValue(ms: seq<SessionTypeMapping>): Value {
    Arr(seq(|ms|, i requires 0 <= i < |ms| =>
      Obj([Member("conferenceHallFormat", Str(ms[i].conferenceHallFormat)), Member("sessionTypeId", Str(ms[i].sessionTypeId))])))
  }

  /** Reordered members give a different JSON text for any non-empty mapping list. */
  lemma ReorderedJsonDiffers(ms: seq<SessionTypeMapping>)
    requires ms != []
    ensures JsonForm(ReorderedMappingsValue(ms)) != JsonForm(MappingsValue(ms))
  {
    var stored := ReorderedMappingsValue(ms);
    forall i | 0 <= i < |stored.items|
      ensures StringRecord(stored.items[i])
    {
    }
    JsonFormOfStringRecords(stored.items);
    MappingsAreStringRecords(ms);
    assert stored.items[0].members[0].key != MappingsValue(ms).items[0].members[0].key;
  }

  /**
   * The same mappings stored with their members in the other order give a
   * different JSON text, so the check saves again although nothing changed.
   */
  lemma ReorderedMappingsAreSaved(conferenceId: string, values: Value, persisted: Value)
    requires conferenceId != []
    requires ToSessionTypeMappings(Get(values, "sessionTypeFormatMapping")) != []
    requires Get(persisted, "sessionTypeMappings") == ReorderedMappingsValue(ToSessionTypeMappings(Get(values, "sessionTypeFormatMapping")))
    ensures ConfigSaveIfChanged(conferenceId, values, Some(persisted)).Some?
  {
    var ms := ToSessionTypeMappings(Get(values, "sessionTypeFormatMapping"));
    ReorderedJsonDiffers(ms);
    assert !SameAsPersisted(persisted, Trim(TextOr(Get(values, "conferenceHallName"))), ms);
  }

  /** `saveConferenceHallTokenIfChanged`: the token is saved only when it differs from the saved one and the conference has an id. */
  function TokenSaveIfChanged(secretValue: string, persistedToken: string, conferenceId: string): (r: Option<string>)
    ensures r.None? <==> secretValue == persistedToken || conferenceId == []
    ensures r.Some? ==> r.value == secretValue
  {
    if secretValue == persistedToken then None
    else if conferenceId == [] then None
    else Some(secretValue)
  }

  /** The stored settings whose `conferenceId` field is the given id, in listing order. */
  function MatchingConfigs(docs: seq<Doc>, conferenceId: string): (r: seq<Doc>)
    ensures forall i :: 0 <= i < |r| ==> r[i] in docs && Get(r[i].data, "conferenceId") == Str(conferenceId)
    ensures forall i :: 0 <= i < |docs| && Get(docs[i].data, "conferenceId") == Str(conferenceId) ==> docs[i] in r
  {
    Where(docs, (d: Doc) => Get(d.data, "conferenceId") == Str(conferenceId))
  }

  /**
   * `findByConferenceId`: nothing when no stored settings name the
   * conference; otherwise the first match's fields with `id` set to its
   * document id.
   */
  function FindByConferenceId(docs: seq<Doc>, conferenceId: string): (r: Option<seq<Member>>)
    ensures r.None? <==> forall i :: 0 <= i < |docs| ==> Get(docs[i].data, "conferenceId") != Str(conferenceId)
    ensures r.Some? ==> Lookup(r.value, "id") == Str(MatchingConfigs(docs, conferenceId)[0].id)
    ensures r.Some? ==> forall k :: k != "id" ==> Lookup(r.value, k) == Lookup(Spread(MatchingConfigs(docs, conferenceId)[0].data), k)
  {
    var matches := MatchingConfigs(docs, conferenceId);
    if matches == [] then None
    else Some(Put(Spread(matches[0].data), "id", Str(matches[0].id)))
  }

  /** The settings used when none are stored yet. */
  function DefaultConfig(conferenceId: string): seq<Member> {
    [Member("id", Str("")), Member("lastUpdated", Str("")), Member("conferenceId", Str(conferenceId)),
     Member("conferenceName", Str("")), Member("sessionTypeMappings", Arr([])), Member("lastCommunication", Str(""))]
  }

  function MappingValue(m: SessionTypeMapping): Value {
    Obj([Member("sessionTypeId", Str(m.sessionTypeId)), Member("conferenceHallFormat", Str(m.conferenceHallFormat))])
  }

  function MappingsValue(ms: seq<SessionTypeMapping>): Value {
    Arr(seq(|ms|, i requires 0 <= i < |ms| => MappingValue(ms[i])))
  }

  /**
   * `saveByConferenceId`: the settings written over the existing ones (or
   * the defaults): conference, name and mappings always come from the save;
   * the last communication only when one is given, and otherwise it is kept,
   * or set to `''` when it was unset or falsy.
   */
  function SaveByConferenceId(existing: Option<seq<Member>>, conferenceId: string, conferenceName: string,
                              mappings: seq<SessionTypeMapping>, lastCommunication: Option<string>): (r: seq<Member>)
    ensures Lookup(r, "conferenceId") == Str(conferenceId)
    ensures Lookup(r, "conferenceName") == Str(conferenceName)
    ensures Lookup(r, "sessionTypeMappings") == MappingsValue(mappings)
    ensures lastCommunication.Some? ==> Lookup(r, "lastCommunication") == Str(lastCommunication.value)
    ensures lastCommunication.None? && existing.Some? && Truthy(Lookup(existing.value, "lastCommunication")) ==>
      Lookup(r, "lastCommunication") == Lookup(existing.value, "lastCommunication")
    ensures lastCommunication.None? && (existing.None? || !Truthy(Lookup(existing.value, "lastCommunication"))) ==>
      Lookup(r, "lastCommunication") == Str("")
  {
    var base := if existing.Some? then existing.value else DefaultConfig(conferenceId);
    var c := WriteFields(base, conferenceId, conferenceName, mappings);
    WriteFieldsKeeps(base, conferenceId, conferenceName, mappings, "lastCommunication");
    DefaultHasNoCommunication(conferenceId);
    SetLastKeeps(c, lastCommunication, "conferenceId");
    SetLastKeeps(c, lastCommunication, "conferenceName");
    SetLastKeeps(c, lastCommunication, "sessionTypeMappings");
    SetLastCommunication(c, lastCommunication)
  }

  /** The three fields a save always overwrites. */
  function WriteFields(base: seq<Member>, conferenceId: string, conferenceName: string, mappings: seq<SessionTypeMapping>): (c: seq<Member>)
    ensures Lookup(c, "conferenceId") == Str(conferenceId)
    ensures Lookup(c, "conferenceName") == Str(conferenceName)
    ensures Lookup(c, "sessionTypeMappings") == MappingsValue(mappings)
  {
    var c1 := Put(base, "conferenceId", Str(conferenceId));
    var c2 := Put(c1, "conferenceName", Str(conferenceName));
    Put(c2, "sessionTypeMappings", MappingsValue(mappings))
  }

  lemma WriteFieldsKeeps(base: seq<Member>, conferenceId: string, conferenceName: string, mappings: seq<SessionTypeMapping>, k: string)
    requires k != "conferenceId" && k != "conferenceName" && k != "sessionTypeMappings"
    ensures Lookup(WriteFields(base, conferenceId, conferenceName, mappings), k) == Lookup(base, k)
  {
  }

  /** The last-communication rule: a given value wins, a falsy one becomes `''`, anything else is kept. */
  function SetLastCommunication(c: seq<Member>, lastCommunication: Option<string>): (r: seq<Member>)
    ensures lastCommunication.Some? ==> Lookup(r, "lastCommunication") == Str(lastCommunication.value)
    ensures lastCommunication.None? && Truthy(Lookup(c, "lastCommunication")) ==> Lookup(r, "lastCommunication") == Lookup(c, "lastCommunication")
    ensures lastCommunication.None? && !Truthy(Lookup(c, "lastCommunication")) ==> Lookup(r, "lastCommunication") == Str("")
  {
    if lastCommunication.Some? then Put(c, "lastCommunication", Str(lastCommunication.value))
    else if !Truthy(Lookup(c, "lastCommunication")) then Put(c, "lastCommunication", Str(""))
    else c
  }

  lemma SetLastKeeps(c: seq<Member>, lastCommunication: Option<string>, k: string)
    requires k != "lastCommunication"
    ensures Lookup(SetLastCommunication(c, lastCommunication), k) == Lookup(c, k)
  {
  }

  lemma DefaultHasNoCommunication(conferenceId: string)
    ensures Lookup(DefaultConfig(conferenceId), "lastCommunication") == Str("")
  {
    var d := DefaultConfig(conferenceId);
    var k := "lastCommunication";
    assert Lookup(d[5..], k) == Str("");
    forall i | 0 <= i < 5 ensures Lookup(d[i..], k) == Lookup(d[i + 1..], k) {
      assert |d[i].key| != |k|;
      assert d[i..][1..] == d[i + 1..];
    }
    assert d[0..] == d;
  }

  /** Every other field of the existing settings is kept as it was. */
  lemma SaveKeepsOtherFields(existing: seq<Member>, conferenceId: string, conferenceName: string,
                             mappings: seq<SessionTypeMapping>, lastCommunication: Option<string>, k: string)
    requires k != "conferenceId" && k != "conferenceName" && k != "sessionTypeMappings" && k != "lastCommunication"
    ensures Lookup(SaveByConferenceId(Some(existing), conferenceId, conferenceName, mappings, lastCommunication), k) == Lookup(existing, k)
  {
    WriteFieldsKeeps(existing, conferenceId, conferenceName, mappings, k);
    SetLastKeeps(WriteFields(existing, conferenceId, conferenceName, mappings), lastCommunication, k);
  }
}

=== FILE: src/conference_tabs.dfy ===
/**
 * The tabs of the conference configuration page and the `tab` query
 * parameter that selects one: clamping an index, reading the parameter,
 * writing it back, and reading the index out of a tab-change event.
 */
module ConferenceTabs {
  import opened Base
  import opened Text
  import opened Json
  import opened Lists

  /** The query-parameter keys of the five tabs, in tab order. */
  const TabKeys: seq<string> := ["general", "session-types", "tracks", "rooms", "planning-structure"]

  /** `Math.min(a, b)` with an integer `b`. */
  function MinNum(a: Num, b: int): Num {
    match a
    case NaN => NaN
    case Infinity => Finite(b)
    case NegInfinity => NegInfinity
    case Finite(v) => Finite(if v <= b then v else b)
  }

  /** `Math.max(a, b)` with an integer `a`. */
  function MaxNum(a: int, b: Num): Num {
    match b
    case NaN => NaN
    case Infinity => Infinity
    case NegInfinity => Finite(a)
    case Finite(v) => Finite(if v >= a then v else a)
  }

  /** The nearest tab index to an integer. */
  function NearestTab(v: int): (r: nat)
    ensures r < |TabKeys|
    ensures 0 <= v < |TabKeys| ==> r == v
  {
    if v < 0 then 0 else if v >= |TabKeys| then |TabKeys| - 1 else v
  }

  /**
   * `clampTabIndex` as written, `Math.max(0, Math.min(index, 4))`: every
   * number but NaN lands on a tab, and NaN comes back unchanged.
   */
  function ClampTabIndexAsWritten(index: Num): (r: Num)
    ensures r.NaN? <==> index.NaN?
    ensures index.Finite? ==> r == Finite(NearestTab(index.v))
    ensures index.Infinity? ==> r == Finite(|TabKeys| - 1)
    ensures index.NegInfinity? ==> r == Finite(0)
  {
    MaxNum(0, MinNum(index, |TabKeys| - 1))
  }

  /** A NaN index escapes the range of tabs. */
  lemma ClampLeavesNaN()
    ensures !ClampTabIndexAsWritten(NaN).Finite?
  {
  }

  /** `clampTabIndex` as evidently intended: always a tab index, NaN giving the first tab. */
  function ClampTabIndex(index: Num): (r: nat)
    ensures r < |TabKeys|
    ensures !index.NaN? ==> ClampTabIndexAsWritten(index) == Finite(r)
    ensures index.NaN? ==> r == 0
  {
    match ClampTabIndexAsWritten(index)
    case Finite(v) => v
    case _ => 0
  }

  /** `toTabKey`: the key of the clamped tab, falling back to the first key when the index is not one. */
  function ToTabKey(index: Num): (r: string)
    ensures r == TabKeys[ClampTabIndex(index)]
  {
    match ClampTabIndexAsWritten(index)
    case Finite(k) => TabKeys[k]
    case _ => TabKeys[0]
  }

  /**
   * `parseTabQueryParam`: a missing or empty parameter selects the first tab;
   * an integer selects the nearest tab; any other text is looked up, lower-cased,
   * among the keys, and an unknown key selects the first tab.
   */
  function ParseTabQueryParam(raw: Option<string>): (r: nat)
    ensures r < |TabKeys|
    ensures raw.None? || raw == Some("") ==> r == 0
    ensures raw.Some? && raw.value != "" && StringToNumber(raw.value).Finite? ==>
      r == NearestTab(StringToNumber(raw.value).v)
    ensures raw.Some? && raw.value != "" && !StringToNumber(raw.value).Finite? ==>
      (Lower(raw.value) in TabKeys ==> TabKeys[r] == Lower(raw.value)) &&
      (Lower(raw.value) !in TabKeys ==> r == 0)
  {
    if raw.None? || raw.value == "" then 0
    else
      match StringToNumber(raw.value)
      case Finite(v) => ClampTabIndex(Finite(v))
      case _ =>
        var byKey := IndexOf(TabKeys, Lower(raw.value));
        if byKey >= 0 then byKey else 0
  }

  /**
   * The number a tab-change event carries: the event itself when it is a
   * number, else its `index`, else its `value`; none otherwise.
   */
  function EventNumber(event: Value): (r: Option<Num>)
    ensures event.Number? ==> r == Some(event.n)
    ensures !event.Number? && Get(event, "index").Number? ==> r == Some(Get(event, "index").n)
    ensures !event.Number? && !Get(event, "index").Number? && Get(event, "value").Number? ==>
      r == Some(Get(event, "value").n)
    ensures !event.Number? && !Get(event, "index").Number? && !Get(event, "value").Number? ==> r.None?
  {
    if event.Number? then Some(event.n)
    else if Get(event, "index").Number? then Some(Get(event, "index").n)
    else if Get(event, "value").Number? then Some(Get(event, "value").n)
    else None
  }

  /**
   * `extractTabIndex` as written: the carried number through the as-written
   * clamp, 0 when the event carries none. A NaN number stays NaN.
   */
  function ExtractTabIndexAsWritten(event: Value): (r: Num)
    ensures EventNumber(event).None? ==> r == Finite(0)
    ensures EventNumber(event).Some? ==> r == ClampTabIndexAsWritten(EventNumber(event).value)
    ensures r.NaN? <==> EventNumber(event) == Some(NaN)
    ensures !r.NaN? ==> r.Finite? && 0 <= r.v < |TabKeys|
  {
    if event.Number? then ClampTabIndexAsWritten(event.n)
    else if Get(event, "index").Number? then ClampTabIndexAsWritten(Get(event, "index").n)
    else if Get(event, "value").Number? then ClampTabIndexAsWritten(Get(event, "value").n)
    else Finite(0)
  }

  /**
   * `extractTabIndex` with the intended clamp: the event itself when it is a
   * number, else its `index`, else its `value`, else the first tab.
   */
  function ExtractTabIndex(event: Value): (r: nat)
    ensures r < |TabKeys|
    ensures event.Number? ==> r == ClampTabIndex(event.n)
    ensures !event.Number? && Get(event, "index").Number? ==> r == ClampTabIndex(Get(event, "index").n)
    ensures !event.Number? && !Get(event, "index").Number? && Get(event, "value").Number? ==>
      r == ClampTabIndex(Get(event, "value").n)
    ensures !event.Number? && !Get(event, "index").Number? && !Get(event, "value").Number? ==> r == 0
    ensures EventNumber(event) != Some(NaN) ==> ExtractTabIndexAsWritten(event) == Finite(r)
    ensures EventNumber(event) == Some(NaN) ==> r == 0
  {
    if event.Number? then ClampTabIndex(event.n)
    else if Get(event, "index").Number? then ClampTabIndex(Get(event, "index").n)
    else if Get(event, "value").Number? then ClampTabIndex(Get(event, "value").n)
    else 0
  }

  /** A text that starts and ends with a lower-case letter is not a number. */
  lemma LetterTextIsNaN(t: string)
    requires t != [] && 'a' <= t[0] <= 'z' && 'a' <= t[|t| - 1] <= 'z'
    ensures StringToNumber(t) == NaN
  {
    TrimmedIsFixpoint(t);
    assert !AllDigits(t) by {
      assert !IsDigit(t[0]);
    }
  }

  /** A text without upper-case letters is its own lower case. */
  lemma LowerOfLowerCase(t: string)
    requires forall i :: 0 <= i < |t| ==> !('A' <= t[i] <= 'Z')
    ensures Lower(t) == t
  {
  }

  /** No two tabs share a key. */
  lemma TabKeysDistinct()
    ensures NoDuplicates(TabKeys)
  {
    forall i, j | 0 <= i < j < |TabKeys| ensures TabKeys[i] != TabKeys[j] {
      assert |TabKeys[i]| != |TabKeys[j]|;
    }
  }

  /** Every key is a lower-case word with no digit in front. */
  lemma TabKeyShape(k: nat)
    requires k < |TabKeys|
    ensures var t := TabKeys[k];
      t != [] && 'a' <= t[0] <= 'z' && 'a' <= t[|t| - 1] <= 'z' &&
      forall i :: 0 <= i < |t| ==> !('A' <= t[i] <= 'Z')
  {
    if k == 0 {
      assert TabKeys[k] == "general";
    } else if k == 1 {
      assert TabKeys[k] == "session-types";
    } else if k == 2 {
      assert TabKeys[k] == "tracks";
    } else if k == 3 {
      assert TabKeys[k] == "rooms";
    } else {
      assert TabKeys[k] == "planning-structure";
    }
  }

  /** Each key reads back as its own tab. */
  lemma TabKeyFacts(k: nat)
    requires k < |TabKeys|
    ensures StringToNumber(TabKeys[k]) == NaN
    ensures Lower(TabKeys[k]) == TabKeys[k]
    ensures IndexOf(TabKeys, TabKeys[k]) == k
  {
    TabKeyShape(k);
    LetterTextIsNaN(TabKeys[k]);
    LowerOfLowerCase(TabKeys[k]);
    TabKeysDistinct();
    IndexOfDistinct(TabKeys, k);
  }

  /** Writing a tab's key and reading it back selects the clamped tab. */
  lemma TabKeyRoundTrip(index: Num)
    ensures ParseTabQueryParam(Some(ToTabKey(index))) == ClampTabIndex(index)
  {
    TabKeyFacts(ClampTabIndex(index));
  }

  /** The text of an integer selects the nearest tab. */
  lemma IntegerTextSelectsNearestTab(i: int)
    ensures ParseTabQueryParam(Some(IntToString(i))) == NearestTab(i)
  {
    NumberTextRoundTrip(Finite(i));
  }

  /**
   * As written, the tab the page selects after a change survives a reload
   * exactly when the event does not carry NaN: the URL then names the same
   * tab, while a NaN tab is written as the first key and reloads as tab 0.
   */
  lemma TabChangeReloadAsWritten(event: Value)
    ensures var t := ExtractTabIndexAsWritten(event);
      (t.Finite? ==> Finite(ParseTabQueryParam(Some(ToTabKey(t)))) == t) &&
      (t.NaN? ==> ParseTabQueryParam(Some(ToTabKey(t))) == 0)
  {
    TabKeyRoundTrip(ExtractTabIndexAsWritten(event));
  }

  /** An event whose `value` is NaN selects tab NaN, and its URL reloads as tab 0. */
  lemma NaNTabIsNotRestored()
    ensures ExtractTabIndexAsWritten(Obj([Member("value", Number(NaN))])) == NaN
    ensures ParseTabQueryParam(Some(ToTabKey(NaN))) == 0
  {
    var event := Obj([Member("value", Number(NaN))]);
    assert Get(event, "index") == Undefined;
    assert Get(event, "value") == Number(NaN);
    TabKeyRoundTrip(NaN);
  }

  /**
   * After a tab change the page writes the tab's key into the URL; reading
   * that URL back selects the same tab.
   */
  lemma TabChangeSurvivesReload(event: Value)
    ensures ParseTabQueryParam(Some(ToTabKey(Finite(ExtractTabIndex(event))))) == ExtractTabIndex(event)
  {
    TabKeyRoundTrip(Finite(ExtractTabIndex(event)));
  }
}

=== FILE: src/copy_room.dfy ===
/**
 * Copying the slots of one room to another room of the planning structure:
 * the copy is offered only between rooms of the same kind, and a slot is
 * copied only when the target is not already one of its overflow rooms.
 */
module CopyRoom {
  import opened Base
  import opened Lists

  /** A room; `isSessionRoom` may be unset. */
  datatype Room = Room(id: string, isSessionRoom: Option<bool>)

  /** A slot of the planning structure; `details` stands for every other field, copied as is. */
  datatype Slot<D> = Slot(id: string, roomId: string, overflowRoomIds: Option<seq<string>>, details: D)

  /** `readyToCopy`: both rooms are chosen and are of the same kind (an unset kind only matches an unset one). */
  predicate ReadyToCopy(source: Option<Room>, target: Option<Room>) {
    source.Some? && target.Some? && source.value.isSessionRoom == target.value.isSessionRoom
  }

  /** The slots of the source room that do not already overflow into the target room. */
  predicate IsCopied<D>(slot: Slot<D>, sourceRoomId: string, targetRoomId: string) {
    slot.roomId == sourceRoomId
    && (slot.overflowRoomIds.None? || |slot.overflowRoomIds.value| == 0 || targetRoomId !in slot.overflowRoomIds.value)
  }

  /** The copy of a slot: a fresh id, the target room, no overflow rooms, everything else unchanged. */
  function CopyOf<D>(slot: Slot<D>, freshId: string, targetRoomId: string): (r: Slot<D>)
    ensures r.id == freshId && r.roomId == targetRoomId && r.overflowRoomIds == Some([])
    ensures r.details == slot.details
  {
    slot.(id := freshId, roomId := targetRoomId, overflowRoomIds := Some([]))
  }

  /** The slots that are copied, in their order. */
  function CopiedSlots<D(==,!new)>(slots: seq<Slot<D>>, sourceRoomId: string, targetRoomId: string): (r: seq<Slot<D>>)
    ensures forall k :: 0 <= k < |r| ==> r[k] in slots && IsCopied(r[k], sourceRoomId, targetRoomId)
    ensures forall i :: 0 <= i < |slots| && IsCopied(slots[i], sourceRoomId, targetRoomId) ==> slots[i] in r
    ensures SubsequenceOf(r, slots)
    ensures forall v :: multiset(r)[v] == if IsCopied(v, sourceRoomId, targetRoomId) then multiset(slots)[v] else 0
  {
    var copied := (s: Slot<D>) => IsCopied(s, sourceRoomId, targetRoomId);
    WhereIsSubsequence(slots, copied);
    assert forall v :: multiset(Where(slots, copied))[v] == if copied(v) then multiset(slots)[v] else 0 by {
      forall v ensures multiset(Where(slots, copied))[v] == if copied(v) then multiset(slots)[v] else 0 {
        WhereCount(slots, copied, v);
      }
    }
    Where(slots, copied)
  }

  /**
   * `onCopy`: nothing is emitted unless the copy is ready; otherwise the
   * copies of the selected slots, in order, the `k`-th taking the `k`-th
   * generated slot id.
   */
  function OnCopy<D(==,!new)>(slots: seq<Slot<D>>, source: Option<Room>, target: Option<Room>, freshIds: nat -> string): (r: Option<seq<Slot<D>>>)
    ensures r.None? <==> !ReadyToCopy(source, target)
    ensures r.Some? ==> |r.value| <= |slots|
    ensures r.Some? ==> forall k :: 0 <= k < |r.value| ==>
      r.value[k].id == freshIds(k) && r.value[k].roomId == target.value.id && r.value[k].overflowRoomIds == Some([])
  {
    if !ReadyToCopy(source, target) then None
    else
      var kept := CopiedSlots(slots, source.value.id, target.value.id);
      SubsequenceLength(kept, slots);
      Some(seq(|kept|, k requires 0 <= k < |kept| => CopyOf(kept[k], freshIds(k), target.value.id)))
  }

  /** A subsequence is no longer than the sequence it is taken from. */
  lemma {:induction false} SubsequenceLength<T>(a: seq<T>, b: seq<T>)
    requires SubsequenceOf(a, b)
    ensures |a| <= |b|
    decreases |b|
  {
    if a != [] {
      if a[0] == b[0] {
        SubsequenceLength(a[1..], b[1..]);
      } else {
        SubsequenceLength(a, b[1..]);
      }
    }
  }

  /**
   * Every emitted slot is a copy of a source-room slot that did not overflow
   * into the target, and every such slot is copied: the copies are those of
   * the selected slots, in their original order.
   */
  lemma OnCopyCopiesSelected<D(!new)>(slots: seq<Slot<D>>, source: Option<Room>, target: Option<Room>, freshIds: nat -> string)
    requires ReadyToCopy(source, target)
    ensures var kept := CopiedSlots(slots, source.value.id, target.value.id);
      var r := OnCopy(slots, source, target, freshIds).value;
      |r| == |kept| && SubsequenceOf(kept, slots) &&
      (forall k :: 0 <= k < |r| ==> r[k] == CopyOf(kept[k], freshIds(k), target.value.id)) &&
      (forall i :: 0 <= i < |slots| && IsCopied(slots[i], source.value.id, target.value.id) ==>
        exists k :: 0 <= k < |r| && r[k].details == slots[i].details)
  {
    OnCopyShape(slots, source, target, freshIds);
    OnCopyCovers(slots, source, target, freshIds);
  }

  /** The copies are those of the selected slots, one each, in order. */
  lemma OnCopyShape<D(!new)>(slots: seq<Slot<D>>, source: Option<Room>, target: Option<Room>, freshIds: nat -> string)
    requires ReadyToCopy(source, target)
    ensures var kept := CopiedSlots(slots, source.value.id, target.value.id);
      var r := OnCopy(slots, source, target, freshIds).value;
      |r| == |kept| && forall k :: 0 <= k < |r| ==> r[k] == CopyOf(kept[k], freshIds(k), target.value.id)
  {
  }

  /** Every selected slot has a copy. */
  lemma OnCopyCovers<D(!new)>(slots: seq<Slot<D>>, source: Option<Room>, target: Option<Room>, freshIds: nat -> string)
    requires ReadyToCopy(source, target)
    ensures var r := OnCopy(slots, source, target, freshIds).value;
      forall i :: 0 <= i < |slots| && IsCopied(slots[i], source.value.id, target.value.id) ==>
        exists k :: 0 <= k < |r| && r[k].details == slots[i].details
  {
    var kept := CopiedSlots(slots, source.value.id, target.value.id);
    var r := OnCopy(slots, source, target, freshIds).value;
    OnCopyShape(slots, source, target, freshIds);
    forall i | 0 <= i < |slots| && IsCopied(slots[i], source.value.id, target.value.id)
      ensures exists k :: 0 <= k < |r| && r[k].details == slots[i].details
    {
      var k :| 0 <= k < |kept| && kept[k] == slots[i];
      assert r[k].details == slots[i].details;
    }
  }

  /** A slot that already overflows into the target room, or lives in another room, is never copied. */
  lemma NoCopyOfOverflowingSlot<D(!new)>(slots: seq<Slot<D>>, source: Option<Room>, target: Option<Room>, slot: Slot<D>)
    requires ReadyToCopy(source, target)
    requires slot.roomId != source.value.id || (slot.overflowRoomIds.Some? && target.value.id in slot.overflowRoomIds.value)
    ensures slot !in CopiedSlots(slots, source.value.id, target.value.id)
  {
  }
}

=== FILE: src/dashboard.dfy ===
/**
 * The per-session-type table of the conference management dashboard: which
 * columns it shows, in which order, and which count each cell reads.
 */
module Dashboard {
  import opened Base
  import opened Text
  import opened Json
  import opened Lists

  /** A column of the table. */
  datatype Column = Column(id: string, heading: string)

  /** The three counted buckets of a dashboard document. */
  datatype Metric = Submitted | Confirmed | Allocated

  function MetricKey(m: Metric): string {
    match m
    case Submitted => "submitted"
    case Confirmed => "confirmed"
    case Allocated => "allocated"
  }

  /** The id under which sessions without a known type are counted. */
  const UnknownId: string := "__unknown__"

  /** `dashboard[metric]?.bySessionTypeId`. */
  function Bucket(dashboard: Value, m: Metric): Value {
    Get(Get(dashboard, MetricKey(m)), "bySessionTypeId")
  }

  /** `getDashboardCount`: the stored count when it is a number, else 0. */
  function DashboardCount(dashboard: Value, m: Metric, sessionTypeId: string): (r: Num)
    ensures !Truthy(dashboard) ==> r == Finite(0)
    ensures !Get(Bucket(dashboard, m), sessionTypeId).Number? ==> r == Finite(0)
    ensures Truthy(dashboard) && Get(Bucket(dashboard, m), sessionTypeId).Number? ==>
      r == Get(Bucket(dashboard, m), sessionTypeId).n
  {
    if !Truthy(dashboard) then Finite(0)
    else
      var value := Get(Bucket(dashboard, m), sessionTypeId);
      if value.Number? then value.n else Finite(0)
  }

  /** `Object.keys(dashboard[metric]?.bySessionTypeId ?? {})`. */
  function BucketKeys(dashboard: Value, m: Metric): seq<string> {
    Keys(Entries(Coalesce(Bucket(dashboard, m), Obj([]))))
  }

  /** `collectDashboardSessionTypeIds`: the keys of the three buckets, each once, in first-seen order. */
  function CollectedIds(dashboard: Value): (r: seq<string>)
    ensures NoDuplicates(r)
  {
    if !Truthy(dashboard) then []
    else Distinct(BucketKeys(dashboard, Submitted) + BucketKeys(dashboard, Confirmed) + BucketKeys(dashboard, Allocated))
  }

  /** The collected ids are exactly the union of the keys of the three buckets. */
  lemma CollectedIdsMember(dashboard: Value, id: string)
    ensures id in CollectedIds(dashboard) <==>
      (Truthy(dashboard) &&
       (id in BucketKeys(dashboard, Submitted) || id in BucketKeys(dashboard, Confirmed) || id in BucketKeys(dashboard, Allocated)))
  {
    if Truthy(dashboard) {
      var all := BucketKeys(dashboard, Submitted) + BucketKeys(dashboard, Confirmed) + BucketKeys(dashboard, Allocated);
      if id in all {
        var k :| 0 <= k < |all| && all[k] == id;
      }
    }
  }

  /** The ids of some columns, in order. */
  function Ids(cols: seq<Column>): (r: seq<string>)
    ensures |r| == |cols|
    ensures forall k :: 0 <= k < |cols| ==> r[k] == cols[k].id
  {
    seq(|cols|, k requires 0 <= k < |cols| => cols[k].id)
  }

  /** `conference?.sessionTypes` when it is an array, else no types. */
  function SessionTypes(conference: Value): seq<Value> {
    var types := Get(conference, "sessionTypes");
    if types.Arr? then types.items else []
  }

  /** The column of one configured session type: its trimmed id, labelled by its trimmed name or else by the id; a blank id gives none. */
  function OwnColumn(sessionType: Value): (r: Option<Column>)
    ensures r.Some? ==> r.value.id != "" && IsTrimmed(r.value.id) && r.value.heading != ""
  {
    var id := Trim(TextOr(Get(sessionType, "id")));
    var name := Trim(TextOr(Get(sessionType, "name")));
    TrimIsTrimmed(TextOr(Get(sessionType, "id")));
    if id == [] then None else Some(Column(id, if name != [] then name else id))
  }

  /** The conference's own session types, in their order. */
  function OwnColumns(conference: Value): seq<Column> {
    FilterMap(SessionTypes(conference), OwnColumn)
  }

  /** One column per dashboard id that no configured type has, other than the unknown id, labelled by the id. */
  function ExtraColumns(knownIds: seq<string>, ids: seq<string>): (r: seq<Column>)
    ensures forall k :: 0 <= k < |r| ==>
      r[k].id in ids && r[k].id !in knownIds && r[k].id != UnknownId && r[k].heading == r[k].id
    ensures forall id :: id in ids && id !in knownIds && id != UnknownId ==> id in Ids(r)
    ensures NoDuplicates(ids) ==> NoDuplicates(Ids(r))
  {
    if ids == [] then []
    else
      var rest := ExtraColumns(knownIds, ids[1..]);
      if ids[0] in knownIds || ids[0] == UnknownId then rest
      else
        assert Ids([Column(ids[0], ids[0])] + rest) == [ids[0]] + Ids(rest);
        [Column(ids[0], ids[0])] + rest
  }

  /**
   * The configured columns, then one per remaining id, then the unknown-type
   * column when the ids hold the unknown id.
   */
  function Assemble(own: seq<Column>, ids: seq<string>, unknownLabel: string): seq<Column> {
    own + ExtraColumns(Ids(own), ids) + (if UnknownId in ids then [Column(UnknownId, unknownLabel)] else [])
  }

  /**
   * `sessionTypeColumns`: the conference's own types, then the types only
   * the dashboard knows, then the unknown-type column. The label of the
   * last one comes from the translation service and is a parameter.
   */
  function SessionTypeColumns(conference: Value, dashboard: Value, unknownLabel: string): seq<Column> {
    Assemble(OwnColumns(conference), CollectedIds(dashboard), unknownLabel)
  }

  /** Every configured column has a non-blank trimmed id and a non-empty label, and every configured type with a non-blank id has its column. */
  lemma OwnColumnsFacts(conference: Value)
    ensures var own := OwnColumns(conference);
      forall k :: 0 <= k < |own| ==> own[k].id != "" && IsTrimmed(own[k].id) && own[k].heading != ""
    ensures forall t :: t in SessionTypes(conference) && OwnColumn(t).Some? ==> OwnColumn(t).value in OwnColumns(conference)
  {
    var types := SessionTypes(conference);
    var own := OwnColumns(conference);
    forall k | 0 <= k < |own|
      ensures own[k].id != "" && IsTrimmed(own[k].id) && own[k].heading != ""
    {
      FilterMapMember(types, OwnColumn, own[k]);
    }
    forall t | t in types && OwnColumn(t).Some?
      ensures OwnColumn(t).value in own
    {
      FilterMapMember(types, OwnColumn, OwnColumn(t).value);
    }
  }

  /** The layout `Assemble` gives, for any configured columns and any distinct ids. */
  lemma AssembleLayout(own: seq<Column>, ids: seq<string>, unknownLabel: string)
    requires NoDuplicates(ids)
    ensures var r := Assemble(own, ids, unknownLabel);
      |r| >= |own| && r[..|own|] == own &&
      (forall k :: |own| <= k < |r| ==> r[k].id in ids) &&
      (forall k :: |own| <= k < |r| && r[k].id != UnknownId ==> r[k].id !in Ids(own) && r[k].heading == r[k].id) &&
      NoDuplicates(Ids(r[|own|..])) &&
      (UnknownId in ids ==> r[|r| - 1] == Column(UnknownId, unknownLabel)) &&
      (UnknownId !in ids ==> forall k :: |own| <= k < |r| ==> r[k].id != UnknownId)
  {
    var extra := ExtraColumns(Ids(own), ids);
    var tail := if UnknownId in ids then [Column(UnknownId, unknownLabel)] else [];
    var r := own + extra + tail;
    assert r[|own|..] == extra + tail;
    forall k | |own| <= k < |r|
      ensures r[k].id in ids
      ensures r[k].id != UnknownId ==> r[k].id !in Ids(own) && r[k].heading == r[k].id
    {
      if k < |own| + |extra| {
        assert r[k] == extra[k - |own|];
      } else {
        assert r[k] == tail[k - |own| - |extra|];
      }
    }
    assert NoDuplicates(Ids(extra + tail)) by {
      var e := Ids(extra + tail);
      forall i, j | 0 <= i < j < |e| ensures e[i] != e[j] {
        if j < |extra| {
          assert e[i] == Ids(extra)[i] && e[j] == Ids(extra)[j];
        } else {
          assert e[j] == UnknownId;
          assert e[i] == extra[i].id;
        }
      }
    }
  }

  /** Every id gets a column, whether configured, remaining or unknown. */
  lemma AssembleCovers(own: seq<Column>, ids: seq<string>, unknownLabel: string, id: string)
    requires id in ids
    ensures id in Ids(Assemble(own, ids, unknownLabel))
  {
    var extra := ExtraColumns(Ids(own), ids);
    var tail := if UnknownId in ids then [Column(UnknownId, unknownLabel)] else [];
    var r := own + extra + tail;
    if id in Ids(own) {
      var k :| 0 <= k < |own| && Ids(own)[k] == id;
      assert r[k] == own[k];
    } else if id == UnknownId {
      assert r[|r| - 1] == Column(UnknownId, unknownLabel);
    } else {
      var k :| 0 <= k < |extra| && Ids(extra)[k] == id;
      assert r[|own| + k] == extra[k];
    }
  }

  /**
   * The layout of the table: the configured columns come first and
   * unchanged; after them come only ids some bucket holds, each once, none
   * of them a configured id; the unknown-type column is appended last
   * exactly when a bucket holds the unknown id.
   */
  lemma ColumnLayout(conference: Value, dashboard: Value, unknownLabel: string)
    ensures var own := OwnColumns(conference);
      var r := SessionTypeColumns(conference, dashboard, unknownLabel);
      |r| >= |own| && r[..|own|] == own &&
      (forall k :: |own| <= k < |r| ==> r[k].id in CollectedIds(dashboard)) &&
      (forall k :: |own| <= k < |r| && r[k].id != UnknownId ==> r[k].id !in Ids(own) && r[k].heading == r[k].id) &&
      NoDuplicates(Ids(r[|own|..])) &&
      (UnknownId in CollectedIds(dashboard) ==> r[|r| - 1] == Column(UnknownId, unknownLabel)) &&
      (UnknownId !in CollectedIds(dashboard) ==> forall k :: |own| <= k < |r| ==> r[k].id != UnknownId)
  {
    AssembleLayout(OwnColumns(conference), CollectedIds(dashboard), unknownLabel);
  }

  /** Every id a bucket holds gets a column. */
  lemma EveryCollectedIdHasColumn(conference: Value, dashboard: Value, unknownLabel: string)
    ensures forall id :: id in CollectedIds(dashboard) ==> id in Ids(SessionTypeColumns(conference, dashboard, unknownLabel))
  {
    forall id | id in CollectedIds(dashboard) ensures id in Ids(SessionTypeColumns(conference, dashboard, unknownLabel)) {
      AssembleCovers(OwnColumns(conference), CollectedIds(dashboard), unknownLabel, id);
    }
  }

  /** A stored key reads back through `Get` only when the bucket lists it. */
  lemma StoredCountIsListed(dashboard: Value, m: Metric, id: string)
    requires Truthy(dashboard)
    requires Get(Bucket(dashboard, m), id).Number?
    ensures id in CollectedIds(dashboard)
  {
    var bucket := Bucket(dashboard, m);
    if id !in Keys(Entries(bucket)) {
      LookupMissing(Entries(bucket), id);
    }
    assert !IsNullish(bucket);
    assert id in BucketKeys(dashboard, m);
    CollectedIdsMember(dashboard, id);
  }

  /** Any session type with a non-zero count has a column to show it in. */
  lemma CountedTypeHasColumn(conference: Value, dashboard: Value, unknownLabel: string, m: Metric, id: string)
    requires DashboardCount(dashboard, m, id) != Finite(0)
    ensures id in Ids(SessionTypeColumns(conference, dashboard, unknownLabel))
  {
    StoredCountIsListed(dashboard, m, id);
    EveryCollectedIdHasColumn(conference, dashboard, unknownLabel);
  }
}

=== FILE: src/docstore.dfy ===
/**
 * An abstract Firestore: every collection is a list of documents in query
 * order with distinct ids, and writes are grouped into batches that are
 * committed one after another.
 */
module DocStore {
  import opened Base
  import opened Json

  /** The collections the Cloud Functions touch. */
  datatype Collection =
    | Conference
    | ConferenceDashboard
    | ConferenceHallConfig
    | ConferenceSecret
    | Session
    | Person
    | PersonEmails
    | ConferenceSpeaker
    | Activity
    | ActivityParticipation
    | SessionAllocation
    | SlotType
    | VoxxrinConfig
    | PlatformConfig

  /** A stored document: its id and its data. */
  datatype Doc = Doc(id: string, data: Value)

  type Store = map<Collection, seq<Doc>>

  datatype Write =
    | Delete(coll: Collection, id: string)
    /** `doc(id).set(data)`: replaces the whole document, creating it if needed. */
    | Set(coll: Collection, id: string, data: Value)

  /** Writes committed together (`db.batch()` ... `commit()`). */
  type Batch = seq<Write>

  function Docs(st: Store, c: Collection): seq<Doc> {
    if c in st then st[c] else []
  }

  predicate IdsUnique(docs: seq<Doc>) {
    forall i, j :: 0 <= i < j < |docs| ==> docs[i].id != docs[j].id
  }

  predicate WellFormed(st: Store) {
    forall c :: c in st ==> IdsUnique(st[c])
  }

  function Find(docs: seq<Doc>, id: string): Option<Value> {
    if docs == [] then None
    else if docs[0].id == id then Some(docs[0].data)
    else Find(docs[1..], id)
  }

  /** `doc(id).get()`: the data of the document, if it exists. */
  function DocAt(st: Store, c: Collection, id: string): Option<Value> {
    Find(Docs(st, c), id)
  }

  /** The documents of a listing that satisfy `p`, in listing order (`where(...).get()`). */
  function Filter(docs: seq<Doc>, p: Value -> bool): (r: seq<Doc>)
    ensures |r| <= |docs|
    ensures forall d :: d in r <==> d in docs && p(d.data)
  {
    if docs == [] then []
    else (if p(docs[0].data) then [docs[0]] else []) + Filter(docs[1..], p)
  }

  function Ids(docs: seq<Doc>): (r: seq<string>)
    ensures |r| == |docs|
    ensures forall i :: 0 <= i < |docs| ==> r[i] == docs[i].id
  {
    if docs == [] then [] else [docs[0].id] + Ids(docs[1..])
  }

  /** `where(field, '==', text)`. */
  predicate FieldEquals(data: Value, field: string, text: string) {
    Get(data, field) == Str(text)
  }

  function Without(docs: seq<Doc>, id: string): (r: seq<Doc>)
    ensures forall d :: d in r <==> d in docs && d.id != id
  {
    if docs == [] then []
    else (if docs[0].id == id then [] else [docs[0]]) + Without(docs[1..], id)
  }

  function Replace(docs: seq<Doc>, id: string, data: Value): seq<Doc> {
    if docs == [] then [Doc(id, data)]
    else if docs[0].id == id then [Doc(id, data)] + Without(docs[1..], id)
    else [docs[0]] + Replace(docs[1..], id, data)
  }

  function ApplyWrite(st: Store, w: Write): Store {
    match w
    case Delete(c, id) => st[c := Without(Docs(st, c), id)]
    case Set(c, id, data) => st[c := Replace(Docs(st, c), id, data)]
  }

  function ApplyBatch(st: Store, b: Batch): Store
    decreases |b|
  {
    if b == [] then st else ApplyBatch(ApplyWrite(st, b[0]), b[1..])
  }

  function ApplyBatches(st: Store, bs: seq<Batch>): Store
    decreases |bs|
  {
    if bs == [] then st else ApplyBatches(ApplyBatch(st, bs[0]), bs[1..])
  }

  /** What one write leaves at document `(c, id)` when it held `before`. */
  function WriteEffect(w: Write, c: Collection, id: string, before: Option<Value>): Option<Value> {
    if w.coll != c || w.id != id then before
    else if w.Delete? then None
    else Some(w.data)
  }

  function BatchEffect(b: Batch, c: Collection, id: string, before: Option<Value>): Option<Value>
    decreases |b|
  {
    if b == [] then before else BatchEffect(b[1..], c, id, WriteEffect(b[0], c, id, before))
  }

  /** In a listing without repeated ids, a document is what its id reads. */
  lemma {:induction false} FindUnique(docs: seq<Doc>, x: Doc)
    requires IdsUnique(docs) && x in docs
    ensures Find(docs, x.id) == Some(x.data)
  {
    if docs[0] != x {
      assert docs[0].id != x.id by {
        var j :| 0 <= j < |docs| && docs[j] == x;
        assert j > 0;
      }
      assert IdsUnique(docs[1..]) by {
        forall i, j | 0 <= i < j < |docs[1..]| ensures docs[1..][i].id != docs[1..][j].id {
          assert docs[1..][i] == docs[i + 1] && docs[1..][j] == docs[j + 1];
        }
      }
      FindUnique(docs[1..], x);
    }
  }

  lemma {:induction false} FindWithout(docs: seq<Doc>, id: string, key: string)
    ensures Find(Without(docs, id), key) == if key == id then None else Find(docs, key)
  {
    if docs != [] {
      FindWithout(docs[1..], id, key);
      var rest := Without(docs[1..], id);
      if docs[0].id != id {
        assert Without(docs, id) == [docs[0]] + rest;
        assert ([docs[0]] + rest)[1..] == rest;
      } else {
        assert Without(docs, id) == rest;
      }
    }
  }

  lemma {:induction false} FindReplace(docs: seq<Doc>, id: string, data: Value, key: string)
    ensures Find(Replace(docs, id, data), key) == if key == id then Some(data) else Find(docs, key)
  {
    if docs != [] {
      if docs[0].id == id {
        FindWithout(docs[1..], id, key);
        assert ([Doc(id, data)] + Without(docs[1..], id))[1..] == Without(docs[1..], id);
      } else {
        FindReplace(docs[1..], id, data, key);
        assert ([docs[0]] + Replace(docs[1..], id, data))[1..] == Replace(docs[1..], id, data);
      }
    }
  }

  /** A write changes exactly the one document it names; every other document reads as before. */
  lemma WriteIsPointwise(st: Store, w: Write, c: Collection, id: string)
    ensures DocAt(ApplyWrite(st, w), c, id) == WriteEffect(w, c, id, DocAt(st, c, id))
  {
    match w
    case Delete(wc, wid) => FindWithout(Docs(st, wc), wid, id);
    case Set(wc, wid, data) => FindReplace(Docs(st, wc), wid, data, id);
  }

  /** A batch acts on each document independently, in write order. */
  lemma {:induction false} BatchIsPointwise(st: Store, b: Batch, c: Collection, id: string)
    ensures DocAt(ApplyBatch(st, b), c, id) == BatchEffect(b, c, id, DocAt(st, c, id))
    decreases |b|
  {
    if b != [] {
      WriteIsPointwise(st, b[0], c, id);
      BatchIsPointwise(ApplyWrite(st, b[0]), b[1..], c, id);
    }
  }

  /** A write to another collection leaves a collection's listing as it was. */
  lemma WriteKeepsOtherCollections(st: Store, w: Write, c: Collection)
    requires w.coll != c
    ensures Docs(ApplyWrite(st, w), c) == Docs(st, c)
  {
  }

  predicate TouchesOnly(b: Batch, cs: set<Collection>) {
    forall i :: 0 <= i < |b| ==> b[i].coll in cs
  }

  /** Collections a batch does not write to keep their listings. */
  lemma {:induction false} BatchKeepsOtherCollections(st: Store, b: Batch, c: Collection)
    requires forall i :: 0 <= i < |b| ==> b[i].coll != c
    ensures Docs(ApplyBatch(st, b), c) == Docs(st, c)
    decreases |b|
  {
    if b != [] {
      BatchKeepsOtherCollections(ApplyWrite(st, b[0]), b[1..], c);
    }
  }

  lemma {:induction false} BatchesKeepOtherCollections(st: Store, bs: seq<Batch>, c: Collection)
    requires forall k, i :: 0 <= k < |bs| && 0 <= i < |bs[k]| ==> bs[k][i].coll != c
    ensures Docs(ApplyBatches(st, bs), c) == Docs(st, c)
    decreases |bs|
  {
    if bs != [] {
      BatchKeepsOtherCollections(st, bs[0], c);
      BatchesKeepOtherCollections(ApplyBatch(st, bs[0]), bs[1..], c);
    }
  }

  /** Committing batches one after another is committing their writes in order. */
  lemma {:induction false} BatchesAreSequential(st: Store, b1: Batch, b2: Batch)
    ensures ApplyBatch(st, b1 + b2) == ApplyBatch(ApplyBatch(st, b1), b2)
    decreases |b1|
  {
    if b1 != [] {
      assert (b1 + b2)[0] == b1[0];
      assert (b1 + b2)[1..] == b1[1..] + b2;
      BatchesAreSequential(ApplyWrite(st, b1[0]), b1[1..], b2);
    } else {
      assert b1 + b2 == b2;
    }
  }

  /** A batch of deletes removes exactly the documents it names. */
  lemma {:induction false} DeletesOnlyEffect(b: Batch, c: Collection, id: string, before: Option<Value>)
    requires forall i :: 0 <= i < |b| ==> b[i].Delete?
    ensures BatchEffect(b, c, id, before) == if Delete(c, id) in b then None else before
    decreases |b|
  {
    if b != [] {
      var after := WriteEffect(b[0], c, id, before);
      DeletesOnlyEffect(b[1..], c, id, after);
      if Delete(c, id) in b[1..] {
        DeletesOnlyEffect(b[1..], c, id, after);
      } else if b[0] == Delete(c, id) {
        DeletesOnlyNone(b[1..], c, id);
      }
    }
  }

  lemma {:induction false} DeletesOnlyNone(b: Batch, c: Collection, id: string)
    requires forall i :: 0 <= i < |b| ==> b[i].Delete?
    ensures BatchEffect(b, c, id, None) == None
    decreases |b|
  {
    if b != [] {
      DeletesOnlyNone(b[1..], c, id);
    }
  }

  /** `where('conferenceId', '==', cid)`. */
  predicate ByConferenceId(cid: string, data: Value) {
    FieldEquals(data, "conferenceId", cid)
  }

  function ConferenceIdQuery(cid: string): Value -> bool {
    (data: Value) => ByConferenceId(cid, data)
  }

  /** The writes of several batches, in commit order. */
  function ConcatBatches(bs: seq<Batch>): Batch {
    if bs == [] then [] else bs[0] + ConcatBatches(bs[1..])
  }

  lemma {:induction false} BatchesAreConcatenated(st: Store, bs: seq<Batch>)
    ensures ApplyBatches(st, bs) == ApplyBatch(st, ConcatBatches(bs))
    decreases |bs|
  {
    if bs != [] {
      BatchesAreConcatenated(ApplyBatch(st, bs[0]), bs[1..]);
      BatchesAreSequential(st, bs[0], ConcatBatches(bs[1..]));
    }
  }

  lemma {:induction false} ApplyBatchesAppend(st: Store, a: seq<Batch>, b: seq<Batch>)
    ensures ApplyBatches(st, a + b) == ApplyBatches(ApplyBatches(st, a), b)
    decreases |a|
  {
    if a != [] {
      assert (a + b)[0] == a[0] && (a + b)[1..] == a[1..] + b;
      ApplyBatchesAppend(ApplyBatch(st, a[0]), a[1..], b);
    } else {
      assert a + b == b;
    }
  }


  /** The first match of a query is the first matching document of the listing. */
  lemma {:induction false} FilterFirst(docs: seq<Doc>, p: Value -> bool, i: nat)
    requires i < |docs| && p(docs[i].data)
    requires forall j :: 0 <= j < i ==> !p(docs[j].data)
    ensures Filter(docs, p) != [] && Filter(docs, p)[0] == docs[i]
  {
    if i > 0 {
      FilterFirst(docs[1..], p, i - 1);
    }
  }
}

=== FILE: src/dupdays.dfy ===
/**
 * The date handling of `duplicateConference`: reading the requested start
 * date, generating the days of the copy, finding the source conference's
 * first day, and moving activity timestamps by whole days while keeping
 * their time-of-day suffix.
 */
module DuplicateDays {
  import opened Base
  import opened Text
  import opened Json
  import opened Calendar
  import opened Sorting

  const InvalidStartDateFormat: string := "Invalid startDate format (expected YYYY-MM-DD)"
  const InvalidStartDate: string := "Invalid startDate"
  const DefaultBeginTime: string := "09:00"
  const DefaultEndTime: string := "18:00"

  // ---------------------------------------------------------------- normalizeDate

  /** `t` holds a `\d{4}-\d{2}-\d{2}` match starting at `i`. */
  predicate DateAt(t: string, i: int) {
    0 <= i <= |t| - 10 && IsDateShape(t[i..i + 10])
  }

  /** The first position at or after `from` where a date pattern starts. */
  function FirstDateAt(t: string, from: nat): (r: Option<nat>)
    ensures r.Some? ==> from <= r.value && DateAt(t, r.value)
    ensures r.Some? ==> forall j :: from <= j < r.value ==> !DateAt(t, j)
    ensures r.None? ==> forall j :: from <= j ==> !DateAt(t, j)
    decreases |t| - from
  {
    if from + 10 > |t| then None
    else if IsDateShape(t[from..from + 10]) then Some(from)
    else FirstDateAt(t, from + 1)
  }

  /**
   * `normalizeDate`: the trimmed text must contain a date pattern somewhere
   * (the pattern is not anchored); the result is its first ten characters.
   */
  function NormalizeDate(value: string): (r: Result<string, HttpError>)
    ensures r.Err? <==> forall i :: !DateAt(Trim(value), i)
    ensures r.Err? ==> r.error == HttpError(400, InvalidStartDateFormat)
    ensures r.Ok? ==> |Trim(value)| >= 10 && r.value == Trim(value)[..10]
  {
    var t := Trim(value);
    if FirstDateAt(t, 0).None? then Err(HttpError(400, InvalidStartDateFormat))
    else Ok(t[..10])
  }

  /** A date text, however padded with white space, normalizes to itself. */
  lemma NormalizeDateOfDate(value: string)
    requires IsDateShape(Trim(value))
    ensures NormalizeDate(value) == Ok(Trim(value))
  {
    var t := Trim(value);
    assert t[0..10] == t;
    assert DateAt(t, 0);
  }

  /** A full timestamp keeps only its date part. */
  lemma NormalizeDateOfTimestamp(value: string)
    requires |Trim(value)| >= 10 && IsDateShape(Trim(value)[..10])
    ensures NormalizeDate(value) == Ok(Trim(value)[..10])
  {
    assert Trim(value)[0..10] == Trim(value)[..10];
    assert DateAt(Trim(value), 0);
  }

  /** The pattern is unanchored: text before the date is kept and the date is cut short. */
  lemma NormalizeDateUnanchored()
    ensures NormalizeDate("x2024-01-01") == Ok("x2024-01-0")
  {
    var t := "x2024-01-01";
    TrimmedIsFixpoint(t);
    var d := t[1..11];
    assert d == "2024-01-01";
    assert d[..4] == "2024" && d[5..7] == "01" && d[8..10] == "01";
    assert IsDateShape(d);
    assert DateAt(t, 1);
    assert Trim(t) == t;
    assert t[..10] == "x2024-01-0";
  }

  // ---------------------------------------------------------------- day order

  /** JavaScript `a - b > 0` on numbers: `NaN` and `Infinity - Infinity` compare as equal. */
  predicate NumGreater(a: Num, b: Num) {
    match a
    case NaN => false
    case NegInfinity => false
    case Infinity => !b.NaN? && !b.Infinity?
    case Finite(x) => b.NegInfinity? || (b.Finite? && x > b.v)
  }

  /** `Number(day?.dayIndex ?? 0)`. */
  function DayKey(day: Value): Num {
    ToNumber(Coalesce(Get(day, "dayIndex"), Number(Finite(0))))
  }

  /** The comparator `(a, b) => aIndex - bIndex`, read as "a may stay before b". */
  function DayOrder(): (Value, Value) -> bool {
    (a: Value, b: Value) => !NumGreater(DayKey(a), DayKey(b))
  }

  /** Without `NaN` keys the comparator is a total preorder, so the sort is well defined. */
  lemma DayOrderIsTotal(days: seq<Value>)
    requires forall i :: 0 <= i < |days| ==> !DayKey(days[i]).NaN?
    ensures TotalPreorderOn(days, DayOrder())
  {
    forall a, b | a in days && b in days
      ensures DayOrder()(a, b) || DayOrder()(b, a)
    {
    }
    forall a, b, c | a in days && b in days && c in days && DayOrder()(a, b) && DayOrder()(b, c)
      ensures DayOrder()(a, c)
    {
    }
  }

  /** The source days sorted by `dayIndex`, keeping ties in listing order. */
  function SortedDays(days: seq<Value>): (r: seq<Value>)
    ensures multiset(r) == multiset(days) && |r| == |days|
  {
    SortBy(days, DayOrder())
  }

  /** The templates are in `dayIndex` order whenever every index is a number. */
  lemma SortedDaysOrdered(days: seq<Value>)
    requires forall i :: 0 <= i < |days| ==> !DayKey(days[i]).NaN?
    ensures SortedBy(SortedDays(days), DayOrder())
  {
    DayOrderIsTotal(days);
    SortByIsSorted(days, DayOrder());
  }

  // ---------------------------------------------------------------- buildDays

  datatype Day = Day(
    id: Value,
    dayIndex: nat,
    date: string,
    beginTime: string,
    endTime: string,
    slots: Value,
    disabledRoomIds: Value)

  /** The stored form of a day, with its properties in the order the source writes them. */
  function DayValue(d: Day): Value {
    Obj([ Member("id", d.id),
          Member("dayIndex", Number(Finite(d.dayIndex))),
          Member("date", Str(d.date)),
          Member("beginTime", Str(d.beginTime)),
          Member("endTime", Str(d.endTime)),
          Member("slots", d.slots),
          Member("disabledRoomIds", d.disabledRoomIds) ])
  }

  /** `String(own ?? fallback ?? default)`: the first of the three that is present. */
  function TimeOr(own: Value, fallback: Value, default: string): (r: string)
    ensures !IsNullish(own) ==> r == ToText(own)
    ensures IsNullish(own) && !IsNullish(fallback) ==> r == ToText(fallback)
    ensures IsNullish(own) && IsNullish(fallback) ==> r == default
  {
    ToText(Coalesce(own, Coalesce(fallback, Str(default))))
  }

  /** `planning ? (own ?? []) : []`. */
  function CopiedList(own: Value, planning: bool): (r: Value)
    ensures !planning ==> r == Arr([])
    ensures planning && !IsNullish(own) ==> r == own
    ensures r.Arr? || r == own
  {
    if planning then Coalesce(own, Arr([])) else Arr([])
  }

  /** Day `i` of the copy, made from its template and the start day number. */
  function MakeDay(template: Value, i: nat, start: int, planning: bool, fallbackBegin: Value, fallbackEnd: Value): (d: Day)
    ensures d.dayIndex == i
    ensures d.date == FormatDate(FromDayNumber(start + i))
    ensures d.id == Coalesce(Get(template, "id"), Str("d" + NatToString(i + 1)))
    ensures d.beginTime == TimeOr(Get(template, "beginTime"), fallbackBegin, DefaultBeginTime)
    ensures d.endTime == TimeOr(Get(template, "endTime"), fallbackEnd, DefaultEndTime)
    ensures d.slots == CopiedList(Get(template, "slots"), planning)
    ensures d.disabledRoomIds == CopiedList(Get(template, "disabledRoomIds"), planning)
  {
    Day(
      Coalesce(Get(template, "id"), Str("d" + NatToString(i + 1))),
      i,
      FormatDate(FromDayNumber(start + i)),
      TimeOr(Get(template, "beginTime"), fallbackBegin, DefaultBeginTime),
      TimeOr(Get(template, "endTime"), fallbackEnd, DefaultEndTime),
      CopiedList(Get(template, "slots"), planning),
      CopiedList(Get(template, "disabledRoomIds"), planning))
  }

  /**
   * `buildDays`: one day per source day, on consecutive dates from
   * `startDate`, each taking its times and id from the source day at the
   * same position in `dayIndex` order. With no source days the start date is
   * not even read.
   */
  function BuildDays(sourceDays: seq<Value>, startDate: string, planning: bool, fallbackBegin: Value, fallbackEnd: Value)
    : (r: Result<seq<Day>, HttpError>)
    ensures r.Err? <==> sourceDays != [] && ParseLocalDate(startDate).None?
    ensures r.Err? ==> r.error == HttpError(400, InvalidStartDate)
    ensures r.Ok? ==> |r.value| == |sourceDays|
    ensures r.Ok? ==> forall i :: 0 <= i < |r.value| ==>
      r.value[i] == MakeDay(Coalesce(SortedDays(sourceDays)[i], Obj([])), i, ParseLocalDate(startDate).value, planning, fallbackBegin, fallbackEnd)
  {
    if |sourceDays| == 0 then Ok([])
    else
      match ParseLocalDate(startDate)
      case None => Err(HttpError(400, InvalidStartDate))
      case Some(start) =>
        var sorted := SortedDays(sourceDays);
        Ok(seq(|sourceDays|, i requires 0 <= i < |sourceDays| =>
          MakeDay(Coalesce(sorted[i], Obj([])), i, start, planning, fallbackBegin, fallbackEnd)))
  }

  /** Each generated day lies exactly `i` days after the requested start date. */
  lemma BuildDaysDates(sourceDays: seq<Value>, startDate: string, planning: bool, fallbackBegin: Value, fallbackEnd: Value, start: int, i: nat)
    requires ParseLocalDate(startDate) == Some(start)
    requires i < |sourceDays| && 1000 <= FromDayNumber(start + i).year <= 9999
    ensures BuildDays(sourceDays, startDate, planning, fallbackBegin, fallbackEnd).Ok?
    ensures var days := BuildDays(sourceDays, startDate, planning, fallbackBegin, fallbackEnd).value;
      days[i].dayIndex == i && DiffDaysText(days[i].date, startDate) == Finite(i)
  {
    FormatDayNumberRoundTrip(start + i);
  }

  /** The first generated day carries the requested start date itself. */
  lemma BuildDaysStartsOnStartDate(sourceDays: seq<Value>, startDate: string, planning: bool, fallbackBegin: Value, fallbackEnd: Value)
    requires sourceDays != [] && ParseIsoDate(startDate).Some? && 1000 <= ParseIsoDate(startDate).value.year
    ensures BuildDays(sourceDays, startDate, planning, fallbackBegin, fallbackEnd).Ok?
    ensures BuildDays(sourceDays, startDate, planning, fallbackBegin, fallbackEnd).value[0].date == startDate
  {
    var d := ParseIsoDate(startDate).value;
    ParseLocalDateOfValid(startDate);
    DayNumberRoundTrip(d);
    FormatOfDateText(startDate);
  }

  /** Without the planning structure no slot and no disabled room is copied. */
  lemma BuildDaysWithoutPlanning(sourceDays: seq<Value>, startDate: string, fallbackBegin: Value, fallbackEnd: Value)
    requires BuildDays(sourceDays, startDate, false, fallbackBegin, fallbackEnd).Ok?
    ensures forall d | d in BuildDays(sourceDays, startDate, false, fallbackBegin, fallbackEnd).value ::
      d.slots == Arr([]) && d.disabledRoomIds == Arr([])
  {
  }

  // ---------------------------------------------------------------- diffDays

  /**
   * `diffDays`: whole days from `source` to `target` (the rounded difference
   * of two local midnights), `NaN` when either text is not a date.
   */
  function DiffDaysText(target: string, source: string): (r: Num)
    ensures r.Finite? <==> ParseLocalDate(target).Some? && ParseLocalDate(source).Some?
    ensures r.Finite? ==> ParseLocalDate(source).value + r.v == ParseLocalDate(target).value
    ensures !r.Finite? ==> r == NaN
  {
    match (ParseLocalDate(target), ParseLocalDate(source))
    case (Some(t), Some(s)) => Finite(t - s)
    case _ => NaN
  }

  /** On real dates the text difference is the calendar difference. */
  lemma DiffDaysOfDates(target: Date, source: Date)
    requires Valid(target) && 1000 <= target.year <= 9999
    requires Valid(source) && 1000 <= source.year <= 9999
    ensures DiffDaysText(FormatDate(target), FormatDate(source)) == Finite(DiffDays(target, source))
  {
    FormatThenParse(target);
    FormatThenParse(source);
    ParseLocalDateOfValid(FormatDate(target));
    ParseLocalDateOfValid(FormatDate(source));
  }

  /** Swapping the two dates negates the difference. */
  lemma DiffDaysAntisymmetric(a: string, b: string)
    ensures DiffDaysText(a, b).Finite? <==> DiffDaysText(b, a).Finite?
    ensures DiffDaysText(a, b).Finite? ==> DiffDaysText(b, a).v == -DiffDaysText(a, b).v
  {
  }

  // ---------------------------------------------------------------- getConferenceStartDate

  /** `String(day?.date ?? '').trim()`. */
  function DayDateText(day: Value): string {
    Trim(TextOr(Get(day, "date")))
  }

  /** The texts of a list that have the `YYYY-MM-DD` shape, in list order. */
  function DateShaped(ts: seq<string>): (r: seq<string>)
    ensures forall t :: t in r <==> t in ts && IsDateShape(t)
  {
    if ts == [] then []
    else (if IsDateShape(ts[0]) then [ts[0]] else []) + DateShaped(ts[1..])
  }

  function DayDateTexts(days: seq<Value>): (r: seq<string>)
    ensures |r| == |days| && forall i :: 0 <= i < |days| ==> r[i] == DayDateText(days[i])
  {
    seq(|days|, i requires 0 <= i < |days| => DayDateText(days[i]))
  }

  /**
   * `getConferenceStartDate`: the first of the well-shaped day dates in the
   * order of the default `sort()`, or `None` (`null`) when no day has one.
   */
  function ConferenceStartDate(days: seq<Value>): (r: Option<string>)
    ensures r.Some? <==> exists i :: 0 <= i < |days| && IsDateShape(DayDateText(days[i]))
    ensures r.Some? ==> IsDateShape(r.value) && exists i :: 0 <= i < |days| && r.value == DayDateText(days[i])
  {
    var ts := DayDateTexts(days);
    var shaped := DateShaped(ts);
    if shaped == [] then
      assert forall i :: 0 <= i < |days| ==> ts[i] in ts;
      None
    else
      var m := Min(shaped, TextOrder());
      assert m in ts;
      Some(m)
  }

  /** The start date comes first in text order, hence (for real dates) first in time. */
  lemma StartDateIsEarliest(days: seq<Value>)
    ensures forall i :: 0 <= i < |days| && IsDateShape(DayDateText(days[i])) ==>
      && ConferenceStartDate(days).Some?
      && TextLe(ConferenceStartDate(days).value, DayDateText(days[i]))
      && (ParseIsoDate(ConferenceStartDate(days).value).Some? && ParseIsoDate(DayDateText(days[i])).Some? ==>
           ToDayNumber(ParseIsoDate(ConferenceStartDate(days).value).value) <= ToDayNumber(ParseIsoDate(DayDateText(days[i])).value))
  {
    var ts := DayDateTexts(days);
    var shaped := DateShaped(ts);
    forall i | 0 <= i < |days| && IsDateShape(DayDateText(days[i]))
      ensures ConferenceStartDate(days).Some?
      ensures TextLe(ConferenceStartDate(days).value, DayDateText(days[i]))
      ensures ParseIsoDate(ConferenceStartDate(days).value).Some? && ParseIsoDate(DayDateText(days[i])).Some? ==>
        ToDayNumber(ParseIsoDate(ConferenceStartDate(days).value).value) <= ToDayNumber(ParseIsoDate(DayDateText(days[i])).value)
    {
      assert ts[i] in shaped;
      TextOrderIsTotal(shaped);
      MinIsLeast(shaped, TextOrder());
      var m := Min(shaped, TextOrder());
      var k :| 0 <= k < |shaped| && shaped[k] == ts[i];
      assert TextLe(m, ts[i]);
      DateTextOrder(m, ts[i]);
      if ParseIsoDate(m).Some? && ParseIsoDate(ts[i]).Some? {
        DayNumberMonotone(DateFields(m), DateFields(ts[i]));
      }
    }
  }

  /** `sourceStartDate ? diffDays(targetStart, sourceStartDate) : 0`. */
  function DayOffset(targetStart: string, sourceDays: seq<Value>): (r: Num)
    ensures ConferenceStartDate(sourceDays).None? ==> r == Finite(0)
    ensures ConferenceStartDate(sourceDays).Some? ==> r == DiffDaysText(targetStart, ConferenceStartDate(sourceDays).value)
  {
    match ConferenceStartDate(sourceDays)
    case None => Finite(0)
    case Some(s) => DiffDaysText(targetStart, s)
  }

  // ---------------------------------------------------------------- shiftLocalDateTime

  /** Characters `.` does not match in a JavaScript pattern. */
  predicate IsLineTerminator(c: char) {
    c == '\n' || c == '\r' || c == '\U{2028}' || c == '\U{2029}'
  }

  predicate OnOneLine(s: string) {
    forall i :: 0 <= i < |s| ==> !IsLineTerminator(s[i])
  }

  /** The text matches `^(\d{4}-\d{2}-\d{2})(T.*)$`. */
  predicate IsLocalDateTime(v: string) {
    |v| >= 11 && IsDateShape(v[..10]) && v[10] == 'T' && OnOneLine(v[11..])
  }

  /** `formatDate(addDays(base, offset))` for the midnight of day `n`; a non-finite offset gives an invalid date. */
  function MovedDate(n: int, offset: Num): string {
    if offset.Finite? then FormatDate(FromDayNumber(n + offset.v)) else "NaN-NaN-NaN"
  }

  /**
   * `shiftLocalDateTime` as written: an empty text, a zero offset, another
   * shape or an impossible date is returned untouched; a `NaN` offset
   * renders the date as `NaN-NaN-NaN`.
   */
  function ShiftLocalDateTimeAsWritten(value: string, offset: Num): (r: string)
    ensures r != value ==> IsLocalDateTime(value) && ParseLocalDate(value[..10]).Some? && offset != Finite(0)
  {
    if value == [] || offset == Finite(0) then value
    else if !IsLocalDateTime(value) then value
    else
      match ParseLocalDate(value[..10])
      case None => value
      case Some(n) => MovedDate(n, offset) + value[10..]
  }

  /**
   * `shiftLocalDateTime` with the evident intent for an offset that could not
   * be computed: like an unreadable date, it leaves the text untouched.
   * Otherwise the date part moves by `offset` days and the `T...` rest is
   * copied as it is.
   */
  function ShiftLocalDateTime(value: string, offset: Num): (r: string)
    ensures r != value ==> IsLocalDateTime(value) && ParseLocalDate(value[..10]).Some? && offset.Finite? && offset.v != 0
    ensures offset.Finite? ==> r == ShiftLocalDateTimeAsWritten(value, offset)
  {
    if !offset.Finite? then value else ShiftLocalDateTimeAsWritten(value, offset)
  }

  /** A date followed by the rest of a timestamp is a timestamp. */
  lemma DateThenRest(f: string, value: string)
    requires IsDateShape(f) && IsLocalDateTime(value)
    ensures IsLocalDateTime(f + value[10..]) && (f + value[10..])[..10] == f && (f + value[10..])[10..] == value[10..]
  {
    var r := f + value[10..];
    assert r[..10] == f;
    assert r[10..] == value[10..];
    assert r[11..] == value[11..];
  }

  lemma MovedDateFinite(n: int, offset: Num)
    requires offset.Finite?
    ensures MovedDate(n, offset) == FormatDate(FromDayNumber(n + offset.v))
  {
  }

  /** A moved date of a four-digit year is a date text that reads back as its day number. */
  lemma MovedDateParses(n: int, offset: Num)
    requires offset.Finite? && 1000 <= FromDayNumber(n + offset.v).year <= 9999
    ensures IsDateShape(MovedDate(n, offset)) && ParseLocalDate(MovedDate(n, offset)) == Some(n + offset.v)
  {
    MovedDateFinite(n, offset);
    FormatDayNumberRoundTrip(n + offset.v);
  }

  lemma ShiftUnfolds(value: string, n: int, offset: Num)
    requires IsLocalDateTime(value) && ParseLocalDate(value[..10]) == Some(n)
    requires offset.Finite? && offset.v != 0
    ensures ShiftLocalDateTime(value, offset) == MovedDate(n, offset) + value[10..]
  {
  }

  /** A shifted timestamp is a timestamp again, `k` days later, with the same rest. */
  lemma ShiftMovesDate(value: string, n: int, k: int)
    requires IsLocalDateTime(value) && ParseLocalDate(value[..10]) == Some(n)
    requires 1000 <= FromDayNumber(n + k).year <= 9999
    ensures IsLocalDateTime(ShiftLocalDateTime(value, Finite(k)))
    ensures ParseLocalDate(ShiftLocalDateTime(value, Finite(k))[..10]) == Some(n + k)
    ensures ShiftLocalDateTime(value, Finite(k))[10..] == value[10..]
  {
    if k != 0 {
      MovedDateParses(n, Finite(k));
      ShiftUnfolds(value, n, Finite(k));
      DateThenRest(MovedDate(n, Finite(k)), value);
    }
  }

  /** Moving a real date forward and back again restores the timestamp. */
  lemma ShiftRoundTrip(value: string, d: Date, k: int)
    requires IsLocalDateTime(value) && ParseIsoDate(value[..10]) == Some(d) && 1000 <= d.year
    requires 1000 <= FromDayNumber(ToDayNumber(d) + k).year <= 9999
    ensures ShiftLocalDateTime(ShiftLocalDateTime(value, Finite(k)), Finite(-k)) == value
  {
    if k != 0 {
      var n := ToDayNumber(d);
      ParseLocalDateOfValid(value[..10]);
      ShiftMovesDate(value, n, k);
      DateTextOfDayNumber(value[..10], d);
      MovedBack(n, k);
      ShiftBackFrom(ShiftLocalDateTime(value, Finite(k)), value, n, k);
    }
  }

  /** A timestamp of day `n + k` moved back by `k` days gives `value`, when `value`'s date is the text of day `n` and the rests agree. */
  lemma ShiftBackFrom(r: string, value: string, n: int, k: int)
    requires |value| >= 10 && MovedDate(n + k, Finite(-k)) == value[..10]
    requires IsLocalDateTime(r) && ParseLocalDate(r[..10]) == Some(n + k) && r[10..] == value[10..] && k != 0
    ensures ShiftLocalDateTime(r, Finite(-k)) == value
  {
    var m := n + k;
    ShiftBack(r, value, m, k);
  }

  /** Moving a timestamp of day `m` back by `k` days gives `value` when the moved date is `value`'s date and the rest is `value`'s rest. */
  lemma ShiftBack(r: string, value: string, m: int, k: int)
    requires |value| >= 10 && MovedDate(m, Finite(-k)) == value[..10]
    requires IsLocalDateTime(r) && ParseLocalDate(r[..10]) == Some(m) && r[10..] == value[10..] && k != 0
    ensures ShiftLocalDateTime(r, Finite(-k)) == value
  {
    ShiftUnfolds(r, m, Finite(-k));
    DatePartThenRest(value, MovedDate(m, Finite(-k)), r[10..]);
  }

  /** A text's first ten characters followed by the rest give the text back. */
  lemma DatePartThenRest(value: string, date: string, rest: string)
    requires |value| >= 10 && date == value[..10] && rest == value[10..]
    ensures date + rest == value
  {
  }

  /** Moving day `n + k` back by `k` days writes day `n`. */
  lemma MovedBack(n: int, k: int)
    ensures MovedDate(n + k, Finite(-k)) == FormatDate(FromDayNumber(n))
  {
    BackAgain(n, k);
    MovedBy(n, k);
  }

  /** Moving day `n + k` by `-k` writes the text of day `n + k - k`. */
  lemma MovedBy(n: int, k: int)
    ensures MovedDate(n + k, Finite(-k)) == FormatDate(FromDayNumber(n + k + Finite(-k).v))
  {
  }

  /** Day `n + k - k` is day `n`. */
  lemma BackAgain(n: int, k: int)
    ensures FromDayNumber(n + k + Finite(-k).v) == FromDayNumber(n)
  {
  }

  /** A real date of a four-digit year is the text of its own day number. */
  lemma DateTextOfDayNumber(s: string, d: Date)
    requires ParseIsoDate(s) == Some(d) && 1000 <= d.year
    ensures FormatDate(FromDayNumber(ToDayNumber(d))) == s
  {
    DayNumberRoundTrip(d);
    FormatOfDateText(s);
  }

  /** As written, a `NaN` offset overwrites the date of every timestamp. */
  lemma ShiftWithNaNOffset()
    ensures ShiftLocalDateTimeAsWritten("2024-05-02T09:30", NaN) == "NaN-NaN-NaN" + "T09:30"
    ensures ShiftLocalDateTime("2024-05-02T09:30", NaN) == "2024-05-02T09:30"
  {
    var v := "2024-05-02T09:30";
    assert v[..10] == "2024-05-02";
    assert v[..10][..4] == "2024" && v[..10][5..7] == "05" && v[..10][8..10] == "02";
    assert DigitsValue("05") == 5 && DigitsValue("02") == 2;
    assert IsLocalDateTime(v);
    assert ParseLocalDate(v[..10]).Some?;
    assert v[10..] == "T09:30";
  }

  /** A well-shaped day text that is not a date makes the offset `NaN`. */
  lemma OffsetFromImpossibleDay()
    ensures DayOffset("2025-03-10", [Obj([Member("date", Str("2024-13-01"))])]) == NaN
  {
    var day := Obj([Member("date", Str("2024-13-01"))]);
    var t := "2024-13-01";
    assert Get(day, "date") == Str(t);
    TrimmedIsFixpoint(t);
    assert DayDateText(day) == t;
    assert t[..4] == "2024" && t[5..7] == "13" && t[8..10] == "01";
    assert DigitsValue("13") == 13;
    assert IsDateShape(t);
    assert ConferenceStartDate([day]) == Some(t);
    assert ParseLocalDate(t).None?;
  }
}

=== FILE: src/duplicate.dfy ===
/**
 * The `duplicateConference` handler: payload validation, the name+edition
 * conflict rule, the new conference document, the copies of the Conference
 * Hall and Voxxrin configs, the single-conference setting switch and the
 * activity clones, in the order the handler commits them.
 */
module Duplicate {
  import opened Base
  import opened Text
  import opened Json
  import opened Calendar
  import opened Chunking
  import opened DocStore
  import opened DuplicateDays

  const MissingName: string := "Missing conference name"
  const MissingEdition: string := "Missing conference edition"
  const MissingStartDate: string := "Missing conference startDate"
  const NameEditionTaken: string := "Conference name and edition already exist"
  const PlanningNeedsRooms: string := "Planning structure requires rooms to be duplicated"
  const PlatformConfigDocId: string := "PlatformConfig"

  /** Activities are cloned in chunks of half the batch limit. */
  const ActivityChunkSize: nat := BatchSafeLimit / 2

  // ---------------------------------------------------------------- parsePayload

  /** `DuplicateConferenceRequest`. */
  datatype Payload = Payload(
    conferenceId: string,
    name: string,
    edition: int,
    startDate: string,
    duplicateRooms: bool,
    duplicateTracks: bool,
    duplicatePlanningStructure: bool,
    duplicateActivities: bool,
    duplicateSponsors: bool)

  /** `String(body?.[field] ?? '').trim()`. */
  function FieldText(body: Value, field: string): string {
    Trim(TextOr(Get(body, field)))
  }

  /**
   * `parsePayload`: the name, the edition and the start date are checked in
   * that order; the switches are read for their truthiness.
   */
  function ParsePayload(body: Value): (r: Result<Payload, HttpError>)
    ensures r.Ok? <==> FieldText(body, "name") != [] && ToNumber(Get(body, "edition")).Finite? && FieldText(body, "startDate") != []
    ensures FieldText(body, "name") == [] ==> r == Err(HttpError(400, MissingName))
    ensures FieldText(body, "name") != [] && !ToNumber(Get(body, "edition")).Finite? ==> r == Err(HttpError(400, MissingEdition))
    ensures FieldText(body, "name") != [] && ToNumber(Get(body, "edition")).Finite? && FieldText(body, "startDate") == []
      ==> r == Err(HttpError(400, MissingStartDate))
    ensures r.Ok? ==> (r.value.name == FieldText(body, "name") && Finite(r.value.edition) == ToNumber(Get(body, "edition"))
                       && r.value.startDate == FieldText(body, "startDate") && r.value.conferenceId == FieldText(body, "conferenceId"))
    ensures r.Ok? ==> (r.value.duplicateRooms == Truthy(Get(body, "duplicateRooms"))
                       && r.value.duplicateTracks == Truthy(Get(body, "duplicateTracks"))
                       && r.value.duplicatePlanningStructure == Truthy(Get(body, "duplicatePlanningStructure"))
                       && r.value.duplicateActivities == Truthy(Get(body, "duplicateActivities"))
                       && r.value.duplicateSponsors == Truthy(Get(body, "duplicateSponsors")))
  {
    var name := FieldText(body, "name");
    var edition := ToNumber(Get(body, "edition"));
    var startDate := FieldText(body, "startDate");
    if name == [] then Err(HttpError(400, MissingName))
    else if !edition.Finite? then Err(HttpError(400, MissingEdition))
    else if startDate == [] then Err(HttpError(400, MissingStartDate))
    else Ok(Payload(
      FieldText(body, "conferenceId"), name, edition.v, startDate,
      Truthy(Get(body, "duplicateRooms")),
      Truthy(Get(body, "duplicateTracks")),
      Truthy(Get(body, "duplicatePlanningStructure")),
      Truthy(Get(body, "duplicateActivities")),
      Truthy(Get(body, "duplicateSponsors"))))
  }

  /** An accepted name and start date are non-blank and already trimmed. */
  lemma ParsedPayloadIsTrimmed(body: Value)
    ensures ParsePayload(body).Ok? ==> var p := ParsePayload(body).value;
      p.name != [] && Trim(p.name) == p.name && p.startDate != [] && Trim(p.startDate) == p.startDate
  {
    TrimIdempotent(TextOr(Get(body, "name")));
    TrimIdempotent(TextOr(Get(body, "startDate")));
  }

  // ---------------------------------------------------------------- ensureConferenceNameEditionAvailable

  /** `Number(data?.edition) === edition`. */
  predicate SameEdition(data: Value, edition: Num) {
    ToNumber(Get(data, "edition")).StrictEquals(edition)
  }

  /** `snap.docs.some(...)` over the documents the name query returned. */
  function AnySameEdition(docs: seq<Doc>, edition: Num): (r: bool)
    ensures r <==> exists d :: d in docs && SameEdition(d.data, edition)
  {
    if docs == [] then false
    else SameEdition(docs[0].data, edition) || AnySameEdition(docs[1..], edition)
  }

  /** `where('name', '==', name)`. */
  function NameQuery(name: string): Value -> bool {
    (data: Value) => FieldEquals(data, "name", name)
  }

  /**
   * `ensureConferenceNameEditionAvailable`: a conference already stored
   * under the trimmed name with a numerically equal edition is a conflict;
   * a blank name or a non-finite edition is not checked at all.
   */
  function NameEditionCheck(st: Store, name: string, edition: Num): (r: Option<HttpError>)
    ensures r.Some? <==> (Trim(name) != [] && edition.Finite? &&
                          exists d :: d in Docs(st, Conference) && FieldEquals(d.data, "name", Trim(name)) && ToNumber(Get(d.data, "edition")) == edition)
    ensures r.Some? ==> r.value == HttpError(409, NameEditionTaken)
  {
    var normalized := Trim(name);
    if normalized == [] || !edition.Finite? then None
    else
      var matches := Filter(Docs(st, Conference), NameQuery(normalized));
      if AnySameEdition(matches, edition) then Some(HttpError(409, NameEditionTaken)) else None
  }

  /** Editions compare as numbers: one stored as the text "2024" clashes with 2024. */
  lemma EditionStoredAsText(st: Store, name: string)
    requires Trim(name) == name && name != []
    requires Doc("c1", Obj([Member("name", Str(name)), Member("edition", Str("2024"))])) in Docs(st, Conference)
    ensures NameEditionCheck(st, name, Finite(2024)) == Some(HttpError(409, NameEditionTaken))
  {
    var data := Obj([Member("name", Str(name)), Member("edition", Str("2024"))]);
    EditionText(data, name);
    assert FieldEquals(data, "name", Trim(name));
  }

  lemma EditionText(data: Value, name: string)
    requires data == Obj([Member("name", Str(name)), Member("edition", Str("2024"))])
    ensures Get(data, "name") == Str(name) && ToNumber(Get(data, "edition")) == Finite(2024)
  {
    var tail := [Member("edition", Str("2024"))];
    assert data.members[1..] == tail;
    assert "name" != "edition";
    assert Lookup(data.members, "edition") == Lookup(tail, "edition");
    assert Trim("2024") == "2024" by {
      TrimmedIsFixpoint("2024");
    }
    assert "2024"[..3] == "202" && "202"[..2] == "20" && "20"[..1] == "2" && "2"[..0] == [];
    assert DigitsValue("2024") == 2024;
  }

  // ---------------------------------------------------------------- the new conference document

  /** `Array.isArray(source.days) ? source.days : []`. */
  function SourceDays(source: Value): seq<Value> {
    var days := Get(source, "days");
    if days.Arr? then days.items else []
  }

  /** `sourceDays[0] ?? {}`. */
  function FirstDayTemplate(days: seq<Value>): Value {
    Coalesce(if days == [] then Undefined else days[0], Obj([]))
  }

  function DayValues(days: seq<Day>): (r: seq<Value>)
    ensures |r| == |days| && forall i :: 0 <= i < |days| ==> r[i] == DayValue(days[i])
  {
    seq(|days|, i requires 0 <= i < |days| => DayValue(days[i]))
  }

  /** The properties the handler writes over the source conference's own. */
  function ConferenceOverrides(source: Value, p: Payload, newId: string, stamp: string, days: seq<Day>): seq<Member> {
    [ Member("id", Str(newId)),
      Member("lastUpdated", Str(stamp)),
      Member("name", Str(Trim(p.name))),
      Member("edition", Number(Finite(p.edition))),
      Member("rooms", if p.duplicateRooms then Coalesce(Get(source, "rooms"), Arr([])) else Arr([])),
      Member("tracks", if p.duplicateTracks then Coalesce(Get(source, "tracks"), Arr([])) else Arr([])),
      Member("days", Arr(DayValues(days))),
      Member("sponsoring", if p.duplicateSponsors then Coalesce(Get(source, "sponsoring"), Undefined) else Undefined) ]
  }

  /** `sanitizeUndefined({...source, id, lastUpdated, name, edition, rooms, tracks, days, sponsoring})`. */
  function NewConference(source: Value, p: Payload, newId: string, stamp: string, days: seq<Day>): Value {
    SanitizeUndefined(Literal(Spread(source) + ConferenceOverrides(source, p, newId, stamp, days)))
  }

  /** The fields the new conference sets itself, each once. */
  lemma ConferenceOverrideKeys(source: Value, p: Payload, newId: string, stamp: string, days: seq<Day>)
    ensures Keys(ConferenceOverrides(source, p, newId, stamp, days)) == ConferenceKeys
    ensures UniqueKeys(ConferenceOverrides(source, p, newId, stamp, days))
  {
    assert Keys(ConferenceOverrides(source, p, newId, stamp, days)) == ConferenceKeys;
    DistinctNames(ConferenceKeys);
    UniqueKeysOfNames(ConferenceOverrides(source, p, newId, stamp, days), ConferenceKeys);
  }

  /** The names the new conference, a clone and a copied config set themselves. */
  const ConferenceKeys: seq<string> := ["id", "lastUpdated", "name", "edition", "rooms", "tracks", "days", "sponsoring"]
  const CloneKeys: seq<string> := ["id", "conferenceId", "start", "end", "slotId", "lastUpdated"]
  const ConfigKeys: seq<string> := ["id", "conferenceId", "lastUpdated"]

  /** The override names of the conference, a clone and a config are each listed once. */
  lemma DistinctNames(names: seq<string>)
    requires names == ConferenceKeys || names == CloneKeys || names == ConfigKeys
    ensures forall i, j :: 0 <= i < j < |names| ==> names[i] != names[j]
  {
  }

  /** An override listed once is what the sanitized literal holds under its key. */
  lemma OverrideGet(base: seq<Member>, o: seq<Member>, i: nat)
    requires i < |o| && UniqueKeys(o)
    ensures Get(SanitizeUndefined(Literal(base + o)), o[i].key) == SanitizeUndefined(o[i].value)
  {
    SanitizedGet(Literal(base + o).members, o[i].key);
    LiteralOverride(base, o, i);
  }

  /** A property no override names keeps the spread object's value, sanitized. */
  lemma SpreadGet(v: Value, o: seq<Member>, key: string)
    requires v.Obj? && UniqueKeys(v.members) && key !in Keys(o)
    ensures Get(SanitizeUndefined(Literal(Spread(v) + o)), key) == SanitizeUndefined(Get(v, key))
  {
    SanitizedGet(Literal(Spread(v) + o).members, key);
    LiteralSpread(v, o, key);
  }

  /**
   * The stored conference: new id, stamp, trimmed name and edition; rooms and
   * tracks only when asked for; the generated days; sponsoring only when
   * asked for.
   */
  lemma NewConferenceFields(source: Value, p: Payload, newId: string, stamp: string, days: seq<Day>)
    ensures var c := NewConference(source, p, newId, stamp, days);
      && Get(c, "id") == Str(newId)
      && Get(c, "lastUpdated") == Str(stamp)
      && Get(c, "name") == Str(Trim(p.name))
      && Get(c, "edition") == Number(Finite(p.edition))
      && Get(c, "rooms") == (if p.duplicateRooms then SanitizeUndefined(Coalesce(Get(source, "rooms"), Arr([]))) else Arr([]))
      && Get(c, "tracks") == (if p.duplicateTracks then SanitizeUndefined(Coalesce(Get(source, "tracks"), Arr([]))) else Arr([]))
      && Get(c, "days") == SanitizeUndefined(Arr(DayValues(days)))
      && (!p.duplicateSponsors ==> Get(c, "sponsoring") == Undefined)
      && (p.duplicateSponsors ==> Get(c, "sponsoring") == SanitizeUndefined(Coalesce(Get(source, "sponsoring"), Undefined)))
  {
    var o := ConferenceOverrides(source, p, newId, stamp, days);
    var base := Spread(source);
    ConferenceOverrideKeys(source, p, newId, stamp, days);
    OverrideGet(base, o, 0);
    OverrideGet(base, o, 1);
    OverrideGet(base, o, 2);
    OverrideGet(base, o, 3);
    OverrideGet(base, o, 4);
    OverrideGet(base, o, 5);
    OverrideGet(base, o, 6);
    OverrideGet(base, o, 7);
  }

  /** Every other property of the source conference is carried over. */
  lemma NewConferenceKeepsSource(source: Value, p: Payload, newId: string, stamp: string, days: seq<Day>, key: string)
    requires source.Obj? && UniqueKeys(source.members)
    requires key !in ["id", "lastUpdated", "name", "edition", "rooms", "tracks", "days", "sponsoring"]
    ensures Get(NewConference(source, p, newId, stamp, days), key) == SanitizeUndefined(Get(source, key))
  {
    var o := ConferenceOverrides(source, p, newId, stamp, days);
    ConferenceOverrideKeys(source, p, newId, stamp, days);
    SpreadGet(source, o, key);
  }

  // ---------------------------------------------------------------- config copies

  /**
   * `loadConfigByConferenceIdOrDocId`: a document whose `conferenceId` field
   * is `cid` if there is one, else the document with id `cid` if it exists.
   */
  function LoadConfig(st: Store, c: Collection, cid: string): (r: Option<Doc>)
    ensures (exists d :: d in Docs(st, c) && ByConferenceId(cid, d.data)) ==>
              r.Some? && r.value in Docs(st, c) && ByConferenceId(cid, r.value.data)
    ensures (forall d :: d in Docs(st, c) ==> !ByConferenceId(cid, d.data)) ==>
              (r.Some? <==> DocAt(st, c, cid).Some?) && (r.Some? ==> r.value == Doc(cid, DocAt(st, c, cid).value))
  {
    var byConferenceId := Filter(Docs(st, c), ConferenceIdQuery(cid));
    if byConferenceId != [] then Some(byConferenceId[0])
    else
      match DocAt(st, c, cid)
      case None => None
      case Some(data) => Some(Doc(cid, data))
  }

  /** Of several matches, the query's first one (in listing order) is taken. */
  lemma LoadConfigFirst(st: Store, c: Collection, cid: string, i: nat)
    requires i < |Docs(st, c)| && ByConferenceId(cid, Docs(st, c)[i].data)
    requires forall j :: 0 <= j < i ==> !ByConferenceId(cid, Docs(st, c)[j].data)
    ensures LoadConfig(st, c, cid) == Some(Docs(st, c)[i])
  {
    FilterFirst(Docs(st, c), ConferenceIdQuery(cid), i);
  }

  function ConfigOverrides(target: string, stamp: string): seq<Member> {
    [ Member("id", Str(target)),
      Member("conferenceId", Str(target)),
      Member("lastUpdated", Str(stamp)) ]
  }

  /**
   * `duplicateConferenceHallConfig` / `duplicateVoxxrinConfig`: the source
   * config, if found, is written under the target conference's id, pointing
   * at the target conference.
   */
  function CopyConfig(st: Store, c: Collection, source: string, target: string, stamp: string): (r: Batch)
    ensures r == [] <==> LoadConfig(st, c, source).None?
    ensures |r| <= 1 && forall i :: 0 <= i < |r| ==> r[i].Set? && r[i].coll == c && r[i].id == target
  {
    match LoadConfig(st, c, source)
    case None => []
    case Some(d) => [Set(c, target, SanitizeUndefined(Literal(Spread(d.data) + ConfigOverrides(target, stamp))))]
  }

  /** The copy names the target conference and keeps every other setting of the source config. */
  lemma CopyConfigFields(st: Store, c: Collection, source: string, target: string, stamp: string, key: string)
    requires LoadConfig(st, c, source).Some?
    ensures var data := CopyConfig(st, c, source, target, stamp)[0].data;
      Get(data, "id") == Str(target) && Get(data, "conferenceId") == Str(target) && Get(data, "lastUpdated") == Str(stamp)
    ensures var src := LoadConfig(st, c, source).value.data;
      src.Obj? && UniqueKeys(src.members) && key !in ["id", "conferenceId", "lastUpdated"] ==>
        Get(CopyConfig(st, c, source, target, stamp)[0].data, key) == SanitizeUndefined(Get(src, key))
  {
    var d := LoadConfig(st, c, source).value;
    var o := ConfigOverrides(target, stamp);
    ConfigOverrideKeys(target, stamp);
    OverrideGet(Spread(d.data), o, 0);
    OverrideGet(Spread(d.data), o, 1);
    OverrideGet(Spread(d.data), o, 2);
    if d.data.Obj? && UniqueKeys(d.data.members) && key !in ["id", "conferenceId", "lastUpdated"] {
      SpreadGet(d.data, o, key);
    }
  }

  /** The fields a copied config sets itself, each once. */
  lemma ConfigOverrideKeys(target: string, stamp: string)
    ensures Keys(ConfigOverrides(target, stamp)) == ConfigKeys
    ensures UniqueKeys(ConfigOverrides(target, stamp))
  {
    assert Keys(ConfigOverrides(target, stamp)) == ConfigKeys;
    DistinctNames(ConfigKeys);
    UniqueKeysOfNames(ConfigOverrides(target, stamp), ConfigKeys);
  }

  // ---------------------------------------------------------------- switchSingleConferenceIdIfNeeded

  /** `!!config.onlyPlatformAdminCanCreateConference && String(config.singleConferenceId ?? '').trim() === source`. */
  predicate ShouldSwitch(config: Value, source: string) {
    Truthy(Get(config, "onlyPlatformAdminCanCreateConference")) && FieldText(config, "singleConferenceId") == source
  }

  function SwitchOverrides(target: string, stamp: string): seq<Member> {
    [ Member("id", Str(PlatformConfigDocId)),
      Member("singleConferenceId", Str(target)),
      Member("lastUpdated", Str(stamp)) ]
  }

  /**
   * `switchSingleConferenceIdIfNeeded`: when the platform is locked to the
   * source conference, the platform config is rewritten to point at the
   * copy; otherwise nothing is written.
   */
  function SwitchSingleConference(st: Store, source: string, target: string, stamp: string): (r: Batch)
    ensures r != [] <==> DocAt(st, PlatformConfig, PlatformConfigDocId).Some? && ShouldSwitch(DocAt(st, PlatformConfig, PlatformConfigDocId).value, source)
    ensures |r| <= 1 && forall i :: 0 <= i < |r| ==> r[i].Set? && r[i].coll == PlatformConfig && r[i].id == PlatformConfigDocId
  {
    match DocAt(st, PlatformConfig, PlatformConfigDocId)
    case None => []
    case Some(config) =>
      if ShouldSwitch(config, source) then [Set(PlatformConfig, PlatformConfigDocId, Literal(Spread(config) + SwitchOverrides(target, stamp)))]
      else []
  }

  /** After the switch the platform points at the copy, and its policy flag and other settings are kept. */
  lemma SwitchPointsToCopy(st: Store, source: string, target: string, stamp: string, key: string)
    requires SwitchSingleConference(st, source, target, stamp) != []
    ensures var after := DocAt(ApplyBatch(st, SwitchSingleConference(st, source, target, stamp)), PlatformConfig, PlatformConfigDocId);
      after.Some? && Get(after.value, "singleConferenceId") == Str(target) && Get(after.value, "id") == Str(PlatformConfigDocId)
    ensures var config := DocAt(st, PlatformConfig, PlatformConfigDocId).value;
      var after := DocAt(ApplyBatch(st, SwitchSingleConference(st, source, target, stamp)), PlatformConfig, PlatformConfigDocId);
      config.Obj? && UniqueKeys(config.members) && key !in ["id", "singleConferenceId", "lastUpdated"] ==>
        after.Some? && Get(after.value, key) == Get(config, key)
  {
    var config := DocAt(st, PlatformConfig, PlatformConfigDocId).value;
    SwitchWrites(st, source, target, stamp);
    SwitchedConfig(config, target, stamp, key);
  }

  lemma SwitchWrites(st: Store, source: string, target: string, stamp: string)
    requires SwitchSingleConference(st, source, target, stamp) != []
    ensures DocAt(ApplyBatch(st, SwitchSingleConference(st, source, target, stamp)), PlatformConfig, PlatformConfigDocId)
      == Some(Literal(Spread(DocAt(st, PlatformConfig, PlatformConfigDocId).value) + SwitchOverrides(target, stamp)))
  {
    var sw := SwitchSingleConference(st, source, target, stamp);
    BatchIsPointwise(st, sw, PlatformConfig, PlatformConfigDocId);
    assert sw[1..] == [];
  }

  lemma SwitchedConfig(config: Value, target: string, stamp: string, key: string)
    ensures var v := Literal(Spread(config) + SwitchOverrides(target, stamp));
      Get(v, "singleConferenceId") == Str(target) && Get(v, "id") == Str(PlatformConfigDocId)
      && (config.Obj? && UniqueKeys(config.members) && key !in ["id", "singleConferenceId", "lastUpdated"] ==> Get(v, key) == Get(config, key))
  {
    var o := SwitchOverrides(target, stamp);
    assert UniqueKeys(o);
    LiteralOverride(Spread(config), o, 0);
    LiteralOverride(Spread(config), o, 1);
    if config.Obj? && UniqueKeys(config.members) && key !in ["id", "singleConferenceId", "lastUpdated"] {
      assert Keys(o) == ["id", "singleConferenceId", "lastUpdated"];
      LiteralSpread(config, o, key);
    }
  }

  // ---------------------------------------------------------------- createActivitiesInBatches

  /** `{ id: doc.id, ...doc.data() }`. */
  function ActivityOf(d: Doc): Value {
    Literal([Member("id", Str(d.id))] + Spread(d.data))
  }

  /**
   * An activity read from the store shows the document's own properties; its
   * `id` is the document id only when the stored data has no `id` of its own,
   * since the spread comes after the id.
   */
  lemma ActivityOfGet(d: Doc, key: string)
    requires d.data.Obj? && UniqueKeys(d.data.members)
    ensures key != "id" ==> Get(ActivityOf(d), key) == Get(d.data, key)
    ensures Get(ActivityOf(d), "id") == if "id" in Keys(d.data.members) then Get(d.data, "id") else Str(d.id)
  {
    LiteralGet([Member("id", Str(d.id))] + Spread(d.data), "id");
    LastValueCons(Member("id", Str(d.id)), Spread(d.data), "id");
    LastValueOfUnique(Spread(d.data), "id");
    LiteralGet([Member("id", Str(d.id))] + Spread(d.data), key);
    LastValueCons(Member("id", Str(d.id)), Spread(d.data), key);
    LastValueOfUnique(Spread(d.data), key);
    if key !in Keys(Spread(d.data)) {
      LookupAbsent(Spread(d.data), key);
    }
  }

  function CloneOverrides(activity: Value, newId: string, target: string, offset: Num, keepSlot: bool, stamp: string): seq<Member> {
    [ Member("id", Str(newId)),
      Member("conferenceId", Str(target)),
      Member("start", Str(ShiftLocalDateTime(TextOr(Get(activity, "start")), offset))),
      Member("end", Str(ShiftLocalDateTime(TextOr(Get(activity, "end")), offset))),
      Member("slotId", if keepSlot then Get(activity, "slotId") else Undefined),
      Member("lastUpdated", Str(stamp)) ]
  }

  /** The clone of one activity as written to the store. */
  function CloneActivity(activity: Value, newId: string, target: string, offset: Num, keepSlot: bool, stamp: string): Value {
    SanitizeUndefined(Literal(Spread(activity) + CloneOverrides(activity, newId, target, offset, keepSlot, stamp)))
  }

  /**
   * A clone has its own id and belongs to the target conference; its start
   * and end are shifted by the offset; it keeps the slot only when asked to.
   */
  lemma CloneFields(d: Doc, newId: string, target: string, offset: Num, keepSlot: bool, stamp: string)
    requires d.data.Obj? && UniqueKeys(d.data.members)
    ensures var c := CloneActivity(ActivityOf(d), newId, target, offset, keepSlot, stamp);
      && Get(c, "id") == Str(newId)
      && Get(c, "conferenceId") == Str(target)
      && Get(c, "start") == Str(ShiftLocalDateTime(TextOr(Get(d.data, "start")), offset))
      && Get(c, "end") == Str(ShiftLocalDateTime(TextOr(Get(d.data, "end")), offset))
      && Get(c, "slotId") == (if keepSlot then SanitizeUndefined(Get(d.data, "slotId")) else Undefined)
      && Get(c, "lastUpdated") == Str(stamp)
    ensures offset.Finite? ==> var c := CloneActivity(ActivityOf(d), newId, target, offset, keepSlot, stamp);
      && Get(c, "start") == Str(ShiftLocalDateTimeAsWritten(TextOr(Get(d.data, "start")), offset))
      && Get(c, "end") == Str(ShiftLocalDateTimeAsWritten(TextOr(Get(d.data, "end")), offset))
  {
    var a := ActivityOf(d);
    ActivityOfGet(d, "start");
    ActivityOfGet(d, "end");
    ActivityOfGet(d, "slotId");
    CloneOwnFields(a, newId, target, offset, keepSlot, stamp);
  }

  lemma CloneOwnFields(a: Value, newId: string, target: string, offset: Num, keepSlot: bool, stamp: string)
    ensures var c := CloneActivity(a, newId, target, offset, keepSlot, stamp);
      && Get(c, "id") == Str(newId)
      && Get(c, "conferenceId") == Str(target)
      && Get(c, "start") == Str(ShiftLocalDateTime(TextOr(Get(a, "start")), offset))
      && Get(c, "end") == Str(ShiftLocalDateTime(TextOr(Get(a, "end")), offset))
      && Get(c, "slotId") == (if keepSlot then SanitizeUndefined(Get(a, "slotId")) else Undefined)
      && Get(c, "lastUpdated") == Str(stamp)
  {
    var o := CloneOverrides(a, newId, target, offset, keepSlot, stamp);
    CloneOverrideKeys(a, newId, target, offset, keepSlot, stamp);
    OverrideGet(Spread(a), o, 0);
    OverrideGet(Spread(a), o, 1);
    OverrideGet(Spread(a), o, 2);
    OverrideGet(Spread(a), o, 3);
    OverrideGet(Spread(a), o, 4);
    OverrideGet(Spread(a), o, 5);
  }

  /** Every other property of the source activity is carried over. */
  lemma CloneKeepsSource(d: Doc, newId: string, target: string, offset: Num, keepSlot: bool, stamp: string, key: string)
    requires d.data.Obj? && UniqueKeys(d.data.members)
    requires key !in ["id", "conferenceId", "start", "end", "slotId", "lastUpdated"]
    ensures Get(CloneActivity(ActivityOf(d), newId, target, offset, keepSlot, stamp), key) == SanitizeUndefined(Get(d.data, key))
  {
    var a := ActivityOf(d);
    var o := CloneOverrides(a, newId, target, offset, keepSlot, stamp);
    CloneOverrideKeys(a, newId, target, offset, keepSlot, stamp);
    SpreadGet(a, o, key);
    ActivityOfGet(d, key);
  }

  /** The fields a clone sets itself. */
  lemma CloneOverrideKeys(activity: Value, newId: string, target: string, offset: Num, keepSlot: bool, stamp: string)
    ensures Keys(CloneOverrides(activity, newId, target, offset, keepSlot, stamp)) == CloneKeys
    ensures UniqueKeys(CloneOverrides(activity, newId, target, offset, keepSlot, stamp))
  {
    assert Keys(CloneOverrides(activity, newId, target, offset, keepSlot, stamp)) == CloneKeys;
    DistinctNames(CloneKeys);
    UniqueKeysOfNames(CloneOverrides(activity, newId, target, offset, keepSlot, stamp), CloneKeys);
  }

  /** The write that creates the clone of the `i`-th activity under the `i`-th generated id. */
  function CloneWrites(acts: seq<Doc>, ids: nat -> string, target: string, offset: Num, keepSlot: bool, stamp: string): (r: Batch)
    ensures |r| == |acts|
    ensures forall i :: 0 <= i < |acts| ==>
      r[i] == Set(Activity, ids(i), CloneActivity(ActivityOf(acts[i]), ids(i), target, offset, keepSlot, stamp))
  {
    seq(|acts|, i requires 0 <= i < |acts| => Set(Activity, ids(i), CloneActivity(ActivityOf(acts[i]), ids(i), target, offset, keepSlot, stamp)))
  }

  datatype ActivityCopy = ActivityCopy(batches: seq<Batch>, created: nat)

  /**
   * `createActivitiesInBatches`: one clone per source activity, committed in
   * consecutive batches of at most 225 writes; the count is the number of
   * activities.
   */
  function CreateActivitiesInBatches(acts: seq<Doc>, ids: nat -> string, target: string, offset: Num, keepSlot: bool, stamp: string)
    : (r: ActivityCopy)
    ensures r.created == |acts|
    ensures Concat(r.batches) == CloneWrites(acts, ids, target, offset, keepSlot, stamp)
    ensures forall k :: 0 <= k < |r.batches| ==> 0 < |r.batches[k]| <= ActivityChunkSize
    ensures |acts| <= |r.batches| * ActivityChunkSize < |acts| + ActivityChunkSize
  {
    ActivityCopy(Chunks(CloneWrites(acts, ids, target, offset, keepSlot, stamp), ActivityChunkSize), |acts|)
  }

  /** Every write of the activity batches creates an activity of the target conference. */
  lemma ClonesBelongToTarget(acts: seq<Doc>, ids: nat -> string, target: string, offset: Num, keepSlot: bool, stamp: string, k: nat, i: nat)
    requires forall d :: d in acts ==> d.data.Obj? && UniqueKeys(d.data.members)
    requires k < |CreateActivitiesInBatches(acts, ids, target, offset, keepSlot, stamp).batches|
    requires i < |CreateActivitiesInBatches(acts, ids, target, offset, keepSlot, stamp).batches[k]|
    ensures var w := CreateActivitiesInBatches(acts, ids, target, offset, keepSlot, stamp).batches[k][i];
      w.Set? && w.coll == Activity && Get(w.data, "conferenceId") == Str(target)
      && (!keepSlot ==> Get(w.data, "slotId") == Undefined)
  {
    var bs := CreateActivitiesInBatches(acts, ids, target, offset, keepSlot, stamp).batches;
    var ws := CloneWrites(acts, ids, target, offset, keepSlot, stamp);
    var w := bs[k][i];
    ConcatHasPieces(bs, k, w);
    var j :| 0 <= j < |ws| && ws[j] == w;
    CloneFields(acts[j], ids(j), target, offset, keepSlot, stamp);
  }

  // ---------------------------------------------------------------- the handler

  /** The source conference the authorisation step resolved for the requester. */
  datatype SourceContext = SourceContext(conferenceId: string, conferenceData: Value)

  /**
   * What the handler draws from Firestore and the clock: the new conference
   * id, the id of the `i`-th activity clone, the `lastUpdated` stamp and the
   * report time.
   */
  datatype Generated = Generated(conferenceId: string, activityIds: nat -> string, stamp: string, createdAt: string)

  /** `DuplicateConferenceReport`. */
  datatype Report = Report(conferenceId: string, activitiesCreated: nat, createdAt: string)

  /** Every batch the handler commits, in order, and the report it sends. */
  datatype Duplication = Duplication(batches: seq<Batch>, report: Report)

  /** The outcome of the checks that precede every write. */
  datatype Plan = Plan(ctx: SourceContext, payload: Payload, start: string, days: seq<Day>)

  /** `context.conferenceData ?? {}`. */
  function SourceOf(ctx: SourceContext): Value {
    Coalesce(ctx.conferenceData, Obj([]))
  }

  /** `buildDays` as the handler calls it: times fall back to the first listed source day's. */
  function NewDays(source: Value, start: string, planning: bool): Result<seq<Day>, HttpError> {
    var days := SourceDays(source);
    var template := FirstDayTemplate(days);
    BuildDays(days, start, planning, Get(template, "beginTime"), Get(template, "endTime"))
  }

  /**
   * Authorisation, `parsePayload`, the name+edition check, the
   * planning-needs-rooms rule, `normalizeDate` and `buildDays`, in that
   * order: the first failure is the answer, and nothing has been written.
   */
  function Validate(st: Store, auth: Result<SourceContext, HttpError>, body: Value): (r: Result<Plan, HttpError>)
    ensures auth.Err? ==> r == Err(auth.error)
    ensures auth.Ok? && ParsePayload(body).Err? ==> r == Err(ParsePayload(body).error)
    ensures r.Ok? ==> auth.Ok? && r.value.ctx == auth.value && ParsePayload(body) == Ok(r.value.payload)
    ensures r.Ok? ==> var p := r.value.payload;
      && (forall d :: d in Docs(st, Conference) && FieldEquals(d.data, "name", p.name) ==> ToNumber(Get(d.data, "edition")) != Finite(p.edition))
      && (p.duplicatePlanningStructure ==> p.duplicateRooms)
      && NormalizeDate(p.startDate) == Ok(r.value.start)
      && NewDays(SourceOf(r.value.ctx), r.value.start, p.duplicatePlanningStructure) == Ok(r.value.days)
  {
    match auth
    case Err(e) => Err(e)
    case Ok(ctx) =>
      match ParsePayload(body)
      case Err(e) => Err(e)
      case Ok(p) =>
        ParsedPayloadIsTrimmed(body);
        match NameEditionCheck(st, p.name, Finite(p.edition))
        case Some(e) => Err(e)
        case None =>
          if p.duplicatePlanningStructure && !p.duplicateRooms then Err(HttpError(400, PlanningNeedsRooms))
          else
            match NormalizeDate(p.startDate)
            case Err(e) => Err(e)
            case Ok(start) =>
              match NewDays(SourceOf(ctx), start, p.duplicatePlanningStructure)
              case Err(e) => Err(e)
              case Ok(days) => Ok(Plan(ctx, p, start, days))
  }

  /** A stored conference with the same name and a numerically equal edition stops the copy with 409. */
  lemma ConflictIsRejected(st: Store, ctx: SourceContext, body: Value, d: Doc)
    ensures (ParsePayload(body).Ok? && d in Docs(st, Conference) &&
             FieldEquals(d.data, "name", ParsePayload(body).value.name) &&
             ToNumber(Get(d.data, "edition")) == Finite(ParsePayload(body).value.edition)) ==>
      Validate(st, Ok(ctx), body) == Err(HttpError(409, NameEditionTaken))
  {
    ParsedPayloadIsTrimmed(body);
  }

  /** Asking for the planning structure without the rooms is refused with 400 before any write. */
  lemma PlanningWithoutRoomsIsRejected(st: Store, ctx: SourceContext, body: Value)
    ensures (ParsePayload(body).Ok? &&
             ParsePayload(body).value.duplicatePlanningStructure && !ParsePayload(body).value.duplicateRooms &&
             NameEditionCheck(st, ParsePayload(body).value.name, Finite(ParsePayload(body).value.edition)).None?) ==>
      Validate(st, Ok(ctx), body) == Err(HttpError(400, PlanningNeedsRooms))
  {
  }

  /** One commit for a non-empty batch, none for an empty one. */
  function Commits(b: Batch): (r: seq<Batch>)
    ensures |r| <= 1 && forall k :: 0 <= k < |r| ==> r[k] == b && b != []
  {
    if b == [] then [] else [b]
  }

  /** What the stages after the conference document work from. */
  datatype CopyRequest = CopyRequest(
    source: string, target: string, stamp: string,
    activities: bool, offset: Num, keepSlot: bool, ids: nat -> string)

  function RequestOf(plan: Plan, gen: Generated): CopyRequest {
    CopyRequest(plan.ctx.conferenceId, gen.conferenceId, gen.stamp,
      plan.payload.duplicateActivities, DayOffset(plan.start, SourceDays(SourceOf(plan.ctx))),
      plan.payload.duplicatePlanningStructure, gen.activityIds)
  }

  /** `newConferenceRef.set(sanitizeUndefined(newConference))`. */
  function ConferenceWrite(plan: Plan, gen: Generated): Batch {
    [Set(Conference, gen.conferenceId, NewConference(SourceOf(plan.ctx), plan.payload, gen.conferenceId, gen.stamp, plan.days))]
  }

  /** The three config stages, each reading the store the previous one left behind. */
  datatype ConfigStages = ConfigStages(hall: Batch, voxxrin: Batch, single: Batch, after: Store)

  function RunConfigStages(s: Store, rq: CopyRequest): ConfigStages {
    var hall := CopyConfig(s, ConferenceHallConfig, rq.source, rq.target, rq.stamp);
    var afterHall := ApplyBatch(s, hall);
    var voxxrin := CopyConfig(afterHall, VoxxrinConfig, rq.source, rq.target, rq.stamp);
    var afterVoxxrin := ApplyBatch(afterHall, voxxrin);
    var single := SwitchSingleConference(afterVoxxrin, rq.source, rq.target, rq.stamp);
    ConfigStages(hall, voxxrin, single, ApplyBatch(afterVoxxrin, single))
  }

  function ConfigCommits(cs: ConfigStages): seq<Batch> {
    Commits(cs.hall) + Commits(cs.voxxrin) + Commits(cs.single)
  }

  /** The activities of the source conference, when they are asked for. */
  function SourceActivities(s: Store, rq: CopyRequest): seq<Doc> {
    if rq.activities then Filter(Docs(s, Activity), ConferenceIdQuery(rq.source)) else []
  }

  /** The activity stage, run on the store the config stages left behind. */
  function CopyStage(st: Store, conference: Batch, rq: CopyRequest): ActivityCopy {
    var cs := RunConfigStages(ApplyBatch(st, conference), rq);
    CreateActivitiesInBatches(SourceActivities(cs.after, rq), rq.ids, rq.target, rq.offset, rq.keepSlot, rq.stamp)
  }

  /** The batches committed after the conference document, in order. */
  function LaterBatches(st: Store, conference: Batch, rq: CopyRequest): seq<Batch> {
    ConfigCommits(RunConfigStages(ApplyBatch(st, conference), rq)) + CopyStage(st, conference, rq).batches
  }

  /** Every batch the handler commits, in order. */
  function StagesPlan(st: Store, conference: Batch, rq: CopyRequest): seq<Batch> {
    [conference] + LaterBatches(st, conference, rq)
  }

  /**
   * `duplicateConference`: once the checks pass, the conference document,
   * the two config copies, the single-conference switch and the activity batches are
   * committed in that order, and the report gives the new id and the number
   * of activities cloned.
   */
  function DuplicateConference(st: Store, auth: Result<SourceContext, HttpError>, body: Value, gen: Generated)
    : (r: Result<Duplication, HttpError>)
    ensures r.Err? <==> Validate(st, auth, body).Err?
    ensures r.Err? ==> r.error == Validate(st, auth, body).error
    ensures r.Ok? ==> r.value.report.conferenceId == gen.conferenceId && r.value.report.createdAt == gen.createdAt
    ensures r.Ok? ==> |r.value.batches| >= 1 && r.value.batches[0] == [Set(Conference, gen.conferenceId,
      NewConference(SourceOf(auth.value), ParsePayload(body).value, gen.conferenceId, gen.stamp, Validate(st, auth, body).value.days))]
  {
    match Validate(st, auth, body)
    case Err(e) => Err(e)
    case Ok(plan) =>
      var conference := ConferenceWrite(plan, gen);
      var rq := RequestOf(plan, gen);
      Ok(Duplication(StagesPlan(st, conference, rq), Report(gen.conferenceId, CopyStage(st, conference, rq).created, gen.createdAt)))
  }

  /**
   * The offset the handler shifts activities by is a number exactly when the
   * source has no well-shaped day date, or its earliest one is a readable
   * date; only an impossible earliest date, such as `2024-13-01`, gives NaN.
   */
  lemma HandlerOffsetIsFinite(st: Store, auth: Result<SourceContext, HttpError>, body: Value, gen: Generated)
    ensures Validate(st, auth, body).Ok? ==>
      var plan := Validate(st, auth, body).value;
      var earliest := ConferenceStartDate(SourceDays(SourceOf(plan.ctx)));
      (RequestOf(plan, gen).offset.Finite? <==> earliest.None? || ParseLocalDate(earliest.value).Some?)
  {
    if Validate(st, auth, body).Ok? {
      var plan := Validate(st, auth, body).value;
      var days := SourceDays(SourceOf(plan.ctx));
      var earliest := ConferenceStartDate(days);
      if earliest.Some? {
        assert days != [];
        assert ParseLocalDate(plan.start).Some?;
      }
    }
  }

  /** A batch that writes only to collection `c` leaves every other listing alone. */
  lemma SingleCollection(st: Store, b: Batch, c: Collection, other: Collection)
    requires forall i :: 0 <= i < |b| ==> b[i].coll == c
    requires other != c
    ensures Docs(ApplyBatch(st, b), other) == Docs(st, other)
  {
    BatchKeepsOtherCollections(st, b, other);
  }

  /** A config copy depends on its own collection's listing only. */
  lemma CopyConfigSameListing(s: Store, t: Store, c: Collection, source: string, target: string, stamp: string)
    requires Docs(s, c) == Docs(t, c)
    ensures CopyConfig(s, c, source, target, stamp) == CopyConfig(t, c, source, target, stamp)
  {
    assert LoadConfig(s, c, source) == LoadConfig(t, c, source);
  }

  /** The single-conference switch depends on the platform config listing only. */
  lemma SwitchSameListing(s: Store, t: Store, source: string, target: string, stamp: string)
    requires Docs(s, PlatformConfig) == Docs(t, PlatformConfig)
    ensures SwitchSingleConference(s, source, target, stamp) == SwitchSingleConference(t, source, target, stamp)
  {
    assert DocAt(s, PlatformConfig, PlatformConfigDocId) == DocAt(t, PlatformConfig, PlatformConfigDocId);
  }

  /**
   * No config stage reads a collection an earlier stage wrote to: each sees
   * the store as the request found it.
   */
  lemma HallStageReadsOriginal(st: Store, conference: Batch, rq: CopyRequest)
    requires forall i :: 0 <= i < |conference| ==> conference[i].coll == Conference
    ensures RunConfigStages(ApplyBatch(st, conference), rq).hall == CopyConfig(st, ConferenceHallConfig, rq.source, rq.target, rq.stamp)
  {
    SingleCollection(st, conference, Conference, ConferenceHallConfig);
    CopyConfigSameListing(ApplyBatch(st, conference), st, ConferenceHallConfig, rq.source, rq.target, rq.stamp);
  }

  lemma VoxxrinStageReadsOriginal(st: Store, conference: Batch, rq: CopyRequest)
    requires forall i :: 0 <= i < |conference| ==> conference[i].coll == Conference
    ensures RunConfigStages(ApplyBatch(st, conference), rq).voxxrin == CopyConfig(st, VoxxrinConfig, rq.source, rq.target, rq.stamp)
  {
    var s := ApplyBatch(st, conference);
    var hall := CopyConfig(s, ConferenceHallConfig, rq.source, rq.target, rq.stamp);
    VoxxrinStageFrame(st, conference, hall);
    CopyConfigSameListing(ApplyBatch(s, hall), st, VoxxrinConfig, rq.source, rq.target, rq.stamp);
  }

  lemma SingleStageReadsOriginal(st: Store, conference: Batch, rq: CopyRequest)
    requires forall i :: 0 <= i < |conference| ==> conference[i].coll == Conference
    ensures RunConfigStages(ApplyBatch(st, conference), rq).single == SwitchSingleConference(st, rq.source, rq.target, rq.stamp)
  {
    var s := ApplyBatch(st, conference);
    var hall := CopyConfig(s, ConferenceHallConfig, rq.source, rq.target, rq.stamp);
    var voxxrin := CopyConfig(ApplyBatch(s, hall), VoxxrinConfig, rq.source, rq.target, rq.stamp);
    PlatformStageFrame(st, conference, hall, voxxrin);
    SwitchSameListing(ApplyBatch(ApplyBatch(s, hall), voxxrin), st, rq.source, rq.target, rq.stamp);
  }

  lemma VoxxrinStageFrame(st: Store, conference: Batch, hall: Batch)
    requires forall i :: 0 <= i < |conference| ==> conference[i].coll == Conference
    requires forall i :: 0 <= i < |hall| ==> hall[i].coll == ConferenceHallConfig
    ensures Docs(ApplyBatch(ApplyBatch(st, conference), hall), VoxxrinConfig) == Docs(st, VoxxrinConfig)
  {
    SingleCollection(st, conference, Conference, VoxxrinConfig);
    SingleCollection(ApplyBatch(st, conference), hall, ConferenceHallConfig, VoxxrinConfig);
  }

  lemma PlatformStageFrame(st: Store, conference: Batch, hall: Batch, voxxrin: Batch)
    requires forall i :: 0 <= i < |conference| ==> conference[i].coll == Conference
    requires forall i :: 0 <= i < |hall| ==> hall[i].coll == ConferenceHallConfig
    requires forall i :: 0 <= i < |voxxrin| ==> voxxrin[i].coll == VoxxrinConfig
    ensures Docs(ApplyBatch(ApplyBatch(ApplyBatch(st, conference), hall), voxxrin), PlatformConfig) == Docs(st, PlatformConfig)
  {
    var a := ApplyBatch(st, conference);
    var b := ApplyBatch(a, hall);
    SingleCollection(st, conference, Conference, PlatformConfig);
    SingleCollection(a, hall, ConferenceHallConfig, PlatformConfig);
    SingleCollection(b, voxxrin, VoxxrinConfig, PlatformConfig);
  }

  /** The config stages leave the activity listing alone. */
  lemma ConfigStagesSpareActivities(s: Store, rq: CopyRequest)
    ensures Docs(RunConfigStages(s, rq).after, Activity) == Docs(s, Activity)
  {
    var cs := RunConfigStages(s, rq);
    var a := ApplyBatch(s, cs.hall);
    var b := ApplyBatch(a, cs.voxxrin);
    SingleCollection(s, cs.hall, ConferenceHallConfig, Activity);
    SingleCollection(a, cs.voxxrin, VoxxrinConfig, Activity);
    SingleCollection(b, cs.single, PlatformConfig, Activity);
  }

  /** The activity stage clones the source conference's activities as the request found them. */
  lemma CopyStageReadsOriginal(st: Store, conference: Batch, rq: CopyRequest)
    requires forall i :: 0 <= i < |conference| ==> conference[i].coll == Conference
    ensures CopyStage(st, conference, rq).created == |SourceActivities(st, rq)|
  {
    var s := ApplyBatch(st, conference);
    SingleCollection(st, conference, Conference, Activity);
    ConfigStagesSpareActivities(s, rq);
  }

  /** The report counts exactly the source conference's activities, when they are asked for. */
  lemma ReportCountsActivities(st: Store, auth: Result<SourceContext, HttpError>, body: Value, gen: Generated)
    ensures DuplicateConference(st, auth, body, gen).Ok? ==>
      DuplicateConference(st, auth, body, gen).value.report.activitiesCreated ==
        if ParsePayload(body).value.duplicateActivities then |Filter(Docs(st, Activity), ConferenceIdQuery(auth.value.conferenceId))| else 0
  {
    if DuplicateConference(st, auth, body, gen).Ok? {
      var plan := Validate(st, auth, body).value;
      assert DuplicateConference(st, auth, body, gen).value.report.activitiesCreated ==
        CopyStage(st, ConferenceWrite(plan, gen), RequestOf(plan, gen)).created;
      PlanCountsActivities(st, plan, gen);
    }
  }

  /** The activity stage of a validated plan clones the activities the plan asks for. */
  lemma PlanCountsActivities(st: Store, plan: Plan, gen: Generated)
    ensures CopyStage(st, ConferenceWrite(plan, gen), RequestOf(plan, gen)).created ==
      if plan.payload.duplicateActivities then |Filter(Docs(st, Activity), ConferenceIdQuery(plan.ctx.conferenceId))| else 0
  {
    CopyStageReadsOriginal(st, ConferenceWrite(plan, gen), RequestOf(plan, gen));
  }

  /** Each config stage writes to its own collection only. */
  lemma ConfigStagesWriteConfigs(s: Store, rq: CopyRequest)
    ensures var cs := RunConfigStages(s, rq);
      && (forall j :: 0 <= j < |cs.hall| ==> cs.hall[j].coll == ConferenceHallConfig)
      && (forall j :: 0 <= j < |cs.voxxrin| ==> cs.voxxrin[j].coll == VoxxrinConfig)
      && (forall j :: 0 <= j < |cs.single| ==> cs.single[j].coll == PlatformConfig)
  {
  }

  /** The activity stage writes activities only. */
  lemma CopyStageWritesActivities(st: Store, conference: Batch, rq: CopyRequest)
    ensures var copy := CopyStage(st, conference, rq).batches;
      forall j :: 0 <= j < |Concat(copy)| ==> Concat(copy)[j].coll == Activity
  {
  }

  /** The writes after the conference document touch other collections only. */
  lemma LaterStagesSpareConferences(cs: ConfigStages, copy: seq<Batch>)
    requires forall j :: 0 <= j < |cs.hall| ==> cs.hall[j].coll == ConferenceHallConfig
    requires forall j :: 0 <= j < |cs.voxxrin| ==> cs.voxxrin[j].coll == VoxxrinConfig
    requires forall j :: 0 <= j < |cs.single| ==> cs.single[j].coll == PlatformConfig
    requires forall j :: 0 <= j < |Concat(copy)| ==> Concat(copy)[j].coll == Activity
    ensures var later := ConfigCommits(cs) + copy;
      forall k, i :: 0 <= k < |later| && 0 <= i < |later[k]| ==> later[k][i].coll != Conference
  {
    var configs := ConfigCommits(cs);
    var later: seq<Batch> := configs + copy;
    forall k, i | 0 <= k < |later| && 0 <= i < |later[k]|
      ensures later[k][i].coll != Conference
    {
      if k >= |configs| {
        assert later[k] == copy[k - |configs|];
        ConcatHasPieces(copy, k - |configs|, later[k][i]);
      }
    }
  }

  /** A conference document written first survives batches that write elsewhere. */
  lemma FirstWriteSurvives(st: Store, id: string, v: Value, later: seq<Batch>)
    requires forall k, i :: 0 <= k < |later| && 0 <= i < |later[k]| ==> later[k][i].coll != Conference
    ensures DocAt(ApplyBatches(st, [[Set(Conference, id, v)]] + later), Conference, id) == Some(v)
  {
    var conference := [Set(Conference, id, v)];
    ApplyBatchesAppend(st, [conference], later);
    assert ApplyBatches(st, [conference]) == ApplyBatch(st, conference);
    BatchIsPointwise(st, conference, Conference, id);
    assert conference[1..] == [];
    BatchesKeepOtherCollections(ApplyBatch(st, conference), later, Conference);
  }

  /** No batch after the conference document writes to the conference collection. */
  lemma LaterBatchesSpareConferences(st: Store, conference: Batch, rq: CopyRequest)
    ensures var later := LaterBatches(st, conference, rq);
      forall k, i :: 0 <= k < |later| && 0 <= i < |later[k]| ==> later[k][i].coll != Conference
  {
    ConfigStagesWriteConfigs(ApplyBatch(st, conference), rq);
    CopyStageWritesActivities(st, conference, rq);
    LaterStagesSpareConferences(RunConfigStages(ApplyBatch(st, conference), rq), CopyStage(st, conference, rq).batches);
  }

  /** Committing the stages leaves the conference document as first written. */
  lemma StagesKeepConference(st: Store, id: string, v: Value, rq: CopyRequest)
    ensures DocAt(ApplyBatches(st, StagesPlan(st, [Set(Conference, id, v)], rq)), Conference, id) == Some(v)
  {
    LaterBatchesSpareConferences(st, [Set(Conference, id, v)], rq);
    FirstWriteSurvives(st, id, v, LaterBatches(st, [Set(Conference, id, v)], rq));
  }

  /** Once every batch is committed the new conference document is in place, as first written. */
  lemma ConferenceCreated(st: Store, auth: Result<SourceContext, HttpError>, body: Value, gen: Generated)
    ensures DuplicateConference(st, auth, body, gen).Ok? ==> var plan := Validate(st, auth, body).value;
      DocAt(ApplyBatches(st, DuplicateConference(st, auth, body, gen).value.batches), Conference, gen.conferenceId)
        == Some(NewConference(SourceOf(plan.ctx), plan.payload, gen.conferenceId, gen.stamp, plan.days))
  {
    if DuplicateConference(st, auth, body, gen).Ok? {
      var plan := Validate(st, auth, body).value;
      StagesKeepConference(st, gen.conferenceId, NewConference(SourceOf(plan.ctx), plan.payload, gen.conferenceId, gen.stamp, plan.days), RequestOf(plan, gen));
    }
  }
}

=== FILE: src/export.dfy ===
/**
 * The pure helpers of the conference workbook export: unique sheet names
 * within Excel's limits, column keys for session attributes, lookup keys for
 * allocations, and the text shown for speakers, people and localised fields.
 */
module ExcelExport {
  import opened Base
  import opened Text
  import opened Json
  import opened Lists

  /** The longest sheet name Excel accepts. */
  const MaxSheetNameLength := 31

  /** Characters Excel refuses in a sheet name: `\ / * ? : [ ]`. */
  predicate IsForbiddenSheetChar(c: char) {
    c == '\\' || c == '/' || c == '*' || c == '?' || c == ':' || c == '[' || c == ']'
  }

  /** A character a sheet name may hold once sanitised. */
  predicate IsSheetChar(c: char) {
    !IsForbiddenSheetChar(c) && c != '\''
  }

  /** Every character of `Trim(s)` is a character of `s`. */
  lemma TrimKeepsCharacters(s: string, p: char -> bool)
    requires forall k :: 0 <= k < |s| ==> p(s[k])
    ensures forall k :: 0 <= k < |Trim(s)| ==> p(Trim(s)[k])
  {
    TrimIsSlice(s);
    var i, j :| 0 <= i <= j <= |s| && Trim(s) == s[i..j] && AllSpaces(s[..i]) && AllSpaces(s[j..]);
    forall k | 0 <= k < |Trim(s)| ensures p(Trim(s)[k]) {
      assert Trim(s)[k] == s[i + k];
    }
  }

  /** The forbidden characters become `_`, apostrophes are removed, and the result is trimmed. */
  function SanitizeSheetName(baseName: string): (r: string)
    ensures forall k :: 0 <= k < |r| ==> IsSheetChar(r[k])
    ensures IsTrimmed(r)
  {
    var replaced := seq(|baseName|, i requires 0 <= i < |baseName| => if IsForbiddenSheetChar(baseName[i]) then '_' else baseName[i]);
    var kept := Where(replaced, c => c != '\'');
    TrimKeepsCharacters(kept, IsSheetChar);
    TrimFacts(kept);
    Trim(kept)
  }

  /** The sanitised name, `sheet` when nothing is left, cut to the length limit. */
  function SheetStem(baseName: string): (r: string)
    ensures 1 <= |r| <= MaxSheetNameLength
    ensures forall k :: 0 <= k < |r| ==> IsSheetChar(r[k])
  {
    var s := SanitizeSheetName(baseName);
    var t := if s == [] then "sheet" else s;
    if |t| <= MaxSheetNameLength then t else t[..MaxSheetNameLength]
  }

  /** The `index`-th retry: the stem cut to leave room for `_<index>`, then that suffix. */
  function Candidate(stem: string, index: nat): (r: string)
    requires forall k :: 0 <= k < |stem| ==> IsSheetChar(stem[k])
    ensures forall k :: 0 <= k < |r| ==> IsSheetChar(r[k])
    ensures |r| > |NatToString(index)| && r[|r| - |NatToString(index)| - 1] == '_'
    ensures r[|r| - |NatToString(index)|..] == NatToString(index)
  {
    var suffix := "_" + NatToString(index);
    var keep := if MaxSheetNameLength - |suffix| >= 1 then MaxSheetNameLength - |suffix| else 1;
    var prefix := if keep <= |stem| then stem[..keep] else stem;
    prefix + suffix
  }

  /** The text after the last `_` of a candidate is its index, so distinct indexes give distinct candidates. */
  lemma CandidateInjective(stem: string, i: nat, j: nat)
    requires forall k :: 0 <= k < |stem| ==> IsSheetChar(stem[k])
    requires Candidate(stem, i) == Candidate(stem, j)
    ensures i == j
  {
    DigitsAfterLastUnderscore(Candidate(stem, i), NatToString(i), NatToString(j));
    NatToStringInjective(i, j);
  }

  /** A text ends in at most one way with `_` followed by digits only. */
  lemma DigitsAfterLastUnderscore(x: string, d1: string, d2: string)
    requires AllDigits(d1) && AllDigits(d2)
    requires |x| > |d1| && x[|x| - |d1| - 1] == '_' && x[|x| - |d1|..] == d1
    requires |x| > |d2| && x[|x| - |d2| - 1] == '_' && x[|x| - |d2|..] == d2
    ensures d1 == d2
  {
  }

  /** Candidates with different indexes are different names. */
  lemma CandidateDistinct(stem: string, i: nat, j: nat)
    requires forall k :: 0 <= k < |stem| ==> IsSheetChar(stem[k])
    requires i != j
    ensures Candidate(stem, i) != Candidate(stem, j)
  {
    if Candidate(stem, i) == Candidate(stem, j) {
      CandidateInjective(stem, i, j);
    }
  }

  /** A sanitised candidate stays within the limit while its index has at most 29 digits. */
  lemma CandidateLength(stem: string, index: nat)
    requires forall k :: 0 <= k < |stem| ==> IsSheetChar(stem[k])
    requires |stem| <= MaxSheetNameLength && index < Pow10(29)
    ensures |Candidate(stem, index)| <= MaxSheetNameLength
  {
    assert Pow10(29) > 0;
    NatToStringLength(index, 29);
  }

  /** Every candidate with an index from 2 up to, but excluding, `n` is already in use. */
  ghost predicate AllTried(stem: string, used: set<string>, n: int)
    requires forall k :: 0 <= k < |stem| ==> IsSheetChar(stem[k])
  {
    forall j :: 2 <= j < n ==> Candidate(stem, j) in used
  }

  lemma AllTriedStep(stem: string, used: set<string>, n: nat)
    requires forall k :: 0 <= k < |stem| ==> IsSheetChar(stem[k])
    requires AllTried(stem, used, n) && Candidate(stem, n) in used
    ensures AllTried(stem, used, n + 1)
  {
  }

  /**
   * The retry loop ends: the candidates `_2` up to `_(n-1)` are distinct names,
   * so they can all be in use only while `n - 2` names are.
   */
  lemma {:induction false} AllTriedCount(stem: string, used: set<string>, n: nat)
    requires forall k :: 0 <= k < |stem| ==> IsSheetChar(stem[k])
    requires AllTried(stem, used, n)
    ensures n <= |used| + 2
  {
    if n > 2 {
      var c := Candidate(stem, n - 1);
      assert c in used;
      var rest := used - {c};
      assert |rest| == |used| - 1;
      forall j | 2 <= j < n - 1
        ensures Candidate(stem, j) in rest
      {
        CandidateDistinct(stem, j, n - 1);
      }
      assert AllTried(stem, rest, n - 1);
      AllTriedCount(stem, rest, n - 1);
    }
  }

  /**
   * The loop of `nextSheetName`: the stem when it is free (reported as index 1),
   * otherwise the candidate with the smallest index from 2 on that is free.
   */
  method FreeCandidate(stem: string, used: set<string>) returns (name: string, index: nat)
    requires forall k :: 0 <= k < |stem| ==> IsSheetChar(stem[k])
    ensures name !in used
    ensures index == 1 <==> stem !in used
    ensures index == 1 ==> name == stem
    ensures index != 1 ==> 2 <= index <= |used| + 2 && name == Candidate(stem, index) && AllTried(stem, used, index)
  {
    name := stem;
    var next := 2;
    while name in used
      invariant 2 <= next <= |used| + 3
      invariant name == if next == 2 then stem else Candidate(stem, next - 1)
      invariant next > 2 ==> stem in used
      invariant AllTried(stem, used, next - 1)
      decreases |used| + 3 - next
    {
      if next > 2 {
        AllTriedStep(stem, used, next - 1);
        AllTriedCount(stem, used, next);
      }
      name := Candidate(stem, next);
      next := next + 1;
    }
    index := if next == 2 then 1 else next - 1;
  }

  /**
   * `nextSheetName`: a sheet name not used yet, which is then recorded as used.
   * The stem is taken when it is free; otherwise the stem with `_2`, `_3`, ...
   * is tried and the first free one is taken. Every name tried is at most 31
   * characters long as long as the workbook has fewer than 10^29 sheets.
   */
  method NextSheetName(baseName: string, used: set<string>) returns (name: string, usedAfter: set<string>)
    ensures name !in used
    ensures usedAfter == used + {name}
    ensures name != []
    ensures forall k :: 0 <= k < |name| ==> IsSheetChar(name[k])
    ensures |used| + 2 < Pow10(29) ==> |name| <= MaxSheetNameLength
    ensures SheetStem(baseName) !in used ==> name == SheetStem(baseName)
    ensures SheetStem(baseName) in used ==>
      exists k :: k >= 2 && name == Candidate(SheetStem(baseName), k) &&
        forall j :: 2 <= j < k ==> Candidate(SheetStem(baseName), j) in used
  {
    var stem := SheetStem(baseName);
    var index;
    name, index := FreeCandidate(stem, used);
    if index != 1 && |used| + 2 < Pow10(29) {
      CandidateLength(stem, index);
    }
    usedAfter := used + {name};
  }

  /** A character kept in attribute keys: an ASCII lower-case letter or a digit. */
  predicate IsKeyChar(c: char) {
    'a' <= c <= 'z' || '0' <= c <= '9'
  }

  /** The length of the leading run of characters that are not key characters. */
  function SkipCount(s: string): (n: nat)
    ensures n <= |s|
    ensures n < |s| ==> IsKeyChar(s[n])
    ensures forall k :: 0 <= k < n ==> !IsKeyChar(s[k])
  {
    if s != [] && !IsKeyChar(s[0]) then
      var n := SkipCount(s[1..]);
      forall k | 0 < k < n + 1 ensures !IsKeyChar(s[k]) {
        assert s[k] == s[1..][k - 1];
      }
      n + 1
    else 0
  }

  /** Drops the leading run of characters that are not key characters. */
  function SkipRun(s: string): (r: string)
    ensures |r| <= |s| && r == s[|s| - |r|..]
    ensures r == [] || IsKeyChar(r[0])
    ensures s != [] && !IsKeyChar(s[0]) ==> |r| < |s|
    ensures forall k :: 0 <= k < |s| - |r| ==> !IsKeyChar(s[k])
  {
    s[SkipCount(s)..]
  }

  /** `replace(/[^a-z0-9]+/g, '_')`: each maximal run of other characters becomes one `_`. */
  function CollapseRuns(s: string): (r: string)
    ensures forall k :: 0 <= k < |r| ==> IsKeyChar(r[k]) || r[k] == '_'
    ensures forall k :: 0 <= k < |r| - 1 && r[k] == '_' ==> r[k + 1] != '_'
    ensures s != [] ==> r != [] && (IsKeyChar(s[0]) ==> r[0] == s[0]) && (!IsKeyChar(s[0]) ==> r[0] == '_')
    decreases |s|
  {
    if s == [] then []
    else if IsKeyChar(s[0]) then [s[0]] + CollapseRuns(s[1..])
    else ['_'] + CollapseRuns(SkipRun(s))
  }

  /** Every character outside `[a-z0-9]` replaced by `_`, one for one. */
  function Mark(s: string): (r: string)
    ensures |r| == |s|
  {
    if s == [] then [] else [if IsKeyChar(s[0]) then s[0] else '_'] + Mark(s[1..])
  }

  /** Each run of `_` squeezed to a single `_`; other characters stay. */
  function Squeeze(s: string): string
    decreases |s|
  {
    if |s| < 2 then s
    else if s[0] == '_' && s[1] == '_' then Squeeze(s[1..])
    else [s[0]] + Squeeze(s[1..])
  }

  /** Skipping a run that starts with a separator skips the rest of that run. */
  lemma SkipRunStep(s: string)
    requires s != [] && !IsKeyChar(s[0])
    ensures SkipRun(s) == SkipRun(s[1..])
  {
    assert s[SkipCount(s)..] == s[1..][SkipCount(s[1..])..];
  }

  /** A `_` followed by the marked text squeezes to one `_` and the marked rest after the run. */
  lemma {:induction false} SqueezeAfterSeparator(t: string)
    ensures Squeeze(['_'] + Mark(t)) == ['_'] + Squeeze(Mark(SkipRun(t)))
    decreases |t|
  {
    if t == [] {
    } else if IsKeyChar(t[0]) {
      assert SkipCount(t) == 0;
      assert SkipRun(t) == t;
      var m := ['_'] + Mark(t);
      assert m[1..] == Mark(t);
    } else {
      var m := ['_'] + Mark(t);
      assert m[0] == '_' && m[1] == '_';
      assert m[1..] == ['_'] + Mark(t[1..]);
      SqueezeAfterSeparator(t[1..]);
      SkipRunStep(t);
    }
  }

  /**
   * The regular expression replacement is the same as marking every
   * separator character and squeezing the runs of `_`: each maximal run of
   * characters outside `[a-z0-9]` becomes exactly one `_`, in place.
   */
  lemma {:induction false} CollapseRunsIsSqueezedMark(s: string)
    ensures CollapseRuns(s) == Squeeze(Mark(s))
    decreases |s|
  {
    if s != [] {
      var m := Mark(s);
      if IsKeyChar(s[0]) {
        CollapseRunsIsSqueezedMark(s[1..]);
        if |m| >= 2 {
          assert m[1..] == Mark(s[1..]);
        }
      } else {
        assert m == ['_'] + Mark(s[1..]);
        SqueezeAfterSeparator(s[1..]);
        SkipRunStep(s);
        CollapseRunsIsSqueezedMark(SkipRun(s));
      }
    }
  }

  /** `attributeColumnKey`: `attr_` and the lower-cased name with each run of other characters made one `_`. */
  function AttributeColumnKey(attributeName: string): (r: string)
    ensures |r| >= 5 && r[..5] == "attr_"
    ensures forall k :: 5 <= k < |r| ==> IsKeyChar(r[k]) || r[k] == '_'
    ensures forall k :: 5 <= k < |r| - 1 && r[k] == '_' ==> r[k + 1] != '_'
    ensures r[5..] == Squeeze(Mark(Lower(attributeName)))
  {
    var body := CollapseRuns(Lower(attributeName));
    CollapseRunsIsSqueezedMark(Lower(attributeName));
    assert ("attr_" + body)[5..] == body;
    "attr_" + body
  }

  lemma SkipRunAfterUnderscore(u: string)
    requires u == [] || IsKeyChar(u[0])
    ensures SkipRun(['_'] + u) == u
  {
    assert (['_'] + u)[1..] == u;
  }

  /** Collapsing a collapsed key changes nothing. */
  lemma {:induction false} CollapseRunsIdempotent(s: string)
    ensures CollapseRuns(CollapseRuns(s)) == CollapseRuns(s)
    decreases |s|
  {
    if s != [] {
      if IsKeyChar(s[0]) {
        CollapseRunsIdempotent(s[1..]);
        assert ([s[0]] + CollapseRuns(s[1..]))[1..] == CollapseRuns(s[1..]);
      } else {
        var t := SkipRun(s);
        CollapseRunsIdempotent(t);
        SkipRunAfterUnderscore(CollapseRuns(t));
      }
    }
  }

  /** The key characters of a text, in order. */
  function KeyChars(s: string): (r: string) {
    Where(s, IsKeyChar)
  }

  lemma {:induction false} KeyCharsOfSkipped(s: string)
    ensures KeyChars(SkipRun(s)) == KeyChars(s)
  {
    if s != [] && !IsKeyChar(s[0]) {
      KeyCharsOfSkipped(s[1..]);
    }
  }

  /** Collapsing keeps every letter and digit, in order: only the separators change. */
  lemma {:induction false} CollapseRunsKeepsKeyChars(s: string)
    ensures KeyChars(CollapseRuns(s)) == KeyChars(s)
    decreases |s|
  {
    if s != [] {
      if IsKeyChar(s[0]) {
        CollapseRunsKeepsKeyChars(s[1..]);
        assert ([s[0]] + CollapseRuns(s[1..]))[1..] == CollapseRuns(s[1..]);
      } else {
        var t := SkipRun(s);
        CollapseRunsKeepsKeyChars(t);
        KeyCharsOfSkipped(s);
        assert (['_'] + CollapseRuns(t))[1..] == CollapseRuns(t);
      }
    }
  }

  /** `sessionSpeakerIds`: one trimmed speaker id, or nothing when blank. */
  function SpeakerIdOf(speakerId: Option<string>): Option<string> {
    var t := Trim(speakerId.GetOr(""));
    if t == [] then None else Some(t)
  }

  /** The trimmed id of one speaker field as a list: empty when blank. */
  function IdSlot(speakerId: Option<string>): seq<string> {
    var t := Trim(speakerId.GetOr(""));
    if t == [] then [] else [t]
  }

  lemma SpeakerSlotStep(speakerId: Option<string>, rest: seq<Option<string>>)
    ensures FilterMap([speakerId] + rest, SpeakerIdOf) == IdSlot(speakerId) + FilterMap(rest, SpeakerIdOf)
  {
    assert ([speakerId] + rest)[1..] == rest;
  }

  /** The trimmed, non-blank speaker ids of a session, in the order first, second, third. */
  function SessionSpeakerIds(speaker1Id: Option<string>, speaker2Id: Option<string>, speaker3Id: Option<string>): (r: seq<string>)
    ensures |r| <= 3
    ensures forall k :: 0 <= k < |r| ==> r[k] != [] && IsTrimmed(r[k])
  {
    var r := FilterMap([speaker1Id, speaker2Id, speaker3Id], SpeakerIdOf);
    forall k | 0 <= k < |r| ensures r[k] != [] && IsTrimmed(r[k]) {
      FilterMapMember([speaker1Id, speaker2Id, speaker3Id], SpeakerIdOf, r[k]);
      var i :| 0 <= i < 3 && SpeakerIdOf([speaker1Id, speaker2Id, speaker3Id][i]) == Some(r[k]);
      TrimFacts([speaker1Id, speaker2Id, speaker3Id][i].GetOr(""));
    }
    r
  }

  /** The ids come in field order: the first speaker's, then the second's, then the third's, blanks skipped. */
  lemma SessionSpeakerIdsInOrder(speaker1Id: Option<string>, speaker2Id: Option<string>, speaker3Id: Option<string>)
    ensures SessionSpeakerIds(speaker1Id, speaker2Id, speaker3Id) == IdSlot(speaker1Id) + IdSlot(speaker2Id) + IdSlot(speaker3Id)
  {
    SpeakerSlotStep(speaker1Id, [speaker2Id, speaker3Id]);
    SpeakerSlotStep(speaker2Id, [speaker3Id]);
    SpeakerSlotStep(speaker3Id, []);
  }

  /** An id is listed exactly when one of the three speaker fields trims to it. */
  lemma SessionSpeakerIdsMember(speaker1Id: Option<string>, speaker2Id: Option<string>, speaker3Id: Option<string>, id: string)
    ensures id in SessionSpeakerIds(speaker1Id, speaker2Id, speaker3Id) <==>
      id != [] && (id == Trim(speaker1Id.GetOr("")) || id == Trim(speaker2Id.GetOr("")) || id == Trim(speaker3Id.GetOr("")))
  {
    var xs := [speaker1Id, speaker2Id, speaker3Id];
    FilterMapMember(xs, SpeakerIdOf, id);
    if id != [] && id == Trim(speaker3Id.GetOr("")) {
      assert SpeakerIdOf(xs[2]) == Some(id);
    }
    if id != [] && id == Trim(speaker2Id.GetOr("")) {
      assert SpeakerIdOf(xs[1]) == Some(id);
    }
    if id != [] && id == Trim(speaker1Id.GetOr("")) {
      assert SpeakerIdOf(xs[0]) == Some(id);
    }
  }

  datatype Person = Person(firstName: Option<string>, lastName: Option<string>, email: Option<string>)

  /** The trimmed first and last names, separated by a space, trimmed again. */
  function FullName(p: Person): (r: string)
    ensures var first := Trim(p.firstName.GetOr("")); var last := Trim(p.lastName.GetOr(""));
      r == if first == [] then last else if last == [] then first else first + " " + last
  {
    TrimFacts(p.firstName.GetOr(""));
    TrimFacts(p.lastName.GetOr(""));
    JoinTrimmed(Trim(p.firstName.GetOr("")), Trim(p.lastName.GetOr("")));
    Trim(Trim(p.firstName.GetOr("")) + " " + Trim(p.lastName.GetOr("")))
  }

  /**
   * `personDisplay`: the fallback id for an unknown person; `name <email>`,
   * or the bare email without a name, when an email is set; otherwise the
   * name, or the fallback id when the name is blank.
   */
  function PersonDisplay(person: Option<Person>, fallbackId: string): (r: string)
    ensures person.None? ==> r == fallbackId
    ensures person.Some? && person.value.email.GetOr("") != [] ==>
      r == if FullName(person.value) == [] then person.value.email.value else FullName(person.value) + " <" + person.value.email.value + ">"
    ensures person.Some? && person.value.email.GetOr("") == [] ==>
      r == if FullName(person.value) == [] then fallbackId else FullName(person.value)
  {
    match person
    case None => fallbackId
    case Some(p) =>
      var fullName := FullName(p);
      if p.email.Some? && p.email.value != [] then
        (if fullName != [] then fullName + " <" + p.email.value + ">" else p.email.value)
      else if fullName != [] then fullName
      else fallbackId
  }

  /** The trimmed text of a value, `''` for a missing one. */
  function TrimmedText(v: Value): string {
    Trim(TextOr(v))
  }

  /** The first member whose trimmed text is not blank (`Object.values(value).find(...)`). */
  function FirstNonBlank(ms: seq<Member>): (r: Option<Value>)
    ensures r.None? <==> forall i :: 0 <= i < |ms| ==> TrimmedText(ms[i].value) == []
    ensures r.Some? ==> exists i :: 0 <= i < |ms| && r.value == ms[i].value && TrimmedText(ms[i].value) != [] &&
                                    forall j :: 0 <= j < i ==> TrimmedText(ms[j].value) == []
  {
    if ms == [] then None
    else if TrimmedText(ms[0].value) != [] then Some(ms[0].value)
    else
      var r := FirstNonBlank(ms[1..]);
      assert forall i :: 1 <= i < |ms| ==> ms[i] == ms[1..][i - 1];
      r
  }

  /**
   * `localizableText`: both the French and the English text when both are
   * set, the one that is set otherwise, and failing both the first non-blank
   * text of any language; `''` when there is none.
   */
  function LocalizableText(value: Value): (r: string)
    ensures IsTrimmed(r)
    ensures var fr := TrimmedText(Get(value, "FR")); var en := TrimmedText(Get(value, "EN"));
      Truthy(value) && fr != [] && en != [] ==> r == "FR: " + fr + " | EN: " + en
    ensures var fr := TrimmedText(Get(value, "FR")); var en := TrimmedText(Get(value, "EN"));
      Truthy(value) && (fr == []) != (en == []) ==> r == fr + en
    ensures var fr := TrimmedText(Get(value, "FR")); var en := TrimmedText(Get(value, "EN"));
      Truthy(value) && fr == [] && en == [] ==> (r == [] <==> forall i :: 0 <= i < |Entries(value)| ==> TrimmedText(Entries(value)[i].value) == [])
    ensures var fr := TrimmedText(Get(value, "FR")); var en := TrimmedText(Get(value, "EN"));
      (Truthy(value) && fr == [] && en == [] && r != []) ==>
        exists i :: 0 <= i < |Entries(value)| && r == TrimmedText(Entries(value)[i].value) &&
                    forall j :: 0 <= j < i ==> TrimmedText(Entries(value)[j].value) == []
    ensures !Truthy(value) ==> r == []
  {
    if !Truthy(value) then ""
    else
      var fr := TrimmedText(Get(value, "FR"));
      var en := TrimmedText(Get(value, "EN"));
      TrimFacts(TextOr(Get(value, "FR")));
      TrimFacts(TextOr(Get(value, "EN")));
      if fr != [] && en != [] then
        BothLanguagesTrimmed(fr, en);
        "FR: " + fr + " | EN: " + en
      else if fr != [] then fr
      else if en != [] then en
      else
        match FirstNonBlank(Entries(value))
        case None => ""
        case Some(v) =>
          TrimFacts(TextOr(v));
          TrimmedText(v)
  }

  /** Both texts, labelled, start with a letter and end as the English text does. */
  lemma BothLanguagesTrimmed(fr: string, en: string)
    requires en != [] && IsTrimmed(en)
    ensures IsTrimmed("FR: " + fr + " | EN: " + en)
  {
    var r := "FR: " + fr + " | EN: " + en;
    assert r[0] == 'F' && r[|r| - 1] == en[|en| - 1];
  }

  /** `allocationKey`: the trimmed day, slot and room ids joined by `|`. */
  function AllocationKey(dayId: string, slotId: string, roomId: string): string {
    Trim(dayId) + "|" + Trim(slotId) + "|" + Trim(roomId)
  }

  /** `daySlotKey`: the trimmed day and slot ids joined by `|`. */
  function DaySlotKey(dayId: string, slotId: string): string {
    Trim(dayId) + "|" + Trim(slotId)
  }

  /** Splitting an allocation key on `|` gives back the three trimmed ids, when none holds a `|`. */
  lemma AllocationKeyRoundTrip(dayId: string, slotId: string, roomId: string)
    requires '|' !in Trim(dayId) && '|' !in Trim(slotId) && '|' !in Trim(roomId)
    ensures SplitOn(AllocationKey(dayId, slotId, roomId), '|') == [Trim(dayId), Trim(slotId), Trim(roomId)]
  {
    var d, s, r := Trim(dayId), Trim(slotId), Trim(roomId);
    assert AllocationKey(dayId, slotId, roomId) == d + ['|'] + (s + ['|'] + r);
    SplitAfterPart(d, s + ['|'] + r, '|');
    SplitAfterPart(s, r, '|');
    SplitWhole(r, '|');
  }

  /** Splitting a day-slot key on `|` gives back the two trimmed ids, when neither holds a `|`. */
  lemma DaySlotKeyRoundTrip(dayId: string, slotId: string)
    requires '|' !in Trim(dayId) && '|' !in Trim(slotId)
    ensures SplitOn(DaySlotKey(dayId, slotId), '|') == [Trim(dayId), Trim(slotId)]
  {
    SplitAfterPart(Trim(dayId), Trim(slotId), '|');
    SplitWhole(Trim(slotId), '|');
  }
}

=== FILE: src/home.dfy ===
/**
 * The conference cards of the home page: the date span of a conference,
 * the call-for-papers window, and whether opening a card goes to the
 * management pages.
 */
module Home {
  import opened Base
  import opened Text
  import opened Json
  import opened Lists
  import opened Sorting
  import OrganizerEmails

  /** The dates a card shows; both absent when the conference has no dated day. */
  datatype DateRange = DateRange(start: Option<string>, end: Option<string>)

  /** The non-empty dates of the days (a missing date is `None`). */
  function PresentDates(dates: seq<Option<string>>): (r: seq<string>)
    ensures forall d :: d in r <==> d != "" && Some(d) in dates
  {
    FilterMapMemberAll(dates);
    FilterMap(dates, (d: Option<string>) => if d.Some? && d.value != "" then d else None)
  }

  /** The dates kept are exactly the non-empty ones. */
  lemma FilterMapMemberAll(dates: seq<Option<string>>)
    ensures forall d :: d in FilterMap(dates, (d: Option<string>) => if d.Some? && d.value != "" then d else None) <==> d != "" && Some(d) in dates
  {
    var f := (d: Option<string>) => if d.Some? && d.value != "" then d else None;
    forall d ensures d in FilterMap(dates, f) <==> d != "" && Some(d) in dates {
      FilterMapMember(dates, f, d);
    }
  }

  /** `conferenceDateRange`: the first and last of the dated days, in text order. */
  function ConferenceDateRange(dates: seq<Option<string>>): (r: DateRange)
    ensures (r.start.None? <==> PresentDates(dates) == []) && (r.start.None? <==> r.end.None?)
    ensures r.start.Some? ==> r.start.value in PresentDates(dates) && r.end.value in PresentDates(dates)
  {
    var sorted := SortBy(PresentDates(dates), TextOrder());
    if sorted == [] then DateRange(None, None)
    else
      assert sorted[0] in multiset(PresentDates(dates)) && sorted[|sorted| - 1] in multiset(PresentDates(dates));
      DateRange(Some(sorted[0]), Some(sorted[|sorted| - 1]))
  }

  /**
   * With no dated day both ends are absent; otherwise both are dates of the
   * conference, the start is the earliest and the end the latest.
   */
  lemma DateRangeBounds(dates: seq<Option<string>>)
    ensures var r := ConferenceDateRange(dates);
      (r.start.None? <==> PresentDates(dates) == []) && (r.start.None? <==> r.end.None?)
    ensures var r := ConferenceDateRange(dates);
      r.start.Some? ==>
        r.start.value in PresentDates(dates) && r.end.value in PresentDates(dates) &&
        TextLe(r.start.value, r.end.value) &&
        forall d :: d in PresentDates(dates) ==> TextLe(r.start.value, d) && TextLe(d, r.end.value)
  {
    var present := PresentDates(dates);
    var sorted := SortBy(present, TextOrder());
    if sorted != [] {
      TextOrderIsTotal(present);
      assert sorted[0] in multiset(present) && sorted[|sorted| - 1] in multiset(present);
      forall d | d in present
        ensures TextLe(sorted[0], d) && TextLe(d, sorted[|sorted| - 1])
      {
        SortByEnds(present, TextOrder(), d);
      }
    }
  }

  /**
   * `cfpDateRange`: the trimmed bounds of the call for papers, or `None`
   * when one is blank or `Date.parse` rejects one (the parser is a parameter).
   */
  function CfpDateRange(conference: Value, parses: string -> bool): (r: Option<(string, string)>)
    ensures var start := Trim(TextOr(Get(Get(conference, "cfp"), "startDate")));
      var end := Trim(TextOr(Get(Get(conference, "cfp"), "endDate")));
      (r.Some? <==> start != "" && end != "" && parses(start) && parses(end)) &&
      (r.Some? ==> r.value == (start, end))
  {
    var start := Trim(TextOr(Get(Get(conference, "cfp"), "startDate")));
    var end := Trim(TextOr(Get(Get(conference, "cfp"), "endDate")));
    if start == [] || end == [] then None
    else if !parses(start) || !parses(end) then None
    else Some((start, end))
  }

  /** A window the card shows has two non-blank trimmed bounds, so a blank bound never shows. */
  lemma CfpBoundsAreTrimmed(conference: Value, parses: string -> bool)
    ensures var r := CfpDateRange(conference, parses);
      r.Some? ==> r.value.0 != "" && IsTrimmed(r.value.0) && r.value.1 != "" && IsTrimmed(r.value.1)
    ensures IsBlank(TextOr(Get(Get(conference, "cfp"), "startDate"))) ==> CfpDateRange(conference, parses).None?
  {
    TrimIsTrimmed(TextOr(Get(Get(conference, "cfp"), "startDate")));
    TrimIsTrimmed(TextOr(Get(Get(conference, "cfp"), "endDate")));
  }

  /** `openConference`: the route opened, the management pages for a listed organizer. */
  function OpenConferenceRoute(email: Option<string>, organizerEmails: seq<string>, conferenceId: string): (r: seq<string>)
    ensures |r| == 3 <==> email.Some? && email.value != "" && email.value in organizerEmails
    ensures |r| >= 2 && r[..2] == ["/conference", conferenceId]
  {
    var isOrganizer := email.Some? && email.value != "" && email.value in organizerEmails;
    if isOrganizer then ["/conference", conferenceId, "manage"] else ["/conference", conferenceId]
  }

  /** Once an address is added as organizer, its user opens the management pages; once removed, the public page. */
  lemma OrganizerEditsDecideRoute(value: Option<seq<string>>, email: string, conferenceId: string)
    requires email != ""
    ensures OpenConferenceRoute(Some(email), OrganizerEmails.Current(OrganizerEmails.AddOrganizerEmail(value, email)), conferenceId)
      == ["/conference", conferenceId, "manage"]
    ensures OpenConferenceRoute(Some(email), OrganizerEmails.Current(OrganizerEmails.RemoveOrganizerEmail(value, email)), conferenceId)
      == ["/conference", conferenceId]
  {
    OrganizerEmails.AddFacts(value, email);
    OrganizerEmails.RemoveFacts(value, email);
  }
}

=== FILE: src/json.dfy ===
/**
 * Untyped document values as JavaScript and Firestore see them, and the
 * generic conversions the handlers apply to them: `??`, truthiness,
 * `String(...)`, `Number(...)`, object spread, and the recursive removal of
 * `undefined` before a write.
 */
module Json {
  import opened Base
  import opened Text

  datatype Value =
    | Undefined
    | Null
    | Bool(b: bool)
    | Number(n: Num)
    | Str(s: string)
    | Arr(items: seq<Value>)
    | Obj(members: seq<Member>)

  /** One own property of an object, in insertion order. */
  datatype Member = Member(key: string, value: Value)

  predicate IsNullish(v: Value) {
    v.Undefined? || v.Null?
  }

  /** JavaScript `a ?? b`. */
  function Coalesce(a: Value, b: Value): Value {
    if IsNullish(a) then b else a
  }

  /** JavaScript truthiness (`!!v`, `Boolean(v)`). */
  predicate Truthy(v: Value) {
    match v
    case Undefined => false
    case Null => false
    case Bool(b) => b
    case Number(n) => n.Finite? ==> n.v != 0
    case Str(s) => s != []
    case Arr(_) => true
    case Obj(_) => true
  }

  function Keys(ms: seq<Member>): (ks: seq<string>)
    ensures |ks| == |ms|
    ensures forall i :: 0 <= i < |ms| ==> ks[i] == ms[i].key
  {
    seq(|ms|, i requires 0 <= i < |ms| => ms[i].key)
  }

  predicate UniqueKeys(ms: seq<Member>) {
    forall i, j :: 0 <= i < j < |ms| ==> ms[i].key != ms[j].key
  }

  /** The value stored under `key` (the first such member), or `undefined`. */
  function Lookup(ms: seq<Member>, key: string): Value
  {
    if ms == [] then Undefined
    else if ms[0].key == key then ms[0].value
    else Lookup(ms[1..], key)
  }

  /** Own enumerable properties: object members, or array elements under their index. */
  function Entries(v: Value): seq<Member> {
    match v
    case Obj(ms) => ms
    case Arr(items) => seq(|items|, i requires 0 <= i < |items| => Member(NatToString(i), items[i]))
    case _ => []
  }

  /** JavaScript `v?.[key]` (property lookups on strings are not modelled). */
  function Get(v: Value, key: string): Value {
    Lookup(Entries(v), key)
  }

  /** `{...ms, [key]: value}`: an existing key keeps its position, a new one is appended. */
  function Put(ms: seq<Member>, key: string, value: Value): (r: seq<Member>)
    ensures Lookup(r, key) == value
    ensures forall k :: k != key ==> Lookup(r, k) == Lookup(ms, k)
  {
    if ms == [] then [Member(key, value)]
    else if ms[0].key == key then [Member(key, value)] + ms[1..]
    else [ms[0]] + Put(ms[1..], key, value)
  }

  /** Members whose keys are known to be distinct names have unique keys. */
  lemma UniqueKeysOfNames(ms: seq<Member>, names: seq<string>)
    requires Keys(ms) == names
    requires forall i, j :: 0 <= i < j < |names| ==> names[i] != names[j]
    ensures UniqueKeys(ms)
  {
    forall i, j | 0 <= i < j < |ms| ensures ms[i].key != ms[j].key {
      assert Keys(ms)[i] == ms[i].key && Keys(ms)[j] == ms[j].key;
    }
  }

  /** An existing key keeps its position, a new one is appended. */
  lemma {:induction false} PutKeys(ms: seq<Member>, key: string, value: Value)
    ensures Keys(Put(ms, key, value)) == if key in Keys(ms) then Keys(ms) else Keys(ms) + [key]
  {
    if ms == [] {
      assert Keys([Member(key, value)]) == [key];
    } else if ms[0].key == key {
      assert Keys(ms)[0] == key;
      assert Keys([Member(key, value)] + ms[1..]) == Keys(ms);
    } else {
      var tail := ms[1..];
      PutKeys(tail, key, value);
      KeysCons(ms[0], Put(tail, key, value));
      KeysCons(ms[0], tail);
      assert ms == [ms[0]] + tail;
    }
  }

  /** The keys of a member put in front of others. */
  lemma KeysCons(m: Member, rest: seq<Member>)
    ensures Keys([m] + rest) == [m.key] + Keys(rest)
  {
  }

  /** Writing a key keeps the keys distinct. */
  lemma PutKeepsKeysUnique(ms: seq<Member>, key: string, value: Value)
    requires UniqueKeys(ms)
    ensures UniqueKeys(Put(ms, key, value))
  {
    var r := Put(ms, key, value);
    PutKeys(ms, key, value);
    forall i, j | 0 <= i < j < |r|
      ensures r[i].key != r[j].key
    {
      assert Keys(r)[i] == r[i].key && Keys(r)[j] == r[j].key;
    }
  }

  /** Writing a key adds no member other than the written one. */
  lemma PutMember(ms: seq<Member>, key: string, value: Value, m: Member)
    requires m in Put(ms, key, value)
    ensures m in ms || m == Member(key, value)
  {
  }

  /** A key no member carries reads as `undefined`. */
  lemma LookupMissing(ms: seq<Member>, key: string)
    requires key !in Keys(ms)
    ensures Lookup(ms, key) == Undefined
  {
  }

  /** `{...v}`: the members of an object; spreading anything else gives no members. */
  function Spread(v: Value): seq<Member> {
    if v.Obj? then v.members else []
  }

  /** JavaScript `String(v)`. */
  function ToText(v: Value): string {
    match v
    case Undefined => "undefined"
    case Null => "null"
    case Bool(b) => if b then "true" else "false"
    case Number(n) =>
      (match n
       case Finite(i) => IntToString(i)
       case NaN => "NaN"
       case Infinity => "Infinity"
       case NegInfinity => "-Infinity")
    case Str(s) => s
    case Arr(items) =>
      Join(seq(|items|, i requires 0 <= i < |items| => if IsNullish(items[i]) then "" else ToText(items[i])), ",")
    case Obj(_) => "[object Object]"
  }

  /** JavaScript `String(v ?? '')`. */
  function TextOr(v: Value): string {
    ToText(Coalesce(v, Str("")))
  }

  /** `Number(text)` for the integer subset of JavaScript's numeric literal grammar. */
  function StringToNumber(s: string): Num {
    TrimmedTextToNumber(Trim(s))
  }

  function TrimmedTextToNumber(t: string): Num {
    if t == "" then Finite(0)
    else if t == "Infinity" || t == "+Infinity" then Infinity
    else if t == "-Infinity" then NegInfinity
    else if t[0] == '-' && |t| > 1 && AllDigits(t[1..]) then Finite(0 - DigitsValue(t[1..]))
    else if t[0] == '+' && |t| > 1 && AllDigits(t[1..]) then Finite(DigitsValue(t[1..]))
    else if AllDigits(t) then Finite(DigitsValue(t))
    else NaN
  }

  /** JavaScript `Number(v)`. */
  function ToNumber(v: Value): Num {
    match v
    case Undefined => NaN
    case Null => Finite(0)
    case Bool(b) => Finite(if b then 1 else 0)
    case Number(n) => n
    case Str(s) => StringToNumber(s)
    case Arr(_) => StringToNumber(ToText(v))
    case Obj(_) => NaN
  }

  /** Reading back the text of a number gives the number. */
  lemma NumberTextRoundTrip(n: Num)
    ensures ToNumber(Str(ToText(Number(n)))) == n
  {
    match n
    case Finite(i) =>
      if i < 0 {
        NegativeIntText(i, -i);
      } else {
        NonNegativeIntText(i, NatToString(i));
      }
    case NaN => NaNText();
    case Infinity => InfinityText();
    case NegInfinity => NegInfinityText();
  }

  lemma NegativeIntText(i: int, n: nat)
    requires i < 0 && n == -i
    ensures StringToNumber(IntToString(i)) == Finite(i)
  {
    var d := NatToString(n);
    NatToStringRoundTrip(n);
    NegativeDigitsText(d);
    assert IntToString(i) == "-" + d;
  }

  lemma NonNegativeIntText(i: int, d: string)
    requires i >= 0 && d == NatToString(i)
    ensures StringToNumber(IntToString(i)) == Finite(i)
  {
    assert IntToString(i) == d;
    NatToStringRoundTrip(i);
    DigitsText(d);
  }

  lemma NaNText()
    ensures StringToNumber("NaN") == NaN
  {
    TrimmedIsFixpoint("NaN");
    assert !AllDigits("NaN") by { assert !IsDigit("NaN"[0]); }
  }

  lemma InfinityText()
    ensures StringToNumber("Infinity") == Infinity
  {
    TrimmedIsFixpoint("Infinity");
  }

  lemma NegInfinityText()
    ensures StringToNumber("-Infinity") == NegInfinity
  {
    TrimmedIsFixpoint("-Infinity");
  }

  lemma DigitsText(t: string)
    requires t != [] && AllDigits(t)
    ensures StringToNumber(t) == Finite(DigitsValue(t))
  {
    assert IsDigit(t[0]) && IsDigit(t[|t| - 1]);
    TrimmedIsFixpoint(t);
    NotInfinityText(t);
  }

  lemma NegativeDigitsText(d: string)
    requires d != [] && AllDigits(d)
    ensures StringToNumber("-" + d) == Finite(0 - DigitsValue(d))
  {
    var t := "-" + d;
    NegativeTextShape(d);
    TrimmedIsFixpoint(t);
    NotInfinityText(t);
    SignedDigitsText(t);
  }

  lemma NegativeTextShape(d: string)
    requires d != [] && AllDigits(d)
    ensures |"-" + d| > 1 && ("-" + d)[0] == '-' && ("-" + d)[1..] == d && IsDigit(("-" + d)[1])
    ensures !IsSpace(("-" + d)[0]) && !IsSpace(("-" + d)[|"-" + d| - 1])
  {
    var t := "-" + d;
    assert t[|t| - 1] == d[|d| - 1];
    assert IsDigit(d[|d| - 1]);
  }

  lemma NotInfinityText(t: string)
    requires |t| >= 1 && (IsDigit(t[0]) || (|t| > 1 && IsDigit(t[1])))
    ensures t != "Infinity" && t != "+Infinity" && t != "-Infinity"
  {
  }

  lemma SignedDigitsText(t: string)
    requires |t| > 1 && t[0] == '-' && AllDigits(t[1..])
    requires t != "Infinity" && t != "+Infinity" && t != "-Infinity"
    ensures TrimmedTextToNumber(t) == Finite(0 - DigitsValue(t[1..]))
  {
  }

  /** No `undefined` anywhere inside: what Firestore accepts as document data. */
  predicate Defined(v: Value) {
    match v
    case Undefined => false
    case Arr(items) => forall i :: 0 <= i < |items| ==> Defined(items[i])
    case Obj(ms) => forall i :: 0 <= i < |ms| ==> DefinedMember(ms[i])
    case _ => true
  }

  predicate DefinedMember(m: Member) {
    Defined(m.value)
  }

  /**
   * `sanitizeUndefined`: recursively drops `undefined` array elements and
   * object members; only `undefined` itself maps to `undefined`.
   */
  function SanitizeUndefined(v: Value): (r: Value)
    ensures r.Undefined? <==> v.Undefined?
    ensures !v.Undefined? ==> Defined(r)
    ensures v.Arr? <==> r.Arr?
    ensures v.Obj? <==> r.Obj?
    decreases v
  {
    match v
    case Arr(items) => Arr(SanitizeItems(items))
    case Obj(ms) => Obj(SanitizeMembers(ms))
    case _ => v
  }

  function SanitizeItems(items: seq<Value>): (r: seq<Value>)
    ensures forall i :: 0 <= i < |r| ==> Defined(r[i])
    ensures |r| <= |items|
    decreases items
  {
    if items == [] then []
    else
      var h := SanitizeUndefined(items[0]);
      (if h.Undefined? then [] else [h]) + SanitizeItems(items[1..])
  }

  function SanitizeMembers(ms: seq<Member>): (r: seq<Member>)
    ensures forall i :: 0 <= i < |r| ==> DefinedMember(r[i])
    ensures |r| <= |ms|
    decreases ms
  {
    if ms == [] then []
    else
      var h := SanitizeUndefined(ms[0].value);
      (if h.Undefined? then [] else [Member(ms[0].key, h)]) + SanitizeMembers(ms[1..])
  }

  /** The first member with a key decides the lookup. */
  lemma LookupCons(m: Member, rest: seq<Member>, key: string)
    ensures Lookup([m] + rest, key) == if m.key == key then m.value else Lookup(rest, key)
  {
    assert ([m] + rest)[1..] == rest;
  }

  /** A member of the sanitized object is the sanitized member of the original (keys distinct). */
  lemma {:induction false} SanitizeLookup(ms: seq<Member>, key: string)
    requires UniqueKeys(ms)
    ensures Lookup(SanitizeMembers(ms), key) == SanitizeUndefined(Lookup(ms, key))
    decreases ms
  {
    if ms != [] {
      var h := SanitizeUndefined(ms[0].value);
      var rest := SanitizeMembers(ms[1..]);
      assert SanitizeMembers(ms) == (if h.Undefined? then [] else [Member(ms[0].key, h)]) + rest;
      if !h.Undefined? {
        LookupCons(Member(ms[0].key, h), rest, key);
      } else {
        assert SanitizeMembers(ms) == rest;
      }
      if ms[0].key == key {
        forall i | 0 <= i < |ms[1..]|
          ensures ms[1..][i].key != key
        {
          assert ms[1..][i] == ms[i + 1];
        }
        SanitizedAbsentKey(ms[1..], key);
      } else {
        assert UniqueKeys(ms[1..]) by {
          forall i, j | 0 <= i < j < |ms[1..]|
            ensures ms[1..][i].key != ms[1..][j].key
          {
            assert ms[1..][i] == ms[i + 1] && ms[1..][j] == ms[j + 1];
          }
        }
        SanitizeLookup(ms[1..], key);
      }
    }
  }

  lemma {:induction false} SanitizedAbsentKey(ms: seq<Member>, key: string)
    requires forall i :: 0 <= i < |ms| ==> ms[i].key != key
    ensures Lookup(SanitizeMembers(ms), key) == Undefined
    decreases ms
  {
    if ms != [] {
      var h := SanitizeUndefined(ms[0].value);
      var rest := SanitizeMembers(ms[1..]);
      assert SanitizeMembers(ms) == (if h.Undefined? then [] else [Member(ms[0].key, h)]) + rest;
      if !h.Undefined? {
        LookupCons(Member(ms[0].key, h), rest, key);
      }
      assert forall i :: 0 <= i < |ms[1..]| ==> ms[1..][i] == ms[i + 1];
      SanitizedAbsentKey(ms[1..], key);
      if h.Undefined? {
        assert SanitizeMembers(ms) == rest;
      }
    }
  }

  /** Values that already hold no `undefined` pass through unchanged. */
  lemma {:induction false} SanitizeDefinedIsIdentity(v: Value)
    requires Defined(v)
    ensures SanitizeUndefined(v) == v
    decreases v
  {
    match v
    case Arr(items) => SanitizeItemsDefined(items);
    case Obj(ms) => SanitizeMembersDefined(ms);
    case _ =>
  }

  lemma {:induction false} SanitizeItemsDefined(items: seq<Value>)
    requires forall i :: 0 <= i < |items| ==> Defined(items[i])
    ensures SanitizeItems(items) == items
    decreases items
  {
    if items != [] {
      SanitizeDefinedIsIdentity(items[0]);
      SanitizeItemsDefined(items[1..]);
    }
  }

  lemma {:induction false} SanitizeMembersDefined(ms: seq<Member>)
    requires forall i :: 0 <= i < |ms| ==> DefinedMember(ms[i])
    ensures SanitizeMembers(ms) == ms
    decreases ms
  {
    if ms != [] {
      assert DefinedMember(ms[0]);
      SanitizeDefinedIsIdentity(ms[0].value);
      SanitizeMembersDefined(ms[1..]);
    }
  }

  /** Sanitizing twice is sanitizing once. */
  lemma SanitizeIdempotent(v: Value)
    ensures SanitizeUndefined(SanitizeUndefined(v)) == SanitizeUndefined(v)
  {
    if !v.Undefined? {
      SanitizeDefinedIsIdentity(SanitizeUndefined(v));
    }
  }

  /** `{...ms, k1: v1, ..., kn: vn}`: the listed members are written in order over `ms`. */
  function Assign(ms: seq<Member>, extra: seq<Member>): (r: seq<Member>)
    ensures forall k :: k !in Keys(extra) ==> Lookup(r, k) == Lookup(ms, k)
    decreases |extra|
  {
    if extra == [] then ms
    else
      assert forall k :: k !in Keys(extra) ==> k !in Keys(extra[1..]) && k != extra[0].key by {
        assert forall i :: 0 <= i < |extra[1..]| ==> Keys(extra[1..])[i] == Keys(extra)[i + 1];
      }
      Assign(Put(ms, extra[0].key, extra[0].value), extra[1..])
  }

  /** The value of the last member named `key`: the one an object literal keeps. */
  function LastValue(ms: seq<Member>, key: string): Value
    decreases |ms|
  {
    if ms == [] then Undefined
    else if ms[|ms| - 1].key == key then ms[|ms| - 1].value
    else LastValue(ms[..|ms| - 1], key)
  }

  lemma {:induction false} LastValueCons(m: Member, rest: seq<Member>, key: string)
    ensures LastValue([m] + rest, key) == if key in Keys(rest) then LastValue(rest, key) else if m.key == key then m.value else Undefined
    decreases |rest|
  {
    var ms := [m] + rest;
    if rest != [] {
      assert ms[|ms| - 1] == rest[|rest| - 1];
      assert ms[..|ms| - 1] == [m] + rest[..|rest| - 1];
      assert Keys(rest) == Keys(rest[..|rest| - 1]) + [rest[|rest| - 1].key];
      LastValueCons(m, rest[..|rest| - 1], key);
    } else {
      assert ms[..|ms| - 1] == [];
    }
  }

  /** Each key ends up with the value listed last for it; unlisted keys keep theirs. */
  lemma {:induction false} AssignLookup(ms: seq<Member>, extra: seq<Member>, key: string)
    ensures Lookup(Assign(ms, extra), key) == if key in Keys(extra) then LastValue(extra, key) else Lookup(ms, key)
    decreases |extra|
  {
    if extra != [] {
      var tail := extra[1..];
      assert extra == [extra[0]] + tail;
      assert Keys(extra) == [extra[0].key] + Keys(tail);
      LastValueCons(extra[0], tail, key);
      AssignLookup(Put(ms, extra[0].key, extra[0].value), tail, key);
    }
  }

  /** Writing members keeps the keys distinct. */
  lemma {:induction false} AssignKeepsKeysUnique(ms: seq<Member>, extra: seq<Member>)
    requires UniqueKeys(ms)
    ensures UniqueKeys(Assign(ms, extra))
    decreases |extra|
  {
    if extra != [] {
      PutKeepsKeysUnique(ms, extra[0].key, extra[0].value);
      AssignKeepsKeysUnique(Put(ms, extra[0].key, extra[0].value), extra[1..]);
    }
  }

  /** Reading a property of a sanitized object (keys distinct). */
  lemma SanitizedGet(ms: seq<Member>, key: string)
    requires UniqueKeys(ms)
    ensures Get(SanitizeUndefined(Obj(ms)), key) == SanitizeUndefined(Lookup(ms, key))
  {
    SanitizeLookup(ms, key);
  }

  /** An object literal `{...}` built from its members in source order, spreads included. */
  function Literal(parts: seq<Member>): (r: Value)
    ensures r.Obj? && UniqueKeys(r.members)
  {
    AssignKeepsKeysUnique([], parts);
    Obj(Assign([], parts))
  }

  /** A property of an object literal is the value listed last for it. */
  lemma LiteralGet(parts: seq<Member>, key: string)
    ensures Get(Literal(parts), key) == LastValue(parts, key)
  {
    AssignLookup([], parts, key);
    if key !in Keys(parts) {
      LastValueAbsent(parts, key);
    }
  }

  lemma {:induction false} LastValueAbsent(ms: seq<Member>, key: string)
    requires key !in Keys(ms)
    ensures LastValue(ms, key) == Undefined
    decreases |ms|
  {
    if ms != [] {
      assert Keys(ms) == Keys(ms[..|ms| - 1]) + [ms[|ms| - 1].key];
      LastValueAbsent(ms[..|ms| - 1], key);
    }
  }

  /** Members listed after `ms` win over it; keys only in `ms` keep its value. */
  lemma {:induction false} LastValueAppend(ms: seq<Member>, later: seq<Member>, key: string)
    ensures LastValue(ms + later, key) == if key in Keys(later) then LastValue(later, key) else LastValue(ms, key)
    decreases |later|
  {
    if later == [] {
      assert ms + later == ms;
    } else {
      var init := later[..|later| - 1];
      AppendLast(ms, later);
      KeysLast(later, key);
      LastValueAppend(ms, init, key);
    }
  }

  /** The last member of `ms + later` is the last of `later`, and the rest is `ms` and the rest of `later`. */
  lemma AppendLast(ms: seq<Member>, later: seq<Member>)
    requires later != []
    ensures var all := ms + later;
      all[|all| - 1] == later[|later| - 1] && all[..|all| - 1] == ms + later[..|later| - 1]
  {
  }

  /** A key of `later` is the key of its last member or a key of the members before it. */
  lemma KeysLast(later: seq<Member>, key: string)
    requires later != []
    ensures key in Keys(later) <==> key in Keys(later[..|later| - 1]) || later[|later| - 1].key == key
  {
    var init := later[..|later| - 1];
    if key in Keys(later) {
      var j :| 0 <= j < |later| && Keys(later)[j] == key;
      if j < |init| {
        assert Keys(init)[j] == key;
      }
    }
    if key in Keys(init) {
      var j :| 0 <= j < |init| && Keys(init)[j] == key;
      assert Keys(later)[j] == key;
    }
    if later[|later| - 1].key == key {
      assert Keys(later)[|later| - 1] == key;
    }
  }

  /** With distinct keys the last member named `key` is also the first. */
  lemma {:induction false} LastValueOfUnique(ms: seq<Member>, key: string)
    requires UniqueKeys(ms)
    ensures LastValue(ms, key) == Lookup(ms, key)
    decreases |ms|
  {
    if ms != [] {
      var tail := ms[1..];
      assert ms == [ms[0]] + tail;
      assert UniqueKeys(tail) by {
        forall a, b | 0 <= a < b < |tail| ensures tail[a].key != tail[b].key {
          assert tail[a] == ms[a + 1] && tail[b] == ms[b + 1];
        }
      }
      assert ms[0].key !in Keys(tail) by {
        forall j | 0 <= j < |tail| ensures Keys(tail)[j] != ms[0].key {
          assert tail[j] == ms[j + 1];
        }
      }
      LastValueCons(ms[0], tail, key);
      LastValueOfUnique(tail, key);
      if key !in Keys(tail) && ms[0].key != key {
        LookupAbsent(tail, key);
      }
    }
  }

  lemma {:induction false} LookupAbsent(ms: seq<Member>, key: string)
    requires key !in Keys(ms)
    ensures Lookup(ms, key) == Undefined
    decreases |ms|
  {
    if ms != [] {
      assert Keys(ms) == [ms[0].key] + Keys(ms[1..]);
      LookupAbsent(ms[1..], key);
    }
  }

  /** With distinct keys, each member is found under its own key. */
  lemma {:induction false} LookupAt(ms: seq<Member>, i: nat)
    requires i < |ms| && UniqueKeys(ms)
    ensures Lookup(ms, ms[i].key) == ms[i].value
    decreases i
  {
    if i > 0 {
      assert ms[1..][i - 1] == ms[i];
      assert UniqueKeys(ms[1..]) by {
        forall a, b | 0 <= a < b < |ms| - 1 ensures ms[1..][a].key != ms[1..][b].key {
          assert ms[1..][a] == ms[a + 1] && ms[1..][b] == ms[b + 1];
        }
      }
      LookupAt(ms[1..], i - 1);
    }
  }

  /** `{...base, ...o}` holds each member of `o` listed once under its key. */
  lemma LiteralOverride(base: seq<Member>, o: seq<Member>, i: nat)
    requires i < |o| && UniqueKeys(o)
    ensures Get(Literal(base + o), o[i].key) == o[i].value
  {
    LiteralGet(base + o, o[i].key);
    assert o[i].key in Keys(o) by {
      assert Keys(o)[i] == o[i].key;
    }
    LastValueAppend(base, o, o[i].key);
    LastValueOfUnique(o, o[i].key);
    LookupAt(o, i);
  }

  /** `{...v, ...o}` keeps the value `v` has under a key `o` does not name. */
  lemma LiteralSpread(v: Value, o: seq<Member>, key: string)
    requires v.Obj? && UniqueKeys(v.members) && key !in Keys(o)
    ensures Get(Literal(Spread(v) + o), key) == Get(v, key)
  {
    LiteralGet(Spread(v) + o, key);
    LastValueAppend(Spread(v), o, key);
    LastValueOfUnique(Spread(v), key);
  }

  /**
   * The value `JSON.stringify` writes out, as a value: non-finite numbers
   * become `null`, `undefined` members are dropped, `undefined` array
   * elements become `null`, and member order is kept. Two values give the
   * same JSON text exactly when they have the same form, since JSON text
   * is an unambiguous encoding of it.
   */
  function JsonForm(v: Value): (r: Value)
    ensures r.Undefined? <==> v.Undefined?
    ensures v.Arr? <==> r.Arr?
    ensures v.Obj? <==> r.Obj?
    ensures v.Str? ==> r == v
    decreases v
  {
    match v
    case Number(n) => if n.Finite? then v else Null
    case Arr(items) => Arr(JsonItems(items))
    case Obj(ms) => Obj(JsonMembers(ms))
    case _ => v
  }

  function JsonItems(items: seq<Value>): (r: seq<Value>)
    ensures |r| == |items|
    decreases items
  {
    if items == [] then []
    else [if items[0].Undefined? then Null else JsonForm(items[0])] + JsonItems(items[1..])
  }

  function JsonMembers(ms: seq<Member>): (r: seq<Member>)
    ensures |r| <= |ms|
    decreases ms
  {
    if ms == [] then []
    else (if ms[0].value.Undefined? then [] else [Member(ms[0].key, JsonForm(ms[0].value))]) + JsonMembers(ms[1..])
  }

  /** An object whose members all hold strings. */
  predicate StringRecord(v: Value) {
    v.Obj? && forall i :: 0 <= i < |v.members| ==> v.members[i].value.Str?
  }

  /** Members that all hold strings are written out as they are, in their order. */
  lemma {:induction false} JsonMembersOfStrings(ms: seq<Member>)
    requires forall i :: 0 <= i < |ms| ==> ms[i].value.Str?
    ensures JsonMembers(ms) == ms
  {
    if ms != [] {
      JsonMembersOfStrings(ms[1..]);
      assert ms == [ms[0]] + ms[1..];
    }
  }

  /** A list of string records is written out as it is: its JSON form is itself. */
  lemma {:induction false} JsonFormOfStringRecords(items: seq<Value>)
    requires forall i :: 0 <= i < |items| ==> StringRecord(items[i])
    ensures JsonForm(Arr(items)) == Arr(items)
  {
    if items != [] {
      JsonMembersOfStrings(items[0].members);
      JsonFormOfStringRecords(items[1..]);
      assert JsonItems(items) == [items[0]] + JsonItems(items[1..]);
      assert items == [items[0]] + items[1..];
    }
  }
}

=== FILE: src/lists.dfy ===
/**
 * The `map(...).filter(...)` idiom the handlers use to clean arrays: each
 * element is converted or dropped, and the survivors keep their order.
 */
module Lists {
  import opened Base

  /** `xs.map(f).filter(x => !!x)` where `f` returns `None` for the dropped elements. */
  function FilterMap<A, B>(xs: seq<A>, f: A -> Option<B>): (r: seq<B>)
    ensures |r| <= |xs|
  {
    if xs == [] then []
    else (if f(xs[0]).Some? then [f(xs[0]).value] else []) + FilterMap(xs[1..], f)
  }

  /** An element survives exactly when some input element converts to it. */
  lemma {:induction false} FilterMapMember<A, B>(xs: seq<A>, f: A -> Option<B>, y: B)
    ensures y in FilterMap(xs, f) <==> exists i :: 0 <= i < |xs| && f(xs[i]) == Some(y)
  {
    if xs != [] {
      FilterMapMember(xs[1..], f, y);
      if f(xs[0]) != Some(y) && y !in FilterMap(xs[1..], f) {
        forall i | 0 <= i < |xs| ensures f(xs[i]) != Some(y) {
          if i > 0 {
            assert xs[i] == xs[1..][i - 1];
          }
        }
      } else if f(xs[0]) != Some(y) {
        var i :| 0 <= i < |xs[1..]| && f(xs[1..][i]) == Some(y);
        assert xs[i + 1] == xs[1..][i];
      }
    }
  }

  /** Nothing survives exactly when every element is dropped. */
  lemma {:induction false} FilterMapEmpty<A, B>(xs: seq<A>, f: A -> Option<B>)
    ensures FilterMap(xs, f) == [] <==> forall i :: 0 <= i < |xs| ==> f(xs[i]).None?
  {
    if xs != [] {
      FilterMapEmpty(xs[1..], f);
      if f(xs[0]).None? {
        assert forall i :: 1 <= i < |xs| ==> xs[i] == xs[1..][i - 1];
      }
    }
  }

  /** Converting a concatenation converts each part in place: the survivors keep their order. */
  lemma {:induction false} FilterMapAppend<A, B>(a: seq<A>, b: seq<A>, f: A -> Option<B>)
    ensures FilterMap(a + b, f) == FilterMap(a, f) + FilterMap(b, f)
  {
    if a != [] {
      assert (a + b)[0] == a[0] && (a + b)[1..] == a[1..] + b;
      FilterMapAppend(a[1..], b, f);
    } else {
      assert a + b == b;
    }
  }

  /** The first conversion that succeeds, scanning in order: a loop that returns on its first hit. */
  function FirstSome<A, B>(xs: seq<A>, f: A -> Option<B>): Option<B> {
    if xs == [] then None
    else if f(xs[0]).Some? then f(xs[0])
    else FirstSome(xs[1..], f)
  }

  /**
   * The scan finds nothing iff every conversion fails, and otherwise gives the
   * conversion of the first element whose conversion succeeds.
   */
  lemma {:induction false} FirstSomeIsFirst<A, B>(xs: seq<A>, f: A -> Option<B>)
    ensures FirstSome(xs, f).None? <==> forall i :: 0 <= i < |xs| ==> f(xs[i]).None?
    ensures FirstSome(xs, f).Some? ==> exists i :: (0 <= i < |xs| && FirstSome(xs, f) == f(xs[i])
      && (forall j :: 0 <= j < i ==> f(xs[j]).None?))
  {
    if xs != [] && f(xs[0]).None? {
      var rest := xs[1..];
      FirstSomeIsFirst(rest, f);
      forall j | 1 <= j < |xs|
        ensures xs[j] == rest[j - 1]
      {
      }
      if FirstSome(xs, f).Some? {
        var i :| 0 <= i < |rest| && FirstSome(rest, f) == f(rest[i])
          && (forall j :: 0 <= j < i ==> f(rest[j]).None?);
        assert xs[i + 1] == rest[i];
      }
    }
  }

  /** `list.length ? list : undefined`. */
  function NonEmpty<T>(xs: seq<T>): (r: Option<seq<T>>)
    ensures r.Some? <==> xs != []
    ensures r.Some? ==> r.value == xs
  {
    if xs == [] then None else Some(xs)
  }

  /** `xs.filter(p)`: the elements satisfying `p`, in order. */
  function Where<T>(xs: seq<T>, p: T -> bool): (r: seq<T>)
    ensures forall k :: 0 <= k < |r| ==> r[k] in xs && p(r[k])
    ensures forall k :: 0 <= k < |xs| && p(xs[k]) ==> xs[k] in r
    ensures multiset(r) <= multiset(xs)
  {
    if xs == [] then []
    else
      var rest := Where(xs[1..], p);
      WhereStep(xs, p, rest);
      (if p(xs[0]) then [xs[0]] else []) + rest
  }

  /** `filter` keeps every copy of an element that passes and no copy of one that fails. */
  lemma {:induction false} WhereCount<T>(xs: seq<T>, p: T -> bool, v: T)
    ensures multiset(Where(xs, p))[v] == if p(v) then multiset(xs)[v] else 0
  {
    if xs != [] {
      WhereCount(xs[1..], p, v);
      assert xs == [xs[0]] + xs[1..];
      MultisetCons(xs[0], xs[1..], v);
      if p(xs[0]) {
        assert Where(xs, p) == [xs[0]] + Where(xs[1..], p);
        MultisetCons(xs[0], Where(xs[1..], p), v);
      } else {
        assert Where(xs, p) == Where(xs[1..], p);
      }
    }
  }

  lemma MultisetCons<T>(x: T, xs: seq<T>, v: T)
    ensures multiset([x] + xs)[v] == (if x == v then 1 else 0) + multiset(xs)[v]
  {
  }

  lemma WhereStep<T>(xs: seq<T>, p: T -> bool, rest: seq<T>)
    requires xs != []
    requires forall k :: 0 <= k < |rest| ==> rest[k] in xs[1..] && p(rest[k])
    requires forall k :: 0 <= k < |xs[1..]| && p(xs[1..][k]) ==> xs[1..][k] in rest
    requires multiset(rest) <= multiset(xs[1..])
    ensures var r := (if p(xs[0]) then [xs[0]] else []) + rest;
      (forall k :: 0 <= k < |r| ==> r[k] in xs && p(r[k])) &&
      (forall k :: 0 <= k < |xs| && p(xs[k]) ==> xs[k] in r) &&
      multiset(r) <= multiset(xs)
  {
    var head := if p(xs[0]) then [xs[0]] else [];
    var r := head + rest;
    assert xs == [xs[0]] + xs[1..];
    assert multiset(xs) == multiset([xs[0]]) + multiset(xs[1..]);
    assert multiset(r) == multiset(head) + multiset(rest);
    forall k | 0 <= k < |r| ensures r[k] in xs && p(r[k]) {
      if k >= |head| {
        assert r[k] == rest[k - |head|];
      }
    }
    forall k | 0 <= k < |xs| && p(xs[k]) ensures xs[k] in r {
      if k > 0 {
        assert xs[k] == xs[1..][k - 1];
      }
    }
  }

  /** `a` is `b` with some elements left out: the elements of `a` occur in `b` in the same order. */
  predicate SubsequenceOf<T(==)>(a: seq<T>, b: seq<T>)
    decreases |b|
  {
    if a == [] then true
    else if b == [] then false
    else if a[0] == b[0] then SubsequenceOf(a[1..], b[1..])
    else SubsequenceOf(a, b[1..])
  }

  /** Filtering only leaves elements out: the survivors keep their order. */
  lemma {:induction false} WhereIsSubsequence<T>(xs: seq<T>, p: T -> bool)
    ensures SubsequenceOf(Where(xs, p), xs)
  {
    if xs != [] {
      WhereIsSubsequence(xs[1..], p);
      var rest := Where(xs[1..], p);
      if p(xs[0]) {
        assert Where(xs, p) == [xs[0]] + rest;
        assert ([xs[0]] + rest)[1..] == rest;
      } else {
        assert Where(xs, p) == rest;
        SubsequenceSkip(rest, xs);
      }
    }
  }

  /** A subsequence of the tail is a subsequence of the whole. */
  lemma {:induction false} SubsequenceSkip<T>(a: seq<T>, b: seq<T>)
    requires b != [] && SubsequenceOf(a, b[1..])
    ensures SubsequenceOf(a, b)
    decreases |b|, 0
  {
    if a != [] && a[0] == b[0] {
      SubsequenceDropHead(a, b[1..]);
    }
  }

  /** Leaving out the first element of a subsequence keeps it a subsequence. */
  lemma {:induction false} SubsequenceDropHead<T>(a: seq<T>, c: seq<T>)
    requires a != [] && SubsequenceOf(a, c)
    ensures SubsequenceOf(a[1..], c)
    decreases |c|, 1
  {
    if a[0] == c[0] {
      SubsequenceSkip(a[1..], c);
    } else {
      SubsequenceDropHead(a, c[1..]);
      SubsequenceSkip(a[1..], c);
    }
  }

  /** No element occurs twice. */
  predicate NoDuplicates<T(==)>(xs: seq<T>) {
    forall i, j :: 0 <= i < j < |xs| ==> xs[i] != xs[j]
  }

  /** `[...new Set(xs)]`: the elements of `xs` without repeats, each where it first occurs. */
  function Distinct<T(==)>(xs: seq<T>): (r: seq<T>)
    ensures forall k :: 0 <= k < |r| ==> r[k] in xs
    ensures forall k :: 0 <= k < |xs| ==> xs[k] in r
    ensures NoDuplicates(r)
    decreases |xs|
  {
    if xs == [] then []
    else
      var init := xs[..|xs| - 1];
      assert xs == init + [xs[|xs| - 1]];
      var r := Distinct(init);
      if xs[|xs| - 1] in r then r else r + [xs[|xs| - 1]]
  }

  /** The set keeps the order of first occurrences. */
  lemma {:induction false} DistinctIsSubsequence<T>(xs: seq<T>)
    ensures SubsequenceOf(Distinct(xs), xs)
    decreases |xs|
  {
    if xs != [] {
      var init := xs[..|xs| - 1];
      var last := xs[|xs| - 1];
      assert xs == init + [last];
      DistinctIsSubsequence(init);
      if last in Distinct(init) {
        SubsequenceExtend(Distinct(init), init, last);
      } else {
        SubsequenceExtendBoth(Distinct(init), init, last);
      }
    }
  }

  /** A list without repeats is its own set. */
  lemma {:induction false} DistinctOfNoDuplicates<T>(xs: seq<T>)
    requires NoDuplicates(xs)
    ensures Distinct(xs) == xs
    decreases |xs|
  {
    if xs != [] {
      var init := xs[..|xs| - 1];
      assert NoDuplicates(init) by {
        forall i, j | 0 <= i < j < |init| ensures init[i] != init[j] {
          assert init[i] == xs[i] && init[j] == xs[j];
        }
      }
      DistinctOfNoDuplicates(init);
      assert xs[|xs| - 1] !in init by {
        forall i | 0 <= i < |init| ensures init[i] != xs[|xs| - 1] {
          assert init[i] == xs[i];
        }
      }
      assert xs == init + [xs[|xs| - 1]];
    }
  }

  /** Appending to the whole sequence keeps a subsequence. */
  lemma {:induction false} SubsequenceExtend<T>(a: seq<T>, b: seq<T>, x: T)
    requires SubsequenceOf(a, b)
    ensures SubsequenceOf(a, b + [x])
    decreases |b|
  {
    if a != [] {
      assert (b + [x])[0] == b[0] && (b + [x])[1..] == b[1..] + [x];
      if a[0] == b[0] {
        SubsequenceExtend(a[1..], b[1..], x);
      } else {
        SubsequenceExtend(a, b[1..], x);
      }
    }
  }

  /** Appending the same element to both keeps a subsequence. */
  lemma {:induction false} SubsequenceExtendBoth<T>(a: seq<T>, b: seq<T>, x: T)
    requires SubsequenceOf(a, b)
    ensures SubsequenceOf(a + [x], b + [x])
    decreases |b|
  {
    if b == [] {
      assert a == [];
      assert a + [x] == [x] && b + [x] == [x];
      assert [x][1..] == [];
    } else {
      assert (b + [x])[0] == b[0] && (b + [x])[1..] == b[1..] + [x];
      if a != [] && a[0] == b[0] {
        assert (a + [x])[0] == a[0] && (a + [x])[1..] == a[1..] + [x];
        SubsequenceExtendBoth(a[1..], b[1..], x);
      } else {
        if a != [] {
          assert (a + [x])[0] == a[0];
        }
        SubsequenceExtendBoth(a, b[1..], x);
      }
    }
  }

  /** `xs.indexOf(x)`: the first position of `x`, or -1 when it does not occur. */
  function IndexOf<T(==)>(xs: seq<T>, x: T): (r: int)
    ensures -1 <= r < |xs|
    ensures r == -1 <==> x !in xs
    ensures r >= 0 ==> xs[r] == x && forall j :: 0 <= j < r ==> xs[j] != x
  {
    if xs == [] then -1
    else if xs[0] == x then 0
    else
      var i := IndexOf(xs[1..], x);
      if i == -1 then -1 else i + 1
  }

  /** In a list without repeats, each element is found where it stands. */
  lemma IndexOfDistinct<T>(xs: seq<T>, k: nat)
    requires NoDuplicates(xs) && k < |xs|
    ensures IndexOf(xs, xs[k]) == k
  {
  }

  /** Filtering a list all of whose elements pass leaves it unchanged. */
  lemma {:induction false} WhereAll<T>(xs: seq<T>, p: T -> bool)
    requires forall i :: 0 <= i < |xs| ==> p(xs[i])
    ensures Where(xs, p) == xs
  {
    if xs != [] {
      WhereAll(xs[1..], p);
    }
  }

  /** Filtering distributes over appending. */
  lemma {:induction false} WhereAppend<T>(xs: seq<T>, ys: seq<T>, p: T -> bool)
    ensures Where(xs + ys, p) == Where(xs, p) + Where(ys, p)
  {
    if xs == [] {
      assert xs + ys == ys;
    } else {
      assert (xs + ys)[0] == xs[0] && (xs + ys)[1..] == xs[1..] + ys;
      WhereAppend(xs[1..], ys, p);
    }
  }
}

=== FILE: src/organizer_emails.dfy ===
/**
 * Editing the organizer e-mail list of a conference's general settings:
 * adding an address at most once, and removing every copy of one.
 */
module OrganizerEmails {
  import opened Base
  import opened Lists

  /** The list the form holds: `value || []`. */
  function Current(value: Option<seq<string>>): seq<string> {
    value.GetOr([])
  }

  /**
   * `addOrganizerEmail`: the form value after the call. An empty address or
   * one already listed leaves the form as it was; a new one is appended.
   */
  function AddOrganizerEmail(value: Option<seq<string>>, email: string): (r: Option<seq<string>>)
    ensures email == "" || email in Current(value) ==> r == value
    ensures email != "" && email !in Current(value) ==> r == Some(Current(value) + [email])
  {
    if email != "" && email !in Current(value) then Some(Current(value) + [email]) else value
  }

  /** The filter `removeOrganizerEmail` applies. */
  function Other(email: string): string -> bool {
    (e: string) => e != email
  }

  /** `removeOrganizerEmail`: the listed addresses other than `email`, in their order. */
  function RemoveOrganizerEmail(value: Option<seq<string>>, email: string): Option<seq<string>> {
    Some(Where(Current(value), Other(email)))
  }

  /** Adding keeps the earlier addresses in place, lists a non-empty address, and adds nothing else. */
  lemma AddFacts(value: Option<seq<string>>, email: string)
    ensures var after := Current(AddOrganizerEmail(value, email));
      |after| >= |Current(value)| && after[..|Current(value)|] == Current(value) &&
      (email != "" ==> email in after) &&
      (forall e :: e in after ==> e in Current(value) || e == email)
  {
  }

  /** Adding the same address twice is adding it once. */
  lemma AddIdempotent(value: Option<seq<string>>, email: string)
    ensures AddOrganizerEmail(AddOrganizerEmail(value, email), email) == AddOrganizerEmail(value, email)
  {
    if email != "" && email !in Current(value) {
      assert email in Current(value) + [email];
    }
  }

  /** Adding never creates a duplicate. */
  lemma AddKeepsDistinct(value: Option<seq<string>>, email: string)
    requires NoDuplicates(Current(value))
    ensures NoDuplicates(Current(AddOrganizerEmail(value, email)))
  {
  }

  /** Removing drops every copy of the address, keeps every other one, and keeps their order. */
  lemma RemoveFacts(value: Option<seq<string>>, email: string)
    ensures var after := Current(RemoveOrganizerEmail(value, email));
      email !in after &&
      (forall e :: e != email ==> (e in after <==> e in Current(value))) &&
      SubsequenceOf(after, Current(value))
  {
    WhereIsSubsequence(Current(value), Other(email));
  }

  /** Removing an address just added restores the list it was added to. */
  lemma RemoveUndoesAdd(value: Option<seq<string>>, email: string)
    requires email != "" && email !in Current(value)
    ensures RemoveOrganizerEmail(AddOrganizerEmail(value, email), email) == Some(Current(value))
  {
    var xs := Current(value);
    var added := xs + [email];
    assert AddOrganizerEmail(value, email) == Some(added);
    WhereAppend(xs, [email], Other(email));
    OthersKept(xs, email);
    DroppedAlone(email);
    assert Where(added, Other(email)) == xs + [];
    assert xs + [] == xs;
  }

  /** A list without the address passes the filter whole. */
  lemma OthersKept(xs: seq<string>, email: string)
    requires email !in xs
    ensures Where(xs, Other(email)) == xs
  {
    WhereAll(xs, Other(email));
  }

  /** The address alone is filtered out. */
  lemma DroppedAlone(email: string)
    ensures Where([email], Other(email)) == []
  {
    assert [email][1..] == [];
  }
}

=== FILE: src/person_search.dfy ===
/**
 * Finding people: the lower-case search text stored on each person, and the
 * client-side part of the paged search, which merges the results of the
 * first-name, last-name and email prefix queries, orders them newest first
 * and cuts out one page after a cursor.
 */
module PersonSearch {
  import opened Base
  import opened Text
  import opened Json
  import opened Lists
  import opened Sorting
  import opened Chunking

  /** One field's contribution to the search text: its lower-cased text when the field is truthy. */
  function SearchPart(v: Value): (r: Option<string>)
    ensures r.Some? ==> Lower(r.value) == r.value
  {
    if Truthy(v) then
      LowerIdempotent(ToText(v));
      Some(Lower(ToText(v)))
    else None
  }

  /** The fields searched, in order: last name, first name, email, speaker company. */
  function SearchFields(person: Value): seq<Value> {
    [Get(person, "lastName"), Get(person, "firstName"), Get(person, "email"), Get(Get(person, "speaker"), "company")]
  }

  /** The lower-cased texts of the truthy searched fields, in field order. */
  function SearchParts(person: Value): (r: seq<string>)
    ensures |r| <= 4
    ensures forall i :: 0 <= i < |r| ==> Lower(r[i]) == r[i]
  {
    var r := FilterMap(SearchFields(person), SearchPart);
    forall i | 0 <= i < |r| ensures Lower(r[i]) == r[i] {
      FilterMapMember(SearchFields(person), SearchPart, r[i]);
    }
    r
  }

  /** `computePersonSearchField`: the parts joined by single spaces. */
  function ComputePersonSearchField(person: Value): (r: string)
    ensures SearchParts(person) == [] <==> (forall i :: 0 <= i < 4 ==> !Truthy(SearchFields(person)[i]))
    ensures SearchParts(person) == [] ==> r == ""
  {
    FilterMapEmpty(SearchFields(person), SearchPart);
    Join(SearchParts(person), " ")
  }

  /** The search text splits back into its parts when no part holds a space. */
  lemma SearchFieldSplitsIntoParts(person: Value)
    requires SearchParts(person) != []
    requires forall i :: 0 <= i < |SearchParts(person)| ==> ' ' !in SearchParts(person)[i]
    ensures SplitOn(ComputePersonSearchField(person), ' ') == SearchParts(person)
  {
    SplitJoin(SearchParts(person), ' ');
  }

  /** Lower-casing works character by character, so it distributes over joining. */
  lemma {:induction false} LowerJoin(parts: seq<string>)
    requires forall i :: 0 <= i < |parts| ==> Lower(parts[i]) == parts[i]
    ensures Lower(Join(parts, " ")) == Join(parts, " ")
  {
    if |parts| > 1 {
      LowerJoin(parts[1..]);
      LowerAppend(parts[0] + " ", Join(parts[1..], " "));
      LowerAppend(parts[0], " ");
    }
  }

  lemma LowerAppend(a: string, b: string)
    ensures Lower(a + b) == Lower(a) + Lower(b)
  {
  }

  /** The search text is entirely lower case. */
  lemma SearchFieldIsLowerCase(person: Value)
    ensures Lower(ComputePersonSearchField(person)) == ComputePersonSearchField(person)
  {
    LowerJoin(SearchParts(person));
  }

  /** A person document as the search reads it; `details` stands for the other fields. */
  datatype PersonDoc<D> = PersonDoc(id: string, lastUpdated: string, details: D)

  /** Keeps the first document of each id not already seen, in order (insertion into a `Map` keyed by id). */
  function DedupById<D>(xs: seq<PersonDoc<D>>, seen: set<string>): (r: seq<PersonDoc<D>>)
    ensures forall k :: 0 <= k < |r| ==> r[k] in xs && r[k].id !in seen
    ensures forall k, l :: 0 <= k < l < |r| ==> r[k].id != r[l].id
  {
    if xs == [] then []
    else
      var x := xs[0];
      var tail := xs[1..];
      if x.id in seen then DedupById(tail, seen)
      else [x] + DedupById(tail, seen + {x.id})
  }

  /** Every id not already seen is kept. */
  lemma {:induction false} DedupCoversIds<D>(xs: seq<PersonDoc<D>>, seen: set<string>, i: nat)
    requires i < |xs| && xs[i].id !in seen
    ensures exists k :: 0 <= k < |DedupById(xs, seen)| && DedupById(xs, seen)[k].id == xs[i].id
  {
    var r := DedupById(xs, seen);
    if i == 0 {
      assert r[0].id == xs[0].id;
    } else if xs[0].id in seen {
      DedupCoversIds(xs[1..], seen, i - 1);
    } else if xs[i].id == xs[0].id {
      assert r[0].id == xs[i].id;
    } else {
      DedupCoversIds(xs[1..], seen + {xs[0].id}, i - 1);
      var rest := DedupById(xs[1..], seen + {xs[0].id});
      var k :| 0 <= k < |rest| && rest[k].id == xs[i].id;
      assert r[k + 1] == rest[k];
    }
  }

  /** The first document carrying `id`, if any. */
  function FirstWithId<D>(xs: seq<PersonDoc<D>>, id: string): Option<PersonDoc<D>> {
    if xs == [] then None else if xs[0].id == id then Some(xs[0]) else FirstWithId(xs[1..], id)
  }

  /** The first document of each id wins: every kept document is the first one with its id. */
  lemma {:induction false} DedupKeepsFirst<D>(xs: seq<PersonDoc<D>>, seen: set<string>, k: nat)
    requires k < |DedupById(xs, seen)|
    ensures FirstWithId(xs, DedupById(xs, seen)[k].id) == Some(DedupById(xs, seen)[k])
  {
    var r := DedupById(xs, seen);
    var x := xs[0];
    if x.id in seen {
      DedupKeepsFirst(xs[1..], seen, k);
      assert r[k].id != x.id;
    } else if k > 0 {
      DedupKeepsFirst(xs[1..], seen + {x.id}, k - 1);
      assert r[k].id != x.id;
    }
  }

  /** `parseInt(s, 10)`: leading white space, an optional sign, then the longest run of digits. */
  function LeadingDigits(s: string): (r: string)
    ensures |r| <= |s| && r == s[..|r|] && AllDigits(r)
    ensures |r| < |s| ==> !IsDigit(s[|r|])
  {
    if s != [] && IsDigit(s[0]) then [s[0]] + LeadingDigits(s[1..]) else []
  }

  /** `parseInt(s, 10) || 0`: the integer at the start of `s`, or `0` when there is none. */
  function ParseIntOrZero(s: string): int {
    var t := TrimStart(s);
    var negative := t != [] && t[0] == '-';
    var body := if t != [] && (t[0] == '-' || t[0] == '+') then t[1..] else t;
    var digits := LeadingDigits(body);
    if digits == [] then 0 else if negative then 0 - DigitsValue(digits) else DigitsValue(digits)
  }

  /** A rendered timestamp reads back as itself. */
  lemma ParseIntOfNat(n: nat)
    ensures ParseIntOrZero(NatToString(n)) == n
  {
    var s := NatToString(n);
    assert !IsSpace(s[0]);
    assert TrimStart(s) == s;
    AllDigitsLead(s);
    NatToStringRoundTrip(n);
  }

  lemma {:induction false} AllDigitsLead(s: string)
    requires AllDigits(s)
    ensures LeadingDigits(s) == s
  {
    if s != [] {
      AllDigitsLead(s[1..]);
    }
  }

  /** Text that does not start with a number (after white space and a sign) sorts as `0`. */
  lemma NonNumericIsZero(s: string)
    requires var t := TrimStart(s); t == [] || (!IsDigit(t[0]) && t[0] != '-' && t[0] != '+')
    ensures ParseIntOrZero(s) == 0
  {
  }

  /** The order of the results: a larger numeric `lastUpdated` first. */
  function NewestFirst<D>(): (PersonDoc<D>, PersonDoc<D>) -> bool {
    (a: PersonDoc<D>, b: PersonDoc<D>) => ParseIntOrZero(a.lastUpdated) >= ParseIntOrZero(b.lastUpdated)
  }

  /** The merged results, each id once (first occurrence), newest first. */
  function MergedResults<D(==)>(results: seq<seq<PersonDoc<D>>>): (r: seq<PersonDoc<D>>)
    ensures SortedBy(r, NewestFirst())
    ensures multiset(r) == multiset(DedupById(Concat(results), {}))
  {
    var merged := DedupById(Concat(results), {});
    SortByIsSorted(merged, NewestFirst());
    SortBy(merged, NewestFirst())
  }

  /** The position of the first result with the given `lastUpdated`. */
  function FindCursor<D>(xs: seq<PersonDoc<D>>, cursor: string): (r: Option<nat>)
    ensures r.Some? ==> r.value < |xs| && xs[r.value].lastUpdated == cursor &&
                        forall j :: 0 <= j < r.value ==> xs[j].lastUpdated != cursor
    ensures r.None? ==> forall j :: 0 <= j < |xs| ==> xs[j].lastUpdated != cursor
  {
    if xs == [] then None
    else if xs[0].lastUpdated == cursor then Some(0)
    else
      match FindCursor(xs[1..], cursor)
      case None => None
      case Some(i) => Some(i + 1)
  }

  /** Where a page starts: just after the first item with the cursor's `lastUpdated`, else at the start. */
  function StartIndex<D>(sorted: seq<PersonDoc<D>>, cursor: Option<string>): (r: nat)
    ensures r <= |sorted|
    ensures cursor.None? || cursor.value == "" ==> r == 0
    ensures cursor.Some? && cursor.value != "" && FindCursor(sorted, cursor.value).Some? ==> r == FindCursor(sorted, cursor.value).value + 1
    ensures cursor.Some? && cursor.value != "" && FindCursor(sorted, cursor.value).None? ==> r == 0
  {
    if cursor.None? || cursor.value == "" then 0
    else
      match FindCursor(sorted, cursor.value)
      case None => 0
      case Some(i) => i + 1
  }

  datatype Page<D> = Page(persons: seq<PersonDoc<D>>, nextCursor: Option<string>)

  /**
   * One page of an ordered list: at most `pageSize` consecutive items from
   * the start index, and a next cursor exactly when the page is full, namely
   * the last item's `lastUpdated`.
   */
  function PageOf<D>(sorted: seq<PersonDoc<D>>, pageSize: nat, cursor: Option<string>): (r: Page<D>)
    ensures var start := StartIndex(sorted, cursor);
      |r.persons| <= pageSize && start + |r.persons| <= |sorted| && r.persons == sorted[start..start + |r.persons|]
    ensures var start := StartIndex(sorted, cursor);
      |r.persons| == if start + pageSize <= |sorted| then pageSize else |sorted| - start
    ensures r.nextCursor.Some? <==> r.persons != [] && |r.persons| == pageSize
    ensures r.nextCursor.Some? ==> r.nextCursor.value == r.persons[|r.persons| - 1].lastUpdated
  {
    var start := StartIndex(sorted, cursor);
    var end := if start + pageSize <= |sorted| then start + pageSize else |sorted|;
    var page := sorted[start..end];
    Page(page, if |page| > 0 && |page| == pageSize then Some(page[|page| - 1].lastUpdated) else None)
  }

  /** The client-side part of `pagedSearch`: one page of the merged results. */
  function PagedSearchResults<D(==)>(results: seq<seq<PersonDoc<D>>>, pageSize: nat, cursor: Option<string>): Page<D> {
    PageOf(MergedResults(results), pageSize, cursor)
  }

  /** A page keeps the order and the distinct ids of the list it is cut from. */
  lemma PageOfSlice<D>(sorted: seq<PersonDoc<D>>, pageSize: nat, cursor: Option<string>, le: (PersonDoc<D>, PersonDoc<D>) -> bool)
    ensures var p := PageOf(sorted, pageSize, cursor).persons;
      forall k :: 0 <= k < |p| ==> p[k] in sorted
    ensures SortedBy(sorted, le) ==> SortedBy(PageOf(sorted, pageSize, cursor).persons, le)
    ensures (forall a, b :: 0 <= a < b < |sorted| ==> sorted[a].id != sorted[b].id) ==>
      var p := PageOf(sorted, pageSize, cursor).persons;
      forall k, l :: 0 <= k < l < |p| ==> p[k].id != p[l].id
  {
    var start := StartIndex(sorted, cursor);
    var p := PageOf(sorted, pageSize, cursor).persons;
    assert forall k :: 0 <= k < |p| ==> p[k] == sorted[start + k];
  }

  /** The merged results come from the queries and carry each id once. */
  lemma MergedFromResults<D>(results: seq<seq<PersonDoc<D>>>)
    ensures var sorted := MergedResults(results);
      (forall k :: 0 <= k < |sorted| ==> exists i :: 0 <= i < |results| && sorted[k] in results[i]) &&
      (forall a, b :: 0 <= a < b < |sorted| ==> sorted[a].id != sorted[b].id)
  {
    var sorted := MergedResults(results);
    var merged := DedupById(Concat(results), {});
    forall k | 0 <= k < |sorted| ensures exists i :: 0 <= i < |results| && sorted[k] in results[i] {
      assert sorted[k] in multiset(merged);
      InConcat(results, sorted[k]);
    }
    forall a, b | 0 <= a < b < |sorted| ensures sorted[a].id != sorted[b].id {
      DistinctIdsAfterSort(merged, sorted, a, b);
    }
  }

  /** Every listed person came from one of the queries, no id is listed twice, and the page is newest first. */
  lemma PageComesFromResults<D>(results: seq<seq<PersonDoc<D>>>, pageSize: nat, cursor: Option<string>)
    ensures var p := PagedSearchResults(results, pageSize, cursor).persons;
      (forall k :: 0 <= k < |p| ==> exists i :: 0 <= i < |results| && p[k] in results[i]) &&
      (forall k, l :: 0 <= k < l < |p| ==> p[k].id != p[l].id) &&
      SortedBy(p, NewestFirst())
  {
    MergedFromResults(results);
    PageOfSlice(MergedResults(results), pageSize, cursor, NewestFirst());
  }

  /** A reordering of documents with distinct ids has distinct ids. */
  lemma DistinctIdsAfterSort<D>(merged: seq<PersonDoc<D>>, sorted: seq<PersonDoc<D>>, k: nat, l: nat)
    requires forall a, b :: 0 <= a < b < |merged| ==> merged[a].id != merged[b].id
    requires multiset(sorted) == multiset(merged)
    requires k < l < |sorted|
    ensures sorted[k].id != sorted[l].id
  {
    if sorted[k].id == sorted[l].id {
      assert sorted[k] in multiset(merged) && sorted[l] in multiset(merged);
      var a :| 0 <= a < |merged| && merged[a] == sorted[k];
      var b :| 0 <= b < |merged| && merged[b] == sorted[l];
      assert a == b;
      assert sorted[k] == sorted[l];
      MultisetCountTwo(sorted, k, l);
      CountAtMostOne(merged, merged[a]);
    }
  }

  lemma MultisetCountTwo<T>(xs: seq<T>, k: nat, l: nat)
    requires k < l < |xs| && xs[k] == xs[l]
    ensures multiset(xs)[xs[k]] >= 2
  {
    assert xs == xs[..k] + [xs[k]] + xs[k + 1..l] + [xs[l]] + xs[l + 1..];
  }

  lemma {:induction false} CountAtMostOne<D>(xs: seq<PersonDoc<D>>, x: PersonDoc<D>)
    requires forall a, b :: 0 <= a < b < |xs| ==> xs[a].id != xs[b].id
    ensures multiset(xs)[x] <= 1
  {
    if xs != [] {
      CountAtMostOne(xs[1..], x);
      assert xs == [xs[0]] + xs[1..];
      if xs[0] == x {
        assert x !in xs[1..] by {
          forall j | 0 <= j < |xs[1..]| ensures xs[1..][j] != x {
            assert xs[1..][j] == xs[j + 1];
          }
        }
      }
    }
  }

  /**
   * Following the cursor of a full page gives the next slice of the same
   * ordering, provided no two results share a `lastUpdated`.
   */
  lemma NextPageFollows<D>(results: seq<seq<PersonDoc<D>>>, pageSize: nat, cursor: Option<string>)
    ensures var sorted := MergedResults(results);
      var next := PagedSearchResults(results, pageSize, cursor).nextCursor;
      (&& (forall a, b :: 0 <= a < b < |sorted| ==> sorted[a].lastUpdated != sorted[b].lastUpdated)
       && next.Some? && next.value != "") ==>
      StartIndex(sorted, next) == StartIndex(sorted, cursor) + pageSize
  {
    var sorted := MergedResults(results);
    var next := PagedSearchResults(results, pageSize, cursor).nextCursor;
    if && (forall a, b :: 0 <= a < b < |sorted| ==> sorted[a].lastUpdated != sorted[b].lastUpdated)
       && next.Some? && next.value != ""
    {
      NextCursorFollows(sorted, pageSize, cursor);
    }
  }

  /** The same for any list without repeated `lastUpdated` values. */
  lemma NextCursorFollows<D>(sorted: seq<PersonDoc<D>>, pageSize: nat, cursor: Option<string>)
    requires forall a, b :: 0 <= a < b < |sorted| ==> sorted[a].lastUpdated != sorted[b].lastUpdated
    requires PageOf(sorted, pageSize, cursor).nextCursor.Some? && PageOf(sorted, pageSize, cursor).nextCursor.value != ""
    ensures StartIndex(sorted, PageOf(sorted, pageSize, cursor).nextCursor) == StartIndex(sorted, cursor) + pageSize
  {
    var start := StartIndex(sorted, cursor);
    var page := PageOf(sorted, pageSize, cursor);
    var next := page.nextCursor.value;
    var last := start + pageSize - 1;
    assert page.persons[pageSize - 1] == sorted[last];
    var found := FindCursor(sorted, next);
    assert found.Some? && found.value == last;
  }
}

=== FILE: src/platform_config.dfy ===
/**
 * The platform-wide configuration document: how it is read (defaults under
 * the stored fields, the id forced), how it is saved (the single-conference
 * id kept only when the restriction is on), and when the platform runs in
 * single-conference mode.
 */
module PlatformConfig {
  import opened Base
  import opened Text
  import opened Json

  /** The flag restricting conference creation to platform administrators. */
  const FlagKey: string := "onlyPlatformAdminCanCreateConference"

  /** The id of the one conference the platform is dedicated to, or "". */
  const SingleIdKey: string := "singleConferenceId"

  /** The id the restriction keeps: the trimmed input when the flag is on, "" otherwise. */
  function KeptSingleId(enabled: bool, singleConferenceId: string): (r: string)
    ensures !enabled ==> r == ""
    ensures enabled ==> r == Trim(singleConferenceId) && IsTrimmed(r)
  {
    TrimIsTrimmed(singleConferenceId);
    if enabled then Trim(singleConferenceId) else ""
  }

  /** The two fields `savePlatformConfig` writes over the defaults. */
  function SaveFields(enabled: bool, singleConferenceId: string): seq<Member> {
    [Member(FlagKey, Bool(enabled)), Member(SingleIdKey, Str(KeptSingleId(enabled, singleConferenceId)))]
  }

  /** `savePlatformConfig`: the defaults (a parameter) with the flag and the kept id written over them. */
  function SavedConfig(defaults: seq<Member>, enabled: bool, singleConferenceId: string): Value {
    Literal(defaults + SaveFields(enabled, singleConferenceId))
  }

  /** The saved document holds the flag as given and the id only when the flag is on; other fields are the defaults. */
  lemma SavedConfigFields(defaults: seq<Member>, enabled: bool, singleConferenceId: string, key: string)
    ensures var saved := SavedConfig(defaults, enabled, singleConferenceId);
      Get(saved, FlagKey) == Bool(enabled) &&
      Get(saved, SingleIdKey) == Str(if enabled then Trim(singleConferenceId) else "") &&
      (key != FlagKey && key != SingleIdKey ==> Get(saved, key) == Get(Literal(defaults), key))
  {
    var o := SaveFields(enabled, singleConferenceId);
    assert UniqueKeys(o);
    LiteralOverride(defaults, o, 0);
    LiteralOverride(defaults, o, 1);
    if key != FlagKey && key != SingleIdKey {
      LiteralGet(defaults + o, key);
      LiteralGet(defaults, key);
      LastValueAppend(defaults, o, key);
    }
  }

  /**
   * `getPlatformConfig`: the defaults when no document is stored, else the
   * defaults overlaid with the stored fields, with `id` forced to the
   * configuration document's id (a parameter).
   */
  function LoadedConfig(stored: Value, defaults: seq<Member>, docId: string): Value {
    if !Truthy(stored) then Literal(defaults)
    else Literal(defaults + Spread(stored) + [Member("id", Str(docId))])
  }

  /** A stored document shows its own fields, the defaults fill the others, and the id is the document id. */
  lemma LoadedConfigFields(stored: Value, defaults: seq<Member>, docId: string, key: string)
    requires stored.Obj? && UniqueKeys(stored.members) && key != "id"
    ensures Get(LoadedConfig(stored, defaults, docId), "id") == Str(docId)
    ensures key in Keys(stored.members) ==> Get(LoadedConfig(stored, defaults, docId), key) == Get(stored, key)
    ensures key !in Keys(stored.members) ==> Get(LoadedConfig(stored, defaults, docId), key) == Get(Literal(defaults), key)
  {
    var idm := [Member("id", Str(docId))];
    var body := defaults + Spread(stored);
    assert UniqueKeys(idm);
    LiteralOverride(body, idm, 0);
    LiteralGet(body + idm, key);
    LastValueAppend(body, idm, key);
    LastValueAppend(defaults, Spread(stored), key);
    if key in Keys(stored.members) {
      LastValueOfUnique(stored.members, key);
    } else {
      LiteralGet(defaults, key);
    }
  }

  /**
   * The single-conference-mode signal: on when a document is present, its
   * flag is truthy and its id is non-blank. `None` stands for the
   * `TypeError` thrown when the id is not a string.
   */
  function SingleConferenceMode(config: Value): (r: Option<bool>)
    ensures r == Some(true) <==>
      (Truthy(config) && Truthy(Get(config, FlagKey)) && Get(config, SingleIdKey).Str? && !IsBlank(Get(config, SingleIdKey).s))
    ensures r.None? <==> (Truthy(config) && Truthy(Get(config, FlagKey)) && !Get(config, SingleIdKey).Str?)
  {
    if !Truthy(config) || !Truthy(Get(config, FlagKey)) then Some(false)
    else
      match Get(config, SingleIdKey)
      case Str(s) => Some(|Trim(s)| > 0)
      case _ => None
  }

  /** A saved key is present in the saved document, which has distinct keys. */
  lemma SavedKeyListed(defaults: seq<Member>, enabled: bool, singleConferenceId: string, key: string)
    requires key == FlagKey || key == SingleIdKey
    ensures var saved := SavedConfig(defaults, enabled, singleConferenceId);
      UniqueKeys(saved.members) && key in Keys(saved.members)
  {
    var saved := SavedConfig(defaults, enabled, singleConferenceId);
    SavedConfigFields(defaults, enabled, singleConferenceId, key);
    if key !in Keys(saved.members) {
      LookupAbsent(saved.members, key);
    }
  }

  /** A field the save writes reads back unchanged. */
  lemma SavedFieldReloads(defaults: seq<Member>, enabled: bool, singleConferenceId: string, docId: string, key: string)
    requires key == FlagKey || key == SingleIdKey
    ensures var saved := SavedConfig(defaults, enabled, singleConferenceId);
      Get(LoadedConfig(saved, defaults, docId), key) == Get(saved, key)
  {
    var saved := SavedConfig(defaults, enabled, singleConferenceId);
    SavedKeyListed(defaults, enabled, singleConferenceId, key);
    LoadedConfigFields(saved, defaults, docId, key);
  }

  /**
   * Saving and reading back: the platform is in single-conference mode
   * exactly when the flag was saved on with a non-blank id.
   */
  lemma SaveThenLoad(defaults: seq<Member>, enabled: bool, singleConferenceId: string, docId: string)
    ensures var loaded := LoadedConfig(SavedConfig(defaults, enabled, singleConferenceId), defaults, docId);
      Get(loaded, FlagKey) == Bool(enabled) &&
      Get(loaded, SingleIdKey) == Str(KeptSingleId(enabled, singleConferenceId)) &&
      SingleConferenceMode(loaded) == Some(enabled && !IsBlank(singleConferenceId))
  {
    var loaded := LoadedConfig(SavedConfig(defaults, enabled, singleConferenceId), defaults, docId);
    SavedConfigFields(defaults, enabled, singleConferenceId, FlagKey);
    SavedFieldReloads(defaults, enabled, singleConferenceId, docId, FlagKey);
    SavedFieldReloads(defaults, enabled, singleConferenceId, docId, SingleIdKey);
    ModeOfSavedFields(loaded, enabled, singleConferenceId);
  }

  /** A document holding the saved fields is in single-conference mode exactly when the flag is on and the id non-blank. */
  lemma ModeOfSavedFields(config: Value, enabled: bool, singleConferenceId: string)
    requires config.Obj?
    requires Get(config, FlagKey) == Bool(enabled) && Get(config, SingleIdKey) == Str(KeptSingleId(enabled, singleConferenceId))
    ensures SingleConferenceMode(config) == Some(enabled && !IsBlank(singleConferenceId))
  {
    TrimIdempotent(singleConferenceId);
  }
}

=== FILE: src/platform_config_page.dfy ===
/**
 * The administration page of the platform configuration: when its save
 * button is enabled, what a save sends, what switching the restriction off
 * does to the form, and how conferences are labelled in its picker.
 */
module PlatformConfigPage {
  import opened Base
  import opened Text
  import opened Json
  import PlatformConfig

  /** The page's form: the restriction flag and the single-conference id. */
  datatype Form = Form(enabled: bool, singleConferenceId: string)

  /** `canSave`: never while saving; with the restriction on, only with a non-blank id. */
  function CanSave(isSaving: bool, form: Form): (r: bool)
    ensures isSaving ==> !r
    ensures !isSaving && !form.enabled ==> r
    ensures form.enabled ==> (r <==> !isSaving && !IsBlank(form.singleConferenceId))
  {
    if isSaving then false
    else if !form.enabled then true
    else |Trim(form.singleConferenceId)| > 0
  }

  /**
   * The page as Angular runs it. `canSave` is a `computed`: its value is kept
   * (`memo`) until a signal it read changes. It reads the `isSaving` signal
   * and the two form fields, but the form fields are plain properties, so
   * editing them does not clear the kept value.
   */
  datatype Page = Page(form: Form, isSaving: bool, memo: Option<bool>)

  /** A reading of `canSave()`: the kept value if there is one, otherwise a fresh evaluation, which is then kept. */
  function ReadCanSave(p: Page): (r: (bool, Page))
    ensures r.1.form == p.form && r.1.isSaving == p.isSaving && r.1.memo == Some(r.0)
    ensures p.memo.None? ==> r.0 == CanSave(p.isSaving, p.form)
    ensures p.memo.Some? ==> r == (p.memo.value, p)
  {
    match p.memo
    case Some(v) => (v, p)
    case None =>
      var v := CanSave(p.isSaving, p.form);
      (v, p.(memo := Some(v)))
  }

  /** A write to a form field (`ngModel` or a handler): Angular does not see it, so the kept value stays. */
  function EditForm(p: Page, form: Form): (r: Page)
    ensures r.form == form && r.isSaving == p.isSaving && r.memo == p.memo
  {
    p.(form := form)
  }

  /** `_isSaving.set(b)`: a new value clears the kept `canSave`; setting the same value does not. */
  function SetSaving(p: Page, b: bool): (r: Page)
    ensures r.form == p.form && r.isSaving == b
    ensures b == p.isSaving ==> r.memo == p.memo
    ensures b != p.isSaving ==> r.memo.None?
  {
    if b == p.isSaving then p else Page(p.form, b, None)
  }

  /** The kept value, if any, is what `canSave` would compute from the current form. */
  predicate InSync(p: Page) {
    p.memo.Some? ==> p.memo.value == CanSave(p.isSaving, p.form)
  }

  /**
   * Without form edits the page stays in sync: a reading gives the fresh
   * predicate, and readings and `isSaving` changes keep the page in sync.
   */
  lemma ReadInSync(p: Page, b: bool)
    requires InSync(p)
    ensures ReadCanSave(p).0 == CanSave(p.isSaving, p.form)
    ensures InSync(ReadCanSave(p).1)
    ensures InSync(SetSaving(p, b))
  {
  }

  /** An edit keeps the page in sync exactly when nothing is kept yet or the kept value still holds for the new form. */
  lemma EditInSync(p: Page, form: Form)
    ensures InSync(EditForm(p, form)) <==> p.memo.None? || p.memo.value == CanSave(p.isSaving, form)
  {
  }

  /**
   * As written, a kept `true` outlives clearing the id: the page allows the
   * save, and reading the saved document back gives no single-conference
   * mode although the restriction is on.
   */
  lemma StaleCanSaveAllowsBlankId(defaults: seq<Member>, docId: string)
    ensures var p0 := ReadCanSave(Page(Form(true, "abc"), false, None)).1;
      var p1 := EditForm(p0, Form(true, ""));
      ReadCanSave(p1).0 && !CanSave(false, p1.form) &&
      PlatformConfig.SingleConferenceMode(PlatformConfig.LoadedConfig(SavedFromPage(defaults, p1.form), defaults, docId)) == Some(false)
  {
    assert IsBlank("");
    assert !IsBlank("abc") by {
      assert !IsSpace('a');
    }
    PageSaveIsServiceSave(defaults, Form(true, ""));
    PlatformConfig.SaveThenLoad(defaults, true, "", docId);
  }

  /**
   * As written, a kept `false` outlives switching the restriction off: the
   * page still refuses to save although the form now allows it.
   */
  lemma StaleCanSaveBlocksSwitchOff()
    ensures var p0 := ReadCanSave(Page(Form(true, ""), false, None)).1;
      var p1 := EditForm(p0, OnRestrictionChange(p0.form, false));
      !ReadCanSave(p1).0 && CanSave(false, p1.form)
  {
  }

  /** The id `save` sends: the trimmed id with the restriction on, "" otherwise. */
  function SaveRequestId(form: Form): (r: string)
    ensures !form.enabled ==> r == ""
    ensures form.enabled ==> r == Trim(form.singleConferenceId)
  {
    if form.enabled then Trim(form.singleConferenceId) else ""
  }

  /** `onOnlyPlatformAdminCanCreateConferenceChange`: switching the restriction off clears the id; switching it on keeps it. */
  function OnRestrictionChange(form: Form, enabled: bool): (r: Form)
    ensures r.enabled == enabled
    ensures !enabled ==> r.singleConferenceId == ""
    ensures enabled ==> r.singleConferenceId == form.singleConferenceId
  {
    Form(enabled, if enabled then form.singleConferenceId else "")
  }

  /** The document a save from the page writes. */
  function SavedFromPage(defaults: seq<Member>, form: Form): Value {
    PlatformConfig.SavedConfig(defaults, form.enabled, SaveRequestId(form))
  }

  /** The page trims before the service trims again; the document is the one the service alone would write. */
  lemma PageSaveIsServiceSave(defaults: seq<Member>, form: Form)
    ensures SavedFromPage(defaults, form) == PlatformConfig.SavedConfig(defaults, form.enabled, form.singleConferenceId)
  {
    TrimIdempotent(form.singleConferenceId);
  }

  /**
   * Any save the fresh `canSave` predicate allows for the current form
   * yields, once read back, the mode the form shows: single-conference mode
   * exactly when the restriction is on. A kept stale value can allow more
   * (StaleCanSaveAllowsBlankId).
   */
  lemma AllowedSaveYieldsFormMode(defaults: seq<Member>, form: Form, docId: string)
    requires CanSave(false, form)
    ensures PlatformConfig.SingleConferenceMode(PlatformConfig.LoadedConfig(SavedFromPage(defaults, form), defaults, docId)) == Some(form.enabled)
  {
    PageSaveIsServiceSave(defaults, form);
    PlatformConfig.SaveThenLoad(defaults, form.enabled, form.singleConferenceId, docId);
  }

  /**
   * After switching the restriction off the fresh predicate allows the save,
   * and the save leaves single-conference mode. A kept stale value can still
   * refuse it (StaleCanSaveBlocksSwitchOff).
   */
  lemma SwitchOffThenSave(defaults: seq<Member>, form: Form, docId: string)
    ensures var off := OnRestrictionChange(form, false);
      CanSave(false, off) &&
      PlatformConfig.SingleConferenceMode(PlatformConfig.LoadedConfig(SavedFromPage(defaults, off), defaults, docId)) == Some(false)
  {
    AllowedSaveYieldsFormMode(defaults, OnRestrictionChange(form, false), docId);
  }

  /**
   * `conferenceLabel`: "name edition" when both are present (trimmed), else
   * the name, else the edition, else the id as text.
   */
  function ConferenceLabel(conference: Value): (r: string)
    ensures var name := Trim(TextOr(Get(conference, "name")));
      var edition := Trim(TextOr(Get(conference, "edition")));
      (name != "" && edition != "" ==> r == name + " " + edition) &&
      (name != "" && edition == "" ==> r == name) &&
      (name == "" && edition != "" ==> r == edition) &&
      (name == "" && edition == "" ==> r == TextOr(Get(conference, "id")))
  {
    var name := Trim(TextOr(Get(conference, "name")));
    var edition := Trim(TextOr(Get(conference, "edition")));
    if name != [] && edition != [] then name + " " + edition
    else if name != [] then name
    else if edition != [] then edition
    else TextOr(Get(conference, "id"))
  }

  /**
   * A conference with a name or an edition gets a non-empty trimmed label
   * that starts with the name and ends with the edition.
   */
  lemma LabelOfNamedConference(conference: Value)
    requires !IsBlank(TextOr(Get(conference, "name"))) || !IsBlank(TextOr(Get(conference, "edition")))
    ensures var r := ConferenceLabel(conference);
      var name := Trim(TextOr(Get(conference, "name")));
      var edition := Trim(TextOr(Get(conference, "edition")));
      r != "" && IsTrimmed(r) &&
      |r| >= |name| && r[..|name|] == name &&
      |r| >= |edition| && r[|r| - |edition|..] == edition
  {
    var name := Trim(TextOr(Get(conference, "name")));
    var edition := Trim(TextOr(Get(conference, "edition")));
    TrimIsTrimmed(TextOr(Get(conference, "name")));
    TrimIsTrimmed(TextOr(Get(conference, "edition")));
    JoinTrimmed(name, edition);
    var r := ConferenceLabel(conference);
    if name != [] && edition != [] {
      assert r == name + " " + edition;
      assert r[..|name|] == name;
      assert r[|r| - |edition|..] == edition;
    }
  }
}

=== FILE: src/session_edit.dfy ===
/**
 * What the session editor writes back: the normalised form fields, and the
 * list of fields the organisers changed by hand (the overrides an import must
 * not overwrite), with the original value of each.
 */
module SessionEdit {
  import opened Base
  import opened Text
  import opened Lists

  /** The editable text fields of a session; `None` where the stored session has no value. */
  datatype SessionFields = SessionFields(
    title: Option<string>,
    abstractText: Option<string>,
    speaker1Id: Option<string>,
    speaker2Id: Option<string>,
    speaker3Id: Option<string>)

  /** The form as read on save: each speaker control holds the id of the chosen person, if any. */
  datatype EditForm = EditForm(
    title: Option<string>,
    abstractText: Option<string>,
    speaker1: Option<string>,
    speaker2: Option<string>,
    speaker3: Option<string>)

  /** `x || undefined` on an optional text: the empty text counts as absent. */
  function NonEmptyOr(x: Option<string>): (r: Option<string>)
    ensures r.Some? <==> x.Some? && x.value != []
    ensures r.Some? ==> r == x
  {
    if x.Some? && x.value != [] then x else None
  }

  /**
   * The fields `save` writes: the title trimmed (empty when missing), the
   * abstract and first speaker defaulting to empty, and an empty second or
   * third speaker dropped.
   */
  function SavedFields(form: EditForm): (r: SessionFields)
    ensures r.title.Some? && r.abstractText.Some? && r.speaker1Id.Some?
    ensures r.title.value == (if form.title.Some? then Trim(form.title.value) else [])
    ensures r.title.value == [] || (!IsSpace(r.title.value[0]) && !IsSpace(r.title.value[|r.title.value| - 1]))
    ensures r.speaker2Id.Some? <==> form.speaker2.Some? && form.speaker2.value != []
    ensures r.speaker3Id.Some? <==> form.speaker3.Some? && form.speaker3.value != []
    ensures r.speaker2Id.Some? ==> r.speaker2Id == form.speaker2
    ensures r.speaker3Id.Some? ==> r.speaker3Id == form.speaker3
  {
    TrimFacts(form.title.GetOr(""));
    SessionFields(
      Some(if form.title.Some? then Trim(form.title.value) else ""),
      Some(form.abstractText.GetOr("")),
      Some(form.speaker1.GetOr("")),
      NonEmptyOr(form.speaker2),
      NonEmptyOr(form.speaker3))
  }

  /** Saving what was saved changes nothing: the normalisation is idempotent. */
  lemma SavedFieldsIdempotent(form: EditForm)
    ensures var r := SavedFields(form);
      SavedFields(EditForm(r.title, r.abstractText, r.speaker1Id, r.speaker2Id, r.speaker3Id)) == r
  {
    TrimIdempotent(form.title.GetOr(""));
  }

  /** An entry of `overriddenFields`. */
  datatype OverriddenField = OverriddenField(fieldName: string, oldValue: string)

  /** The fields the editor tracks. */
  datatype Field = Title | Abstract | Speaker1 | Speaker2 | Speaker3

  /** The order the editor checks them in. */
  const TrackedFields: seq<Field> := [Title, Abstract, Speaker1, Speaker2, Speaker3]

  /** Where a field stands in the tracked order. */
  function Position(f: Field): (k: nat)
    ensures k < |TrackedFields| && TrackedFields[k] == f
  {
    match f
    case Title => 0
    case Abstract => 1
    case Speaker1 => 2
    case Speaker2 => 3
    case Speaker3 => 4
  }

  /** The name a new override of the field is recorded under. */
  function FieldName(f: Field): string {
    match f
    case Title => "title"
    case Abstract => "abstract"
    case Speaker1 => "speakerId1"
    case Speaker2 => "speakerId2"
    case Speaker3 => "speakerId3"
  }

  /** The names under which an existing override of the field may have been recorded (`fieldAliases`). */
  function Aliases(f: Field): (r: seq<string>)
    ensures FieldName(f) in r
  {
    match f
    case Speaker1 => ["speakerId1", "speaker1Id"]
    case Speaker2 => ["speakerId2", "speaker2Id"]
    case Speaker3 => ["speakerId3", "speaker3Id"]
    case _ => [FieldName(f)]
  }

  /** The name of one tracked field is never an alias of another. */
  lemma AliasesDisjoint(f: Field, g: Field)
    requires FieldName(g) in Aliases(f)
    ensures g == f
  {
  }

  /** `hasOverride`: some recorded entry names the field or one of its aliases. */
  predicate HasOverride(overridden: seq<OverriddenField>, f: Field) {
    exists i :: 0 <= i < |overridden| && overridden[i].fieldName in Aliases(f)
  }

  /** The value of a tracked field, `''` when absent (`session.x ?? ''`). */
  function FieldValue(s: SessionFields, f: Field): string {
    match f
    case Title => s.title.GetOr("")
    case Abstract => s.abstractText.GetOr("")
    case Speaker1 => s.speaker1Id.GetOr("")
    case Speaker2 => s.speaker2Id.GetOr("")
    case Speaker3 => s.speaker3Id.GetOr("")
  }

  /** `addIfChanged`. */
  function AddIfChanged(overridden: seq<OverriddenField>, f: Field, oldValue: string, newValue: string): seq<OverriddenField> {
    if oldValue != newValue && !HasOverride(overridden, f) then overridden + [OverriddenField(FieldName(f), oldValue)]
    else overridden
  }

  /** `addIfChanged` applied to each field of `fields` in turn. */
  function AddAll(overridden: seq<OverriddenField>, fields: seq<Field>, initial: SessionFields, updated: SessionFields): seq<OverriddenField>
    decreases |fields|
  {
    if fields == [] then overridden
    else AddAll(AddIfChanged(overridden, fields[0], FieldValue(initial, fields[0]), FieldValue(updated, fields[0])), fields[1..], initial, updated)
  }

  /** The entry the editor records for a field, judged against the overrides that existed before the edit. */
  function NewOverride(initial: SessionFields, updated: SessionFields, existing: seq<OverriddenField>, f: Field): Option<OverriddenField> {
    if FieldValue(initial, f) != FieldValue(updated, f) && !HasOverride(existing, f)
    then Some(OverriddenField(FieldName(f), FieldValue(initial, f)))
    else None
  }

  function NewOverrides(initial: SessionFields, updated: SessionFields, existing: seq<OverriddenField>): Field -> Option<OverriddenField> {
    f => NewOverride(initial, updated, existing, f)
  }

  /**
   * `computeOverriddenFields` (its five `addIfChanged` calls, in the tracked
   * order): the existing overrides, followed, in that order, by one entry per
   * tracked field whose value changed and that has no override yet under its
   * name or an alias; each new entry keeps the value from before the edit.
   */
  function ComputeOverriddenFields(initial: SessionFields, updated: SessionFields, existing: seq<OverriddenField>): (r: seq<OverriddenField>)
    ensures r == existing + FilterMap(TrackedFields, NewOverrides(initial, updated, existing))
  {
    AddAllFromExisting(existing, [], TrackedFields, initial, updated);
    assert existing + FilterMap([], NewOverrides(initial, updated, existing)) == existing;
    assert [] + TrackedFields == TrackedFields;
    AddAll(existing, TrackedFields, initial, updated)
  }

  /** Entries added for the fields in `done` do not count as overrides of another field. */
  lemma AddedOverridesOtherFields(initial: SessionFields, updated: SessionFields, existing: seq<OverriddenField>, done: seq<Field>, f: Field)
    requires f !in done
    ensures HasOverride(existing + FilterMap(done, NewOverrides(initial, updated, existing)), f) == HasOverride(existing, f)
  {
    var added := FilterMap(done, NewOverrides(initial, updated, existing));
    var so := existing + added;
    if HasOverride(so, f) {
      var i :| 0 <= i < |so| && so[i].fieldName in Aliases(f);
      if i >= |existing| {
        assert so[i] == added[i - |existing|];
        FilterMapMember(done, NewOverrides(initial, updated, existing), so[i]);
        var j :| 0 <= j < |done| && NewOverrides(initial, updated, existing)(done[j]) == Some(so[i]);
        AliasesDisjoint(f, done[j]);
      } else {
        assert existing[i] == so[i];
      }
    }
    if HasOverride(existing, f) {
      var i :| 0 <= i < |existing| && existing[i].fieldName in Aliases(f);
      assert so[i] == existing[i];
    }
  }

  /**
   * After the fields in `done`, the remaining fields are judged as if against
   * the overrides that existed before the edit.
   */
  lemma {:induction false} AddAllFromExisting(existing: seq<OverriddenField>, done: seq<Field>, fields: seq<Field>,
                                             initial: SessionFields, updated: SessionFields)
    requires forall i, j :: 0 <= i < |done| && 0 <= j < |fields| ==> done[i] != fields[j]
    requires forall i, j :: 0 <= i < j < |fields| ==> fields[i] != fields[j]
    ensures AddAll(existing + FilterMap(done, NewOverrides(initial, updated, existing)), fields, initial, updated)
      == existing + FilterMap(done + fields, NewOverrides(initial, updated, existing))
    decreases |fields|
  {
    var nf := NewOverrides(initial, updated, existing);
    if fields == [] {
      assert done + fields == done;
    } else {
      FieldsShift(done, fields);
      AddAllFromExisting(existing, done + [fields[0]], fields[1..], initial, updated);
      AddAllStep(existing, done, fields, initial, updated);
    }
  }

  /** One field more: the claim for `done` and `fields` follows from the claim once the next field is done. */
  lemma AddAllStep(existing: seq<OverriddenField>, done: seq<Field>, fields: seq<Field>,
                   initial: SessionFields, updated: SessionFields)
    requires fields != [] && fields[0] !in done
    requires AddAll(existing + FilterMap(done + [fields[0]], NewOverrides(initial, updated, existing)), fields[1..], initial, updated)
      == existing + FilterMap(done + [fields[0]] + fields[1..], NewOverrides(initial, updated, existing))
    ensures AddAll(existing + FilterMap(done, NewOverrides(initial, updated, existing)), fields, initial, updated)
      == existing + FilterMap(done + fields, NewOverrides(initial, updated, existing))
  {
    AddAllUnfold(existing + FilterMap(done, NewOverrides(initial, updated, existing)), fields, initial, updated);
    AddOneField(initial, updated, existing, done, fields[0]);
    MoveFirst(done, fields);
  }

  /** The first step of `AddAll`. */
  lemma AddAllUnfold(overridden: seq<OverriddenField>, fields: seq<Field>, initial: SessionFields, updated: SessionFields)
    requires fields != []
    ensures AddAll(overridden, fields, initial, updated)
      == AddAll(AddIfChanged(overridden, fields[0], FieldValue(initial, fields[0]), FieldValue(updated, fields[0])), fields[1..], initial, updated)
  {
  }

  /** Moving the first of `fields` onto the end of `done` keeps the concatenation. */
  lemma MoveFirst<T>(done: seq<T>, fields: seq<T>)
    requires fields != []
    ensures done + [fields[0]] + fields[1..] == done + fields
  {
  }

  /** Moving the next field over to the done ones keeps them apart from the rest. */
  lemma FieldsShift(done: seq<Field>, fields: seq<Field>)
    requires fields != []
    requires forall i, j :: 0 <= i < |done| && 0 <= j < |fields| ==> done[i] != fields[j]
    requires forall i, j :: 0 <= i < j < |fields| ==> fields[i] != fields[j]
    ensures fields[0] !in done
    ensures forall i, j :: 0 <= i < |done + [fields[0]]| && 0 <= j < |fields[1..]| ==> (done + [fields[0]])[i] != fields[1..][j]
    ensures forall i, j :: 0 <= i < j < |fields[1..]| ==> fields[1..][i] != fields[1..][j]
  {
    forall i, j | 0 <= i < |done + [fields[0]]| && 0 <= j < |fields[1..]|
      ensures (done + [fields[0]])[i] != fields[1..][j]
    {
      if i < |done| {
        assert (done + [fields[0]])[i] == done[i];
      }
    }
  }

  /** One `addIfChanged` step extends the entries of the fields done so far by the entry of the next field. */
  lemma AddOneField(initial: SessionFields, updated: SessionFields, existing: seq<OverriddenField>, done: seq<Field>, f: Field)
    requires f !in done
    ensures var nf := NewOverrides(initial, updated, existing);
      AddIfChanged(existing + FilterMap(done, nf), f, FieldValue(initial, f), FieldValue(updated, f))
      == existing + FilterMap(done + [f], nf)
  {
    var nf := NewOverrides(initial, updated, existing);
    var so := existing + FilterMap(done, nf);
    AddedOverridesOtherFields(initial, updated, existing, done, f);
    FilterMapAppend(done, [f], nf);
    assert [f][1..] == [];
    assert FilterMap([f], nf) == (if nf(f).Some? then [nf(f).value] else []);
  }

  /** The existing overrides are kept unchanged, as a prefix, and at most one entry per tracked field is added. */
  lemma OverridesExtendExisting(initial: SessionFields, updated: SessionFields, existing: seq<OverriddenField>)
    ensures var r := ComputeOverriddenFields(initial, updated, existing);
      |existing| <= |r| <= |existing| + |TrackedFields| && r[..|existing|] == existing
  {
  }

  /**
   * A tracked field gets a new entry, holding its old value, exactly when its
   * value changed and it had no override under any of its names.
   */
  lemma OverrideAddedIff(initial: SessionFields, updated: SessionFields, existing: seq<OverriddenField>, f: Field)
    ensures var r := ComputeOverriddenFields(initial, updated, existing);
      OverriddenField(FieldName(f), FieldValue(initial, f)) in r[|existing|..]
      <==> FieldValue(initial, f) != FieldValue(updated, f) && !HasOverride(existing, f)
  {
    var nf := NewOverrides(initial, updated, existing);
    var r := ComputeOverriddenFields(initial, updated, existing);
    assert r[|existing|..] == FilterMap(TrackedFields, nf);
    NewOverrideOfTracked(nf, f, OverriddenField(FieldName(f), FieldValue(initial, f)));
  }

  /** An entry named after `f` can only come from `f` itself. */
  lemma NewOverrideOfTracked(nf: Field -> Option<OverriddenField>, f: Field, e: OverriddenField)
    requires forall g :: nf(g).Some? ==> nf(g).value.fieldName == FieldName(g)
    requires e.fieldName == FieldName(f)
    ensures e in FilterMap(TrackedFields, nf) <==> nf(f) == Some(e)
  {
    FilterMapMember(TrackedFields, nf, e);
    if e in FilterMap(TrackedFields, nf) {
      var j :| 0 <= j < |TrackedFields| && nf(TrackedFields[j]) == Some(e);
      AliasesDisjoint(f, TrackedFields[j]);
    } else {
      assert TrackedFields[Position(f)] == f;
    }
  }

  /** Editing nothing records nothing. */
  lemma UnchangedRecordsNothing(s: SessionFields, existing: seq<OverriddenField>)
    ensures ComputeOverriddenFields(s, s, existing) == existing
  {
    FilterMapEmpty(TrackedFields, NewOverrides(s, s, existing));
    assert existing + [] == existing;
  }
}

=== FILE: src/session_list.dfy ===
/**
 * The organisers' session list: the status, type, track and free-text
 * filters, the two sort orders, and the colour of each status tag.
 */
module SessionList {
  import opened Base
  import opened Text
  import opened Sorting
  import opened Lists
  import SessionStatus

  /** What the list knows of a session. */
  datatype SessionView = SessionView(
    title: string,
    status: Option<string>,
    sessionTypeId: Option<string>,
    trackId: Option<string>,
    search: Option<string>,
    submitDate: Option<string>)

  /** The filter controls: selected statuses, types and tracks, and the search text. */
  datatype ListFilter = ListFilter(statuses: seq<string>, typeIds: seq<string>, trackIds: seq<string>, searchText: string)

  datatype SortMode = ByTitle | ByStatusSubmitDate

  /** The search words: the lower-cased text split on white space, empty pieces dropped. */
  function SearchWords(text: string): seq<string> {
    Words(Lower(text))
  }

  /** A status filter keeps sessions with a non-empty status among the selected ones. */
  predicate StatusPasses(f: ListFilter, v: SessionView) {
    |f.statuses| == 0 || (v.status.Some? && v.status.value != "" && v.status.value in f.statuses)
  }

  predicate TypePasses(f: ListFilter, v: SessionView) {
    |f.typeIds| == 0 || v.sessionTypeId.GetOr("") in f.typeIds
  }

  predicate TrackPasses(f: ListFilter, v: SessionView) {
    |f.trackIds| == 0 || v.trackId.GetOr("") in f.trackIds
  }

  /** Every search word occurs in the lower-cased search field. */
  predicate TextPasses(f: ListFilter, v: SessionView) {
    forall w | w in SearchWords(f.searchText) :: Contains(Lower(v.search.GetOr("")), w)
  }

  /** A session shows in the list exactly when it passes all four filters. */
  predicate Passes(f: ListFilter, v: SessionView) {
    StatusPasses(f, v) && TypePasses(f, v) && TrackPasses(f, v) && TextPasses(f, v)
  }

  /** One filter stage: `if (on) values = values.filter(p)`. */
  function Stage(xs: seq<SessionView>, on: bool, p: SessionView -> bool): (r: seq<SessionView>)
    ensures forall v :: v in r <==> v in xs && (on ==> p(v))
    ensures multiset(r) <= multiset(xs)
  {
    if on then
      var r := Where(xs, p);
      assert forall v :: v in r ==> r[IndexOf(r, v)] == v;
      assert forall v :: v in xs ==> xs[IndexOf(xs, v)] == v;
      r
    else xs
  }

  /** A position of `v` in `xs`. */
  function IndexOf(xs: seq<SessionView>, v: SessionView): (k: nat)
    requires v in xs
    ensures k < |xs| && xs[k] == v
  {
    if xs[0] == v then 0 else 1 + IndexOf(xs[1..], v)
  }

  /** A stage keeps every copy of a session that passes it. */
  lemma StageCount(xs: seq<SessionView>, on: bool, p: SessionView -> bool, v: SessionView)
    ensures multiset(Stage(xs, on, p))[v] == if on && !p(v) then 0 else multiset(xs)[v]
  {
    if on {
      WhereCount(xs, p, v);
    }
  }

  /** Four stages in a row keep the copies of a session exactly when it passes all four. */
  lemma StagesCount(views: seq<SessionView>, a: seq<SessionView>, b: seq<SessionView>, c: seq<SessionView>,
                    r: seq<SessionView>, f: ListFilter, v: SessionView)
    requires multiset(a)[v] == if StatusPasses(f, v) then multiset(views)[v] else 0
    requires multiset(b)[v] == if TypePasses(f, v) then multiset(a)[v] else 0
    requires multiset(c)[v] == if TrackPasses(f, v) then multiset(b)[v] else 0
    requires multiset(r)[v] == if TextPasses(f, v) then multiset(c)[v] else 0
    ensures multiset(r)[v] == if Passes(f, v) then multiset(views)[v] else 0
  {
  }

  /** The four filters, applied one after another as the list does. */
  function Filtered(views: seq<SessionView>, f: ListFilter): (r: seq<SessionView>)
    ensures forall v :: v in r <==> v in views && Passes(f, v)
    ensures multiset(r) <= multiset(views)
  {
    var byStatus := Stage(views, |f.statuses| > 0, v => StatusPasses(f, v));
    var byType := Stage(byStatus, |f.typeIds| > 0, v => TypePasses(f, v));
    var byTrack := Stage(byType, |f.trackIds| > 0, v => TrackPasses(f, v));
    var r := Stage(byTrack, |SearchWords(f.searchText)| > 0, v => TextPasses(f, v));
    forall v ensures v in r <==> v in views && Passes(f, v) {
      assert v in byStatus <==> v in views && StatusPasses(f, v);
      assert v in byType <==> v in byStatus && TypePasses(f, v);
      assert v in byTrack <==> v in byType && TrackPasses(f, v);
      assert v in r <==> v in byTrack && TextPasses(f, v);
    }
    r
  }

  /** The filters keep every copy of a session that passes them all, and no copy of one that fails. */
  lemma FilteredCount(views: seq<SessionView>, f: ListFilter, v: SessionView)
    ensures multiset(Filtered(views, f))[v] == if Passes(f, v) then multiset(views)[v] else 0
  {
    var byStatus := Stage(views, |f.statuses| > 0, v => StatusPasses(f, v));
    var byType := Stage(byStatus, |f.typeIds| > 0, v => TypePasses(f, v));
    var byTrack := Stage(byType, |f.trackIds| > 0, v => TrackPasses(f, v));
    var r := Stage(byTrack, |SearchWords(f.searchText)| > 0, v => TextPasses(f, v));
    StageCount(views, |f.statuses| > 0, v => StatusPasses(f, v), v);
    StageCount(byStatus, |f.typeIds| > 0, v => TypePasses(f, v), v);
    StageCount(byType, |f.trackIds| > 0, v => TrackPasses(f, v), v);
    StageCount(byTrack, |SearchWords(f.searchText)| > 0, v => TextPasses(f, v), v);
    StagesCount(views, byStatus, byType, byTrack, r, f, v);
  }

  /** `title.localeCompare`, taken as the order of character values. */
  predicate TitleLe(a: SessionView, b: SessionView) {
    TextLe(a.title, b.title)
  }

  /** `Date.parse` of the submit date, a `NaN` counting as 0; `parseTime` stands for `Date.parse`. */
  function SubmitTime(v: SessionView, parseTime: string -> Option<int>): int {
    match parseTime(v.submitDate.GetOr(""))
    case Some(t) => t
    case None => 0
  }

  /** By status (character-value order), then the most recently submitted first. */
  predicate StatusDateLe(a: SessionView, b: SessionView, parseTime: string -> Option<int>) {
    var sa := a.status.GetOr("");
    var sb := b.status.GetOr("");
    if sa != sb then TextLe(sa, sb) else SubmitTime(b, parseTime) <= SubmitTime(a, parseTime)
  }

  function OrderFor(mode: SortMode, parseTime: string -> Option<int>): (SessionView, SessionView) -> bool {
    match mode
    case ByTitle => TitleLe
    case ByStatusSubmitDate => (a, b) => StatusDateLe(a, b, parseTime)
  }

  lemma TitleOrderIsTotal(xs: seq<SessionView>)
    ensures TotalPreorderOn(xs, TitleLe)
  {
    forall a, b | a in xs && b in xs ensures TitleLe(a, b) || TitleLe(b, a) {
      TextLeTotal(a.title, b.title);
    }
    forall a, b, c | a in xs && b in xs && c in xs && TitleLe(a, b) && TitleLe(b, c) ensures TitleLe(a, c) {
      TextLeTransitive(a.title, b.title, c.title);
    }
  }

  lemma StatusDateTransitive(a: SessionView, b: SessionView, c: SessionView, parseTime: string -> Option<int>)
    requires StatusDateLe(a, b, parseTime) && StatusDateLe(b, c, parseTime)
    ensures StatusDateLe(a, c, parseTime)
  {
    var sa, sb, sc := a.status.GetOr(""), b.status.GetOr(""), c.status.GetOr("");
    if sa != sb && sb != sc {
      TextLeTransitive(sa, sb, sc);
      if sa == sc {
        TextLeAntisymmetric(sa, sb);
      }
    }
  }

  lemma StatusDateOrderIsTotal(xs: seq<SessionView>, parseTime: string -> Option<int>)
    ensures TotalPreorderOn(xs, OrderFor(ByStatusSubmitDate, parseTime))
  {
    var le := OrderFor(ByStatusSubmitDate, parseTime);
    forall a, b | a in xs && b in xs ensures le(a, b) || le(b, a) {
      TextLeTotal(a.status.GetOr(""), b.status.GetOr(""));
    }
    forall a, b, c | a in xs && b in xs && c in xs && le(a, b) && le(b, c) ensures le(a, c) {
      StatusDateTransitive(a, b, c, parseTime);
    }
  }

  lemma OrderIsTotal(xs: seq<SessionView>, mode: SortMode, parseTime: string -> Option<int>)
    ensures TotalPreorderOn(xs, OrderFor(mode, parseTime))
  {
    if mode.ByTitle? {
      TitleOrderIsTotal(xs);
    } else {
      StatusDateOrderIsTotal(xs, parseTime);
    }
  }

  /**
   * `filteredSortedSessions`: exactly the sessions that pass every filter,
   * each as often as in the input, ordered by the chosen sort.
   */
  function FilteredSortedSessions(views: seq<SessionView>, f: ListFilter, mode: SortMode, parseTime: string -> Option<int>)
    : (r: seq<SessionView>)
    ensures forall v :: v in r <==> v in views && Passes(f, v)
    ensures forall v :: multiset(r)[v] == if Passes(f, v) then multiset(views)[v] else 0
    ensures multiset(r) == multiset(Filtered(views, f))
    ensures SortedBy(r, OrderFor(mode, parseTime))
  {
    var kept := Filtered(views, f);
    forall v ensures multiset(kept)[v] == if Passes(f, v) then multiset(views)[v] else 0 {
      FilteredCount(views, f, v);
    }
    OrderIsTotal(kept, mode, parseTime);
    SortByIsSorted(kept, OrderFor(mode, parseTime));
    var r := SortBy(kept, OrderFor(mode, parseTime));
    assert forall v :: v in r <==> v in multiset(r);
    r
  }

  /** An empty filter shows every session. */
  lemma EmptyFilterKeepsAll(views: seq<SessionView>, mode: SortMode, parseTime: string -> Option<int>)
    ensures multiset(FilteredSortedSessions(views, ListFilter([], [], [], ""), mode, parseTime)) == multiset(views)
  {
    assert Lower("") == "";
  }

  /** `computeStatusSeverity` of the list as written: it tests the spellings of an older status set. */
  function ListStatusSeverityAsWritten(status: Option<string>): (r: SessionStatus.Severity)
    ensures r == SessionStatus.Success <==> status in {Some("ACCEPTED"), Some("VALIDATED"), Some("CONFIRMED")}
    ensures r == SessionStatus.Info <==> status in {Some("SUBMITTED"), Some("PLANIFIED"), Some("BACKUP")}
    ensures r == SessionStatus.Danger <==> status in {Some("REJECTED"), Some("CANCELLED")}
    ensures r in {SessionStatus.Success, SessionStatus.Info, SessionStatus.Danger, SessionStatus.Secondary}
  {
    match status
    case Some("ACCEPTED") => SessionStatus.Success
    case Some("VALIDATED") => SessionStatus.Success
    case Some("CONFIRMED") => SessionStatus.Success
    case Some("SUBMITTED") => SessionStatus.Info
    case Some("PLANIFIED") => SessionStatus.Info
    case Some("BACKUP") => SessionStatus.Info
    case Some("REJECTED") => SessionStatus.Danger
    case Some("CANCELLED") => SessionStatus.Danger
    case _ => SessionStatus.Secondary
  }

  /** As written, a programmed session shows as an unknown grey tag, and an accepted one as confirmed. */
  lemma ListSeverityMissesWorkflowStatuses()
    ensures ListStatusSeverityAsWritten(Some(SessionStatus.Name(SessionStatus.Programmed))) == SessionStatus.Secondary
    ensures SessionStatus.StatusSeverity(Some(SessionStatus.Name(SessionStatus.Programmed))) == SessionStatus.Success
    ensures ListStatusSeverityAsWritten(Some(SessionStatus.Name(SessionStatus.Accepted))) == SessionStatus.Success
    ensures SessionStatus.StatusSeverity(Some(SessionStatus.Name(SessionStatus.Accepted))) == SessionStatus.Info
  {
    SessionStatus.ParseName(SessionStatus.Programmed);
    SessionStatus.ParseName(SessionStatus.Accepted);
  }

  /** The list's tag colour, taken from the shared status classification. */
  function ListStatusSeverity(status: Option<string>): (r: SessionStatus.Severity)
    ensures r == SessionStatus.StatusSeverity(status)
    ensures r == SessionStatus.Secondary <==> status.None? || SessionStatus.Parse(status.value).None?
  {
    SessionStatus.StatusSeverity(status)
  }

  /**
   * The spellings on which the shared classification and the list as written
   * give different colours: those only one of the two status sets knows, and
   * ACCEPTED, which the older set counted as confirmed.
   */
  predicate ColourDisputed(t: string) {
    t in {"ACCEPTED", "VALIDATED", "CONFIRMED", "PLANIFIED", "BACKUP",
          "DRAFT", "WAITLISTED", "SPEAKER_CONFIRMED", "SCHEDULED", "DECLINED_BY_SPEAKER", "PROGRAMMED"}
  }

  /**
   * The corrected colour agrees with the colour as written on every status
   * except the disputed spellings: no status, an unknown text, SUBMITTED,
   * REJECTED and CANCELLED keep their colour.
   */
  lemma ListSeverityAgreesOutsideDispute(status: Option<string>)
    ensures ListStatusSeverity(status) != ListStatusSeverityAsWritten(status) <==>
      status.Some? && ColourDisputed(status.value)
  {
    if status.Some? && !ColourDisputed(status.value) {
      var t := status.value;
      assert t != "ACCEPTED" && t != "DRAFT" && t != "WAITLISTED" && t != "SPEAKER_CONFIRMED";
      assert t != "SCHEDULED" && t != "DECLINED_BY_SPEAKER" && t != "PROGRAMMED";
    }
  }

  /** Every status of the workflow gets a colour of its class, the same as on the session's own page. */
  lemma ListSeverityCoversWorkflow(s: SessionStatus.Status)
    ensures ListStatusSeverity(Some(SessionStatus.Name(s))) != SessionStatus.Secondary
    ensures ListStatusSeverity(Some(SessionStatus.Name(s))) == SessionStatus.SeverityOf(s)
  {
    SessionStatus.ParseName(s);
  }
}

=== FILE: src/session_status.dfy ===
/**
 * The review workflow of a session: the ten statuses the editor knows, the
 * fixed table of actions that move a session from one status to another, the
 * tag colour each status is shown with, and its translation key.
 */
module SessionStatus {
  import opened Base
  import opened Text

  datatype Status =
    | Draft
    | Submitted
    | Rejected
    | Waitlisted
    | Accepted
    | SpeakerConfirmed
    | Scheduled
    | DeclinedBySpeaker
    | Programmed
    | Cancelled

  /** The stored spelling of a status. */
  function Name(s: Status): string {
    match s
    case Draft => "DRAFT"
    case Submitted => "SUBMITTED"
    case Rejected => "REJECTED"
    case Waitlisted => "WAITLISTED"
    case Accepted => "ACCEPTED"
    case SpeakerConfirmed => "SPEAKER_CONFIRMED"
    case Scheduled => "SCHEDULED"
    case DeclinedBySpeaker => "DECLINED_BY_SPEAKER"
    case Programmed => "PROGRAMMED"
    case Cancelled => "CANCELLED"
  }

  /** Reads a stored status; any other text (including the empty one) is no status of the table. */
  function Parse(t: string): (r: Option<Status>)
    ensures r.Some? ==> Name(r.value) == t
  {
    if t == "DRAFT" then Some(Draft)
    else if t == "SUBMITTED" then Some(Submitted)
    else if t == "REJECTED" then Some(Rejected)
    else if t == "WAITLISTED" then Some(Waitlisted)
    else if t == "ACCEPTED" then Some(Accepted)
    else if t == "SPEAKER_CONFIRMED" then Some(SpeakerConfirmed)
    else if t == "SCHEDULED" then Some(Scheduled)
    else if t == "DECLINED_BY_SPEAKER" then Some(DeclinedBySpeaker)
    else if t == "PROGRAMMED" then Some(Programmed)
    else if t == "CANCELLED" then Some(Cancelled)
    else None
  }

  /** Every status reads back from its stored spelling, so the spellings are distinct. */
  lemma ParseName(s: Status)
    ensures Parse(Name(s)) == Some(s)
  {
  }

  /** An action the editor offers: the status it leads to and the key of its button label. */
  datatype Transition = Transition(to: Status, actionKey: string)

  /** `SESSION_STATUS_TRANSITIONS`. */
  function TransitionsFrom(s: Status): seq<Transition> {
    match s
    case Draft => [Transition(Submitted, "SUBMIT")]
    case Submitted => [Transition(Rejected, "REJECT"), Transition(Accepted, "ACCEPT"), Transition(Waitlisted, "WAITLIST")]
    case Rejected => []
    case Waitlisted => [Transition(Rejected, "REJECT"), Transition(Accepted, "ACCEPT")]
    case Accepted => [Transition(SpeakerConfirmed, "CONFIRM_SPEAKER")]
    case SpeakerConfirmed => []
    case Scheduled => [Transition(DeclinedBySpeaker, "DECLINE_SPEAKER"), Transition(Programmed, "CONFIRM_AFTER_SCHEDULE")]
    case DeclinedBySpeaker => []
    case Programmed => [Transition(Cancelled, "CANCEL")]
    case Cancelled => []
  }

  /** The statuses the editor offers no way out of. */
  predicate IsFinal(s: Status) {
    s == Rejected || s == SpeakerConfirmed || s == DeclinedBySpeaker || s == Cancelled
  }

  /** Exactly the final statuses have no outgoing action. */
  lemma FinalIffNoTransition(s: Status)
    ensures TransitionsFrom(s) == [] <==> IsFinal(s)
  {
  }

  /** No action leads back to `DRAFT` or to `SCHEDULED` (the planning workflow sets the latter). */
  lemma NoTransitionToDraftOrScheduled(s: Status, t: Transition)
    requires t in TransitionsFrom(s)
    ensures t.to != Draft && t.to != Scheduled
  {
  }

  /** No action keeps a session where it is. */
  lemma TransitionsMove(s: Status, t: Transition)
    requires t in TransitionsFrom(s)
    ensures t.to != s
  {
  }

  /**
   * `availableStatusTransitions`: nothing when no status is selected, the
   * table's row for a known status, and nothing for any other text.
   */
  function AvailableTransitions(selected: string): (r: seq<Transition>)
    ensures selected == "" ==> r == []
    ensures Parse(selected).Some? ==> r == TransitionsFrom(Parse(selected).value)
    ensures Parse(selected).None? ==> r == []
  {
    if selected == "" then []
    else
      match Parse(selected)
      case Some(s) => TransitionsFrom(s)
      case None => []
  }

  /**
   * `applyStatusTransition`: the selected status becomes the action's target
   * when the action (target and key) is among those offered, and stays as it
   * is otherwise.
   */
  function ApplyTransition(selected: string, t: Transition): (r: string)
    ensures t in AvailableTransitions(selected) ==> r == Name(t.to)
    ensures t !in AvailableTransitions(selected) ==> r == selected
  {
    if exists u :: u in AvailableTransitions(selected) && u.to == t.to && u.actionKey == t.actionKey then Name(t.to)
    else selected
  }

  /** A session only ever moves along the table. */
  lemma ApplyFollowsTable(selected: string, t: Transition)
    requires ApplyTransition(selected, t) != selected
    ensures Parse(selected).Some? && t in TransitionsFrom(Parse(selected).value)
    ensures Parse(ApplyTransition(selected, t)) == Some(t.to)
  {
    ParseName(t.to);
  }

  /** From a final status nothing the editor offers changes the selection. */
  lemma FinalStatusIsStable(s: Status, t: Transition)
    requires IsFinal(s)
    ensures ApplyTransition(Name(s), t) == Name(s)
  {
    ParseName(s);
  }

  datatype Severity = Success | Info | Warn | Danger | Secondary | Contrast

  /** `getSessionStatusSeverity`, for a stored status (`None` when it is absent). */
  function StatusSeverity(status: Option<string>): (r: Severity)
    ensures r != Contrast
    ensures r == Secondary <==> status.None? || Parse(status.value).None?
  {
    match status
    case None => Secondary
    case Some(t) =>
      match Parse(t)
      case None => Secondary
      case Some(s) => SeverityOf(s)
  }

  function SeverityOf(s: Status): Severity {
    match s
    case Programmed => Success
    case SpeakerConfirmed => Success
    case Scheduled => Success
    case Submitted => Info
    case Accepted => Info
    case Waitlisted => Warn
    case Draft => Warn
    case DeclinedBySpeaker => Danger
    case Rejected => Danger
    case Cancelled => Danger
  }

  /** The colour classes: confirmed work is green, pending review blue, undecided amber, dropped red. */
  lemma SeverityClasses(s: Status)
    ensures StatusSeverity(Some(Name(s))) == Success <==> s in {Programmed, SpeakerConfirmed, Scheduled}
    ensures StatusSeverity(Some(Name(s))) == Info <==> s in {Submitted, Accepted}
    ensures StatusSeverity(Some(Name(s))) == Warn <==> s in {Waitlisted, Draft}
    ensures StatusSeverity(Some(Name(s))) == Danger <==> s in {DeclinedBySpeaker, Rejected, Cancelled}
  {
    ParseName(s);
  }

  const UnknownStatusKey := "SESSION.STATUS.UNKNOWN"
  const StatusKeyPrefix := "SESSION.STATUS."

  /** `getSessionStatusTranslationKey`: the prefix and the trimmed, upper-cased status, or the unknown key when blank. */
  function TranslationKey(status: Option<string>): (r: string)
    ensures status.None? || IsBlank(status.value) ==> r == UnknownStatusKey
    ensures status.Some? && !IsBlank(status.value) ==>
      |r| > |StatusKeyPrefix| && r[..|StatusKeyPrefix|] == StatusKeyPrefix && r[|StatusKeyPrefix|..] == Upper(Trim(status.value))
  {
    var value := Upper(Trim(status.GetOr("")));
    if value == [] then UnknownStatusKey
    else
      assert (StatusKeyPrefix + value)[|StatusKeyPrefix|..] == value;
      StatusKeyPrefix + value
  }

  /** The key ignores letter case and surrounding white space. */
  lemma TranslationKeyIgnoresCaseAndSpace(s: string)
    ensures TranslationKey(Some(Lower(s))) == TranslationKey(Some(s))
    ensures TranslationKey(Some(Trim(s))) == TranslationKey(Some(s))
  {
    LowerTrimCommute(s);
    UpperOfLower(Trim(s));
    TrimIdempotent(s);
  }

  /** A known status gets the key named after it. */
  lemma TranslationKeyOfStatus(s: Status)
    ensures TranslationKey(Some(Name(s))) == StatusKeyPrefix + Name(s)
  {
    KeyOfCapitals(Name(s));
  }

  /** A stored spelling in capitals and underscores is already trimmed and upper-cased. */
  lemma KeyOfCapitals(n: string)
    requires n != [] && forall i :: 0 <= i < |n| ==> 'A' <= n[i] <= 'Z' || n[i] == '_'
    ensures TranslationKey(Some(n)) == StatusKeyPrefix + n
  {
    TrimmedIsFixpoint(n);
    assert Upper(n) == n;
  }
}

=== FILE: src/sorting.dfy ===
/**
 * Stable sorting with a caller-supplied order, the way `Array.prototype.sort`
 * with a comparator behaves, and a minimum search.
 */
module Sorting {
  import opened Text

  /** `xs` is ordered by `le`. */
  predicate SortedBy<T>(xs: seq<T>, le: (T, T) -> bool) {
    forall i, j :: 0 <= i < j < |xs| ==> le(xs[i], xs[j])
  }

  /** `le` is a total preorder on the values of `xs`. */
  predicate TotalPreorderOn<T(==)>(xs: seq<T>, le: (T, T) -> bool) {
    (forall a, b | a in xs && b in xs :: le(a, b) || le(b, a))
    && (forall a, b, c | a in xs && b in xs && c in xs :: le(a, b) && le(b, c) ==> le(a, c))
  }

  /** Places `x` before the first element that must come after it; earlier equal elements stay first. */
  function Insert<T(==)>(x: T, xs: seq<T>, le: (T, T) -> bool): (r: seq<T>)
    ensures multiset(r) == multiset(xs) + multiset{x}
    ensures |r| == |xs| + 1
  {
    if xs == [] then [x]
    else if !le(xs[0], x) then [x] + xs
    else
      assert xs == [xs[0]] + xs[1..];
      [xs[0]] + Insert(x, xs[1..], le)
  }

  /** Stable insertion sort: the elements of `xs`, reordered by `le`. */
  function SortBy<T(==)>(xs: seq<T>, le: (T, T) -> bool): (r: seq<T>)
    ensures multiset(r) == multiset(xs)
    ensures |r| == |xs|
  {
    if xs == [] then []
    else
      assert xs == xs[..|xs| - 1] + [xs[|xs| - 1]];
      Insert(xs[|xs| - 1], SortBy(xs[..|xs| - 1], le), le)
  }

  lemma {:induction false} InsertSorted<T>(x: T, xs: seq<T>, le: (T, T) -> bool, all: seq<T>)
    requires TotalPreorderOn(all, le)
    requires x in all && forall i :: 0 <= i < |xs| ==> xs[i] in all
    requires SortedBy(xs, le)
    ensures SortedBy(Insert(x, xs, le), le)
    decreases xs
  {
    if xs != [] && le(xs[0], x) {
      SortedTail(xs, le);
      InsertSorted(x, xs[1..], le, all);
      InsertAfterHead(x, xs, le);
    } else if xs != [] {
      FrontBound(x, xs, le, all);
      InsertAtFront(x, xs, le);
    }
  }

  /** The tail of an ordered sequence is ordered. */
  lemma SortedTail<T>(xs: seq<T>, le: (T, T) -> bool)
    requires xs != [] && SortedBy(xs, le)
    ensures SortedBy(xs[1..], le)
  {
    var tail := xs[1..];
    forall i, j | 0 <= i < j < |tail| ensures le(tail[i], tail[j]) {
      assert tail[i] == xs[i + 1] && tail[j] == xs[j + 1];
    }
  }

  /** Inserting behind an ordered head that may come before `x` keeps the order. */
  lemma InsertAfterHead<T>(x: T, xs: seq<T>, le: (T, T) -> bool)
    requires xs != [] && le(xs[0], x) && SortedBy(xs, le)
    requires SortedBy(Insert(x, xs[1..], le), le)
    ensures SortedBy(Insert(x, xs, le), le)
  {
    var tail := xs[1..];
    var rest := Insert(x, tail, le);
    var r := [xs[0]] + rest;
    assert Insert(x, xs, le) == r;
    forall k | 0 <= k < |rest| ensures le(xs[0], rest[k]) {
      assert rest[k] in multiset(rest);
      assert rest[k] in multiset(tail) + multiset{x};
      if rest[k] != x {
        assert rest[k] in tail;
        var m :| 0 <= m < |tail| && tail[m] == rest[k];
        assert tail[m] == xs[m + 1];
      }
    }
    forall i, j | 0 <= i < j < |r| ensures le(r[i], r[j]) {
      if i == 0 {
        assert r[j] == rest[j - 1];
      } else {
        assert r[i] == rest[i - 1] && r[j] == rest[j - 1];
      }
    }
  }

  /** Under a total preorder, an `x` the head must come after may come before every element. */
  lemma FrontBound<T>(x: T, xs: seq<T>, le: (T, T) -> bool, all: seq<T>)
    requires TotalPreorderOn(all, le)
    requires x in all && forall i :: 0 <= i < |xs| ==> xs[i] in all
    requires xs != [] && !le(xs[0], x) && SortedBy(xs, le)
    ensures forall j :: 0 <= j < |xs| ==> le(x, xs[j])
  {
    assert xs[0] in all;
    assert le(x, xs[0]);
    forall j | 1 <= j < |xs| ensures le(x, xs[j]) {
      PreorderTrans(all, le, x, xs[0], xs[j]);
    }
  }

  /** Putting `x` in front of an ordered sequence it may precede keeps the order. */
  lemma InsertAtFront<T>(x: T, xs: seq<T>, le: (T, T) -> bool)
    requires xs != [] && !le(xs[0], x) && SortedBy(xs, le)
    requires forall j :: 0 <= j < |xs| ==> le(x, xs[j])
    ensures SortedBy(Insert(x, xs, le), le)
  {
    var r := [x] + xs;
    assert Insert(x, xs, le) == r;
    forall i, j | 0 <= i < j < |r| ensures le(r[i], r[j]) {
      assert r[j] == xs[j - 1];
      if i > 0 {
        assert r[i] == xs[i - 1];
      }
    }
  }

  lemma PreorderTrans<T>(all: seq<T>, le: (T, T) -> bool, a: T, b: T, c: T)
    requires TotalPreorderOn(all, le) && a in all && b in all && c in all
    requires le(a, b) && le(b, c)
    ensures le(a, c)
  {
  }

  /** Under a total preorder the sort's output is ordered. */
  lemma {:induction false} SortByIsSorted<T>(xs: seq<T>, le: (T, T) -> bool)
    requires TotalPreorderOn(xs, le)
    ensures SortedBy(SortBy(xs, le), le)
    decreases |xs|
  {
    if xs != [] {
      var init := xs[..|xs| - 1];
      assert TotalPreorderOn(init, le) by {
        assert forall a | a in init :: a in xs;
      }
      SortByIsSorted(init, le);
      var s := SortBy(init, le);
      forall i | 0 <= i < |s| ensures s[i] in xs {
        assert s[i] in multiset(s);
        assert s[i] in init;
      }
      InsertSorted(xs[|xs| - 1], s, le, xs);
    }
  }

  /** Under a total preorder the sort puts a least element first and a greatest one last. */
  lemma SortByEnds<T>(xs: seq<T>, le: (T, T) -> bool, d: T)
    requires TotalPreorderOn(xs, le) && d in xs
    ensures var s := SortBy(xs, le); |s| > 0 && le(s[0], d) && le(d, s[|s| - 1])
  {
    var s := SortBy(xs, le);
    SortByIsSorted(xs, le);
    assert d in multiset(s);
    var k :| 0 <= k < |s| && s[k] == d;
    assert le(d, d);
    if 0 < k {
      assert le(s[0], s[k]);
    }
    if k < |s| - 1 {
      assert le(s[k], s[|s| - 1]);
    }
  }

  /** An element no other element strictly precedes, chosen first among equals (`sort()[0]`). */
  function Min<T>(xs: seq<T>, le: (T, T) -> bool): (r: T)
    requires xs != []
    ensures r in xs
  {
    if |xs| == 1 then xs[0]
    else
      var m := Min(xs[1..], le);
      if le(xs[0], m) then xs[0] else m
  }

  /** Under a total preorder the minimum is below every element. */
  lemma {:induction false} MinIsLeast<T>(xs: seq<T>, le: (T, T) -> bool)
    requires xs != [] && TotalPreorderOn(xs, le)
    ensures forall i :: 0 <= i < |xs| ==> le(Min(xs, le), xs[i])
    decreases |xs|
  {
    if |xs| > 1 {
      var tail := xs[1..];
      assert TotalPreorderOn(tail, le) by {
        assert forall a | a in tail :: a in xs;
      }
      MinIsLeast(tail, le);
      var m := Min(tail, le);
      forall i | 0 <= i < |xs| ensures le(Min(xs, le), xs[i]) {
        assert xs[0] in xs && m in xs;
        if i > 0 {
          assert xs[i] == tail[i - 1];
          assert xs[i] in xs;
        }
      }
    } else {
      assert xs[0] in xs;
    }
  }

  /** The order of the default `sort()` on strings, as a comparator. */
  function TextOrder(): (string, string) -> bool {
    (a: string, b: string) => TextLe(a, b)
  }

  lemma TextOrderIsTotal(ts: seq<string>)
    ensures TotalPreorderOn(ts, TextOrder())
  {
    forall a, b | a in ts && b in ts
      ensures TextOrder()(a, b) || TextOrder()(b, a)
    {
      TextLeTotal(a, b);
    }
    forall a, b, c | a in ts && b in ts && c in ts && TextOrder()(a, b) && TextOrder()(b, c)
      ensures TextOrder()(a, c)
    {
      TextLeTransitive(a, b, c);
    }
  }
}

=== FILE: src/sweep.dfy ===
/**
 * The nightly dashboard sweep: every conference whose start is still ahead
 * gets its dashboard recomputed; the others are skipped, and a failed
 * recompute is counted and does not stop the sweep.
 */
module DailySweep {
  import opened Json
  import opened DocStore

  /** Why a dashboard is recomputed (`DashboardRefreshTrigger`); the sweep always says it is the daily schedule. */
  datatype Trigger = ManualRefresh | ScheduledDaily | AutoEvent

  /** One call of `recomputeAndPersistConferenceDashboard`. */
  datatype Recompute = Recompute(conferenceId: string, conferenceData: Value, trigger: Trigger)

  datatype Summary = Summary(processed: nat, skipped: nat, failed: nat)

  /** The call the sweep makes for one conference document. */
  function RequestFor(d: Doc): Recompute {
    Recompute(d.id, d.data, ScheduledDaily)
  }

  function RequestsFor(docs: seq<Doc>): (r: seq<Recompute>)
    ensures |r| == |docs|
    ensures forall k :: 0 <= k < |docs| ==> r[k] == RequestFor(docs[k])
  {
    seq(|docs|, k requires 0 <= k < |docs| => RequestFor(docs[k]))
  }

  /** How many elements of `xs` satisfy `p`. */
  function CountWhere<T>(xs: seq<T>, p: T -> bool): (n: nat)
    ensures n <= |xs|
  {
    if xs == [] then 0
    else CountWhere(xs[..|xs| - 1], p) + (if p(xs[|xs| - 1]) then 1 else 0)
  }

  /** Filtering a listing extended by one document. */
  lemma {:induction false} FilterSnoc(docs: seq<Doc>, d: Doc, p: Value -> bool)
    ensures Filter(docs + [d], p) == Filter(docs, p) + (if p(d.data) then [d] else [])
  {
    if docs != [] {
      assert (docs + [d])[1..] == docs[1..] + [d];
      FilterSnoc(docs[1..], d, p);
    }
  }

  /**
   * `recomputeConferenceDashboardDaily`: `startsInFuture` stands for
   * `isConferenceStartInFuture` and `succeeds` tells whether a recompute
   * call completes without throwing. The sweep calls the recompute for the
   * future conferences exactly, in listing order; `processed` counts the
   * calls that succeeded, `failed` the others, `skipped` the conferences
   * left alone.
   */
  method Sweep(confs: seq<Doc>, startsInFuture: Value -> bool, succeeds: Recompute -> bool)
    returns (s: Summary, calls: seq<Recompute>)
    ensures calls == RequestsFor(Filter(confs, startsInFuture))
    ensures s.processed + s.skipped + s.failed == |confs|
    ensures s.skipped == |confs| - |calls|
    ensures s.processed + s.failed == |calls|
    ensures s.processed == CountWhere(calls, succeeds)
    ensures forall k :: 0 <= k < |calls| ==> calls[k].trigger == ScheduledDaily
  {
    var processed, skipped, failed := 0, 0, 0;
    calls := [];
    for i := 0 to |confs|
      invariant calls == RequestsFor(Filter(confs[..i], startsInFuture))
      invariant processed + skipped + failed == i
      invariant skipped == i - |calls|
      invariant processed == CountWhere(calls, succeeds)
    {
      var d := confs[i];
      SweepStep(confs, i, startsInFuture);
      if !startsInFuture(d.data) {
        skipped := skipped + 1;
      } else {
        var call := RequestFor(d);
        assert (calls + [call])[..|calls|] == calls;
        calls := calls + [call];
        if succeeds(call) {
          processed := processed + 1;
        } else {
          failed := failed + 1;
        }
      }
    }
    assert confs[..|confs|] == confs;
    s := Summary(processed, skipped, failed);
  }

  lemma SweepStep(confs: seq<Doc>, i: nat, p: Value -> bool)
    requires i < |confs|
    ensures RequestsFor(Filter(confs[..i + 1], p))
      == RequestsFor(Filter(confs[..i], p)) + (if p(confs[i].data) then [RequestFor(confs[i])] else [])
  {
    assert confs[..i + 1] == confs[..i] + [confs[i]];
    FilterSnoc(confs[..i], confs[i], p);
  }

  /** The sweep recomputes a conference exactly when it is listed and starts in the future. */
  lemma RecomputedIffFuture(confs: seq<Doc>, startsInFuture: Value -> bool, d: Doc)
    ensures RequestFor(d) in RequestsFor(Filter(confs, startsInFuture)) <==> d in confs && startsInFuture(d.data)
  {
    var f := Filter(confs, startsInFuture);
    if d in confs && startsInFuture(d.data) {
      var k :| 0 <= k < |f| && f[k] == d;
      assert RequestsFor(f)[k] == RequestFor(d);
    }
  }
}

=== FILE: src/teardown.dfy ===
/**
 * `deleteConference`: removes a conference and everything that depends on
 * it, one collection after another, in batches, and deletes the conference
 * document itself last.
 */
module Teardown {
  import opened Base
  import opened Text
  import opened Json
  import opened DocStore
  import opened Chunking
  import opened Lists

  /** Persons are deleted with their e-mail index, so their chunks are half a batch. */
  const PersonChunkSize: nat := BatchSafeLimit / 2

  function DeleteWrites(c: Collection, ids: seq<string>): (r: Batch)
    ensures |r| == |ids|
    ensures forall i :: 0 <= i < |ids| ==> r[i] == Delete(c, ids[i])
  {
    seq(|ids|, i requires 0 <= i < |ids| => Delete(c, ids[i]))
  }

  lemma DeleteWritesAppend(c: Collection, a: seq<string>, b: seq<string>)
    ensures DeleteWrites(c, a + b) == DeleteWrites(c, a) + DeleteWrites(c, b)
  {
  }

  function DeleteChunks(c: Collection, chunks: seq<seq<string>>): (r: seq<Batch>)
    ensures |r| == |chunks|
    ensures forall k :: 0 <= k < |r| ==> r[k] == DeleteWrites(c, chunks[k])
    ensures ConcatBatches(r) == DeleteWrites(c, Concat(chunks))
  {
    if chunks == [] then []
    else
      var rest := DeleteChunks(c, chunks[1..]);
      DeleteWritesAppend(c, chunks[0], Concat(chunks[1..]));
      assert ([DeleteWrites(c, chunks[0])] + rest)[1..] == rest;
      [DeleteWrites(c, chunks[0])] + rest
  }

  /**
   * `deleteByDocIds`: ceil(n / 450) batches of at most 450 deletes that
   * together delete every id once, in order.
   */
  function DeleteByDocIds(c: Collection, ids: seq<string>): (r: seq<Batch>)
    ensures |ids| <= |r| * BatchSafeLimit < |ids| + BatchSafeLimit
    ensures forall k :: 0 <= k < |r| ==> 0 < |r[k]| <= BatchSafeLimit
    ensures ConcatBatches(r) == DeleteWrites(c, ids)
    ensures forall k, i :: 0 <= k < |r| && 0 <= i < |r[k]| ==> r[k][i] == Delete(c, r[k][i].id)
  {
    DeleteChunks(c, Chunks(ids, BatchSafeLimit))
  }

  /** What one `deleteByQuery` reports and commits. */
  datatype QueryDeletion = QueryDeletion(count: nat, batches: seq<Batch>)

  /** `deleteByQuery`: deletes every document of `c` the query matches and counts them. */
  function DeleteByQuery(st: Store, c: Collection, p: Value -> bool): (r: QueryDeletion)
    ensures r.count == |Filter(Docs(st, c), p)|
    ensures r.count == 0 ==> r.batches == []
    ensures ConcatBatches(r.batches) == DeleteWrites(c, Ids(Filter(Docs(st, c), p)))
    ensures forall k, i :: 0 <= k < |r.batches| && 0 <= i < |r.batches[k]| ==> r.batches[k][i] == Delete(c, r.batches[k][i].id)
  {
    var ids := Ids(Filter(Docs(st, c), p));
    if |ids| == 0 then QueryDeletion(0, []) else QueryDeletion(|ids|, DeleteByDocIds(c, ids))
  }

  /** Deleting a list of ids from one collection keeps exactly the documents with other ids. */
  lemma {:induction false} DeleteWritesEffect(st: Store, c: Collection, ids: seq<string>)
    ensures forall d :: d in Docs(ApplyBatch(st, DeleteWrites(c, ids)), c) <==> d in Docs(st, c) && d.id !in ids
    ensures forall c2 :: c2 != c ==> Docs(ApplyBatch(st, DeleteWrites(c, ids)), c2) == Docs(st, c2)
    decreases |ids|
  {
    if ids != [] {
      var st1 := ApplyWrite(st, Delete(c, ids[0]));
      assert DeleteWrites(c, ids) == [Delete(c, ids[0])] + DeleteWrites(c, ids[1..]);
      assert ([Delete(c, ids[0])] + DeleteWrites(c, ids[1..]))[1..] == DeleteWrites(c, ids[1..]);
      DeleteWritesEffect(st1, c, ids[1..]);
    }
  }

  /** `DeleteByQueryEffect` for one document. */
  lemma DeleteByQueryMember(st: Store, c: Collection, p: Value -> bool, x: Doc)
    ensures x in Docs(ApplyBatches(st, DeleteByQuery(st, c, p).batches), c) <==> x in Docs(st, c) && x.id !in Ids(Filter(Docs(st, c), p))
  {
    DeleteByQueryEffect(st, c, p);
  }

  /** `DeleteByQueryEffect` for one other collection. */
  lemma DeleteByQueryFrame(st: Store, c: Collection, p: Value -> bool, other: Collection)
    requires other != c
    ensures Docs(ApplyBatches(st, DeleteByQuery(st, c, p).batches), other) == Docs(st, other)
  {
    DeleteByQueryEffect(st, c, p);
  }

  /**
   * After `deleteByQuery` the collection keeps exactly the documents the query
   * did not return, none of them satisfies the query, and other collections
   * are unchanged.
   */
  lemma DeleteByQueryEffect(st: Store, c: Collection, p: Value -> bool)
    ensures forall d :: (d in Docs(ApplyBatches(st, DeleteByQuery(st, c, p).batches), c)
      <==> d in Docs(st, c) && d.id !in Ids(Filter(Docs(st, c), p)))
    ensures forall d :: d in Docs(ApplyBatches(st, DeleteByQuery(st, c, p).batches), c) ==> !p(d.data)
    ensures forall c2 :: c2 != c ==> Docs(ApplyBatches(st, DeleteByQuery(st, c, p).batches), c2) == Docs(st, c2)
  {
    var r := DeleteByQuery(st, c, p);
    var matched := Filter(Docs(st, c), p);
    var ids := Ids(matched);
    BatchesAreConcatenated(st, r.batches);
    DeleteWritesEffect(st, c, ids);
  }

  /** `where('conference.conferenceId', '==', cid)` on sessions. */
  predicate SessionOfConference(cid: string, data: Value) {
    Get(Get(data, "conference"), "conferenceId") == Str(cid)
  }

  function SessionQuery(cid: string): Value -> bool {
    (data: Value) => SessionOfConference(cid, data)
  }

  /** The raw `speaker.submittedConferenceIds` field. */
  function SubmittedField(data: Value): Value {
    Get(Get(data, "speaker"), "submittedConferenceIds")
  }

  /** `where('speaker.submittedConferenceIds', 'array-contains', cid)`: an exact match on the raw entries. */
  predicate ListsConference(cid: string, data: Value) {
    SubmittedField(data).Arr? && Str(cid) in SubmittedField(data).items
  }

  /** `String(v ?? '').trim()` of each entry. */
  function TrimmedTexts(items: seq<Value>): (r: seq<string>)
    ensures |r| == |items|
    ensures forall k :: 0 <= k < |r| ==> r[k] == Trim(TextOr(items[k]))
  {
    seq(|items|, k requires 0 <= k < |items| => Trim(TextOr(items[k])))
  }

  /** `filter(value => value.length > 0)`. */
  function NonEmpty(ts: seq<string>): (r: seq<string>)
    ensures |r| <= |ts|
    ensures forall k :: 0 <= k < |r| ==> r[k] != []
  {
    if ts == [] then [] else (if ts[0] == [] then [] else [ts[0]]) + NonEmpty(ts[1..])
  }

  /** The submitted conference ids as the candidate rule reads them. */
  function SubmittedConferenceIds(data: Value): seq<string> {
    if SubmittedField(data).Arr? then NonEmpty(TrimmedTexts(SubmittedField(data).items)) else []
  }

  /** A person without an account whose only submission went to `cid`. */
  predicate IsCandidate(cid: string, data: Value) {
    !Truthy(Get(data, "hasAccount")) && SubmittedConferenceIds(data) == [cid]
  }

  /** Exactly one entry is `x` and every other entry is empty. */
  predicate OnlyNonEmpty(ts: seq<string>, x: string) {
    exists i :: 0 <= i < |ts| && ts[i] == x && forall j :: 0 <= j < |ts| && j != i ==> ts[j] == []
  }

  /** The non-empty entries are exactly `[x]` iff `x` is the one non-empty entry. */
  lemma {:induction false} NonEmptySingleton(ts: seq<string>, x: string)
    requires x != []
    ensures NonEmpty(ts) == [x] <==> OnlyNonEmpty(ts, x)
  {
    if ts != [] {
      var rest := ts[1..];
      NonEmptySingleton(rest, x);
      NonEmptyNone(rest);
      if ts[0] == [] {
        assert NonEmpty(ts) == NonEmpty(rest);
        EmptyHeadOnly(ts, x);
      } else {
        NonEmptyHeadSingleton(ts, x);
        NonEmptyHeadOnly(ts, x);
      }
    }
  }

  /** An empty first entry changes nothing about which entry is the one non-empty one. */
  lemma EmptyHeadOnly(ts: seq<string>, x: string)
    requires ts != [] && ts[0] == [] && x != []
    ensures OnlyNonEmpty(ts, x) <==> OnlyNonEmpty(ts[1..], x)
  {
    var rest := ts[1..];
    if OnlyNonEmpty(ts, x) {
      var i :| 0 <= i < |ts| && ts[i] == x && forall j :: 0 <= j < |ts| && j != i ==> ts[j] == [];
      assert rest[i - 1] == x;
      forall j | 0 <= j < |rest| && j != i - 1 ensures rest[j] == [] {
        assert rest[j] == ts[j + 1];
      }
    }
    if OnlyNonEmpty(rest, x) {
      var i :| 0 <= i < |rest| && rest[i] == x && forall j :: 0 <= j < |rest| && j != i ==> rest[j] == [];
      assert ts[i + 1] == x;
      forall j | 0 <= j < |ts| && j != i + 1 ensures ts[j] == [] {
        if j > 0 {
          assert ts[j] == rest[j - 1];
        }
      }
    }
  }

  /** A non-empty first entry is the one non-empty entry iff it is `x` and all later ones are empty. */
  lemma NonEmptyHeadOnly(ts: seq<string>, x: string)
    requires ts != [] && ts[0] != []
    ensures OnlyNonEmpty(ts, x) <==> ts[0] == x && forall j :: 0 <= j < |ts[1..]| ==> ts[1..][j] == []
  {
    var rest := ts[1..];
    if OnlyNonEmpty(ts, x) {
      var i :| 0 <= i < |ts| && ts[i] == x && forall j :: 0 <= j < |ts| && j != i ==> ts[j] == [];
      assert i == 0;
      forall j | 0 <= j < |rest| ensures rest[j] == [] {
        assert rest[j] == ts[j + 1];
      }
    }
    if ts[0] == x && forall j :: 0 <= j < |rest| ==> rest[j] == [] {
      forall j | 0 <= j < |ts| && j != 0 ensures ts[j] == [] {
        assert ts[j] == rest[j - 1];
      }
    }
  }

  /** After a non-empty first entry, the non-empty entries are `[x]` iff that entry is `x` and nothing else is left. */
  lemma NonEmptyHeadSingleton(ts: seq<string>, x: string)
    requires ts != [] && ts[0] != []
    ensures NonEmpty(ts) == [x] <==> ts[0] == x && NonEmpty(ts[1..]) == []
  {
    var n := NonEmpty(ts[1..]);
    assert NonEmpty(ts) == [ts[0]] + n;
    if [ts[0]] + n == [x] {
      assert |n| == 0;
      assert ([ts[0]] + n)[0] == ts[0];
    }
  }

  /** Nothing is left iff every entry is empty. */
  lemma {:induction false} NonEmptyNone(ts: seq<string>)
    ensures NonEmpty(ts) == [] <==> forall j :: 0 <= j < |ts| ==> ts[j] == []
  {
    if ts != [] {
      NonEmptyNone(ts[1..]);
      assert forall j :: 0 < j < |ts| ==> ts[j] == ts[1..][j - 1];
    }
  }

  /**
   * A person is a deletion candidate iff it has no account and, among the raw
   * submitted ids, exactly one entry trims to `cid` while all others trim to nothing.
   */
  lemma CandidateRule(cid: string, data: Value)
    requires cid != []
    ensures IsCandidate(cid, data) <==>
      !Truthy(Get(data, "hasAccount")) && SubmittedField(data).Arr?
      && OnlyNonEmpty(TrimmedTexts(SubmittedField(data).items), cid)
  {
    if SubmittedField(data).Arr? {
      NonEmptySingleton(TrimmedTexts(SubmittedField(data).items), cid);
    }
  }

  /** A person document chosen for deletion: its id and its trimmed e-mail. */
  datatype PersonCandidate = PersonCandidate(id: string, email: string)

  /** Matched by the array-contains query and kept by the candidate rule. */
  predicate Deletable(cid: string, data: Value) {
    ListsConference(cid, data) && IsCandidate(cid, data)
  }

  /** The candidate a person document gives under the rule for conference `cid`, if any. */
  function CandidateIf(cid: string): Doc -> Option<PersonCandidate> {
    (d: Doc) => if Deletable(cid, d.data) then Some(CandidateOf(d)) else None
  }

  /**
   * `deleteCandidatePersons`' selection: the persons the array-contains query
   * returns, kept when they satisfy the candidate rule, in listing order.
   */
  function Candidates(docs: seq<Doc>, cid: string): (r: seq<PersonCandidate>)
    ensures |r| <= |docs|
  {
    FilterMap(docs, CandidateIf(cid))
  }

  /** The candidates are exactly the listed persons the rule keeps, each with its trimmed e-mail. */
  lemma CandidatesMembers(docs: seq<Doc>, cid: string, c: PersonCandidate)
    ensures c in Candidates(docs, cid) <==> exists i :: 0 <= i < |docs| && Deletable(cid, docs[i].data) && c == CandidateOf(docs[i])
  {
    var f := CandidateIf(cid);
    assert Candidates(docs, cid) == FilterMap(docs, f);
    FilterMapMember(docs, f, c);
    if c in Candidates(docs, cid) {
      var i :| 0 <= i < |docs| && f(docs[i]) == Some(c);
      assert Deletable(cid, docs[i].data) && c == CandidateOf(docs[i]);
    }
  }

  function CandidateOf(d: Doc): PersonCandidate {
    PersonCandidate(d.id, Trim(TextOr(Get(d.data, "email"))))
  }

  /** The e-mail index key: the e-mail trimmed and lower-cased. */
  function EmailKey(email: string): string {
    Lower(Trim(email))
  }

  /** What deleting one candidate removes: its person document and its e-mail index key. */
  datatype PersonDeletion = PersonDeletion(id: string, key: string)

  function DeletionOf(p: PersonCandidate): PersonDeletion {
    PersonDeletion(p.id, EmailKey(p.email))
  }

  /** The deletes for one candidate: the person, and its e-mail index document when the key is non-empty. */
  function PersonWrites(p: PersonDeletion): (r: Batch)
    ensures 1 <= |r| <= 2 && r[0] == Delete(Person, p.id)
    ensures |r| == 2 <==> p.key != []
    ensures |r| == 2 ==> r[1] == Delete(PersonEmails, p.key)
  {
    [Delete(Person, p.id)] + (if p.key != [] then [Delete(PersonEmails, p.key)] else [])
  }

  predicate PersonDelete(w: Write) {
    w.Delete? && (w.coll == Person || w.coll == PersonEmails)
  }

  /** One batch: every candidate's writes, in candidate order. */
  function PersonChunkWrites(chunk: seq<PersonDeletion>): (r: Batch)
    ensures |chunk| <= |r| <= 2 * |chunk|
    ensures forall i :: 0 <= i < |r| ==> PersonDelete(r[i])
    ensures forall k :: 0 <= k < |chunk| ==> Delete(Person, chunk[k].id) in r
    ensures forall k :: 0 <= k < |chunk| && chunk[k].key != [] ==> Delete(PersonEmails, chunk[k].key) in r
  {
    if chunk == [] then []
    else
      var w := PersonWrites(chunk[0]);
      var rest := PersonChunkWrites(chunk[1..]);
      assert forall k :: 1 <= k < |chunk| ==> chunk[k] == chunk[1..][k - 1];
      w + rest
  }

  /**
   * `deletePersonsAndEmailIndexes`: chunks of 225 candidates, one batch per
   * chunk, so no batch exceeds 450 deletes.
   */
  function PersonBatches(cands: seq<PersonCandidate>): (r: seq<Batch>)
    ensures |cands| <= |r| * PersonChunkSize < |cands| + PersonChunkSize
    ensures forall k :: 0 <= k < |r| ==> 0 < |r[k]| <= BatchSafeLimit
    ensures forall k, i :: 0 <= k < |r| && 0 <= i < |r[k]| ==> PersonDelete(r[k][i])
    ensures forall j :: 0 <= j < |cands| ==> exists k :: 0 <= k < |r| && Delete(Person, cands[j].id) in r[k]
    ensures forall j :: 0 <= j < |cands| && EmailKey(cands[j].email) != [] ==>
      exists k :: 0 <= k < |r| && Delete(PersonEmails, EmailKey(cands[j].email)) in r[k]
  {
    var ds := Deletions(cands);
    var r := DeletionBatches(ds);
    forall j | 0 <= j < |cands|
      ensures exists k :: 0 <= k < |r| && Delete(Person, cands[j].id) in r[k]
      ensures EmailKey(cands[j].email) != [] ==> exists k :: 0 <= k < |r| && Delete(PersonEmails, EmailKey(cands[j].email)) in r[k]
    {
      assert ds[j] == DeletionOf(cands[j]);
    }
    r
  }

  /** What deleting each candidate removes, in candidate order. */
  function Deletions(cands: seq<PersonCandidate>): (r: seq<PersonDeletion>)
    ensures |r| == |cands|
    ensures forall j :: 0 <= j < |r| ==> r[j] == DeletionOf(cands[j])
  {
    seq(|cands|, j requires 0 <= j < |cands| => DeletionOf(cands[j]))
  }

  function DeletionBatches(ds: seq<PersonDeletion>): (r: seq<Batch>)
    ensures |ds| <= |r| * PersonChunkSize < |ds| + PersonChunkSize
    ensures forall k :: 0 <= k < |r| ==> 0 < |r[k]| <= BatchSafeLimit
    ensures forall k, i :: 0 <= k < |r| && 0 <= i < |r[k]| ==> PersonDelete(r[k][i])
    ensures forall j :: 0 <= j < |ds| ==> exists k :: 0 <= k < |r| && Delete(Person, ds[j].id) in r[k]
    ensures forall j :: 0 <= j < |ds| && ds[j].key != [] ==>
      exists k :: 0 <= k < |r| && Delete(PersonEmails, ds[j].key) in r[k]
  {
    var chunks := Chunks(ds, PersonChunkSize);
    var r := ChunkBatches(chunks);
    forall j | 0 <= j < |ds|
      ensures exists k :: 0 <= k < |r| && Delete(Person, ds[j].id) in r[k]
      ensures ds[j].key != [] ==> exists k :: 0 <= k < |r| && Delete(PersonEmails, ds[j].key) in r[k]
    {
      assert ds[j] in Concat(chunks);
      ChunkBatchesCover(chunks, ds[j]);
    }
    r
  }

  /** One batch per chunk. */
  function ChunkBatches(chunks: seq<seq<PersonDeletion>>): (r: seq<Batch>)
    ensures |r| == |chunks|
    ensures forall k :: 0 <= k < |r| ==> |chunks[k]| <= |r[k]| <= 2 * |chunks[k]|
    ensures forall k, i :: 0 <= k < |r| && 0 <= i < |r[k]| ==> PersonDelete(r[k][i])
  {
    seq(|chunks|, k requires 0 <= k < |chunks| => PersonChunkWrites(chunks[k]))
  }

  /** Every candidate of some chunk has its deletes in that chunk's batch. */
  lemma ChunkBatchesCover(chunks: seq<seq<PersonDeletion>>, d: PersonDeletion)
    requires d in Concat(chunks)
    ensures exists k :: 0 <= k < |chunks| && Delete(Person, d.id) in ChunkBatches(chunks)[k]
    ensures d.key != [] ==> exists k :: 0 <= k < |chunks| && Delete(PersonEmails, d.key) in ChunkBatches(chunks)[k]
  {
    InConcat(chunks, d);
    var k :| 0 <= k < |chunks| && d in chunks[k];
    var i :| 0 <= i < |chunks[k]| && chunks[k][i] == d;
    assert ChunkBatches(chunks)[k] == PersonChunkWrites(chunks[k]);
  }

  /** `ids.add(x)` on a JavaScript `Set`: insertion order, no repeats. */
  function AddId(ids: seq<string>, x: string): seq<string> {
    if x in ids then ids else ids + [x]
  }

  function AddIds(ids: seq<string>, xs: seq<string>): (r: seq<string>)
    requires Distinct(ids)
    ensures Distinct(r)
    ensures forall x :: x in r <==> x in ids || x in xs
    decreases |xs|
  {
    if xs == [] then ids
    else
      AddIdFacts(ids, xs[0]);
      AddIds(AddId(ids, xs[0]), xs[1..])
  }

  /** Adding an id keeps the list free of repeats and adds exactly that id. */
  lemma AddIdFacts(ids: seq<string>, x: string)
    requires Distinct(ids)
    ensures Distinct(AddId(ids, x))
    ensures forall y :: y in AddId(ids, x) <==> y in ids || y == x
  {
  }

  predicate Distinct<T(==)>(xs: seq<T>) {
    forall i, j :: 0 <= i < j < |xs| ==> xs[i] != xs[j]
  }

  /**
   * The ids `deleteConferenceHallConfigs` collects: the query matches, then the
   * document whose id is the conference id, if it exists.
   */
  function HallConfigIds(st: Store, cid: string): (r: seq<string>)
    ensures Distinct(r)
    ensures forall x :: x in r <==>
      x in Ids(Filter(Docs(st, ConferenceHallConfig), ConferenceIdQuery(cid)))
      || (x == cid && DocAt(st, ConferenceHallConfig, cid).Some?)
  {
    var queried := AddIds([], Ids(Filter(Docs(st, ConferenceHallConfig), ConferenceIdQuery(cid))));
    if DocAt(st, ConferenceHallConfig, cid).Some? then
      AddIdFacts(queried, cid);
      AddId(queried, cid)
    else queried
  }

  /** A list without repeats has as many elements as the set of its elements. */
  lemma {:induction false} DistinctCardinality<T>(xs: seq<T>)
    requires Distinct(xs)
    ensures |set x | x in xs| == |xs|
  {
    if xs != [] {
      var rest := xs[1..];
      DistinctCardinality(rest);
      assert (set x | x in xs) == (set x | x in rest) + {xs[0]};
      assert xs[0] !in rest;
    }
  }

  /** One `deleteByQuery` stage: a collection and the query's condition. */
  datatype QueryStep = QueryStep(coll: Collection, matches: Value -> bool)

  /** Runs the stages in order; each stage queries the store the earlier stages left. */
  function RunSteps(st: Store, steps: seq<QueryStep>): (r: seq<QueryDeletion>)
    ensures |r| == |steps|
    decreases |steps|
  {
    if steps == [] then []
    else
      var d := DeleteByQuery(st, steps[0].coll, steps[0].matches);
      [d] + RunSteps(ApplyBatches(st, d.batches), steps[1..])
  }

  /** The batches of all stages, in commit order. */
  function StepsPlan(ds: seq<QueryDeletion>): seq<Batch> {
    if ds == [] then [] else ds[0].batches + StepsPlan(ds[1..])
  }

  predicate DistinctColls(steps: seq<QueryStep>) {
    forall i, j :: 0 <= i < j < |steps| ==> steps[i].coll != steps[j].coll
  }

  /** The stages only delete, and only in their own collections. */
  lemma {:induction false} StepsPlanAvoids(st: Store, steps: seq<QueryStep>, c: Collection)
    requires forall s :: 0 <= s < |steps| ==> steps[s].coll != c
    ensures forall k, i :: 0 <= k < |StepsPlan(RunSteps(st, steps))| && 0 <= i < |StepsPlan(RunSteps(st, steps))[k]| ==>
      StepsPlan(RunSteps(st, steps))[k][i].Delete? && StepsPlan(RunSteps(st, steps))[k][i].coll != c
    decreases |steps|
  {
    if steps != [] {
      var d := DeleteByQuery(st, steps[0].coll, steps[0].matches);
      var ds := RunSteps(st, steps);
      var rest := RunSteps(ApplyBatches(st, d.batches), steps[1..]);
      assert ds[0] == d && ds[1..] == rest;
      StepsPlanAvoids(ApplyBatches(st, d.batches), steps[1..], c);
      assert StepsPlan(ds) == d.batches + StepsPlan(rest);
      assert DeletesOutside(d.batches, c);
      DeletesOutsideAppend(d.batches, StepsPlan(rest), c);
    }
  }

  /** Collections no stage names are left as they were. */
  lemma RunStepsKeepOthers(st: Store, steps: seq<QueryStep>, c: Collection)
    requires forall s :: 0 <= s < |steps| ==> steps[s].coll != c
    ensures Docs(ApplyBatches(st, StepsPlan(RunSteps(st, steps))), c) == Docs(st, c)
  {
    StepsPlanAvoids(st, steps, c);
    BatchesKeepOtherCollections(st, StepsPlan(RunSteps(st, steps)), c);
  }

  /** Each stage counts the matches of its query in the original store. */
  lemma {:induction false} RunStepsCounts(st: Store, steps: seq<QueryStep>, s: nat)
    requires DistinctColls(steps) && s < |steps|
    ensures RunSteps(st, steps)[s].count == |Filter(Docs(st, steps[s].coll), steps[s].matches)|
    decreases s
  {
    if s > 0 {
      var d := DeleteByQuery(st, steps[0].coll, steps[0].matches);
      var st1 := ApplyBatches(st, d.batches);
      DeleteByQueryEffect(st, steps[0].coll, steps[0].matches);
      assert DistinctColls(steps[1..]);
      RunStepsCounts(st1, steps[1..], s - 1);
      assert steps[1..][s - 1] == steps[s];
    }
  }

  /** Committing the stages is committing the first stage, then the rest run on what it left. */
  lemma RunStepsFirst(st: Store, steps: seq<QueryStep>)
    requires steps != []
    ensures var d := DeleteByQuery(st, steps[0].coll, steps[0].matches);
      var st1 := ApplyBatches(st, d.batches);
      ApplyBatches(st, StepsPlan(RunSteps(st, steps))) == ApplyBatches(st1, StepsPlan(RunSteps(st1, steps[1..])))
  {
    var d := DeleteByQuery(st, steps[0].coll, steps[0].matches);
    var st1 := ApplyBatches(st, d.batches);
    var rest := RunSteps(st1, steps[1..]);
    var ds := RunSteps(st, steps);
    assert ds[1..] == rest;
    assert StepsPlan(ds) == d.batches + StepsPlan(rest);
    ApplyBatchesAppend(st, d.batches, StepsPlan(rest));
  }

  /**
   * After all stages, a stage's collection keeps exactly the documents whose
   * ids its query did not return, the query being read on the original store.
   */
  lemma {:induction false} RunStepsMembers(st: Store, steps: seq<QueryStep>, s: nat, x: Doc)
    requires DistinctColls(steps) && s < |steps|
    ensures x in Docs(ApplyBatches(st, StepsPlan(RunSteps(st, steps))), steps[s].coll) <==>
      x in Docs(st, steps[s].coll) && x.id !in Ids(Filter(Docs(st, steps[s].coll), steps[s].matches))
    decreases s
  {
    if s == 0 {
      FirstStepMembers(st, steps, x);
    } else {
      var d := DeleteByQuery(st, steps[0].coll, steps[0].matches);
      var st1 := ApplyBatches(st, d.batches);
      RunStepsFirst(st, steps);
      DistinctCollsTail(steps);
      assert steps[1..][s - 1] == steps[s];
      RunStepsMembers(st1, steps[1..], s - 1, x);
      DeleteByQueryFrame(st, steps[0].coll, steps[0].matches, steps[s].coll);
    }
  }

  /** The first stage's collection keeps exactly the documents its query did not match. */
  lemma FirstStepMembers(st: Store, steps: seq<QueryStep>, x: Doc)
    requires DistinctColls(steps) && steps != []
    ensures x in Docs(ApplyBatches(st, StepsPlan(RunSteps(st, steps))), steps[0].coll) <==>
      x in Docs(st, steps[0].coll) && x.id !in Ids(Filter(Docs(st, steps[0].coll), steps[0].matches))
  {
    var c0 := steps[0].coll;
    var d := DeleteByQuery(st, c0, steps[0].matches);
    var st1 := ApplyBatches(st, d.batches);
    RunStepsFirst(st, steps);
    DeleteByQueryMember(st, c0, steps[0].matches, x);
    LaterStepsSpareFirst(st1, steps);
  }

  /** The stages after the first leave the first stage's collection alone. */
  lemma LaterStepsSpareFirst(st: Store, steps: seq<QueryStep>)
    requires DistinctColls(steps) && steps != []
    ensures Docs(ApplyBatches(st, StepsPlan(RunSteps(st, steps[1..]))), steps[0].coll) == Docs(st, steps[0].coll)
  {
    assert forall t :: 0 <= t < |steps[1..]| ==> steps[1..][t].coll != steps[0].coll;
    RunStepsKeepOthers(st, steps[1..], steps[0].coll);
  }

  lemma DistinctCollsTail(steps: seq<QueryStep>)
    requires DistinctColls(steps) && steps != []
    ensures DistinctColls(steps[1..])
  {
  }


  /** After all stages, no document of a stage's collection matches its query. */
  lemma RunStepsNoMatch(st: Store, steps: seq<QueryStep>, s: nat, x: Doc)
    requires DistinctColls(steps) && s < |steps|
    requires x in Docs(ApplyBatches(st, StepsPlan(RunSteps(st, steps))), steps[s].coll)
    ensures !steps[s].matches(x.data)
  {
    RunStepsMembers(st, steps, s, x);
  }

  /** The six `deleteByQuery` stages of `deleteConference`, in order. */
  function DependentSteps(cid: string): (r: seq<QueryStep>)
    ensures DistinctColls(r)
  {
    [ QueryStep(Session, SessionQuery(cid)),
      QueryStep(ConferenceSpeaker, ConferenceIdQuery(cid)),
      QueryStep(ActivityParticipation, ConferenceIdQuery(cid)),
      QueryStep(Activity, ConferenceIdQuery(cid)),
      QueryStep(SessionAllocation, ConferenceIdQuery(cid)),
      QueryStep(ConferenceSecret, ConferenceIdQuery(cid)) ]
  }

  /** `DeleteConferenceReport`. */
  datatype DeleteReport = DeleteReport(
    conferenceDeleted: nat,
    sessionsDeleted: nat,
    conferenceSpeakersDeleted: nat,
    personsDeleted: nat,
    activitiesDeleted: nat,
    activityParticipationsDeleted: nat,
    sessionAllocationsDeleted: nat,
    conferenceHallConfigsDeleted: nat,
    conferenceSecretsDeleted: nat,
    deletedAt: string)

  /** Every batch `deleteConference` commits, in order, and the report it sends. */
  datatype Teardown = Teardown(batches: seq<Batch>, report: DeleteReport)

  /** The stores between the stages of the teardown. */
  datatype Stages = Stages(deps: seq<QueryDeletion>, afterDeps: Store, hallIds: seq<string>, afterHall: Store,
                           cands: seq<PersonCandidate>, afterPersons: Store)

  function RunStages(st: Store, cid: string): (r: Stages)
    ensures |r.deps| == 6
  {
    var deps := RunSteps(st, DependentSteps(cid));
    var afterDeps := ApplyBatches(st, StepsPlan(deps));
    var hallIds := HallConfigIds(afterDeps, cid);
    var afterHall := ApplyBatches(afterDeps, DeleteByDocIds(ConferenceHallConfig, hallIds));
    var cands := Candidates(Docs(afterHall, Person), cid);
    Stages(deps, afterDeps, hallIds, afterHall, cands, ApplyBatches(afterHall, PersonBatches(cands)))
  }

  /**
   * `deleteConference` once the request is authorised for conference `cid`
   * (`auth`), with `now` as the report time: the six query stages, the hall
   * configs, the candidate persons, then the conference document.
   */
  function DeleteConference(st: Store, auth: Result<string, HttpError>, now: string): (r: Result<Teardown, HttpError>)
    ensures auth.Err? ==> r == Err(auth.error)
    ensures auth.Ok? ==> r.Ok? && |r.value.batches| >= 1
    ensures auth.Ok? ==> r.Ok? && r.value.batches[|r.value.batches| - 1] == [Delete(Conference, auth.value)]
    ensures auth.Ok? ==> r.Ok? && r.value.report.conferenceDeleted == 1 && r.value.report.deletedAt == now
  {
    match auth
    case Err(e) => Err(e)
    case Ok(cid) =>
      var sg := RunStages(st, cid);
      var batches := StepsPlan(sg.deps) + DeleteByDocIds(ConferenceHallConfig, sg.hallIds)
        + PersonBatches(sg.cands) + [[Delete(Conference, cid)]];
      Ok(Teardown(batches, DeleteReport(
        conferenceDeleted := 1,
        sessionsDeleted := sg.deps[0].count,
        conferenceSpeakersDeleted := sg.deps[1].count,
        personsDeleted := |sg.cands|,
        activitiesDeleted := sg.deps[3].count,
        activityParticipationsDeleted := sg.deps[2].count,
        sessionAllocationsDeleted := sg.deps[4].count,
        conferenceHallConfigsDeleted := |sg.hallIds|,
        conferenceSecretsDeleted := sg.deps[5].count,
        deletedAt := now)))
  }

  /** The store once the teardown's batches have been committed. */
  function FinalStore(st: Store, cid: string): Store {
    ApplyBatch(RunStages(st, cid).afterPersons, [Delete(Conference, cid)])
  }

  /** Committing the teardown's batches passes through the stage stores. */
  lemma CommitPassesStages(st: Store, cid: string, now: string)
    ensures ApplyBatches(st, DeleteConference(st, Ok(cid), now).value.batches) == FinalStore(st, cid)
  {
    var sg := RunStages(st, cid);
    var a := StepsPlan(sg.deps);
    var h := DeleteByDocIds(ConferenceHallConfig, sg.hallIds);
    var p := PersonBatches(sg.cands);
    var root: seq<Batch> := [[Delete(Conference, cid)]];
    ApplyBatchesAppend(st, a + h + p, root);
    ApplyBatchesAppend(st, a + h, p);
    ApplyBatchesAppend(st, a, h);
    assert ApplyBatches(sg.afterPersons, root) == ApplyBatches(ApplyBatch(sg.afterPersons, root[0]), []);
  }

  lemma HallStageFrame(st: Store, cid: string, c: Collection)
    requires c != ConferenceHallConfig
    ensures Docs(RunStages(st, cid).afterHall, c) == Docs(RunStages(st, cid).afterDeps, c)
  {
    var sg := RunStages(st, cid);
    BatchesKeepOtherCollections(sg.afterDeps, DeleteByDocIds(ConferenceHallConfig, sg.hallIds), c);
  }

  lemma PersonStageFrame(st: Store, cid: string, c: Collection)
    requires c != Person && c != PersonEmails
    ensures Docs(RunStages(st, cid).afterPersons, c) == Docs(RunStages(st, cid).afterHall, c)
  {
    var sg := RunStages(st, cid);
    BatchesKeepOtherCollections(sg.afterHall, PersonBatches(sg.cands), c);
  }

  lemma RootStageFrame(pst: Store, cid: string, c: Collection)
    requires c != Conference
    ensures Docs(ApplyBatch(pst, [Delete(Conference, cid)]), c) == Docs(pst, c)
  {
    BatchKeepsOtherCollections(pst, [Delete(Conference, cid)], c);
  }

  lemma DepsFrame(st: Store, cid: string, c: Collection)
    requires c !in {Session, ConferenceSpeaker, ActivityParticipation, Activity, SessionAllocation, ConferenceSecret}
    ensures Docs(RunStages(st, cid).afterDeps, c) == Docs(st, c)
  {
    var steps := DependentSteps(cid);
    forall s | 0 <= s < |steps| ensures steps[s].coll != c {
      assert steps[s].coll in {Session, ConferenceSpeaker, ActivityParticipation, Activity, SessionAllocation, ConferenceSecret};
    }
    RunStepsKeepOthers(st, steps, c);
    assert RunStages(st, cid).afterDeps == ApplyBatches(st, StepsPlan(RunSteps(st, steps)));
  }

  /** Deleting the conference document removes it and nothing else from the conferences. */
  lemma RootDeletion(pst: Store, cid: string)
    ensures Docs(ApplyBatch(pst, [Delete(Conference, cid)]), Conference) == Without(Docs(pst, Conference), cid)
    ensures DocAt(ApplyBatch(pst, [Delete(Conference, cid)]), Conference, cid) == None
  {
    FindWithout(Docs(pst, Conference), cid, cid);
  }

  /** Only the conference document is removed from the conferences. */
  lemma TeardownRemovesConference(st: Store, cid: string, now: string)
    ensures Docs(ApplyBatches(st, DeleteConference(st, Ok(cid), now).value.batches), Conference) == Without(Docs(st, Conference), cid)
    ensures DocAt(ApplyBatches(st, DeleteConference(st, Ok(cid), now).value.batches), Conference, cid) == None
  {
    CommitPassesStages(st, cid, now);
    var sg := RunStages(st, cid);
    DepsFrame(st, cid, Conference);
    HallStageFrame(st, cid, Conference);
    PersonStageFrame(st, cid, Conference);
    RootDeletion(sg.afterPersons, cid);
  }

  /** Collections the teardown never touches keep their documents. */
  lemma TeardownKeepsUnrelated(st: Store, cid: string, now: string, c: Collection)
    requires c in {ConferenceDashboard, SlotType, VoxxrinConfig, PlatformConfig}
    ensures Docs(ApplyBatches(st, DeleteConference(st, Ok(cid), now).value.batches), c) == Docs(st, c)
  {
    CommitPassesStages(st, cid, now);
    DepsFrame(st, cid, c);
    HallStageFrame(st, cid, c);
    PersonStageFrame(st, cid, c);
    RootStageFrame(RunStages(st, cid).afterPersons, cid, c);
  }

  /** The stages after the queries leave the queried collections alone. */
  lemma LaterStagesFrame(st: Store, cid: string, c: Collection)
    requires c != ConferenceHallConfig && c != Person && c != PersonEmails && c != Conference
    ensures Docs(FinalStore(st, cid), c) == Docs(RunStages(st, cid).afterDeps, c)
  {
    HallStageFrame(st, cid, c);
    PersonStageFrame(st, cid, c);
    RootStageFrame(RunStages(st, cid).afterPersons, cid, c);
  }

  /** After the teardown no session of the conference remains. */
  lemma TeardownRemovesSessions(st: Store, cid: string, now: string)
    ensures forall x :: x in Docs(ApplyBatches(st, DeleteConference(st, Ok(cid), now).value.batches), Session) ==>
      !SessionOfConference(cid, x.data)
  {
    CommitPassesStages(st, cid, now);
    LaterStagesFrame(st, cid, Session);
    forall x | x in Docs(RunStages(st, cid).afterDeps, Session) ensures !SessionOfConference(cid, x.data) {
      RunStepsNoMatch(st, DependentSteps(cid), 0, x);
    }
  }

  /** After the query stages, no document of a `conferenceId` stage names the conference. */
  lemma DepsNoMatch(st: Store, cid: string, c: Collection, x: Doc)
    requires c in {ConferenceSpeaker, ActivityParticipation, Activity, SessionAllocation, ConferenceSecret}
    requires x in Docs(ApplyBatches(st, StepsPlan(RunSteps(st, DependentSteps(cid)))), c)
    ensures !ByConferenceId(cid, x.data)
  {
    var steps := DependentSteps(cid);
    var s := if c == ConferenceSpeaker then 1 else if c == ActivityParticipation then 2
      else if c == Activity then 3 else if c == SessionAllocation then 4 else 5;
    assert steps[s].coll == c;
    RunStepsNoMatch(st, steps, s, x);
  }

  /**
   * After the teardown no speaker, participation, activity, allocation or
   * secret whose `conferenceId` is the conference remains.
   */
  lemma TeardownRemovesByConferenceId(st: Store, cid: string, now: string, c: Collection)
    requires c in {ConferenceSpeaker, ActivityParticipation, Activity, SessionAllocation, ConferenceSecret}
    ensures forall x :: x in Docs(ApplyBatches(st, DeleteConference(st, Ok(cid), now).value.batches), c) ==>
      !ByConferenceId(cid, x.data)
  {
    CommitPassesStages(st, cid, now);
    LaterStagesFrame(st, cid, c);
    forall x | x in Docs(RunStages(st, cid).afterDeps, c) ensures !ByConferenceId(cid, x.data) {
      DepsNoMatch(st, cid, c, x);
    }
  }

  /** The hall-config stage leaves no config of the conference, by field or by id. */
  lemma HallStageEffect(ast: Store, cid: string, x: Doc)
    requires x in Docs(ApplyBatches(ast, DeleteByDocIds(ConferenceHallConfig, HallConfigIds(ast, cid))), ConferenceHallConfig)
    ensures !ByConferenceId(cid, x.data) && x.id != cid
  {
    var ids := HallConfigIds(ast, cid);
    var bs := DeleteByDocIds(ConferenceHallConfig, ids);
    BatchesAreConcatenated(ast, bs);
    DeleteWritesEffect(ast, ConferenceHallConfig, ids);
    if x.id == cid {
      FindMember(Docs(ast, ConferenceHallConfig), x);
    }
  }

  /** After the teardown no hall config names the conference, by field or by id. */
  lemma TeardownRemovesHallConfigs(st: Store, cid: string, now: string)
    ensures forall x :: x in Docs(ApplyBatches(st, DeleteConference(st, Ok(cid), now).value.batches), ConferenceHallConfig) ==>
      !ByConferenceId(cid, x.data) && x.id != cid
  {
    CommitPassesStages(st, cid, now);
    var sg := RunStages(st, cid);
    PersonStageFrame(st, cid, ConferenceHallConfig);
    RootStageFrame(sg.afterPersons, cid, ConferenceHallConfig);
    forall x | x in Docs(sg.afterHall, ConferenceHallConfig) ensures !ByConferenceId(cid, x.data) && x.id != cid {
      HallStageEffect(sg.afterDeps, cid, x);
    }
  }

  lemma {:induction false} FindMember(docs: seq<Doc>, x: Doc)
    requires x in docs
    ensures Find(docs, x.id).Some?
  {
    if docs[0].id != x.id {
      FindMember(docs[1..], x);
    }
  }

  lemma {:induction false} InConcatBatches(bs: seq<Batch>, k: nat, w: Write)
    requires k < |bs| && w in bs[k]
    ensures w in ConcatBatches(bs)
  {
    if k > 0 {
      InConcatBatches(bs[1..], k - 1, w);
    }
  }

  /** The person stage deletes every candidate and its e-mail index key. */
  lemma PersonStageEffect(hst: Store, cands: seq<PersonCandidate>, p: PersonCandidate)
    requires p in cands
    ensures DocAt(ApplyBatches(hst, PersonBatches(cands)), Person, p.id) == None
    ensures EmailKey(p.email) != [] ==> DocAt(ApplyBatches(hst, PersonBatches(cands)), PersonEmails, EmailKey(p.email)) == None
  {
    var bs := PersonBatches(cands);
    var j :| 0 <= j < |cands| && cands[j] == p;
    var b := ConcatBatches(bs);
    BatchesAreConcatenated(hst, bs);
    ConcatBatchesDeletes(bs);
    var k :| 0 <= k < |bs| && Delete(Person, p.id) in bs[k];
    InConcatBatches(bs, k, Delete(Person, p.id));
    BatchIsPointwise(hst, b, Person, p.id);
    DeletesOnlyEffect(b, Person, p.id, DocAt(hst, Person, p.id));
    var key := EmailKey(p.email);
    if key != [] {
      var k2 :| 0 <= k2 < |bs| && Delete(PersonEmails, key) in bs[k2];
      InConcatBatches(bs, k2, Delete(PersonEmails, key));
      BatchIsPointwise(hst, b, PersonEmails, key);
      DeletesOnlyEffect(b, PersonEmails, key, DocAt(hst, PersonEmails, key));
    }
  }

  /** Every candidate person, and its e-mail index when it has a key, is gone after the teardown. */
  lemma TeardownRemovesCandidates(st: Store, cid: string, now: string, p: PersonCandidate)
    requires p in Candidates(Docs(st, Person), cid)
    ensures DocAt(ApplyBatches(st, DeleteConference(st, Ok(cid), now).value.batches), Person, p.id) == None
    ensures EmailKey(p.email) != [] ==>
      DocAt(ApplyBatches(st, DeleteConference(st, Ok(cid), now).value.batches), PersonEmails, EmailKey(p.email)) == None
  {
    CommitPassesStages(st, cid, now);
    var sg := RunStages(st, cid);
    DepsFrame(st, cid, Person);
    HallStageFrame(st, cid, Person);
    PersonStageEffect(sg.afterHall, sg.cands, p);
    RootStageFrame(sg.afterPersons, cid, Person);
    RootStageFrame(sg.afterPersons, cid, PersonEmails);
  }

  /** A write of several batches comes from one of them. */
  lemma {:induction false} ConcatBatchesMember(bs: seq<Batch>, w: Write)
    requires w in ConcatBatches(bs)
    ensures exists k :: 0 <= k < |bs| && w in bs[k]
  {
    if w !in bs[0] {
      ConcatBatchesMember(bs[1..], w);
      var k :| 0 <= k < |bs[1..]| && w in bs[1..][k];
      assert w in bs[k + 1];
    }
  }

  /** A batch of the person stage deletes only its candidates and their e-mail index keys. */
  lemma {:induction false} PersonChunkWritesOnly(chunk: seq<PersonDeletion>, w: Write)
    requires w in PersonChunkWrites(chunk)
    ensures exists d :: d in chunk && (w == Delete(Person, d.id) || w == Delete(PersonEmails, d.key))
  {
    if w in PersonWrites(chunk[0]) {
      assert chunk[0] in chunk;
    } else {
      PersonChunkWritesOnly(chunk[1..], w);
      var d: PersonDeletion :| d in chunk[1..] && (w == Delete(Person, d.id) || w == Delete(PersonEmails, d.key));
      assert d in chunk;
    }
  }

  /** Neither the person id nor the e-mail index key of a deletion is `id` in collection `c`. */
  predicate SparedBy(d: PersonDeletion, c: Collection, id: string) {
    (c == Person ==> d.id != id) && (c == PersonEmails ==> d.key != id)
  }

  /** Every delete of the chunked batches is named by some deletion of the list. */
  lemma DeletionBatchesNames(ds: seq<PersonDeletion>, w: Write)
    ensures w in ConcatBatches(DeletionBatches(ds)) ==>
      exists d :: d in ds && (w == Delete(Person, d.id) || w == Delete(PersonEmails, d.key))
  {
    if w in ConcatBatches(DeletionBatches(ds)) {
      var chunks := Chunks(ds, PersonChunkSize);
      var bs := ChunkBatches(chunks);
      assert DeletionBatches(ds) == bs;
      ConcatBatchesMember(bs, w);
      var k :| 0 <= k < |bs| && w in bs[k];
      PersonChunkWritesOnly(chunks[k], w);
      var d: PersonDeletion :| d in chunks[k] && (w == Delete(Person, d.id) || w == Delete(PersonEmails, d.key));
      ConcatHasPieces(chunks, k, d);
    }
  }

  /** The chunked batches delete nothing that no deletion of the list names. */
  lemma DeletionBatchesOnly(ds: seq<PersonDeletion>, c: Collection, id: string)
    requires forall d :: d in ds ==> SparedBy(d, c, id)
    ensures Delete(c, id) !in ConcatBatches(DeletionBatches(ds))
  {
    DeletionBatchesNames(ds, Delete(c, id));
  }

  /** The person stage deletes nothing that no candidate names. */
  lemma PersonBatchesOnly(cands: seq<PersonCandidate>, c: Collection, id: string)
    requires Spares(cands, c, id)
    ensures Delete(c, id) !in ConcatBatches(PersonBatches(cands))
  {
    var ds := Deletions(cands);
    assert PersonBatches(cands) == DeletionBatches(ds);
    forall d | d in ds ensures SparedBy(d, c, id) {
      var j :| 0 <= j < |ds| && ds[j] == d;
    }
    DeletionBatchesOnly(ds, c, id);
  }

  /** No candidate carries this person id or e-mail index key. */
  predicate Spares(cands: seq<PersonCandidate>, c: Collection, id: string) {
    forall j :: 0 <= j < |cands| ==>
      (c == Person ==> cands[j].id != id) && (c == PersonEmails ==> EmailKey(cands[j].email) != id)
  }

  /** The person stage leaves every document no candidate names as it was. */
  lemma PersonStageSpares(hst: Store, cands: seq<PersonCandidate>, c: Collection, id: string)
    requires Spares(cands, c, id)
    ensures DocAt(ApplyBatches(hst, PersonBatches(cands)), c, id) == DocAt(hst, c, id)
  {
    var bs := PersonBatches(cands);
    var b := ConcatBatches(bs);
    BatchesAreConcatenated(hst, bs);
    ConcatBatchesDeletes(bs);
    BatchIsPointwise(hst, b, c, id);
    DeletesOnlyEffect(b, c, id, DocAt(hst, c, id));
    PersonBatchesOnly(cands, c, id);
  }

  /** A person id no candidate carries, and an e-mail index key no candidate's e-mail gives, survive the teardown. */
  lemma TeardownSparesOthers(st: Store, cid: string, now: string, c: Collection, id: string)
    requires c == Person || c == PersonEmails
    requires Spares(Candidates(Docs(st, Person), cid), c, id)
    ensures DocAt(ApplyBatches(st, DeleteConference(st, Ok(cid), now).value.batches), c, id) == DocAt(st, c, id)
  {
    CommitPassesStages(st, cid, now);
    var sg := RunStages(st, cid);
    DepsFrame(st, cid, c);
    HallStageFrame(st, cid, c);
    DepsFrame(st, cid, Person);
    HallStageFrame(st, cid, Person);
    PersonStageSpares(sg.afterHall, sg.cands, c, id);
    RootStageFrame(sg.afterPersons, cid, c);
  }

  /**
   * A person the candidate rule does not select (it has an account, or it
   * submitted to another conference too) is still there after the teardown,
   * when person ids are unique.
   */
  lemma TeardownKeepsNonCandidate(st: Store, cid: string, now: string, x: Doc)
    requires IdsUnique(Docs(st, Person)) && x in Docs(st, Person) && !Deletable(cid, x.data)
    ensures DocAt(ApplyBatches(st, DeleteConference(st, Ok(cid), now).value.batches), Person, x.id) == Some(x.data)
  {
    var docs := Docs(st, Person);
    var cands := Candidates(docs, cid);
    forall j | 0 <= j < |cands| ensures cands[j].id != x.id {
      CandidatesMembers(docs, cid, cands[j]);
      var i :| 0 <= i < |docs| && Deletable(cid, docs[i].data) && cands[j] == CandidateOf(docs[i]);
      var k :| 0 <= k < |docs| && docs[k] == x;
      assert i != k;
    }
    TeardownSparesOthers(st, cid, now, Person, x.id);
    FindUnique(docs, x);
  }

  lemma {:induction false} ConcatBatchesDeletes(bs: seq<Batch>)
    requires forall k, i :: 0 <= k < |bs| && 0 <= i < |bs[k]| ==> bs[k][i].Delete?
    ensures forall i :: 0 <= i < |ConcatBatches(bs)| ==> ConcatBatches(bs)[i].Delete?
  {
    if bs != [] {
      ConcatBatchesDeletes(bs[1..]);
      assert forall k :: 1 <= k < |bs| ==> bs[k] == bs[1..][k - 1];
      var b := ConcatBatches(bs);
      assert b == bs[0] + ConcatBatches(bs[1..]);
    }
  }

  predicate DeletesOutside(bs: seq<Batch>, c: Collection) {
    forall k, i :: 0 <= k < |bs| && 0 <= i < |bs[k]| ==> bs[k][i].Delete? && bs[k][i].coll != c
  }

  lemma DeletesOutsideAppend(a: seq<Batch>, b: seq<Batch>, c: Collection)
    requires DeletesOutside(a, c) && DeletesOutside(b, c)
    ensures DeletesOutside(a + b, c)
  {
    forall k, i | 0 <= k < |a + b| && 0 <= i < |(a + b)[k]|
      ensures (a + b)[k][i].Delete? && (a + b)[k][i].coll != c
    {
      if k >= |a| {
        assert (a + b)[k] == b[k - |a|];
      }
    }
  }

  /** The teardown's batches: the query stages, the hall configs, the persons, the conference. */
  lemma TeardownPlanShape(st: Store, cid: string, now: string)
    ensures DeleteConference(st, Ok(cid), now).value.batches ==
      StepsPlan(RunStages(st, cid).deps) + DeleteByDocIds(ConferenceHallConfig, RunStages(st, cid).hallIds)
      + PersonBatches(RunStages(st, cid).cands) + [[Delete(Conference, cid)]]
  {
  }

  lemma HallBatchesAvoid(ids: seq<string>)
    ensures DeletesOutside(DeleteByDocIds(ConferenceHallConfig, ids), Conference)
  {
  }

  lemma PersonBatchesAvoid(cands: seq<PersonCandidate>)
    ensures DeletesOutside(PersonBatches(cands), Conference)
  {
  }

  lemma DepsAvoidConferences(st: Store, cid: string)
    ensures DeletesOutside(StepsPlan(RunSteps(st, DependentSteps(cid))), Conference)
  {
    StepsPlanAvoids(st, DependentSteps(cid), Conference);
  }

  lemma DropLast(earlier: seq<Batch>, last: Batch)
    ensures (earlier + [last])[..|earlier + [last]| - 1] == earlier
  {
  }

  /** After query stages that spare the conferences, the hall-config and person stages spare them too. */
  lemma EarlierBatchesAvoid(deps: seq<Batch>, ids: seq<string>, cands: seq<PersonCandidate>)
    requires DeletesOutside(deps, Conference)
    ensures DeletesOutside(deps + DeleteByDocIds(ConferenceHallConfig, ids) + PersonBatches(cands), Conference)
  {
    HallBatchesAvoid(ids);
    PersonBatchesAvoid(cands);
    DeletesOutsideAppend(deps, DeleteByDocIds(ConferenceHallConfig, ids), Conference);
    DeletesOutsideAppend(deps + DeleteByDocIds(ConferenceHallConfig, ids), PersonBatches(cands), Conference);
  }

  /**
   * The conference document is deleted by the last batch, alone; every
   * earlier batch only deletes, and never in the conference collection.
   */
  lemma RootDeletedLast(st: Store, cid: string, now: string)
    ensures DeletesOutside(DeleteConference(st, Ok(cid), now).value.batches[..|DeleteConference(st, Ok(cid), now).value.batches| - 1], Conference)
  {
    var sg := RunStages(st, cid);
    var earlier := StepsPlan(sg.deps) + DeleteByDocIds(ConferenceHallConfig, sg.hallIds) + PersonBatches(sg.cands);
    TeardownPlanShape(st, cid, now);
    DepsAvoidConferences(st, cid);
    EarlierBatchesAvoid(StepsPlan(sg.deps), sg.hallIds, sg.cands);
    DropLast(earlier, [Delete(Conference, cid)]);
  }

  /** The counts of the session, speaker and participation stages, read on the store before the teardown. */
  lemma TeardownReportCounts(st: Store, cid: string, now: string)
    ensures DeleteConference(st, Ok(cid), now).value.report.sessionsDeleted == |Filter(Docs(st, Session), SessionQuery(cid))|
    ensures DeleteConference(st, Ok(cid), now).value.report.conferenceSpeakersDeleted == |Filter(Docs(st, ConferenceSpeaker), ConferenceIdQuery(cid))|
    ensures DeleteConference(st, Ok(cid), now).value.report.activityParticipationsDeleted == |Filter(Docs(st, ActivityParticipation), ConferenceIdQuery(cid))|
  {
    ReportFromStages(st, cid, now);
    StageCount(st, cid, 0);
    StageCount(st, cid, 1);
    StageCount(st, cid, 2);
  }

  /** The count of one query stage is the number of matches in the store before the teardown. */
  lemma StageCount(st: Store, cid: string, s: nat)
    requires s < 6
    ensures RunSteps(st, DependentSteps(cid))[s].count == |Filter(Docs(st, DependentSteps(cid)[s].coll), DependentSteps(cid)[s].matches)|
  {
    RunStepsCounts(st, DependentSteps(cid), s);
  }

  /** The report's per-collection counts are the query stages' counts. */
  lemma ReportFromStages(st: Store, cid: string, now: string)
    ensures var rep := DeleteConference(st, Ok(cid), now).value.report;
      var deps := RunSteps(st, DependentSteps(cid));
      && |deps| == 6
      && rep.sessionsDeleted == deps[0].count
      && rep.conferenceSpeakersDeleted == deps[1].count
      && rep.activityParticipationsDeleted == deps[2].count
      && rep.activitiesDeleted == deps[3].count
      && rep.sessionAllocationsDeleted == deps[4].count
      && rep.conferenceSecretsDeleted == deps[5].count
  {
    assert RunStages(st, cid).deps == RunSteps(st, DependentSteps(cid));
  }

  /** The counts of the activity, allocation and secret stages, read on the store before the teardown. */
  lemma TeardownReportMoreCounts(st: Store, cid: string, now: string)
    ensures DeleteConference(st, Ok(cid), now).value.report.activitiesDeleted == |Filter(Docs(st, Activity), ConferenceIdQuery(cid))|
    ensures DeleteConference(st, Ok(cid), now).value.report.sessionAllocationsDeleted == |Filter(Docs(st, SessionAllocation), ConferenceIdQuery(cid))|
    ensures DeleteConference(st, Ok(cid), now).value.report.conferenceSecretsDeleted == |Filter(Docs(st, ConferenceSecret), ConferenceIdQuery(cid))|
  {
    ReportFromStages(st, cid, now);
    StageCount(st, cid, 3);
    StageCount(st, cid, 4);
    StageCount(st, cid, 5);
  }

  /** The hall-config ids read only the hall-config listing. */
  lemma HallIdsReadListing(a: Store, b: Store, cid: string)
    requires Docs(a, ConferenceHallConfig) == Docs(b, ConferenceHallConfig)
    ensures HallConfigIds(a, cid) == HallConfigIds(b, cid)
  {
  }

  /** The number of hall-config ids is the size of the union of the matches and the direct document. */
  lemma HallIdsCount(st: Store, cid: string)
    ensures |HallConfigIds(st, cid)| ==
      |(set x | x in Ids(Filter(Docs(st, ConferenceHallConfig), ConferenceIdQuery(cid))))
        + (if DocAt(st, ConferenceHallConfig, cid).Some? then {cid} else {})|
  {
    var ids := HallConfigIds(st, cid);
    DistinctCardinality(ids);
    var queried := Ids(Filter(Docs(st, ConferenceHallConfig), ConferenceIdQuery(cid)));
    var own: set<string> := if DocAt(st, ConferenceHallConfig, cid).Some? then {cid} else {};
    var expected := (set x | x in queried) + own;
    forall x ensures x in (set y | y in ids) <==> x in expected {
      assert x in own <==> x == cid && DocAt(st, ConferenceHallConfig, cid).Some?;
    }
    assert (set y | y in ids) == expected;
  }

  /**
   * `personsDeleted` is the number of candidates, and
   * `conferenceHallConfigsDeleted` the size of the set of hall-config ids:
   * the query matches together with the conference id when a config has it.
   */
  lemma TeardownReportSets(st: Store, cid: string, now: string)
    ensures DeleteConference(st, Ok(cid), now).value.report.personsDeleted == |Candidates(Docs(st, Person), cid)|
    ensures DeleteConference(st, Ok(cid), now).value.report.conferenceHallConfigsDeleted ==
      |(set x | x in Ids(Filter(Docs(st, ConferenceHallConfig), ConferenceIdQuery(cid))))
        + (if DocAt(st, ConferenceHallConfig, cid).Some? then {cid} else {})|
  {
    var sg := RunStages(st, cid);
    DepsFrame(st, cid, Person);
    HallStageFrame(st, cid, Person);
    DepsFrame(st, cid, ConferenceHallConfig);
    HallIdsReadListing(sg.afterDeps, st, cid);
    HallIdsCount(st, cid);
  }
}

=== FILE: src/text.dfy ===
/**
 * String helpers shared by the model, mirroring the JavaScript string methods
 * the application relies on: `trim`, ASCII `toLowerCase`/`toUpperCase`,
 * `join`, `split(/\s+/)`, `includes`, and decimal rendering of integers.
 */
module Text {

  /** The characters JavaScript's `trim` and `\s` treat as white space or line terminators. */
  predicate IsSpace(c: char) {
    c == ' ' || c == '\t' || c == '\n' || c == '\r' || c == '\U{000B}' || c == '\U{000C}'
    || c == '\U{00A0}' || c == '\U{FEFF}' || c == '\U{1680}' || ('\U{2000}' <= c <= '\U{200A}')
    || c == '\U{2028}' || c == '\U{2029}' || c == '\U{202F}' || c == '\U{205F}' || c == '\U{3000}'
  }

  predicate AllSpaces(s: string) {
    forall i :: 0 <= i < |s| ==> IsSpace(s[i])
  }

  /** Drops leading white space. */
  function TrimStart(s: string): (r: string)
  {
    if s != [] && IsSpace(s[0]) then TrimStart(s[1..]) else s
  }

  /** Drops trailing white space. */
  function TrimEnd(s: string): (r: string)
  {
    if s != [] && IsSpace(s[|s| - 1]) then TrimEnd(s[..|s| - 1]) else s
  }

  /** JavaScript `String.prototype.trim`. */
  function Trim(s: string): (r: string)
  {
    TrimEnd(TrimStart(s))
  }

  /** `TrimStart` drops a prefix of white space and stops at a non-space character. */
  lemma {:induction false} TrimStartFacts(s: string)
    ensures |TrimStart(s)| <= |s| && TrimStart(s) == s[|s| - |TrimStart(s)|..]
    ensures AllSpaces(s[..|s| - |TrimStart(s)|])
    ensures TrimStart(s) != [] ==> !IsSpace(TrimStart(s)[0])
  {
    if s != [] && IsSpace(s[0]) {
      TrimStartFacts(s[1..]);
      var k := |s| - |TrimStart(s)|;
      assert forall i :: 1 <= i < k ==> s[..k][i] == s[1..][..k - 1][i - 1];
    }
  }

  /** `TrimEnd` drops a suffix of white space and stops at a non-space character. */
  lemma {:induction false} TrimEndFacts(s: string)
    ensures |TrimEnd(s)| <= |s| && TrimEnd(s) == s[..|TrimEnd(s)|]
    ensures AllSpaces(s[|TrimEnd(s)|..])
    ensures TrimEnd(s) != [] ==> !IsSpace(TrimEnd(s)[|TrimEnd(s)| - 1])
  {
    if s != [] && IsSpace(s[|s| - 1]) {
      TrimEndFacts(s[..|s| - 1]);
      var k := |TrimEnd(s)|;
      assert forall j :: 0 <= j < |s| - 1 - k ==> s[k..][j] == s[..|s| - 1][k..][j];
    }
  }

  /** Trimming never lengthens a string and leaves no white space at either end. */
  lemma TrimFacts(s: string)
    ensures |Trim(s)| <= |s|
    ensures Trim(s) != [] ==> !IsSpace(Trim(s)[0]) && !IsSpace(Trim(s)[|Trim(s)| - 1])
  {
    var a := TrimStart(s);
    TrimStartFacts(s);
    TrimEndFacts(a);
    var r := TrimEnd(a);
    if r != [] {
      assert r[0] == a[0];
    }
  }

  /** Trimming keeps a contiguous slice and removes only white space around it. */
  lemma TrimIsSlice(s: string)
    ensures exists i, j :: 0 <= i <= j <= |s| && Trim(s) == s[i..j] && AllSpaces(s[..i]) && AllSpaces(s[j..])
  {
    var a := TrimStart(s);
    var r := TrimEnd(a);
    TrimStartFacts(s);
    TrimEndFacts(a);
    var i := |s| - |a|;
    assert r == s[i..i + |r|];
    assert s[i + |r|..] == a[|r|..];
  }

  /** A string is blank when trimming leaves nothing. */
  predicate IsBlank(s: string) {
    Trim(s) == []
  }

  /** A string with no surrounding white space trims to itself. */
  lemma TrimmedIsFixpoint(s: string)
    requires s == [] || (!IsSpace(s[0]) && !IsSpace(s[|s| - 1]))
    ensures Trim(s) == s
  {
    if s != [] {
      assert TrimStart(s) == s;
      assert TrimEnd(s) == s;
    }
  }

  /** No white space at either end: what `trim` returns. */
  predicate IsTrimmed(s: string) {
    s == [] || (!IsSpace(s[0]) && !IsSpace(s[|s| - 1]))
  }

  lemma TrimIsTrimmed(s: string)
    ensures IsTrimmed(Trim(s))
  {
    TrimFacts(s);
  }

  /** Two trimmed parts joined by a space trim to the parts that are present. */
  lemma JoinTrimmed(a: string, b: string)
    requires IsTrimmed(a) && IsTrimmed(b)
    ensures Trim(a + " " + b) == (if a == [] then b else if b == [] then a else a + " " + b)
  {
    var s := a + " " + b;
    if a == [] {
      assert s == " " + b && s[1..] == b;
      assert TrimStart(s) == TrimStart(b);
      TrimmedIsFixpoint(b);
      if b != [] {
        assert TrimStart(b) == b;
      }
    } else {
      assert s[0] == a[0];
      assert TrimStart(s) == s;
      if b == [] {
        assert s[..|s| - 1] == a;
        assert TrimEnd(a) == a;
      } else {
        assert s[|s| - 1] == b[|b| - 1];
        assert TrimEnd(s) == s;
      }
    }
  }

  /** Trimming twice is trimming once. */
  lemma TrimIdempotent(s: string)
    ensures Trim(Trim(s)) == Trim(s)
  {
    TrimFacts(s);
    TrimmedIsFixpoint(Trim(s));
  }

  lemma {:induction false} TrimStartOfSpaces(s: string)
    requires AllSpaces(s)
    ensures TrimStart(s) == []
  {
    if s != [] {
      TrimStartOfSpaces(s[1..]);
    }
  }

  /** Blankness means every character is white space. */
  lemma BlankIffAllSpaces(s: string)
    ensures IsBlank(s) <==> AllSpaces(s)
  {
    if AllSpaces(s) {
      TrimStartOfSpaces(s);
    }
    TrimStartFacts(s);
    TrimEndFacts(TrimStart(s));
  }

  function LowerChar(c: char): char {
    if 'A' <= c <= 'Z' then (c as int + 32) as char else c
  }

  function UpperChar(c: char): char {
    if 'a' <= c <= 'z' then (c as int - 32) as char else c
  }

  /** `toLowerCase`, on the ASCII letters. */
  function Lower(s: string): (r: string)
    ensures |r| == |s|
    ensures forall i :: 0 <= i < |s| ==> r[i] == LowerChar(s[i])
  {
    seq(|s|, i requires 0 <= i < |s| => LowerChar(s[i]))
  }

  /** `toUpperCase`, on the ASCII letters. */
  function Upper(s: string): (r: string)
    ensures |r| == |s|
    ensures forall i :: 0 <= i < |s| ==> r[i] == UpperChar(s[i])
  {
    seq(|s|, i requires 0 <= i < |s| => UpperChar(s[i]))
  }

  lemma LowerIdempotent(s: string)
    ensures Lower(Lower(s)) == Lower(s)
  {
  }

  /** Upper-casing forgets any earlier lower-casing. */
  lemma UpperOfLower(s: string)
    ensures Upper(Lower(s)) == Upper(s)
  {
  }

  /** Case changes never touch white space, so they commute with trimming. */
  lemma LowerTrimCommute(s: string)
    ensures Trim(Lower(s)) == Lower(Trim(s))
  {
    LowerTrimStart(s);
    LowerTrimEnd(TrimStart(s));
  }

  lemma LowerCharSpace(c: char)
    ensures IsSpace(LowerChar(c)) == IsSpace(c)
  {
  }

  lemma {:induction false} LowerTrimStart(s: string)
    ensures TrimStart(Lower(s)) == Lower(TrimStart(s))
  {
    if s != [] {
      LowerCharSpace(s[0]);
      if IsSpace(s[0]) {
        assert Lower(s)[1..] == Lower(s[1..]);
        LowerTrimStart(s[1..]);
      }
    }
  }

  lemma {:induction false} LowerTrimEnd(s: string)
    ensures TrimEnd(Lower(s)) == Lower(TrimEnd(s))
  {
    if s != [] {
      LowerCharSpace(s[|s| - 1]);
      if IsSpace(s[|s| - 1]) {
        assert Lower(s)[..|s| - 1] == Lower(s[..|s| - 1]);
        LowerTrimEnd(s[..|s| - 1]);
      }
    }
  }

  /** `parts.join(sep)`. */
  function Join(parts: seq<string>, sep: string): string {
    if |parts| == 0 then ""
    else if |parts| == 1 then parts[0]
    else parts[0] + sep + Join(parts[1..], sep)
  }

  /** `s.split(sep)` for a one-character separator. */
  function SplitOn(s: string, sep: char): (r: seq<string>)
    ensures |r| >= 1
  {
    if s == [] then [[]]
    else if s[0] == sep then [[]] + SplitOn(s[1..], sep)
    else
      var t := SplitOn(s[1..], sep);
      [[s[0]] + t[0]] + t[1..]
  }

  /** A part free of the separator comes back whole in front of the rest. */
  lemma {:induction false} SplitAfterPart(x: string, rest: string, sep: char)
    requires sep !in x
    ensures SplitOn(x + [sep] + rest, sep) == [x] + SplitOn(rest, sep)
  {
    if x == [] {
      assert x + [sep] + rest == [sep] + rest;
      assert ([sep] + rest)[1..] == rest;
    } else {
      assert (x + [sep] + rest)[1..] == x[1..] + [sep] + rest;
      SplitAfterPart(x[1..], rest, sep);
      assert [x[0]] + x[1..] == x;
    }
  }

  /** A text free of the separator splits into itself. */
  lemma {:induction false} SplitWhole(x: string, sep: char)
    requires sep !in x
    ensures SplitOn(x, sep) == [x]
  {
    if x != [] {
      SplitWhole(x[1..], sep);
      assert [x[0]] + x[1..] == x;
    }
  }

  /** Joining parts free of the separator and splitting on it gives the parts back. */
  lemma {:induction false} SplitJoin(parts: seq<string>, sep: char)
    requires |parts| >= 1
    requires forall i :: 0 <= i < |parts| ==> sep !in parts[i]
    ensures SplitOn(Join(parts, [sep]), sep) == parts
  {
    if |parts| == 1 {
      SplitWhole(parts[0], sep);
    } else {
      SplitJoin(parts[1..], sep);
      SplitAfterPart(parts[0], Join(parts[1..], [sep]), sep);
      assert parts == [parts[0]] + parts[1..];
    }
  }

  /** `hay.includes(needle)`. */
  predicate Contains(hay: string, needle: string) {
    exists i | 0 <= i <= |hay| :: OccursAt(hay, needle, i)
  }

  /** `needle` appears in `hay` starting at position `i`. */
  predicate OccursAt(hay: string, needle: string, i: int) {
    0 <= i <= |hay| - |needle| && hay[i..i + |needle|] == needle
  }

  /** Length of the leading run of non-space characters. */
  function WordLength(s: string): (k: nat)
    ensures k <= |s|
    ensures forall i :: 0 <= i < k ==> !IsSpace(s[i])
    ensures k < |s| ==> IsSpace(s[k])
  {
    if s == [] || IsSpace(s[0]) then 0 else 1 + WordLength(s[1..])
  }

  /** `s.split(/\s+/).filter(w => w.length > 0)`: the maximal runs of non-space characters, in order. */
  function Words(s: string): (ws: seq<string>)
    ensures forall k :: 0 <= k < |ws| ==> ws[k] != [] && !exists i :: 0 <= i < |ws[k]| && IsSpace(ws[k][i])
    decreases |s|
  {
    if s == [] then []
    else if IsSpace(s[0]) then Words(s[1..])
    else
      var k := WordLength(s);
      [s[..k]] + Words(s[k..])
  }

  function DigitChar(d: nat): char
    requires d < 10
  {
    "0123456789"[d]
  }

  predicate IsDigit(c: char) {
    '0' <= c <= '9'
  }

  predicate AllDigits(s: string) {
    forall i :: 0 <= i < |s| ==> IsDigit(s[i])
  }

  function DigitValue(c: char): nat
    requires IsDigit(c)
  {
    c as int - '0' as int
  }

  /** Decimal rendering of a natural number, without leading zeros (`String(n)`). */
  function NatToString(n: nat): (r: string)
    ensures |r| >= 1 && AllDigits(r)
    ensures |r| > 1 ==> r[0] != '0'
  {
    if n < 10 then [DigitChar(n)] else NatToString(n / 10) + [DigitChar(n % 10)]
  }

  /** Value of a string of decimal digits. */
  function DigitsValue(s: string): nat
    requires AllDigits(s)
  {
    if s == [] then 0 else 10 * DigitsValue(s[..|s| - 1]) + DigitValue(s[|s| - 1])
  }

  /** Reading back a rendered number gives the number. */
  lemma {:induction false} NatToStringRoundTrip(n: nat)
    ensures DigitsValue(NatToString(n)) == n
  {
    var r := NatToString(n);
    if n >= 10 {
      NatToStringRoundTrip(n / 10);
      assert r[..|r| - 1] == NatToString(n / 10);
      DigitCharValue(n % 10);
      assert r[|r| - 1] == DigitChar(n % 10);
    } else {
      DigitCharValue(n);
    }
  }

  /** The character of a digit reads back as that digit. */
  lemma DigitCharValue(d: nat)
    requires d < 10
    ensures IsDigit(DigitChar(d)) && DigitValue(DigitChar(d)) == d
  {
  }

  /** Distinct numbers render to distinct strings. */
  lemma NatToStringInjective(a: nat, b: nat)
    requires NatToString(a) == NatToString(b)
    ensures a == b
  {
    NatToStringRoundTrip(a);
    NatToStringRoundTrip(b);
  }

  /** A number below 10^k renders with at most k digits. */
  lemma {:induction false} NatToStringLength(n: nat, k: nat)
    requires k >= 1 && n < Pow10(k)
    ensures |NatToString(n)| <= k
  {
    assert Pow10(1) == 10;
    if n >= 10 {
      assert k >= 2;
      NatToStringLength(n / 10, k - 1);
    }
  }

  /** A digit string of length k denotes a number below 10^k. */
  lemma {:induction false} DigitsValueBound(s: string)
    requires AllDigits(s)
    ensures DigitsValue(s) < Pow10(|s|)
  {
    if s != [] {
      DigitsValueBound(s[..|s| - 1]);
    }
  }

  function Pow10(k: nat): nat {
    if k == 0 then 1 else 10 * Pow10(k - 1)
  }

  /** `String(n)` for an integer. */
  function IntToString(n: int): string {
    if n < 0 then "-" + NatToString(-n) else NatToString(n)
  }

  /** `String(n).padStart(2, '0')` for a natural number. */
  function Pad2(n: nat): (r: string)
    ensures n < 100 ==> |r| == 2 && AllDigits(r) && DigitsValue(r) == n
  {
    if n < 10 then
      assert DigitsValue(['0', DigitChar(n)]) == DigitsValue(['0']) * 10 + n;
      ['0', DigitChar(n)]
    else
      TwoDigitRendering(n);
      NatToString(n)
  }

  lemma TwoDigitRendering(n: nat)
    ensures 10 <= n < 100 ==> |NatToString(n)| == 2 && DigitsValue(NatToString(n)) == n
  {
    if 10 <= n < 100 {
      assert Pow10(2) == 100;
      NatToStringLength(n, 2);
      NatToStringRoundTrip(n);
    }
  }

  /** Digit strings of one length denote one number each. */
  lemma {:induction false} DigitsValueInjective(a: string, b: string)
    requires AllDigits(a) && AllDigits(b) && |a| == |b|
    requires DigitsValue(a) == DigitsValue(b)
    ensures a == b
  {
    if a != [] {
      var n := |a| - 1;
      assert DigitsValue(a) == 10 * DigitsValue(a[..n]) + DigitValue(a[n]);
      assert DigitsValue(b) == 10 * DigitsValue(b[..n]) + DigitValue(b[n]);
      SplitLastDigit(DigitsValue(a[..n]), DigitValue(a[n]));
      SplitLastDigit(DigitsValue(b[..n]), DigitValue(b[n]));
      DigitsValueInjective(a[..n], b[..n]);
      assert a == a[..n] + [a[n]] && b == b[..n] + [b[n]];
    }
  }

  /** The last decimal digit and the number before it can be read off `10 q + d`. */
  lemma SplitLastDigit(q: nat, d: nat)
    requires d < 10
    ensures (10 * q + d) % 10 == d && (10 * q + d) / 10 == q
  {
  }

  /** Reading a digit string from its first digit. */
  lemma {:induction false} DigitsValueFront(s: string)
    requires AllDigits(s) && s != []
    ensures DigitsValue(s) == DigitValue(s[0]) * Pow10(|s| - 1) + DigitsValue(s[1..])
  {
    if |s| > 1 {
      var init := s[..|s| - 1];
      DigitsValueFront(init);
      assert init[1..] == s[1..][..|s[1..]| - 1];
      assert s[1..][|s[1..]| - 1] == s[|s| - 1];
      assert DigitsValue(s[1..]) == 10 * DigitsValue(init[1..]) + DigitValue(s[|s| - 1]);
      assert init[0] == s[0];
      assert Pow10(|s| - 1) == 10 * Pow10(|s| - 2);
      Regroup(DigitValue(s[0]), Pow10(|s| - 2), DigitsValue(init[1..]), DigitValue(s[|s| - 1]));
    }
  }

  /** Moving one more digit to the front: `10 (a p + t) + d = a (10 p) + (10 t + d)`. */
  lemma Regroup(a: int, p: int, t: int, d: int)
    ensures 10 * (a * p + t) + d == a * (10 * p) + (10 * t + d)
  {
  }

  /** `a <= b` in the order of the default `sort()`: character by character, a prefix first. */
  predicate TextLe(a: string, b: string) {
    a == [] || (b != [] && (a[0] < b[0] || (a[0] == b[0] && TextLe(a[1..], b[1..]))))
  }

  lemma {:induction false} TextLeTotal(a: string, b: string)
    ensures TextLe(a, b) || TextLe(b, a)
  {
    if a != [] && b != [] && a[0] == b[0] {
      TextLeTotal(a[1..], b[1..]);
    }
  }

  lemma {:induction false} TextLeTransitive(a: string, b: string, c: string)
    requires TextLe(a, b) && TextLe(b, c)
    ensures TextLe(a, c)
  {
    if a != [] && a[0] == b[0] && b[0] == c[0] {
      TextLeTransitive(a[1..], b[1..], c[1..]);
    }
  }

  lemma {:induction false} TextLeAntisymmetric(a: string, b: string)
    requires TextLe(a, b) && TextLe(b, a)
    ensures a == b
  {
    if a != [] {
      TextLeAntisymmetric(a[1..], b[1..]);
      assert a == [a[0]] + a[1..] && b == [b[0]] + b[1..];
    }
  }

  /** For digit strings of one length, text order is numeric order. */
  lemma {:induction false} DigitsTextOrder(a: string, b: string)
    requires AllDigits(a) && AllDigits(b) && |a| == |b|
    ensures TextLe(a, b) <==> DigitsValue(a) <= DigitsValue(b)
  {
    if a != [] {
      DigitsValueFront(a);
      DigitsValueFront(b);
      DigitsValueBound(a[1..]);
      DigitsValueBound(b[1..]);
      var p := Pow10(|a| - 1);
      var x, y := DigitValue(a[0]), DigitValue(b[0]);
      if x == y {
        DigitsTextOrder(a[1..], b[1..]);
      } else if x < y {
        LeadingDigitDecides(x, y, p, DigitsValue(a[1..]), DigitsValue(b[1..]));
      } else {
        LeadingDigitDecides(y, x, p, DigitsValue(b[1..]), DigitsValue(a[1..]));
      }
    }
  }

  lemma LeadingDigitDecides(x: nat, y: nat, p: nat, ra: nat, rb: nat)
    requires x < y && ra < p
    ensures x * p + ra < y * p + rb
  {
    assert (x + 1) * p == x * p + p;
    assert (x + 1) * p <= y * p;
  }

  /** Comparing texts with equally long heads: the heads decide unless they are equal. */
  lemma {:induction false} TextLeConcat(p: string, q: string, p2: string, q2: string)
    requires |p| == |p2|
    ensures TextLe(p + q, p2 + q2) <==> (p != p2 && TextLe(p, p2)) || (p == p2 && TextLe(q, q2))
  {
    if p != [] {
      assert (p + q)[0] == p[0] && (p2 + q2)[0] == p2[0];
      assert (p + q)[1..] == p[1..] + q && (p2 + q2)[1..] == p2[1..] + q2;
      TextLeConcat(p[1..], q, p2[1..], q2);
      assert p == [p[0]] + p[1..] && p2 == [p2[0]] + p2[1..];
    } else {
      assert p + q == q && p2 + q2 == q2;
    }
  }
}

=== FILE: src/voxxrin.dfy ===
/**
 * The cleaning rules behind the Voxxrin event descriptor: strings are
 * trimmed and blanks dropped, colours and durations are put in canonical
 * form, empty fields and lists disappear, and the conference's rooms,
 * tracks, formats, languages, days and sponsors are mapped to the
 * descriptor's shapes.
 */
module Voxxrin {
  import opened Base
  import opened Text
  import opened Json
  import opened Calendar
  import opened Sorting
  import opened Lists

  /** Text with no white space at either end and not empty: what `cleanString` returns. */
  predicate Clean(s: string) {
    s != [] && !IsSpace(s[0]) && !IsSpace(s[|s| - 1])
  }

  /** A non-blank string trims to a clean one. */
  lemma TrimmedIsClean(s: string)
    requires Trim(s) != []
    ensures Clean(Trim(s))
  {
    TrimFacts(s);
  }

  /** `cleanString(v)`: the trimmed text of `String(v ?? '')`, or `undefined` when it is blank. */
  function CleanString(v: Value): (r: Option<string>)
    ensures r.None? <==> AllSpaces(TextOr(v))
    ensures r.Some? ==> Clean(r.value)
    ensures r.Some? ==> exists i, j :: (0 <= i <= j <= |TextOr(v)| && r.value == TextOr(v)[i..j]
                                        && AllSpaces(TextOr(v)[..i]) && AllSpaces(TextOr(v)[j..]))
  {
    var t := Trim(TextOr(v));
    BlankIffAllSpaces(TextOr(v));
    TrimIsSlice(TextOr(v));
    if t == [] then None
    else
      TrimmedIsClean(TextOr(v));
      Some(t)
  }

  /** Cleaning is a projection: a clean text cleans to itself, so cleaning twice is cleaning once. */
  lemma CleanStringOfClean(s: string)
    requires Clean(s)
    ensures CleanString(Str(s)) == Some(s)
  {
    TrimmedIsFixpoint(s);
  }

  predicate IsHexDigit(c: char) {
    '0' <= c <= '9' || 'a' <= c <= 'f' || 'A' <= c <= 'F'
  }

  predicate IsUpperHexDigit(c: char) {
    '0' <= c <= '9' || 'A' <= c <= 'F'
  }

  /** The six hex digits `^[0-9a-fA-F]{6}$` asks for. */
  predicate IsHexBody(raw: string) {
    |raw| == 6 && forall i :: 0 <= i < 6 ==> IsHexDigit(raw[i])
  }

  /** The colour text without its optional leading `#`. */
  function HexBody(text: string): string {
    if text != [] && text[0] == '#' then text[1..] else text
  }

  /** `#RRGGBB` with upper-case digits: the canonical form. */
  predicate IsCanonicalHex(s: string) {
    |s| == 7 && s[0] == '#' && forall i :: 1 <= i < 7 ==> IsUpperHexDigit(s[i])
  }

  /**
   * `normalizeHexColor`: an optional `#` and exactly six hex digits give
   * `#` and the digits in upper case; anything else gives `undefined`.
   */
  function NormalizeHexColor(v: Value): (r: Option<string>)
    ensures r.Some? <==> CleanString(v).Some? && IsHexBody(HexBody(CleanString(v).value))
    ensures r.Some? ==> IsCanonicalHex(r.value)
    ensures r.Some? ==> Lower(r.value[1..]) == Lower(HexBody(CleanString(v).value))
  {
    match CleanString(v)
    case None => None
    case Some(text) =>
      var raw := HexBody(text);
      if IsHexBody(raw) then
        UpperOfLower(raw);
        LowerOfUpperHex(raw);
        Some("#" + Upper(raw))
      else None
  }

  lemma LowerOfUpperHex(raw: string)
    requires IsHexBody(raw)
    ensures Lower(Upper(raw)) == Lower(raw)
  {
  }

  /** A canonical colour normalises to itself. */
  lemma NormalizeHexColorIdempotent(v: Value)
    requires NormalizeHexColor(v).Some?
    ensures NormalizeHexColor(Str(NormalizeHexColor(v).value)) == NormalizeHexColor(v)
  {
    var s := NormalizeHexColor(v).value;
    CanonicalHexNormal(s);
  }

  /** The canonical form is a fixed point of the normalisation. */
  lemma CanonicalHexNormal(s: string)
    requires IsCanonicalHex(s)
    ensures NormalizeHexColor(Str(s)) == Some(s)
  {
    assert Clean(s);
    CleanStringOfClean(s);
    var body := s[1..];
    assert HexBody(s) == body;
    assert IsHexBody(body);
    assert Upper(body) == body;
    assert "#" + body == s;
  }

  /** With or without the `#`, the same digits give the same colour. */
  lemma HashIsOptional(raw: string)
    requires IsHexBody(raw)
    ensures NormalizeHexColor(Str("#" + raw)) == NormalizeHexColor(Str(raw))
  {
    assert Clean(raw) && Clean("#" + raw);
    CleanStringOfClean(raw);
    CleanStringOfClean("#" + raw);
    assert HexBody("#" + raw) == raw;
  }

  /** `toOptionalNumber`: `undefined` for `null`, `undefined` and `''`, and for what `Number` cannot read. */
  function ToOptionalNumber(v: Value): Option<int> {
    if IsNullish(v) || v == Str("") then None
    else
      match ToNumber(v)
      case Finite(n) => Some(n)
      case _ => None
  }

  /** `toIsoDurationMinutes`: a positive number of minutes as `PT<n>M`, otherwise `undefined`. */
  function ToIsoDurationMinutes(v: Value): (r: Option<string>)
    ensures r.Some? <==> ToOptionalNumber(v).Some? && ToOptionalNumber(v).value > 0
    ensures r.Some? ==> |r.value| >= 4 && r.value[..2] == "PT" && r.value[|r.value| - 1] == 'M'
    ensures r.Some? ==> var digits := r.value[2..|r.value| - 1];
      AllDigits(digits) && DigitsValue(digits) == ToOptionalNumber(v).value
  {
    match ToOptionalNumber(v)
    case None => None
    case Some(n) =>
      if n <= 0 then None
      else
        var r := "PT" + NatToString(n) + "M";
        NatToStringRoundTrip(n);
        assert r[2..|r| - 1] == NatToString(n);
        Some(r)
  }

  /** The cleaned, non-blank entries of an array, in order. */
  function CleanAll(items: seq<Value>): (r: seq<string>)
    ensures forall k :: 0 <= k < |r| ==> Clean(r[k])
  {
    FilterMapClean(items);
    FilterMap(items, CleanString)
  }

  lemma FilterMapClean(items: seq<Value>)
    ensures forall k :: 0 <= k < |FilterMap(items, CleanString)| ==> Clean(FilterMap(items, CleanString)[k])
  {
    var r := FilterMap(items, CleanString);
    forall k | 0 <= k < |r| ensures Clean(r[k]) {
      FilterMapMember(items, CleanString, r[k]);
    }
  }

  /**
   * `normalizeStringArray`: the cleaned entries, in order, of an array, or
   * `undefined` for a non-array or when no entry survives.
   */
  function NormalizeStringArray(v: Value): (r: Option<seq<string>>)
    ensures r.Some? <==> v.Arr? && exists i :: 0 <= i < |v.items| && CleanString(v.items[i]).Some?
    ensures r.Some? ==> r.value != [] && forall k :: 0 <= k < |r.value| ==> Clean(r.value[k])
  {
    if !v.Arr? then None
    else
      FilterMapEmpty(v.items, CleanString);
      NonEmpty(CleanAll(v.items))
  }

  /** A string survives normalisation exactly when some entry cleans to it. */
  lemma NormalizeStringArrayMember(v: Value, s: string)
    requires NormalizeStringArray(v).Some?
    ensures s in NormalizeStringArray(v).value <==> exists i :: 0 <= i < |v.items| && CleanString(v.items[i]) == Some(s)
  {
    FilterMapMember(v.items, CleanString, s);
  }

  /** Normalising an already normalised list changes nothing. */
  lemma {:induction false} CleanAllOfClean(ss: seq<string>)
    requires forall k :: 0 <= k < |ss| ==> Clean(ss[k])
    ensures CleanAll(seq(|ss|, k requires 0 <= k < |ss| => Str(ss[k]))) == ss
  {
    var vs := seq(|ss|, k requires 0 <= k < |ss| => Str(ss[k]));
    if ss != [] {
      CleanStringOfClean(ss[0]);
      var rest := seq(|ss[1..]|, k requires 0 <= k < |ss[1..]| => Str(ss[1..][k]));
      assert vs[1..] == rest;
      CleanAllOfClean(ss[1..]);
    }
  }

  /** Whether `compactObject` keeps a property value. */
  predicate Kept(v: Value) {
    match v
    case Undefined => false
    case Null => false
    case Str(s) => !IsBlank(s)
    case Arr(items) => items != []
    case Obj(ms) => ms != []
    case _ => true
  }

  /** The members whose values `compactObject` keeps, in order. */
  function KeptMembers(ms: seq<Member>): (r: seq<Member>)
    ensures |r| <= |ms|
    ensures forall k :: 0 <= k < |r| ==> Kept(r[k].value) && r[k] in ms
  {
    if ms == [] then []
    else (if Kept(ms[0].value) then [ms[0]] else []) + KeptMembers(ms[1..])
  }

  /**
   * `compactObject`: drops `null`, `undefined`, blank strings, empty arrays
   * and empty objects, and gives `undefined` when nothing is left.
   */
  function CompactObject(ms: seq<Member>): (r: Option<seq<Member>>)
    ensures r.None? <==> forall k :: 0 <= k < |ms| ==> !Kept(ms[k].value)
    ensures r.Some? ==> r.value != [] && forall k :: 0 <= k < |r.value| ==> Kept(r.value[k].value)
  {
    KeptMembersEmpty(ms);
    NonEmpty(KeptMembers(ms))
  }

  lemma {:induction false} KeptMembersEmpty(ms: seq<Member>)
    ensures KeptMembers(ms) == [] <==> forall k :: 0 <= k < |ms| ==> !Kept(ms[k].value)
  {
    if ms != [] {
      KeptMembersEmpty(ms[1..]);
      assert forall k :: 1 <= k < |ms| ==> ms[k] == ms[1..][k - 1];
    }
  }

  /** Reading a compacted object: a kept value is unchanged, a dropped one reads as `undefined`. */
  lemma {:induction false} CompactLookup(ms: seq<Member>, key: string)
    requires UniqueKeys(ms)
    ensures Lookup(KeptMembers(ms), key) == if Kept(Lookup(ms, key)) then Lookup(ms, key) else Undefined
  {
    if ms != [] {
      assert UniqueKeys(ms[1..]) by {
        forall i, j | 0 <= i < j < |ms[1..]| ensures ms[1..][i].key != ms[1..][j].key {
          assert ms[1..][i] == ms[i + 1] && ms[1..][j] == ms[j + 1];
        }
      }
      CompactLookup(ms[1..], key);
      KeptMembersCons(ms);
      LookupCons(ms[0], KeptMembers(ms[1..]), key);
      LookupCons(ms[0], ms[1..], key);
      assert ms == [ms[0]] + ms[1..];
      if ms[0].key == key {
        LookupAbsentAfter(ms, key);
        KeptLookupAbsent(ms[1..], key);
      }
    }
  }

  lemma LookupAbsentAfter(ms: seq<Member>, key: string)
    requires UniqueKeys(ms) && ms != [] && ms[0].key == key
    ensures forall k :: 0 <= k < |ms[1..]| ==> ms[1..][k].key != key
  {
    forall k | 0 <= k < |ms[1..]| ensures ms[1..][k].key != key {
      assert ms[1..][k] == ms[k + 1];
    }
  }

  lemma {:induction false} KeptLookupAbsent(ms: seq<Member>, key: string)
    requires forall k :: 0 <= k < |ms| ==> ms[k].key != key
    ensures Lookup(KeptMembers(ms), key) == Undefined
  {
    if ms != [] {
      assert forall k :: 0 <= k < |ms[1..]| ==> ms[1..][k].key != key by {
        forall k | 0 <= k < |ms[1..]| ensures ms[1..][k].key != key {
          assert ms[1..][k] == ms[k + 1];
        }
      }
      KeptLookupAbsent(ms[1..], key);
      KeptMembersCons(ms);
      LookupCons(ms[0], KeptMembers(ms[1..]), key);
    }
  }

  lemma KeptMembersCons(ms: seq<Member>)
    requires ms != []
    ensures KeptMembers(ms) == if Kept(ms[0].value) then [ms[0]] + KeptMembers(ms[1..]) else KeptMembers(ms[1..])
  {
    assert [] + KeptMembers(ms[1..]) == KeptMembers(ms[1..]);
  }

  /** Compacting twice is compacting once. */
  lemma {:induction false} KeptMembersIdempotent(ms: seq<Member>)
    ensures KeptMembers(KeptMembers(ms)) == KeptMembers(ms)
  {
    if ms != [] {
      KeptMembersIdempotent(ms[1..]);
      KeptMembersCons(ms);
      if Kept(ms[0].value) {
        KeptMembersCons(KeptMembers(ms));
        assert KeptMembers(ms)[1..] == KeptMembers(ms[1..]);
      }
    }
  }

  /** Compacting an already compacted object changes nothing. */
  lemma CompactObjectIdempotent(ms: seq<Member>)
    requires CompactObject(ms).Some?
    ensures CompactObject(CompactObject(ms).value) == CompactObject(ms)
  {
    KeptMembersIdempotent(ms);
  }

  /** The array a `map*` helper works on, when the input is one. */
  function MapEntries<B>(values: Value, f: Value -> Option<B>): (r: Option<seq<B>>)
    ensures r.Some? ==> values.Arr? && r.value == FilterMap(values.items, f) && r.value != []
    ensures r.None? <==> !values.Arr? || forall i :: 0 <= i < |values.items| ==> f(values.items[i]).None?
  {
    if !values.Arr? then None
    else
      FilterMapEmpty(values.items, f);
      NonEmpty(FilterMap(values.items, f))
  }

  /** What a `map*` helper returns holds exactly the entries its converter accepts. */
  lemma MapEntriesMember<B>(values: Value, f: Value -> Option<B>, y: B)
    requires MapEntries(values, f).Some?
    ensures y in MapEntries(values, f).value <==> exists i :: 0 <= i < |values.items| && f(values.items[i]) == Some(y)
  {
    FilterMapMember(values.items, f, y);
  }

  datatype Room = Room(id: string, title: string)

  function RoomOf(room: Value): (r: Option<Room>)
    ensures r.Some? <==> CleanString(Get(room, "id")).Some? && CleanString(Get(room, "name")).Some?
    ensures r.Some? ==> r.value == Room(CleanString(Get(room, "id")).value, CleanString(Get(room, "name")).value)
  {
    match (CleanString(Get(room, "id")), CleanString(Get(room, "name")))
    case (Some(id), Some(title)) => Some(Room(id, title))
    case _ => None
  }

  /** `mapRooms`: rooms with a non-blank id and name, the name becoming the title; `undefined` when none is left. */
  function MapRooms(values: Value): (r: Option<seq<Room>>)
    ensures r.Some? ==> forall k :: 0 <= k < |r.value| ==> Clean(r.value[k].id) && Clean(r.value[k].title)
    ensures r.None? <==> !values.Arr? || forall i :: 0 <= i < |values.items| ==> RoomOf(values.items[i]).None?
  {
    var r := MapEntries(values, RoomOf);
    if r.Some? then
      forall k | 0 <= k < |r.value| ensures Clean(r.value[k].id) && Clean(r.value[k].title) {
        MapEntriesMember(values, RoomOf, r.value[k]);
      }
      r
    else r
  }

  datatype Track = Track(id: string, title: string, themeColor: Option<string>)

  /** A track keeps its colour only in canonical form (`compactObject` drops the missing one). */
  function TrackOf(track: Value): (r: Option<Track>)
    ensures r.Some? <==> CleanString(Get(track, "id")).Some? && CleanString(Get(track, "name")).Some?
    ensures r.Some? ==> r.value.themeColor == NormalizeHexColor(Get(track, "color"))
  {
    match (CleanString(Get(track, "id")), CleanString(Get(track, "name")))
    case (Some(id), Some(title)) => Some(Track(id, title, NormalizeHexColor(Get(track, "color"))))
    case _ => None
  }

  /** `mapTracks`: tracks with a non-blank id and name, with a canonical colour when one is given. */
  function MapTracks(values: Value): (r: Option<seq<Track>>)
    ensures r.Some? ==> forall k :: 0 <= k < |r.value| ==>
      Clean(r.value[k].id) && Clean(r.value[k].title) && (r.value[k].themeColor.Some? ==> IsCanonicalHex(r.value[k].themeColor.value))
    ensures r.None? <==> !values.Arr? || forall i :: 0 <= i < |values.items| ==> TrackOf(values.items[i]).None?
  {
    var r := MapEntries(values, TrackOf);
    if r.Some? then
      forall k | 0 <= k < |r.value|
        ensures Clean(r.value[k].id) && Clean(r.value[k].title) && (r.value[k].themeColor.Some? ==> IsCanonicalHex(r.value[k].themeColor.value))
      {
        MapEntriesMember(values, TrackOf, r.value[k]);
      }
      r
    else r
  }

  datatype TalkFormat = TalkFormat(id: string, title: string, duration: Option<string>, themeColor: Option<string>)

  function TalkFormatOf(format: Value): (r: Option<TalkFormat>)
    ensures r.Some? <==> CleanString(Get(format, "id")).Some? && CleanString(Get(format, "name")).Some?
    ensures r.Some? ==> r.value.duration == ToIsoDurationMinutes(Get(format, "duration"))
    ensures r.Some? ==> r.value.themeColor == NormalizeHexColor(Get(format, "color"))
  {
    match (CleanString(Get(format, "id")), CleanString(Get(format, "name")))
    case (Some(id), Some(title)) =>
      Some(TalkFormat(id, title, ToIsoDurationMinutes(Get(format, "duration")), NormalizeHexColor(Get(format, "color"))))
    case _ => None
  }

  /** `mapTalkFormats`: formats with a non-blank id and name; a duration only when positive. */
  function MapTalkFormats(values: Value): (r: Option<seq<TalkFormat>>)
    ensures r.Some? ==> forall k :: 0 <= k < |r.value| ==> Clean(r.value[k].id) && Clean(r.value[k].title)
    ensures r.None? <==> !values.Arr? || forall i :: 0 <= i < |values.items| ==> TalkFormatOf(values.items[i]).None?
  {
    var r := MapEntries(values, TalkFormatOf);
    if r.Some? then
      forall k | 0 <= k < |r.value| ensures Clean(r.value[k].id) && Clean(r.value[k].title) {
        MapEntriesMember(values, TalkFormatOf, r.value[k]);
      }
      r
    else r
  }

  datatype Language = Language(id: string, labelText: string)

  function LanguageOf(language: Value): Option<Language> {
    match CleanString(language)
    case None => None
    case Some(raw) => Some(Language(Lower(raw), Upper(raw)))
  }

  /** `mapSupportedTalkLanguages`: each non-blank language, lower-cased as id and upper-cased as label. */
  function MapSupportedTalkLanguages(values: Value): (r: Option<seq<Language>>)
    ensures r.Some? ==> forall k :: 0 <= k < |r.value| ==> Upper(r.value[k].id) == r.value[k].labelText && r.value[k].id != []
    ensures r.None? <==> !values.Arr? || forall i :: 0 <= i < |values.items| ==> CleanString(values.items[i]).None?
  {
    var r := MapEntries(values, LanguageOf);
    if r.Some? then
      forall k | 0 <= k < |r.value| ensures Upper(r.value[k].id) == r.value[k].labelText && r.value[k].id != [] {
        MapEntriesMember(values, LanguageOf, r.value[k]);
        var i :| 0 <= i < |values.items| && LanguageOf(values.items[i]) == Some(r.value[k]);
        UpperOfLower(CleanString(values.items[i]).value);
      }
      r
    else r
  }

  /** `buildConferenceTitle`: the cleaned name and the trimmed edition, joined by one space when both are present. */
  function ConferenceTitle(conference: Value): (r: string)
    ensures r == [] || Clean(r)
    ensures CleanString(Get(conference, "name")).None? ==> r == Trim(TextOr(Get(conference, "edition")))
    ensures IsBlank(TextOr(Get(conference, "edition"))) ==>
      r == (if CleanString(Get(conference, "name")).Some? then CleanString(Get(conference, "name")).value else [])
    ensures CleanString(Get(conference, "name")).Some? && !IsBlank(TextOr(Get(conference, "edition"))) ==>
      r == CleanString(Get(conference, "name")).value + " " + Trim(TextOr(Get(conference, "edition")))
  {
    var name := match CleanString(Get(conference, "name")) case Some(n) => n case None => [];
    var edition := Trim(TextOr(Get(conference, "edition")));
    TrimFacts(TextOr(Get(conference, "edition")));
    JoinTrimmed(name, edition);
    Trim(name + " " + edition)
  }

  /** `n` rendered in decimal and padded on the left with zeros to `width` digits. */
  function ZeroPad(n: nat, width: nat): (r: string)
    ensures |r| >= width
  {
    var digits := NatToString(n);
    if |digits| >= width then digits else seq(width - |digits|, _ => '0') + digits
  }

  /**
   * `date.toISOString().slice(0, 10)` for the UTC day `n`: the year takes four
   * digits, or a sign and six digits outside years 0..9999.
   */
  function IsoDatePrefix(n: int): string {
    var d := FromDayNumber(n);
    if 0 <= d.year <= 9999 then ZeroPad(d.year, 4) + "-" + Pad2(d.month) + "-" + Pad2(d.day)
    else
      var full := (if d.year < 0 then "-" else "+") + ZeroPad(if d.year < 0 then -d.year else d.year, 6)
        + "-" + Pad2(d.month) + "-" + Pad2(d.day);
      full[..10]
  }

  /** A day of a four-digit year comes out as a `YYYY-MM-DD` text that reads back to the same day. */
  lemma IsoDatePrefixRoundTrip(n: int)
    requires 1000 <= FromDayNumber(n).year <= 9999
    ensures IsoDatePrefix(n) == FormatDate(FromDayNumber(n))
    ensures IsDateShape(IsoDatePrefix(n)) && ParseLocalDate(IsoDatePrefix(n)) == Some(n)
  {
    FourDigitYear(FromDayNumber(n).year);
    FormatDayNumberRoundTrip(n);
  }

  /**
   * `toLocalDate`: a cleaned `YYYY-MM-DD` text is kept as it is; any other
   * text goes through `new Date(...)`, here `parse`, which gives the UTC day
   * it denotes or `None` for an invalid date.
   */
  function ToLocalDate(v: Value, parse: string -> Option<int>): (r: Option<string>)
    ensures r.Some? <==> CleanString(v).Some? && (IsDateShape(CleanString(v).value) || parse(CleanString(v).value).Some?)
    ensures CleanString(v).Some? && IsDateShape(CleanString(v).value) ==> r == CleanString(v)
    ensures CleanString(v).Some? && !IsDateShape(CleanString(v).value) && parse(CleanString(v).value).Some? ==>
      r == Some(IsoDatePrefix(parse(CleanString(v).value).value))
  {
    match CleanString(v)
    case None => None
    case Some(source) =>
      if IsDateShape(source) then Some(source)
      else
        match parse(source)
        case None => None
        case Some(n) => Some(IsoDatePrefix(n))
  }

  /** `toLocaleDateString('en-US', { weekday: 'long' })` lower-cased; day 0 (0000-01-01) is a Saturday. */
  function WeekdayName(n: int): (r: string)
    ensures r in WeekdayNames
  {
    WeekdayNames[n % 7]
  }

  const WeekdayNames: seq<string> := ["saturday", "sunday", "monday", "tuesday", "wednesday", "thursday", "friday"]

  /** Names repeat every seven days, and a day's successor gets the next name in the week. */
  lemma WeekdayCycle(n: int)
    ensures WeekdayName(n + 7) == WeekdayName(n)
    ensures WeekdayName(n + 1) == WeekdayNames[(n % 7 + 1) % 7]
  {
  }

  /**
   * `dayIdFromDate`: the lower-cased weekday of the date read at UTC midnight,
   * and `invalid date` when the engine refuses the text.
   */
  function DayIdFromDate(localDate: string): (r: string)
    ensures r == "invalid date" <==> ParseLocalDate(localDate).None?
    ensures ParseLocalDate(localDate).Some? ==> r == WeekdayName(ParseLocalDate(localDate).value)
  {
    match ParseLocalDate(localDate)
    case None => "invalid date"
    case Some(n) => WeekdayName(n)
  }

  /** A day written out by `toLocalDate` from a parsed date gets the weekday of that date. */
  lemma DayIdOfParsed(n: int)
    requires 1000 <= FromDayNumber(n).year <= 9999
    ensures DayIdFromDate(IsoDatePrefix(n)) == WeekdayName(n)
  {
    IsoDatePrefixRoundTrip(n);
  }

  datatype Day = Day(id: string, localDate: string)

  function DayOf(day: Value, parse: string -> Option<int>): Option<Day> {
    match ToLocalDate(Get(day, "date"), parse)
    case None => None
    case Some(localDate) => Some(Day(DayIdFromDate(localDate), localDate))
  }

  /** The comparator of `mapDays`: `localeCompare` of the local dates, taken as character-value order. */
  predicate DayLe(a: Day, b: Day) {
    TextLe(a.localDate, b.localDate)
  }

  lemma DayLeTotalPreorder(xs: seq<Day>)
    ensures TotalPreorderOn(xs, DayLe)
  {
    forall a, b | a in xs && b in xs ensures DayLe(a, b) || DayLe(b, a) {
      TextLeTotal(a.localDate, b.localDate);
    }
    forall a, b, c | a in xs && b in xs && c in xs && DayLe(a, b) && DayLe(b, c) ensures DayLe(a, c) {
      TextLeTransitive(a.localDate, b.localDate, c.localDate);
    }
  }

  /** The dated entries of `days`, in input order, before sorting. */
  function DatedDays(days: Value, parse: string -> Option<int>): seq<Day> {
    if days.Arr? then FilterMap(days.items, d => DayOf(d, parse)) else []
  }

  /**
   * `mapDays`: the days whose date can be read, each named after its weekday,
   * sorted by local date; a non-array gives no days.
   */
  function MapDays(days: Value, parse: string -> Option<int>): (r: seq<Day>)
    ensures multiset(r) == multiset(DatedDays(days, parse))
    ensures SortedBy(r, DayLe)
    ensures forall k :: 0 <= k < |r| ==> r[k].id == DayIdFromDate(r[k].localDate)
  {
    var dated := DatedDays(days, parse);
    DayLeTotalPreorder(dated);
    SortByIsSorted(dated, DayLe);
    var r := SortBy(dated, DayLe);
    forall k | 0 <= k < |r| ensures r[k].id == DayIdFromDate(r[k].localDate) {
      assert r[k] in multiset(r);
      assert r[k] in dated;
      FilterMapMember(days.items, d => DayOf(d, parse), r[k]);
    }
    r
  }

  /** A day survives `mapDays` exactly when some entry's date can be read into it. */
  lemma MapDaysMember(days: Value, parse: string -> Option<int>, day: Day)
    requires days.Arr?
    ensures day in MapDays(days, parse) <==> exists i :: 0 <= i < |days.items| && DayOf(days.items[i], parse) == Some(day)
  {
    var r := MapDays(days, parse);
    assert day in r <==> day in multiset(r);
    FilterMapMember(days.items, d => DayOf(d, parse), day);
  }

  /** The descriptor's first and last day. */
  datatype Span = Span(start: Option<string>, end: Option<string>)

  function EventSpan(days: seq<Day>): (r: Span)
    ensures r.start.Some? <==> days != []
    ensures r.end.Some? <==> days != []
  {
    if days == [] then Span(None, None) else Span(Some(days[0].localDate), Some(days[|days| - 1].localDate))
  }

  /** Every mapped day lies between the descriptor's start and end. */
  lemma SpanBoundsDays(days: Value, parse: string -> Option<int>)
    ensures var r := MapDays(days, parse);
      forall k :: 0 <= k < |r| ==> TextLe(EventSpan(r).start.value, r[k].localDate) && TextLe(r[k].localDate, EventSpan(r).end.value)
  {
    SpanBoundsSorted(MapDays(days, parse));
  }

  /** In days sorted by date, the first is not after any day and the last not before any. */
  lemma SpanBoundsSorted(r: seq<Day>)
    requires SortedBy(r, DayLe)
    ensures forall k :: 0 <= k < |r| ==> TextLe(EventSpan(r).start.value, r[k].localDate) && TextLe(r[k].localDate, EventSpan(r).end.value)
  {
    forall k | 0 <= k < |r| ensures TextLe(EventSpan(r).start.value, r[k].localDate) && TextLe(r[k].localDate, EventSpan(r).end.value) {
      TextLeTotal(r[k].localDate, r[k].localDate);
      if 0 < k {
        assert DayLe(r[0], r[k]);
      }
      if k < |r| - 1 {
        assert DayLe(r[k], r[|r| - 1]);
      }
    }
  }

  /** The language codes `pickLocalizedText` tries: trimmed, lower-cased, blanks dropped. */
  function LanguageCodes(languages: Value): (r: seq<string>)
    ensures forall k :: 0 <= k < |r| ==> r[k] != [] && Lower(r[k]) == r[k]
  {
    if !languages.Arr? then []
    else
      var codes := FilterMap(languages.items, LanguageCode);
      forall k | 0 <= k < |codes| ensures codes[k] != [] && Lower(codes[k]) == codes[k] {
        FilterMapMember(languages.items, LanguageCode, codes[k]);
        var i :| 0 <= i < |languages.items| && LanguageCode(languages.items[i]) == Some(codes[k]);
        LowerIdempotent(Trim(TextOr(languages.items[i])));
      }
      codes
  }

  function LanguageCode(lang: Value): Option<string> {
    var code := Lower(Trim(TextOr(lang)));
    if code == [] then None else Some(code)
  }

  /** The text one language gives: under its lower-case code if that cleans, else under its upper-case code. */
  function LanguageText(values: Value, code: string): Option<string> {
    var byLower := CleanString(Get(values, code));
    if byLower.Some? then byLower else CleanString(Get(values, Upper(code)))
  }

  /** The first language, in order, whose text (under its lower-case code, then its upper-case one) cleans. */
  function ByLanguage(values: Value, codes: seq<string>): (r: Option<string>)
    ensures r.Some? ==> exists i :: 0 <= i < |Entries(values)| && r == CleanString(Entries(values)[i].value)
    ensures codes != [] && CleanString(Get(values, codes[0])).Some? ==> r == CleanString(Get(values, codes[0]))
  {
    if codes == [] then None
    else if CleanString(Get(values, codes[0])).Some? then
      CleanGetIsMember(values, codes[0]);
      CleanString(Get(values, codes[0]))
    else if CleanString(Get(values, Upper(codes[0]))).Some? then
      CleanGetIsMember(values, Upper(codes[0]));
      CleanString(Get(values, Upper(codes[0])))
    else ByLanguage(values, codes[1..])
  }

  /** `ByLanguage` is the in-order scan of the languages for the first text. */
  lemma {:induction false} ByLanguageScans(values: Value, codes: seq<string>)
    ensures ByLanguage(values, codes) == FirstSome(codes, code => LanguageText(values, code))
  {
    if codes != [] {
      ByLanguageScans(values, codes[1..]);
    }
  }

  /**
   * The priority `ByLanguage` keeps: it finds nothing iff no listed language
   * gives a text, and otherwise gives the text of the first language that does,
   * where a language's upper-case code is tried before the next language.
   */
  lemma ByLanguagePriority(values: Value, codes: seq<string>)
    ensures ByLanguage(values, codes).None? <==> forall j :: 0 <= j < |codes| ==> LanguageText(values, codes[j]).None?
    ensures ByLanguage(values, codes).Some? ==> exists j :: (0 <= j < |codes| && ByLanguage(values, codes) == LanguageText(values, codes[j])
      && (forall i :: 0 <= i < j ==> LanguageText(values, codes[i]).None?))
  {
    ByLanguageScans(values, codes);
    FirstSomeIsFirst(codes, code => LanguageText(values, code));
  }

  /** A looked-up text that cleans is the cleaned value of some member. */
  lemma CleanGetIsMember(values: Value, key: string)
    requires CleanString(Get(values, key)).Some?
    ensures exists i :: 0 <= i < |Entries(values)| && CleanString(Get(values, key)) == CleanString(Entries(values)[i].value)
  {
    LookupFindsMember(Entries(values), key);
    assert Get(values, key) != Undefined;
    var i :| 0 <= i < |Entries(values)| && Get(values, key) == Entries(values)[i].value;
  }

  /** The first member, in key order, whose value cleans. */
  function FirstCleanValue(ms: seq<Member>): (r: Option<string>)
    ensures r.None? <==> forall i :: 0 <= i < |ms| ==> CleanString(ms[i].value).None?
    ensures r.Some? ==> exists i :: 0 <= i < |ms| && r == CleanString(ms[i].value)
  {
    if ms == [] then None
    else if CleanString(ms[0].value).Some? then CleanString(ms[0].value)
    else
      var r := FirstCleanValue(ms[1..]);
      assert forall i :: 1 <= i < |ms| ==> ms[i] == ms[1..][i - 1];
      r
  }

  /** The cleaned value of one member. */
  function CleanValue(m: Member): Option<string> {
    CleanString(m.value)
  }

  /** `FirstCleanValue` is the in-order scan of the members for a value that cleans. */
  lemma {:induction false} FirstCleanValueScans(ms: seq<Member>)
    ensures FirstCleanValue(ms) == FirstSome(ms, CleanValue)
  {
    if ms != [] {
      FirstCleanValueScans(ms[1..]);
    }
  }

  /** The value `FirstCleanValue` finds is that of the first member whose value cleans. */
  lemma FirstCleanValueIsFirst(ms: seq<Member>)
    ensures FirstCleanValue(ms).Some? ==> exists i :: (0 <= i < |ms| && FirstCleanValue(ms) == CleanString(ms[i].value)
      && (forall j :: 0 <= j < i ==> CleanString(ms[j].value).None?))
  {
    FirstCleanValueScans(ms);
    FirstSomeIsFirst(ms, CleanValue);
  }

  /** What a lookup finds is the value of some member, or `undefined`. */
  lemma {:induction false} LookupFindsMember(ms: seq<Member>, key: string)
    ensures Lookup(ms, key) == Undefined || exists i :: 0 <= i < |ms| && Lookup(ms, key) == ms[i].value
  {
    if ms != [] && ms[0].key != key {
      LookupFindsMember(ms[1..], key);
      if Lookup(ms, key) != Undefined {
        var i :| 0 <= i < |ms[1..]| && Lookup(ms[1..], key) == ms[1..][i].value;
        assert ms[i + 1] == ms[1..][i];
      }
    }
  }

  /**
   * `pickLocalizedText`: for an object (or array), the text under the first
   * listed language that cleans, else the first member value that cleans;
   * anything else gives `undefined`.
   */
  function PickLocalizedText(values: Value, languages: Value): (r: Option<string>)
    ensures r.Some? ==> Clean(r.value)
    ensures r.None? <==> !(values.Obj? || values.Arr?) || forall i :: 0 <= i < |Entries(values)| ==> CleanString(Entries(values)[i].value).None?
    ensures r.Some? ==> exists i :: 0 <= i < |Entries(values)| && r == CleanString(Entries(values)[i].value)
    ensures (values.Obj? || values.Arr?) && LanguageCodes(languages) != [] && CleanString(Get(values, LanguageCodes(languages)[0])).Some? ==>
      r == CleanString(Get(values, LanguageCodes(languages)[0]))
    ensures (values.Obj? || values.Arr?) && ByLanguage(values, LanguageCodes(languages)).Some? ==>
      r == ByLanguage(values, LanguageCodes(languages))
    ensures (values.Obj? || values.Arr?) && ByLanguage(values, LanguageCodes(languages)).None? ==>
      r == FirstCleanValue(Entries(values))
  {
    if !Truthy(values) || !(values.Obj? || values.Arr?) then None
    else
      var byLanguage := ByLanguage(values, LanguageCodes(languages));
      if byLanguage.Some? then byLanguage else FirstCleanValue(Entries(values))
  }

  /** A sponsor as the descriptor lists it; at least one of the three fields is present. */
  datatype Sponsorship = Sponsorship(name: Option<string>, logoUrl: Option<string>, href: Option<string>)

  /** One sponsor of the input, with the type it is grouped under. */
  datatype SponsorEntry = SponsorEntry(typeName: string, sponsorship: Sponsorship)

  datatype SponsorGroup = SponsorGroup(typeName: string, sponsorships: seq<Sponsorship>)

  const DefaultSponsorType := "Sponsors"

  /** The cleaned `type.name` of a sponsor, `Sponsors` when it has none. */
  function SponsorTypeName(sponsor: Value): (r: string)
    ensures Clean(r)
    ensures CleanString(Get(Get(sponsor, "type"), "name")).None? ==> r == DefaultSponsorType
  {
    match CleanString(Get(Get(sponsor, "type"), "name"))
    case Some(t) => t
    case None => DefaultSponsorType
  }

  /** A sponsor with none of name, logo and website is skipped. */
  function SponsorEntryOf(sponsor: Value): (r: Option<SponsorEntry>)
    ensures r.None? <==>
      CleanString(Get(sponsor, "name")).None? && CleanString(Get(sponsor, "logo")).None? && CleanString(Get(sponsor, "website")).None?
    ensures r.Some? ==> r.value.typeName == SponsorTypeName(sponsor)
  {
    var sponsorship := Sponsorship(CleanString(Get(sponsor, "name")), CleanString(Get(sponsor, "logo")), CleanString(Get(sponsor, "website")));
    if sponsorship.name.None? && sponsorship.logoUrl.None? && sponsorship.href.None? then None
    else Some(SponsorEntry(SponsorTypeName(sponsor), sponsorship))
  }

  function TypeNames(groups: seq<SponsorGroup>): (r: seq<string>)
    ensures |r| == |groups|
    ensures forall k :: 0 <= k < |groups| ==> r[k] == groups[k].typeName
  {
    seq(|groups|, k requires 0 <= k < |groups| => groups[k].typeName)
  }

  /** The sponsorships grouped under `t` (the first group of that name), none when there is no such group. */
  function SponsorshipsOf(groups: seq<SponsorGroup>, t: string): seq<Sponsorship> {
    if groups == [] then []
    else if groups[0].typeName == t then groups[0].sponsorships
    else SponsorshipsOf(groups[1..], t)
  }

  /** `grouped.get(typeName).push(...)`, creating the group at the end when the type is new. */
  function AddToGroups(groups: seq<SponsorGroup>, e: SponsorEntry): (r: seq<SponsorGroup>)
    ensures (forall k :: 0 <= k < |groups| ==> groups[k].sponsorships != []) ==> forall k :: 0 <= k < |r| ==> r[k].sponsorships != []
  {
    if groups == [] then [SponsorGroup(e.typeName, [e.sponsorship])]
    else if groups[0].typeName == e.typeName then
      [groups[0].(sponsorships := groups[0].sponsorships + [e.sponsorship])] + groups[1..]
    else
      var rest := AddToGroups(groups[1..], e);
      assert forall k :: 1 <= k < |groups| ==> groups[k] == groups[1..][k - 1];
      [groups[0]] + rest
  }

  /** Adding keeps the type order and appends a new type at the end. */
  lemma {:induction false} AddToGroupsTypes(groups: seq<SponsorGroup>, e: SponsorEntry)
    ensures TypeNames(AddToGroups(groups, e)) == TypeNames(groups) + (if e.typeName in TypeNames(groups) then [] else [e.typeName])
  {
    if groups != [] && groups[0].typeName != e.typeName {
      AddToGroupsTypes(groups[1..], e);
      AddToLaterGroupTypes(groups, e);
      TypeNamesCons(groups);
      assert e.typeName in TypeNames(groups) <==> e.typeName in TypeNames(groups[1..]);
    } else if groups != [] {
      AddToFirstGroupTypes(groups, e);
    }
  }

  /** The type names of a non-empty list are its first group's name, then the rest's. */
  lemma TypeNamesCons(groups: seq<SponsorGroup>)
    requires groups != []
    ensures TypeNames(groups) == [groups[0].typeName] + TypeNames(groups[1..])
  {
  }

  /** Adding past the first group keeps it in front. */
  lemma AddToLaterGroupTypes(groups: seq<SponsorGroup>, e: SponsorEntry)
    requires groups != [] && groups[0].typeName != e.typeName
    ensures TypeNames(AddToGroups(groups, e)) == [groups[0].typeName] + TypeNames(AddToGroups(groups[1..], e))
  {
    var r := AddToGroups(groups, e);
    assert r == [groups[0]] + AddToGroups(groups[1..], e);
    TypeNamesCons(r);
    assert r[1..] == AddToGroups(groups[1..], e);
  }

  /** Adding to the first group changes no type name. */
  lemma AddToFirstGroupTypes(groups: seq<SponsorGroup>, e: SponsorEntry)
    requires groups != [] && groups[0].typeName == e.typeName
    ensures e.typeName in TypeNames(groups) && TypeNames(AddToGroups(groups, e)) == TypeNames(groups)
  {
    var r := AddToGroups(groups, e);
    assert TypeNames(groups)[0] == e.typeName;
    assert |r| == |groups| && forall k :: 0 <= k < |r| ==> r[k].typeName == groups[k].typeName;
  }

  /** Adding appends the sponsorship to its own type and leaves the other types alone. */
  lemma {:induction false} AddToGroupsLookup(groups: seq<SponsorGroup>, e: SponsorEntry, t: string)
    ensures SponsorshipsOf(AddToGroups(groups, e), t) == SponsorshipsOf(groups, t) + (if t == e.typeName then [e.sponsorship] else [])
  {
    if groups != [] && groups[0].typeName != e.typeName {
      AddToGroupsLookup(groups[1..], e, t);
      assert AddToGroups(groups, e)[1..] == AddToGroups(groups[1..], e);
    }
  }

  /** The `Map` of `mapSponsors`, filled entry by entry. */
  function GroupSponsors(entries: seq<SponsorEntry>): (r: seq<SponsorGroup>)
    ensures forall k :: 0 <= k < |r| ==> r[k].sponsorships != []
    ensures r == [] <==> entries == []
  {
    if entries == [] then []
    else AddToGroups(GroupSponsors(entries[..|entries| - 1]), entries[|entries| - 1])
  }

  /** Each value once, at its first occurrence. */
  function FirstSeen(xs: seq<string>): (r: seq<string>)
    ensures forall x :: x in r <==> x in xs
  {
    if xs == [] then []
    else
      var init := FirstSeen(xs[..|xs| - 1]);
      assert forall x :: x in xs <==> x in xs[..|xs| - 1] || x == xs[|xs| - 1];
      init + (if xs[|xs| - 1] in init then [] else [xs[|xs| - 1]])
  }

  /** The first-seen list holds no value twice. */
  lemma {:induction false} FirstSeenDistinct(xs: seq<string>)
    ensures forall i, j :: 0 <= i < j < |FirstSeen(xs)| ==> FirstSeen(xs)[i] != FirstSeen(xs)[j]
  {
    if xs != [] {
      FirstSeenDistinct(xs[..|xs| - 1]);
    }
  }

  function EntryTypes(entries: seq<SponsorEntry>): (r: seq<string>)
    ensures |r| == |entries|
    ensures forall k :: 0 <= k < |entries| ==> r[k] == entries[k].typeName
  {
    seq(|entries|, k requires 0 <= k < |entries| => entries[k].typeName)
  }

  /** The sponsorships of the entries of type `t`, in input order. */
  function Members(entries: seq<SponsorEntry>, t: string): seq<Sponsorship> {
    FilterMap(entries, (e: SponsorEntry) => if e.typeName == t then Some(e.sponsorship) else None)
  }

  /** Groups appear in the order their type is first seen. */
  lemma {:induction false} GroupedTypes(entries: seq<SponsorEntry>)
    ensures TypeNames(GroupSponsors(entries)) == FirstSeen(EntryTypes(entries))
  {
    if entries != [] {
      var init := entries[..|entries| - 1];
      GroupedTypes(init);
      AddToGroupsTypes(GroupSponsors(init), entries[|entries| - 1]);
      assert EntryTypes(entries)[..|entries| - 1] == EntryTypes(init);
    }
  }

  /** Each group holds exactly the sponsorships of its type, in input order. */
  lemma {:induction false} GroupedMembers(entries: seq<SponsorEntry>, t: string)
    ensures SponsorshipsOf(GroupSponsors(entries), t) == Members(entries, t)
  {
    if entries != [] {
      var init := entries[..|entries| - 1];
      var last := entries[|entries| - 1];
      GroupedMembers(init, t);
      AddToGroupsLookup(GroupSponsors(init), last, t);
      assert entries == init + [last];
      MembersSnoc(init, last, t);
    }
  }

  /** One more entry adds its sponsorship to the members of its own type only. */
  lemma MembersSnoc(init: seq<SponsorEntry>, last: SponsorEntry, t: string)
    ensures Members(init + [last], t) == Members(init, t) + (if t == last.typeName then [last.sponsorship] else [])
  {
    FilterMapAppend(init, [last], (e: SponsorEntry) => if e.typeName == t then Some(e.sponsorship) else None);
  }

  /** The sponsors of `sponsoring.sponsors` that are not skipped. */
  function SponsorEntries(sponsoring: Value): seq<SponsorEntry> {
    var sponsors := Get(sponsoring, "sponsors");
    if sponsors.Arr? then FilterMap(sponsors.items, SponsorEntryOf) else []
  }

  /**
   * `mapSponsors`: the sponsors grouped by type, the groups in first-seen
   * order and each group in input order; `undefined` when nothing is left.
   */
  function MapSponsors(sponsoring: Value): (r: Option<seq<SponsorGroup>>)
    ensures r.None? <==> SponsorEntries(sponsoring) == []
    ensures r.Some? ==> TypeNames(r.value) == FirstSeen(EntryTypes(SponsorEntries(sponsoring)))
    ensures r.Some? ==> forall k :: 0 <= k < |r.value| ==>
      r.value[k].sponsorships != [] && r.value[k].sponsorships == Members(SponsorEntries(sponsoring), r.value[k].typeName)
  {
    var sponsors := Get(sponsoring, "sponsors");
    if !sponsors.Arr? || sponsors.items == [] then None
    else
      var entries := SponsorEntries(sponsoring);
      var groups := GroupSponsors(entries);
      GroupedTypes(entries);
      FirstSeenDistinct(EntryTypes(entries));
      forall k | 0 <= k < |groups| ensures groups[k].sponsorships == Members(entries, groups[k].typeName) {
        GroupedMembers(entries, groups[k].typeName);
        DistinctLookup(groups, k);
      }
      NonEmpty(groups)
  }

  /** With distinct type names, a group is found under its own name. */
  lemma {:induction false} DistinctLookup(groups: seq<SponsorGroup>, k: nat)
    requires k < |groups|
    requires forall i, j :: 0 <= i < j < |groups| ==> TypeNames(groups)[i] != TypeNames(groups)[j]
    ensures SponsorshipsOf(groups, groups[k].typeName) == groups[k].sponsorships
  {
    if k > 0 {
      assert TypeNames(groups)[0] != TypeNames(groups)[k];
      assert forall i :: 0 <= i < |groups| - 1 ==> TypeNames(groups[1..])[i] == TypeNames(groups)[i + 1];
      DistinctLookup(groups[1..], k - 1);
    }
  }
}
